=== FILE: README.md ===
# Camera and collector core, modelled in Dafny

This project models the core logic of a repository that mixes three things:

- a collectd-style metrics daemon: its configuration parsers, plugin registry,
  callback manager, and the `cpu`, `df`, `disk` and `csv` plugins;
- the output path of a line-scan camera: the output-mode engine, the TCP
  servers, heartbeats, and merging display settings between JSON documents;
- device-side tools: the GVCP "redline" security commands, the operation-log
  ring, the project manifest synchroniser and an XML-to-CSV register
  extractor.

Every operation is a pure function over immutable datatypes, except three
loops kept as methods where the source walks a fixed array or a list:
`DispMerge.PruneFromEnd`, `TcpsServer.GetLastSendTime` and
`TcpsServer.HasClient`. Everything the code cannot decide by itself is a
parameter of the function that needs it. That covers the file system, SQL, crypto, threads,
clocks, sockets, `statvfs`, ignore-list matching, and each callback's status.

Modules follow the source files:

| module | file |
|---|---|
| `XmlToCsv` | `xml2csv.py` |
| `OConfig`, `OConfigProps`, `OConfigRender` | `oconfig.cpp` (tokenizer, parser, and a printer with the round trip through it) |
| `Configure` | `configure.cpp` |
| `DispMerge` | `parse.cpp` and `demo.cpp` |
| `OutputMode` | `output_mode.cpp` |
| `TcpsConnection`, `TcpsServer`, `TcpsMsg` | the three TCP files |
| `FrameworkProj` | `framework_proj.c` |
| `Redline` | `redline.c` |
| `Oplog` | `oplog_list.c` |
| `Df`, `Disk`, `Cpu`, `Csv` | the plugins |
| `Callbacks`, `OrderedKeys` | `CCallbackManager.cpp` and the key order of `std::map` |
| `Plugins` | `plugin.cpp` |

Shared modules:

- `Wrappers`: `Option` and `Result`.
- `Text`: C and Python character classes, trimming, `strcasecmp`, and lexicographic order.
- `Fixed`: fixed-width integers.
- `IgnoreLists`: ignore lists.

A few constants are absent from the source files: `MAX_FNAME_LEN`,
`MAX_PROJECT_SWITCH_NUM`, and the parameter-name and algorithm-name
lengths. These are parameters (`Limits`) or named constants. The limits of
the TCP layer come from the headers: `MAX_CLIENT_NUM = 5` and
`MAX_SEND_QUEUE_LEN = 4` in `VibeCoding/TcpsServerManager.h:34-35`, and
`MAX_SEND_QUEUE_LEN = 4` in `VibeCoding/TcpsConnection.h:43`. `IS_TRUE`
follows collectd: "true", "yes" or "on", ignoring case.

Behaviour that looks unintended is kept as written: the operations below
compute what the code computes. Each case is pinned down by a lemma, and
for the two listed under "## Findings" a corrected definition is given
beside it with the intended property proved:

| behaviour | lemma |
|---|---|
| `oconfig` reads a bare `n` as an end of line | `OConfigProps.LetterNIsEol` |
| the TCP queues accept while their size is at most the maximum, so they hold one more | `TcpsConnection.InsertSendMsg` |
| the display merge never appends to a destination that starts empty | `DispMerge.EmptyDestinationStaysEmpty` |
| `disk_read` submits only for a name seen twice in one read | `Disk.ReadDistinctDispatchesNothing` |
| `push_drop_new` is a parameter: an opaque enqueue | `TcpsMsg.EnqueueScheduled` |
| `df` clamps the available count before the free count, so the reserved count can wrap | `Df.SplitAsWrittenWraps` |
| `cpu` stages the optional fields only while the stream is good, which drops fields it read | `Cpu.StagesAsWrittenDropsReadFields`, `Cpu.ReadLineShortStream` |

## Model

| member | source | states |
|---|---|---|
| XmlToCsv.LastBrace | VibeCoding/xml2csv.py:8-11 | the position found is the last '}' before the bound, or -1 when there is none |
| XmlToCsv.LocalName | VibeCoding/xml2csv.py:8-11 | a tag without '}' is its own local name; otherwise the result is the suffix after the last '}' and holds no '}' |
| XmlToCsv.FirstChildText | VibeCoding/xml2csv.py:14-20 | None exactly when no direct child has the local tag and non-blank text; otherwise the stripped text of the first such child, never empty |
| XmlToCsv.FirstYield | VibeCoding/xml2csv.py:14-20 | the index of the first child from `from` that yields text, and none before it does |
| XmlToCsv.Iter | VibeCoding/xml2csv.py:24 | `element.iter()` starts with the element itself |
| XmlToCsv.OutName | VibeCoding/xml2csv.py:40-42 | with stripping on, a name ending in "_RegAddr" is the result followed by that suffix; otherwise the name is kept |
| XmlToCsv.RegAddrRow | VibeCoding/xml2csv.py:30-49 | a row exists exactly for an Integer node with a non-empty Name and a Value child with text; the row has the stripped name, the value, source "RegAddrGroup", tag "Integer" and the raw name |
| XmlToCsv.InlineRow | VibeCoding/xml2csv.py:52-66 | a row exists exactly for an element with a non-empty Name and an Address child with text; it carries source "InlineAddress", the element's local tag and the address |
| XmlToCsv.GatherMember | VibeCoding/xml2csv.py:30-49 | a row is gathered iff some element produces it |
| XmlToCsv.GroupRowsMember | VibeCoding/xml2csv.py:30-49 | the rows of one group are exactly the Integer rows of the nodes it iterates |
| XmlToCsv.RegAddrRowsMember | VibeCoding/xml2csv.py:23-49 | a row comes from the definitions iff some RegAddr group (not a comment) iterates a node producing it |
| XmlToCsv.InlineRowsMember | VibeCoding/xml2csv.py:52-66 | a row is an inline address iff some element of the tree produces it |
| XmlToCsv.OnlyRegAddrRows | VibeCoding/xml2csv.py:73-75 | with `only_regaddr`, every collected row has source "RegAddrGroup" |
| XmlToCsv.SampleRows | VibeCoding/xml2csv.py:25-38 | on a sample tree: only the Integer node yields a row; Value, the inner group and the outer group yield none; both groups count as RegAddr groups |
| XmlToCsv.NestedGroupsDuplicate | VibeCoding/xml2csv.py:24-30 | a RegAddr group nested in another is iterated by both, so its row is emitted twice |
| XmlToCsv.SortRowsSorted | VibeCoding/xml2csv.py:77 | the sort orders rows by (name, source, address) |
| XmlToCsv.SortRowsStable | VibeCoding/xml2csv.py:77 | the sort is stable: rows with equal keys keep their input order |
| XmlToCsv.XmlToCsv | VibeCoding/xml2csv.py:69-87 | the written rows are sorted, are a permutation of the collected rows, keep equal keys in input order, and the count returned is the number of rows |
| OConfig.SkipSpacesFinds | collected/oconfig.cpp:55-71 | skipping stops at the first character that is not a blank: end of file at the end, a newline left unread and reported as 'n', anything else consumed and reported |
| OConfig.SkipSpacesEof | collected/oconfig.cpp:55-71 | skipping reports end of file iff only spaces remain |
| OConfig.ReadCommentReads | collected/oconfig.cpp:104-112 | a comment's text is the rest of the line, and the newline that ends it is consumed |
| OConfig.ReadBareReads | collected/oconfig.cpp:168-190 | an unquoted word runs to the next blank or delimiter; a blank that ends it is consumed, a delimiter is left for the next token |
| OConfig.ReadQuotedOutcome | collected/oconfig.cpp:119-166 | a quoted string succeeds just after its closing quote; it fails at the end of input, just after a raw newline, or just after a backslash that ends the input |
| OConfig.ReadQuotedErrorIff | collected/oconfig.cpp:119-166 | a quoted string fails iff no closing quote follows a well-formed body |
| OConfig.NextTokenClassified | collected/oconfig.cpp:79-196 | end of file iff only blanks remain; a newline, or the letter 'n' with the character after it, is an end of line; '{' and '}' are block tokens; '#' gives the rest of the line without one trailing carriage return; a quote reads a quoted string; anything else is a word up to the next blank or delimiter |
| OConfig.NextTokenEof | collected/oconfig.cpp:79-196 | the next token is end of file iff only spaces remain |
| OConfig.NextTokenErrorIff | collected/oconfig.cpp:79-166 | the tokenizer fails exactly on a quoted string that never closes |
| OConfig.ParseBlock | collected/oconfig.cpp:206-312 | a block parse returns 0 or -1, never moves the cursor backwards, and only appends children to the parent |
| OConfig.ParseBlockVerdicts | collected/oconfig.cpp:206-230 | inside a block, the end of input fails, a '{' without a key fails, and '}' ends the block with success |
| OConfig.ParseBlockEntry | collected/oconfig.cpp:232-309 | a keyed entry inside a block returns 0 or -1, never moves the cursor backwards, and only appends children |
| OConfig.ParseBlockEntryAtEof | collected/oconfig.cpp:243-246 | a key followed by nothing but blanks to the end of input fails the block |
| OConfig.ParseBlockEntryChildFails | collected/oconfig.cpp:236-241 | a key whose child block fails fails the block, with the partial child attached |
| OConfig.ParseBlockEntryUnclosed | collected/oconfig.cpp:243-246 | a key followed by a quoted value that never closes fails the block |
| OConfig.ParseValues | collected/oconfig.cpp:270-302 | collecting values never moves the cursor backwards |
| OConfig.ParseValuesVerdicts | collected/oconfig.cpp:270-302 | the values loop breaks at a newline or comment, breaks and leaves a '}' unread, returns success at the end of input, and returns failure on an unclosed quoted value |
| OConfig.ParseTop | collected/oconfig.cpp:318-421 | the top-level parse returns 0 or -1 and only appends items to the root |
| OConfig.ParseTopVerdicts | collected/oconfig.cpp:318-344 | at top level, the end of input succeeds and a brace where a key should be fails |
| OConfig.ParseTopEntry | collected/oconfig.cpp:345-417 | a top-level keyed entry returns 0 or -1 and only appends items |
| OConfig.ParseTopEntryAtEof | collected/oconfig.cpp:357-360 | a key followed by nothing but blanks to the end of input succeeds and adds no item |
| OConfig.ParseTopEntryAtClose | collected/oconfig.cpp:369-374 | a key followed by '}' fails and leaves the '}' unread |
| OConfig.ParseTopEntryChildFails | collected/oconfig.cpp:350-356 | a key whose child block fails fails the file, with the partial child attached |
| OConfig.ParseTopEntryUnclosed | collected/oconfig.cpp:361-364 | a key followed by a quoted value that never closes fails the file |
| OConfig.ParseConfig | collected/oconfig.cpp:549-572 | parsing a string returns 0 or -1, keeps the root's key and values, and keeps its existing children as a prefix |
| OConfig.ParseConfigVerdicts | collected/oconfig.cpp:549-572 | text blank to the end leaves the root unchanged with status 0; text starting with a brace fails and leaves the root unchanged |
| OConfig.SetString | collected/oconfig.cpp:479-483 | the item's values become exactly the one string; key and children stay |
| OConfig.SetNumber | collected/oconfig.cpp:485-489 | the item's values become exactly the one number; key and children stay |
| OConfig.SetBoolean | collected/oconfig.cpp:491-495 | the item's values become exactly the one boolean; key and children stay |
| OConfig.AddString | collected/oconfig.cpp:497-500 | one string is appended to the values and nothing else changes |
| OConfig.AddNumber | collected/oconfig.cpp:502-505 | one number is appended to the values and nothing else changes |
| OConfig.AddBoolean | collected/oconfig.cpp:507-510 | one boolean is appended to the values and nothing else changes |
| OConfig.CloneValues | collected/oconfig.cpp:515-518 | the destination takes the source's values and keeps its own key and children |
| OConfig.Clone | collected/oconfig.cpp:459-473 | a deep copy equals the original |
| OConfig.CloneAll | collected/oconfig.cpp:459-473 | copying the children gives the same children |
| OConfigProps.ReadCommentLine | collected/oconfig.cpp:104-118 | a comment never includes a newline |
| OConfigProps.ReadBareWord | collected/oconfig.cpp:170-190 | a bare word extends what was read with characters that are neither spaces nor delimiters |
| OConfigProps.BareWordNotBrace | collected/oconfig.cpp:191-194 | a bare word starting with something other than a brace is never a brace token |
| OConfigProps.LetterNIsEol | collected/oconfig.cpp:88-95 | a bare 'n' is read as an end of line and swallows the following character |
| OConfigProps.NewlineIsEol | collected/oconfig.cpp:88-95 | a newline is an end-of-line token |
| OConfigProps.WordEatsNewline | collected/oconfig.cpp:170-190 | a bare word right before a newline consumes the newline, so no end-of-line token follows it |
| OConfigProps.BlockExtends | collected/oconfig.cpp:206-312 | a block parse only appends to the items it was given |
| OConfigProps.BlockEntryExtends | collected/oconfig.cpp:232-309 | a keyed entry in a block only appends to the items it was given |
| OConfigProps.TopExtends | collected/oconfig.cpp:318-421 | the top-level parse only appends to the items it was given |
| OConfigProps.TopEntryExtends | collected/oconfig.cpp:345-417 | a top-level keyed entry only appends to the items it was given |
| OConfigProps.ValuesExtend | collected/oconfig.cpp:270-302 | value collection only appends values |
| OConfigProps.ParseConfigAppends | collected/oconfig.cpp:549-572 | parsing into a root keeps its key and values and only appends children, success or not |
| OConfigRender.ReadEscaped | collected/oconfig.cpp:119-166 | reading a quoted string written with backslash escapes yields the original string and ends after the closing quote |
| OConfigRender.BlockRoundTrip | collected/oconfig.cpp:206-312 | the items printed inside a block, then '}', parse back to exactly those items |
| OConfigRender.EntryRoundTrip | collected/oconfig.cpp:232-309 | a printed entry's values and optional block parse back to that item, both in a block and at top level |
| OConfigRender.TopRoundTrip | collected/oconfig.cpp:318-421 | printed top-level items parse back to exactly those items, up to the end of input |
| OConfigRender.ParseRendered | collected/oconfig.cpp:549-572 | parsing the printed form of any textual items succeeds and appends exactly those items to the root |
| Configure.Lines | collected/configure.cpp:58-66 | no line holds a newline |
| Configure.LinesJoin | collected/configure.cpp:58-66 | splitting newline-joined lines gives the lines back |
| Configure.TrimSpace | collected/configure.cpp:10-21 | the result is empty iff the input is all spaces; otherwise it starts and ends with a non-space |
| Configure.RemoveQuotes | collected/configure.cpp:24-30 | a value wrapped in double quotes loses exactly those two quotes; anything else is kept |
| Configure.RemoveQuotesInverse | collected/configure.cpp:24-30 | quoting and then removing the quotes gives the value back |
| Configure.ParseKeyValue | collected/configure.cpp:123-131 | None iff the line is blank; otherwise the key is the first word after leading spaces and the value is the trimmed rest |
| Configure.ParseKeyValueJoin | collected/configure.cpp:123-131 | "key value" with a trimmed value parses back to the pair |
| Configure.Find | collected/configure.cpp:73-77 | the position of the first occurrence of the character, or the length when it is absent |
| Configure.BlockName | collected/configure.cpp:72-90 | a "<Plugin" line without '>' has no name |
| Configure.Step | collected/configure.cpp:58-119 | a line can only fail the parse when it opens a plugin block |
| Configure.RunVerdict | collected/configure.cpp:58-119 | the stream parses iff every line is accepted and no block is left open; the settings are those gathered line by line |
| Configure.StepSkips | collected/configure.cpp:67-70 | blank lines and '#' comments change nothing |
| Configure.StepOpen | collected/configure.cpp:72-90 | "<Plugin" fails iff the '>' is missing or the name is empty; otherwise it opens an empty block with that name |
| Configure.StepClose | collected/configure.cpp:93-97 | "</Plugin>" inside a block stores the block under its name, replacing a previous one, and leaves the other plugins and settings alone |
| Configure.StepSetting | collected/configure.cpp:100-111 | any other line is a key and a value, unquoted, stored in the open block or else in the global settings |
| Configure.NestedOpenIsSetting | collected/configure.cpp:72-111 | "<Plugin" inside an open block is read as a setting of that block |
| Configure.UnclosedRejected | collected/configure.cpp:114-117 | a block still open at the end fails the parse |
| Configure.SettingLineReads | collected/configure.cpp:123-131 | a printed setting line reads back as its key and its quoted value |
| Configure.StepSettingLine | collected/configure.cpp:100-111 | a printed setting line stores its value under its key |
| Configure.RunSettingsInBlock | collected/configure.cpp:100-111 | a run of setting lines in a block applies each setting in turn to the block |
| Configure.RunSettingsGlobal | collected/configure.cpp:100-111 | a run of setting lines outside blocks applies each setting in turn to the global settings |
| Configure.OpenLineName | collected/configure.cpp:72-90 | a printed "<Plugin name>" line reads back its name |
| Configure.BlockRoundTrip | collected/configure.cpp:72-111 | a printed block with its settings is stored under its name with exactly those settings |
| Configure.ParseBlockText | collected/configure.cpp:58-119 | parsing the text of a printed block succeeds and adds exactly that plugin |
| Configure.ParseSettingsText | collected/configure.cpp:58-119 | parsing printed global settings succeeds and applies exactly those settings |
| DispMerge.ScanFrom | communication/parse.cpp:97-128 | the scan of the original destination finds the first entry with the same name, up to the name length, or an entry without a name, or nothing |
| DispMerge.MergeOne | communication/parse.cpp:97-133 | a merge step grows the destination by one only when no entry matched and the destination was not empty; its only error is a missing node |
| DispMerge.MergeAll | communication/parse.cpp:89-135 | a successful merge never shrinks the destination and means every source item had a name |
| DispMerge.Names | communication/parse.cpp:137-148 | the set of names in the source |
| DispMerge.Prune | communication/parse.cpp:137-148 | pruning keeps exactly the items whose name is among the source names, in order |
| DispMerge.PruneFromEnd | communication/parse.cpp:137-148 | deleting from the last index down gives the same result as pruning |
| DispMerge.MergeItems | communication/parse.cpp:89-148 | after a successful merge every item left is named in the source |
| DispMerge.UpdateJson | communication/parse.cpp:48-85 | an empty path gives FILE_NOT_FOUND, a missing document gives OUTOFMEMORY, and a missing EItems node gives NODE_NO_EXIST |
| DispMerge.MergeKeepingIsDisplay | communication/demo.cpp:11-22 | no result without both documents and both EItems arrays |
| DispMerge.ScanIgnoresTail | communication/parse.cpp:97-128 | items appended during the merge are never scanned |
| DispMerge.MergeOneMatch | communication/parse.cpp:106-127 | a matched entry without IsDisplay fails; otherwise it is removed and the source item is appended carrying the old IsDisplay |
| DispMerge.MergeOneNoMatch | communication/parse.cpp:130-133 | an unmatched item is appended, except to a destination that started empty |
| DispMerge.EmptyDestinationStaysEmpty | communication/parse.cpp:130-133 | merging into an empty destination either fails on an unnamed source item or leaves it empty |
| DispMerge.MergeOneKeeps | communication/parse.cpp:97-133 | entries whose name differs from the merged item survive the step |
| DispMerge.MergeOneAdds | communication/parse.cpp:106-133 | into a non-empty destination the merged item is present afterwards |
| DispMerge.MergeAllKeeps | communication/parse.cpp:89-135 | an entry matching no source name survives the whole merge |
| DispMerge.MergeAllCovers | communication/parse.cpp:89-135 | with distinct source names and a non-empty destination, every source item is present afterwards |
| DispMerge.MergeItemsNames | communication/parse.cpp:89-148 | after merge and prune, the destination holds every source item and only source names |
| OutputMode.PushDropOld | communication/output_mode.cpp:57-63 | below capacity the item is appended; at capacity the oldest is dropped first |
| OutputMode.PopOne | communication/output_mode.cpp:40-46 | popping fails iff the queue is empty, and otherwise splits off the head |
| OutputMode.PushAllKeepsNewest | communication/output_mode.cpp:57-63 | pushing a sequence keeps exactly the newest items that fit |
| OutputMode.NewestDropsFront | communication/output_mode.cpp:57-63 | with more items than fit, dropping the oldest does not change what is kept |
| OutputMode.SetConfig | communication/output_mode.cpp:71-74 | only the mode and the interval change |
| OutputMode.NgParam | communication/output_mode.cpp:98-105 | the NG payload is the default text without a configured one, otherwise the configured text cut to the buffer size |
| OutputMode.ImgTime | communication/output_mode.cpp:90-96 | the image time is the observed one when present, otherwise the previous value |
| OutputMode.TriggerMode | communication/output_mode.cpp:76-85 | trigger mode is on iff it can be read and is non-zero |
| OutputMode.StepImmediate | communication/output_mode.cpp:108-111 | immediate mode drains and sends the whole queue when there is one |
| OutputMode.StepTimed | communication/output_mode.cpp:114-152 | the timed step takes a prefix of the queue and keeps the rest |
| OutputMode.StepEncoder | communication/output_mode.cpp:156-196 | the encoder step sends exactly what it takes from the front of the queue |
| OutputMode.Tick | communication/output_mode.cpp:198-204 | a tick takes a prefix of the queue and keeps the configuration |
| OutputMode.RunConserves | communication/output_mode.cpp:198-204 | over any number of ticks, what was taken followed by what is left is the original queue |
| OutputMode.ImmediateSendsNewest | communication/output_mode.cpp:108-111 | in immediate mode the newest queued items are sent and the queue empties |
| OutputMode.NoTriggerModeNoSend | communication/output_mode.cpp:114-196 | without trigger mode the timed and encoder modes send nothing and keep their state |
| OutputMode.FirstTriggerOnlyInitialises | communication/output_mode.cpp:114-196 | the first trigger count seen is only recorded |
| OutputMode.TimedSendsIff | communication/output_mode.cpp:114-152 | timed mode sends iff a new frame arrived and the interval has passed; it sends the queue head, or the NG payload when the queue is empty |
| OutputMode.EncoderSendsIff | communication/output_mode.cpp:156-196 | encoder mode consumes a frame iff it is new and the encoder reads 1, and sends the queue head iff the queue is also non-empty |
| OutputMode.OncePerFrame | communication/output_mode.cpp:114-196 | after a send, a tick with the same trigger count sends nothing |
| TcpsConnection.SetSockFd | VibeCoding/TcpsConnection.cpp:75-78 | only the descriptor changes |
| TcpsConnection.InsertSendMsg | VibeCoding/TcpsConnection.cpp:96-106 | a message is queued iff the queue holds at most the maximum, so the queue can reach the maximum plus one; otherwise -1 and no change |
| TcpsConnection.Send | VibeCoding/TcpsConnection.cpp:44-64 | nothing is sent iff the queue is empty; otherwise the head is sent and the send time recorded |
| TcpsConnection.Close | VibeCoding/TcpsConnection.cpp:66-73 | an open descriptor is set to -1; a closed one is left alone |
| TcpsConnection.ReplyMessage | VibeCoding/TcpsConnection.cpp:133 | the reply is the text, cut to the buffer size less the terminator |
| TcpsConnection.RecvProcess | VibeCoding/TcpsConnection.cpp:114-153 | success iff there is data, a non-negative length and a proxy code of 0 |
| TcpsConnection.InsertAllKeepsFirst | VibeCoding/TcpsConnection.cpp:96-106 | a burst of inserts keeps the first messages that fit and refuses the rest |
| TcpsConnection.SendAllFifo | VibeCoding/TcpsConnection.cpp:44-64 | repeated sends deliver the queue in order |
| TcpsConnection.CloseIdempotent | VibeCoding/TcpsConnection.cpp:66-73 | closing twice is closing once, and closing keeps the queue |
| TcpsServer.ChoosePort | VibeCoding/TcpsServerManager.cpp:85 | a zero port falls back to the default |
| TcpsServer.Init | VibeCoding/TcpsServerManager.cpp:85-93 | the server starts with every client slot empty and an empty queue |
| TcpsServer.MaxSendTime | VibeCoding/TcpsServerManager.cpp:170-187 | the result bounds every client's last send time and is one of them, or 0 |
| TcpsServer.GetLastSendTime | VibeCoding/TcpsServerManager.cpp:170-187 | the loop computes the latest send time over the connected clients |
| TcpsServer.HasClient | VibeCoding/TcpsServerManager.cpp:189-199 | true iff some slot holds a connected client |
| TcpsServer.InsertSendMsg | VibeCoding/TcpsServerManager.cpp:201-210 | queued iff the queue holds at most the maximum; otherwise -1 and no change |
| TcpsServer.InsertEmptySendQueue | VibeCoding/TcpsServerManager.cpp:212-222 | queued iff the queue is empty, and then it holds only that message |
| TcpsServer.FirstFree | VibeCoding/TcpsServerManager.cpp:366-391 | the first empty slot, or none when all are taken |
| TcpsServer.AddClient | VibeCoding/TcpsServerManager.cpp:366-391 | a new client takes the first empty slot; with none free the server is unchanged |
| TcpsServer.SendRaisesLastSendTime | VibeCoding/TcpsServerManager.cpp:170-187 | after a client sends at time `now`, the latest send time is at least `now` |
| TcpsServer.AddedClientIsClient | VibeCoding/TcpsServerManager.cpp:189-199 | a client added with a valid descriptor is seen by HasClient |
| TcpsServer.InitHasNoClient | VibeCoding/TcpsServerManager.cpp:85-93 | a fresh server has no client and a last send time of 0 |
| TcpsMsg.SetHeartbeatText | VibeCoding/tcpsMsg.cpp:261-264 | the text is stored, cut to its maximum length, and nothing else changes |
| TcpsMsg.SetHeartbeatTranMode | VibeCoding/tcpsMsg.cpp:251-254 | only the mode changes |
| TcpsMsg.SetHeartbeatInterval | VibeCoding/tcpsMsg.cpp:266-269 | only the interval changes |
| TcpsMsg.SetScheduledTrans | VibeCoding/tcpsMsg.cpp:217-225 | only the enable flag and the time change |
| TcpsMsg.EnqueueScheduled | VibeCoding/tcpsMsg.cpp:176-185 | an empty payload is refused with -1; otherwise it goes through the enqueue passed in |
| TcpsMsg.ToMessage | VibeCoding/tcpsMsg.cpp:154-161 | a queued payload becomes a message with its bytes cut to the buffer size |
| TcpsMsg.SendAllToServer | VibeCoding/tcpsMsg.cpp:154-161 | sending payloads keeps the server queue as a prefix and changes nothing but the queue; a non-empty batch leaves it non-empty |
| TcpsMsg.MessagesAt | VibeCoding/tcpsMsg.cpp:154-161 | the message at each position is the message of the payload at that position |
| TcpsMsg.SendAllKeepsFirst | VibeCoding/tcpsMsg.cpp:154-161 | the messages of the first payloads that fit, while the queue holds at most its maximum, are appended in order and the rest are dropped |
| TcpsMsg.LastActivity | VibeCoding/tcpsMsg.cpp:62-69 | the latest of both servers' send times and, with a heartbeat client, the last heartbeat |
| TcpsMsg.Heartbeat | VibeCoding/tcpsMsg.cpp:71-97 | a heartbeat touches neither the engine, the scheduled queue nor the clients |
| TcpsMsg.TaskLoop | VibeCoding/tcpsMsg.cpp:55-101 | a pass of the task loop keeps the output mode |
| TcpsMsg.HeartbeatQueuedIff | VibeCoding/tcpsMsg.cpp:71-97 | in modes 1 and 2 a heartbeat is queued iff it is due and that path's queue is empty, and then it is the only message; other modes do nothing |
| TcpsMsg.HeartbeatTimeRecorded | VibeCoding/tcpsMsg.cpp:63-97 | the heartbeat time moves only to `now`, only with a client, and always when one is queued with a client |
| TcpsMsg.HeartbeatSpacing | VibeCoding/tcpsMsg.cpp:62-97 | two recorded heartbeats are at least the interval apart in seconds |
| TcpsMsg.HeartbeatYieldsToData | VibeCoding/tcpsMsg.cpp:55-101 | when the engine sends data, the message server gets exactly that data |
| FrameworkProj.ParseSlnFilename | VibeCoding/framework_proj.c:1028-1070 | a parsed name is the file name minus ".sln" or ".scsln", non-empty and shorter than the limit; ".scsln" never hides ".sln" |
| FrameworkProj.ParseSlnRoundTrip | VibeCoding/framework_proj.c:1028-1070 | a name with a solution suffix parses back to the name and the suffix |
| FrameworkProj.ParseSlnTooLong | VibeCoding/framework_proj.c:1060-1064 | a name at or over the limit is refused |
| FrameworkProj.FindSlnEntry | VibeCoding/framework_proj.c:1072-1088 | the index of the first entry with the name, up to the length limit, or -1 iff there is none |
| FrameworkProj.CollectStep | VibeCoding/framework_proj.c:1160-1183 | a directory entry appends one solution or replaces one in place; ".sln" entries are never replaced |
| FrameworkProj.CollectSlnFiles | VibeCoding/framework_proj.c:1126-1192 | an unreadable directory gives -2 |
| FrameworkProj.CollectFromKeeps | VibeCoding/framework_proj.c:1126-1192 | the collected entries have distinct, well-formed names and stay within the switch limit |
| FrameworkProj.SlnIsNeverReplaced | VibeCoding/framework_proj.c:1160-1183 | a ".sln" entry survives the rest of the directory scan |
| FrameworkProj.FindsOwnName | VibeCoding/framework_proj.c:1072-1088 | each collected entry is found at its own index |
| FrameworkProj.SlnReplacesScsln | VibeCoding/framework_proj.c:1160-1183 | a ".sln" of the same name replaces a ".scsln" entry in place |
| FrameworkProj.CollectNames | VibeCoding/framework_proj.c:1194-1247 | at most `room` names are read, each within the length limit |
| FrameworkProj.CollectProjNamesFromMng | VibeCoding/framework_proj.c:1194-1247 | fails with -1 without a root and with -2 without the list or count; otherwise at most the switch limit of names |
| FrameworkProj.NeedUpdateIff | VibeCoding/framework_proj.c:1347-1400 | no update is needed iff the manifest lists as many names as the solutions and each side contains the other |
| FrameworkProj.LastUsed | VibeCoding/framework_proj.c:1407-1422 | the last-used name is the default, a solution name, or the stored one when it is a solution |
| FrameworkProj.LastUsedPrecedence | VibeCoding/framework_proj.c:1407-1422 | the stored name wins when it is a solution, then the default when present, then the first solution |
| FrameworkProj.HasSameIoSwitchSrc | VibeCoding/framework_proj.c:1827-1852 | true iff the switch has DI enabled and some listed project has DI enabled on the same line configuration |
| FrameworkProj.GetProjectObj | VibeCoding/framework_proj.c:840-900 | a found project is within the count and has the name, up to the length limit |
| FrameworkProj.NewProject | VibeCoding/framework_proj.c:1896-1996 | a new project is marked for reload; on an IO-switch clash its DI is disabled and its line configuration cleared |
| FrameworkProj.Refresh | VibeCoding/framework_proj.c:1997-2210 | an existing project keeps its name, takes the switch settings and takes the image source only for a non-zero type |
| FrameworkProj.AddProj | VibeCoding/framework_proj.c:1854-2214 | -4 leaves the manifest unchanged, and the last-used name is never changed |
| FrameworkProj.LookupFinds | VibeCoding/framework_proj.c:840-900 | a listed name is found |
| FrameworkProj.LookupMisses | VibeCoding/framework_proj.c:840-900 | a name no project has is not found |
| FrameworkProj.AddProjThenFound | VibeCoding/framework_proj.c:1854-2214 | after adding, the project is found and the manifest stays consistent; a new one is appended at the end |
| FrameworkProj.Sync | VibeCoding/framework_proj.c:1317-1480 | the manifest is rebuilt iff it was not loaded already and needs an update |
| FrameworkProj.AddAllAppends | VibeCoding/framework_proj.c:1424-1459 | the rebuild appends one project per solution, in order, and keeps the last-used name |
| FrameworkProj.SyncListsEntries | VibeCoding/framework_proj.c:1424-1459 | a rebuilt manifest lists exactly the solutions and its count equals their number |
| FrameworkProj.GetProjectPathDdr | VibeCoding/framework_proj.c:818-838 | a null name gives -1; the path "<dir><name>/" is refused iff it does not fit the buffer; a returned path fits |
| Redline.Overlay | redline.c:472-475 | copying a shorter string over a longer one keeps the old tail |
| Redline.IsSupRegOperation | redline.c:59-69 | registers are usable iff logged in or authenticated |
| Redline.RecoverLockInfo | redline.c:221-229 | unlocks and clears both counters, keeping the session flags |
| Redline.LockProc | redline.c:252-278 | a failure adds one to the count and locks at the limit only when the unlock timer could be started; the lock is never cleared |
| Redline.LockExpire | redline.c:231-250 | the lock timer unlocks and clears both counters; every other field of the device is kept |
| Redline.AuthExpire | redline.c:587-605 | the authorisation timer clears the authorisation; every other field of the device is kept |
| Redline.LoadSolid | redline.c:81-91 | an uninitialised flash image loads as root with no password; any other is used as stored |
| Redline.Interchange | redline.c:292-412 | no reply iff an activated device gets a broadcast for another MAC; an accepted exchange records the random value |
| Redline.Activate | redline.c:414-502 | succeeds iff the password, its hash, the key and the secure storage all work; success stores the same activated account in RAM and flash, with "root" written over the first four bytes of the stored user name, and the new salt and E1 written over the stored ones without clearing them |
| Redline.Login | redline.c:607-744 | login never touches the stored account |
| Redline.Restore | redline.c:504-585 | success blanks the account in RAM and flash and unlocks; failure leaves flash alone |
| Redline.ChangePwd | redline.c:746-872 | success stores the new password, cut to its maximum, in RAM and flash and logs out; failure changes no login state |
| Redline.GetDevInfo | redline.c:874-935 | succeeds iff not locked, reset is allowed and a token is given, and then records the lower-cased token |
| Redline.ResetPwd | redline.c:937-1045 | fails with a verify error iff the decrypted text does not match the IV; a passed check always consumes the reset token, a failed one changes nothing; success writes the text after the IV over the old password and the new salt over the old salt, unlocks and clears the count |
| Redline.Upgrade | redline.c:1047-1118 | succeeds iff not locked, activated and the password matches, and then grants the upgrade |
| Redline.U16 | redline.c:1120-1158 | the 16-bit truncation keeps values in range and agrees modulo 2^16 |
| Redline.GetLockInfo | redline.c:1120-1158 | no reply iff a broadcast for another MAC; the lock flag is reported and the remaining tries fit 16 bits |
| Redline.LockProcNeverUnlocks | redline.c:252-278 | a failure on a locked device keeps it locked |
| Redline.LockedDenies | redline.c:504-1118 | while locked, login, restore, password change, upgrade and device info are refused and change nothing |
| Redline.MismatchCountsFailure | redline.c:504-1118 | a wrong password counts one failure in login, restore, password change and upgrade |
| Redline.LoginMatch | redline.c:659-695 | a correct login unlocks, resets the counters, logs in and sets the session cookie |
| Redline.ChangePwdNeedsLogin | redline.c:774-872 | without a login the change is refused; a success logs out |
| Redline.NeedsActivation | redline.c:504-1118 | restore and upgrade need an activated device |
| Redline.OnlyExpiryOrResetUnlocks | redline.c:221-278 | a locked device is unlocked only by the lock timer or a password reset |
| Redline.ResetPwdBypassesLock | redline.c:937-1045 | a valid reset succeeds even while locked |
| Redline.ReactivateKeepsOldTail | redline.c:414-502 | re-activating with a shorter password leaves the old password's tail behind it |
| Redline.ActivateKeepsNameTail | redline.c:472 | a stored name "rootless" stays "rootless" and "admin" becomes "rootn" after activation |
| Redline.SupRegTimers | redline.c:59-69 | after the authorisation timer, registers are usable iff logged in; the lock timer does not change access |
| Redline.FailedLoginsLock | redline.c:252-278 | n failed logins lock the device iff n reaches the limit |
| Redline.FailedSpawnWrapsRemaining | redline.c:252-278 | when the unlock timer cannot start, the device stays unlocked past the limit and reports 65535 tries left |
| Oplog.SetOperatorIp | VibeCoding/oplog_list.c:66-76 | a missing or empty IP stores the default; a fitting one is stored |
| Oplog.OperatorIp | VibeCoding/oplog_list.c:37-47 | the IP read back is non-empty and fits |
| Oplog.FillIpIfEmpty | VibeCoding/oplog_list.c:49-64 | only an empty IP is filled, with the operator's IP |
| Oplog.Add | VibeCoding/oplog_list.c:303-318 | a record is kept with its text cut to the column width and its IP filled |
| Oplog.UpdateAll | VibeCoding/oplog_list.c:524-597 | the rows in the range take the records and no other row changes |
| Oplog.BatchUpdate | VibeCoding/oplog_list.c:524-597 | -6 iff the first row is absent |
| Oplog.InsertAll | VibeCoding/oplog_list.c:463-522 | the range is added with the records and the other rows stay |
| Oplog.BatchInsert | VibeCoding/oplog_list.c:463-522 | the insert succeeds iff the range is free, otherwise a constraint error and no change |
| Oplog.BatchAdd | VibeCoding/oplog_list.c:599-764 | -1 iff the type is out of range; success needs the lock and an index; failure changes nothing |
| Oplog.DelAll | VibeCoding/oplog_list.c:283-301 | every row goes and the index stays |
| Oplog.Slot | VibeCoding/oplog_list.c:630-691 | a ring slot is between 1 and the maximum |
| Oplog.UpdateFallsBackToInsert | VibeCoding/oplog_list.c:546-549 | an update of absent rows inserts them instead |
| Oplog.BatchAddKeepsIndex | VibeCoding/oplog_list.c:599-764 | a valid index stays valid |
| Oplog.InsertModeSplit | VibeCoding/oplog_list.c:693-758 | below the maximum, the insert index advances by the part that fits and the coverage index becomes the overflow's length when there is one; a batch that fits goes in order into free ids, and into taken ids is refused with no change |
| Oplog.InsertModeSplitWraps | VibeCoding/oplog_list.c:693-735 | a batch that does not fit fills the free ids after the insert index with its first part and puts the rest on ids 1 onwards, over rows that are there or into an empty ring |
| Oplog.PlaceSpan | VibeCoding/oplog_list.c:714-733 | writing a span whose rows all exist updates them and writing into free ids inserts them; each record lands at its id and every other row stays |
| Oplog.CoverageWritesRing | VibeCoding/oplog_list.c:630-691 | once full, records overwrite the ring after the coverage id, which moves to the last slot written |
| Oplog.SlotNoWrap | VibeCoding/oplog_list.c:630-691 | slots before the end follow the base |
| Oplog.SlotWrap | VibeCoding/oplog_list.c:630-691 | slots past the end wrap to 1 |
| Oplog.DelAllThenCoverage | VibeCoding/oplog_list.c:283-301 | after clearing, coverage mode writes only the new range |
| Df.Configure | collect/module/df.c:77-139 | unknown keys give -1 and no change; IgnoreSelected sets all three inversions; each flag key sets only its flag |
| Df.KnownIsAnnounced | collect/module/df.c:77-139 | a key is accepted iff it is one of the announced configuration keys |
| Df.FindDuplicate | collect/module/df.c:195-219 | the first earlier mount of the same kind (device or mount point), or none |
| Df.MountName | collect/module/df.c:257-268 | "/" is "root"; otherwise the path without its leading '/', with '-' for '/', cut to the name length |
| Df.DeviceName | collect/module/df.c:244-256 | "/dev/" is dropped and the name is cut to the name length |
| Df.DeviceNameUnderDev | collect/module/df.c:244-256 | a short device name under "/dev/" reads back as itself |
| Df.MountNameOfPath | collect/module/df.c:257-269 | "/a" names "a" and "/a/b" names "a-b" |
| Df.SplitAsWritten | collect/module/df.c:279-299 | the three block counts add up to the total modulo 2^64 |
| Df.SplitAsWrittenWraps | collect/module/df.c:279-299 | with free above total, reserved wraps to 2^64-3 and free exceeds the total |
| Df.SplitClamped | collect/module/df.c:279-299 | free, reserved and used are non-negative, add up to the total, and match the plain differences when the counts are ordered |
| Df.SplitAgreesWhenFreeFits | collect/module/df.c:279-299 | when free fits in the total, the code as written and the corrected split agree |
| Df.KindValues | collect/module/df.c:301-327 | absolute counts come first and percentages second, each a free, reserved, used triple under the mount's name and only when enabled; every percentage is of the given total |
| Df.FsValues | collect/module/df.c:271-377 | a file system reports one triple per enabled kind for blocks and, when inodes are asked for and present, for inodes; all under its name, percentages of the block or inode total |
| Df.MountValues | collect/module/df.c:185-377 | a mount that no list ignores, that has no earlier mount of its kind, whose `statvfs` succeeds with blocks and block size and whose device name is not empty reports its file system's values under its name; any other mount reports nothing |
| Df.MountReportsIff | collect/module/df.c:185-377 | a mount dispatches something iff it passes every check and absolute values or percentages are enabled |
| Df.Read | collect/module/df.c:160-382 | -1 with nothing dispatched iff the mount list cannot be read, otherwise 0 |
| Df.BytesAddUp | collect/module/df.c:279-309 | the byte triple is the free, reserved and used block counts times the block size; the counts add up to the block total modulo 2^64, and exactly when free does not exceed the total |
| Df.InodesAddUp | collect/module/df.c:329-359 | the inode triple counts free, reserved and used inodes; they add up to the inode total modulo 2^64, and exactly when free does not exceed the total |
| Df.SkippedMounts | collect/module/df.c:195-242 | duplicates, mounts that cannot be queried and mounts with no blocks report nothing |
| Df.ReportedUnderName | collect/module/df.c:244-309 | a first, queryable, non-ignored mount reports under its mount name, free first |
| Df.ReadContainsMount | collect/module/df.c:160-382 | every value of every mount is dispatched by the read |
| Df.ReadValuesIff | collect/module/df.c:175-378 | a value is dispatched iff some mount of the table produces it |
| Disk.Configure | collect/module/disk.c:92-144 | unknown keys give -1 and no change; Disk adds to the list, IgnoreSelected sets the inversion, and the two report flags are set |
| Disk.Diff | collect/module/disk.c:479-487 | a counter that went down is taken to have wrapped at 32 bits |
| Disk.DiffIsModular | collect/module/disk.c:479-487 | the difference is the 32-bit modular difference, so adding it to the old reading gives the new one modulo 2^32 |
| Disk.Observe | collect/module/disk.c:479-492 | bytes grow by 512 per sector difference and the new counters are stored |
| Disk.Submit | collect/module/disk.c:578-642 | octets are sent only when there were any; operations are always sent; a whole disk ends with the utilisation |
| Disk.Lookup | collect/module/disk.c:385-425 | a known disk is reused; an unknown one is appended as fresh |
| Disk.Visit | collect/module/disk.c:560-644 | a disk seen for the first time sends nothing and starts at zero; sending needs the guard's poll count to match |
| Disk.LineStepEffect | collect/module/disk.c:376-644 | a line changes only its disk or appends it; refused lines change nothing; sends need an earlier entry seen in this poll |
| Disk.FirstObservationSilent | collect/module/disk.c:560-571 | a new disk is appended, sends nothing and stores its counters |
| Disk.Prune | collect/module/disk.c:647-677 | exactly the disks seen in this poll are kept |
| Disk.PruneUnique | collect/module/disk.c:647-677 | pruning keeps names distinct |
| Disk.Read | collect/module/disk.c:335-683 | -1 iff the table cannot be read, otherwise 0 and the poll count advances |
| Disk.ReadKeepsExactlySeen | collect/module/disk.c:335-683 | after a read, the disks kept are exactly the names in this read's accepted lines |
| Disk.NewNameAppended | collect/module/disk.c:385-425 | every accepted name is present after the lines are processed |
| Disk.DistinctNamesDispatchNothing | collect/module/disk.c:578 | when no name repeats, no line passes the submission guard |
| Disk.ReadDistinctDispatchesNothing | collect/module/disk.c:578 | a read whose lines name distinct disks dispatches nothing |
| Cpu.KeyOf | collected/cpu.cpp:12-22 | a key is recognised only by its exact name |
| Cpu.KeyOfName | collected/cpu.cpp:12-22 | every option's name is recognised as that option |
| Cpu.Configure | collected/cpu.cpp:12-22 | an unknown key gives -1 and no change; a known key sets exactly its flag |
| Cpu.ConfigureAcceptsExactlyNames | collected/cpu.cpp:12-22 | -1 iff the key names no option, and the named option takes the value |
| Cpu.ConfigureIdempotent | collected/cpu.cpp:12-22 | setting the same key twice is setting it once |
| Cpu.Grow | collected/cpu.cpp:94 | growing keeps the existing CPUs and adds fresh ones |
| Cpu.Observe | collected/cpu.cpp:98-116 | a first or smaller reading restarts without a rate; otherwise the rate is the difference |
| Cpu.Stage | collected/cpu.cpp:91-117 | an invalid state gives EINVAL and no change; otherwise only that CPU's state changes |
| Cpu.ObserveTelescopes | collected/cpu.cpp:109-116 | two successive differences add up to the total increase |
| Cpu.ZeroReadingRestarts | collected/cpu.cpp:98-107 | after a zero reading no rate is reported |
| Cpu.CpuIndexExamples | collected/cpu.cpp:42 | "cpu0" and "cpu12" lines give indices 0 and 12; the total "cpu" line and other lines are skipped |
| Cpu.StagesAsWritten | collected/cpu.cpp:49-74 | when the stream is no longer good after the first four numbers, only user, nice, system and idle are staged |
| Cpu.StagesAsWrittenDropsReadFields | collected/cpu.cpp:49-74 | on a line of ten numbers, the code as written drops the wait, interrupt, softirq and steal fields it read |
| Cpu.Stages | collected/cpu.cpp:49-74 | system and idle are always staged first |
| Cpu.StagesEveryReadField | collected/cpu.cpp:54-74 | each of fields 4 to 7 is staged iff the line has it |
| Cpu.StagesAgreeOnGoodStream | collected/cpu.cpp:49-74 | while the stream stays good, the code as written and the corrected staging agree |
| Cpu.StageAll | collected/cpu.cpp:54-74 | staging a line's readings in order leaves other CPUs alone, ends each staged state with its last reading, and keeps the slot of every state not staged |
| Cpu.ReadLine | collected/cpu.cpp:42-77 | lines other than "cpuN" change nothing; a CPU line grows the table to its index, raises the count seen to include it, changes only its own CPU, and there ends each state the code stages with its last reading |
| Cpu.ReadLineShortStream | collected/cpu.cpp:49-77 | on a line after whose numbers the stream is no longer good, only system, idle, user and nice take the line's numbers; wait, interrupt, softirq, steal, guest and guest-nice keep their slots |
| Cpu.ReadLines | collected/cpu.cpp:39-78 | the count seen only grows, covers every CPU line, and is either the count before or one past some line's CPU; a CPU that no line names keeps its slots |
| Cpu.CommitRaw | collected/cpu.cpp:119-129 | only values that exist for seen CPUs are committed, with their raw readings |
| Cpu.CommitCpus | collected/cpu.cpp:119-129 | for one state, exactly the seen CPUs with a value are committed |
| Cpu.Reset | collected/cpu.cpp:189-195 | the seen count goes to 0 and the seen CPUs lose their values |
| Cpu.Read | collected/cpu.cpp:30-88 | -1 and no change iff the table cannot be read; otherwise the count seen after the lines is submitted when asked, the raw commit of the staged slots when reporting by state and CPU without percentages and otherwise the percentage commit over them, and the iteration is reset |
| Cpu.ValuesOnlyOnSeen | collected/cpu.cpp:42-77 | values exist only for CPUs seen in this read |
| Cpu.ReadEndsQuiet | collected/cpu.cpp:189-195 | a read ends with no value left pending |
| Cpu.RawCommitsEveryValue | collected/cpu.cpp:119-129 | every pending value of a seen CPU is committed |
| Callbacks.Put | collected/CCallbackManager.cpp:33-56 | one kind's registry is replaced and the others kept |
| Callbacks.PutKeepsOthers | collected/CCallbackManager.cpp:33-56 | registering one kind leaves every other kind alone |
| Callbacks.Release | collected/CCallbackManager.cpp:22-28 | the free function is called on the data iff both are set |
| Callbacks.NewEntry | collected/CCallbackManager.cpp:103-126 | an entry keeps the callback and context, the interval only for reads, and user data only for kinds that carry it |
| Callbacks.Register | collected/CCallbackManager.cpp:33-56 | a null callback gives -1 and no change; otherwise the name maps to the new entry and nothing else changes |
| Callbacks.Unregister | collected/CCallbackManager.cpp:128-140 | an absent name gives -1; otherwise only that name is removed and its user data released |
| Callbacks.RegisterOverwrites | collected/CCallbackManager.cpp:43-53 | registering a name twice keeps only the second |
| Callbacks.RegisterThenUnregister | collected/CCallbackManager.cpp:103-140 | unregistering a new registration restores the manager and releases its user data |
| Callbacks.UnregisterTwice | collected/CCallbackManager.cpp:58-68 | a second unregistration fails and releases nothing |
| Callbacks.List | collected/CCallbackManager.cpp:368-402 | the callbacks and names of one kind, each name once, in key order |
| Callbacks.ListIsKeyOrder | collected/CCallbackManager.cpp:368-402 | the listing is the only increasing enumeration of the names |
| Callbacks.RegisterListed | collected/CCallbackManager.cpp:103-126 | after registering, the listing has exactly the new name added, with the new callback |
| Callbacks.Destroy | collected/CCallbackManager.cpp:5-20 | destruction releases the user data of read, write and flush entries only |
| Plugins.Register | collected/plugin.cpp:202-255 | registering appends the entry and returns 0 |
| Plugins.FirstMatch | collected/plugin.cpp:280-290 | the first entry whose name matches ignoring case, or none |
| Plugins.Unregister | collected/plugin.cpp:280-290 | -1 and no change iff no name matches; otherwise only the first match is removed |
| Plugins.RegisterThenUnregister | collected/plugin.cpp:202-290 | unregistering a new name right after registering it restores the list |
| Plugins.UnregisterRemovesOldest | collected/plugin.cpp:202-290 | with a name registered twice, unregistering removes the older entry |
| Plugins.UnregisterRead | collected/plugin.cpp:305-309 | a read name is removed from both the simple and complex lists; 0 iff either had it |
| Plugins.LastFailure | collected/plugin.cpp:154-174 | the status of the last failing callback, or the start value when all succeed |
| Plugins.Write | collected/plugin.cpp:154-174 | without a name every writer is called and the last failure is returned; with a name only the first match is called, and -1 without one |
| Plugins.WriteAllSucceedsIff | collected/plugin.cpp:154-174 | writing to all returns 0 iff every writer succeeds |
| Plugins.Selected | collected/plugin.cpp:178-182 | the flushers selected are those named, or all of them for an empty name, and no more than there are |
| Plugins.SelectedAppend | collected/plugin.cpp:178-182 | selection of a concatenation is the concatenation of the selections, so the order of registration is kept |
| Plugins.SelectedSingle | collected/plugin.cpp:178-182 | a single flusher is kept iff it is selected |
| Plugins.Flush | collected/plugin.cpp:176-184 | each selected flusher is called once, in registration order, and the status returned is the last one called's, or 0 when none is |
| Plugins.FlushHidesEarlierFailure | collected/plugin.cpp:176-184 | a later success hides an earlier flush failure |
| Plugins.AnyFailed | collected/plugin.cpp:104-118 | -1 iff some callback failed |
| Plugins.ReadAllOnce | collected/plugin.cpp:131-143 | every simple then complex reader is called once; 0 iff all succeed |
| Plugins.DispatchValues | collected/plugin.cpp:362-366 | nothing to dispatch gives -1; otherwise it is a write to all writers |
| Plugins.RegisterDataSet | collected/plugin.cpp:257-263 | a null data set gives -1; otherwise it is stored under its type, replacing any other |
| Plugins.UnregisterDataSet | collected/plugin.cpp:336-342 | 0 iff the type was registered; only that type is removed |
| Plugins.GetDataSet | collected/plugin.cpp:496-503 | the data set of the type iff registered |
| Plugins.DataSetRoundTrip | collected/plugin.cpp:257-263 | a registered data set is found and is gone after unregistering |
| Plugins.ParseLogSeverity | collected/plugin.cpp:469-484 | ignoring case, the level is 3 exactly for emerg, alert, crit and err, 4 exactly for warning, 5 for notice, 6 for info, 7 for debug, and -1 exactly for every other string |
| Plugins.LogSeverityRoundTrip | collected/plugin.cpp:469-484 | each level's name, lower or upper case, parses back to the level |
| Plugins.ParseNotifSeverity | collected/plugin.cpp:486-494 | FAILURE in any case is 1; OKAY, WARNING and WARN only in upper case; otherwise -1 |
| Plugins.NotifSeverityCase | collected/plugin.cpp:486-494 | "failure" is accepted but "okay" and "Warning" are not |
| Plugins.MetaAdd | collected/plugin.cpp:507-585 | adding a meta entry appends it |
| Plugins.MetaCopyAppends | collected/plugin.cpp:587-611 | copying meta data appends the source entries, in order, to the destination |
| Plugins.GetInterval | collected/plugin.cpp:635-640 | the context's interval when set, else the default |
| Csv.RStripSlash | collected/Csv.cpp:21-25 | the result is the input without its trailing slashes and does not end in '/' |
| Csv.RStripSlashIdempotent | collected/Csv.cpp:21-25 | stripping twice strips nothing more |
| Csv.RStripSlashAppended | collected/Csv.cpp:21-25 | slashes added after a stripped path are stripped again |
| Csv.Configure | collected/Csv.cpp:33-58 | -1 and no change iff the key is not DataDir, StoreRates or FileDate; DataDir picks stdout, stderr or the stripped directory |
| Csv.ConfigureKeepsValid | collected/Csv.cpp:33-58 | configuration never selects both streams, and keeps a directory only without streams and without a trailing slash |
| Csv.DataDirLastWins | collected/Csv.cpp:35-48 | a later DataDir completely replaces an earlier one |
| Csv.Path | collected/Csv.cpp:94-126 | the identifier under the directory, with the date suffix only for files with dates on; None when formatting or the date fails |
| Csv.PathJoinsOnce | collected/Csv.cpp:101-112 | a valid directory and the identifier are joined by exactly one '/' |
| Csv.ToColons | collected/Csv.cpp:171-172 | every ',' becomes ':' and nothing else changes |
| Csv.ToColonsProperties | collected/Csv.cpp:171-172 | no ',' is left, a second pass changes nothing, and a line without ',' is kept |
| Csv.Write | collected/Csv.cpp:153-213 | mismatched or missing inputs fail; streams get the PUTVAL line; files get the value line at the path, when the path and file can be had |
| Csv.WriteSucceeds | collected/Csv.cpp:153-213 | with valid settings and all inputs present, a write succeeds, and a file path lies under the directory |

## Left out

- Logging (`ERROR`, `WARNING`, `INFO`, `daemon_log`, `printf`): diagnostics only. Configuration line numbers in `oconfig` are dropped for the same reason.
- File, socket and SQL I/O: file contents are strings, a directory is a sequence of entries, SQL tables are maps, sockets and their errors are booleans or options.
- Threads and timers: the redline unlock and authorisation timers are the events `LockExpire` and `AuthExpire`. The cookie monitor thread and the writer thread behind `sfifo` are not modelled.
- `default_active` in `redline.c`: it is compiled out.
- Crypto, secure-storage (BSP), RSA, SHA and MAC checks in `redline.c`: their outcomes are boolean parameters.
- The SQL `get_num`, `get_value` and `init` helpers of `oplog_list.c`: they are storage plumbing around the modelled batch logic.
- Oplog.BatchAdd: requires a valid ring index when one is loaded. The source only ever writes valid indices, and an invalid stored index is not modelled.
- Oplog.BatchAdd: requires at least one record. The callers never pass an empty batch.
- Redline.ResetPwd: the copy of `outlen - 32` bytes at redline.c:1001 underflows when the decrypted text is shorter than 32 bytes; the model takes the text after the first 32 characters, or the empty string when it is shorter.
- The `MAX_*` sizes missing from the headers (file name, switch, parameter name and algorithm name lengths) are parameters.
- `framework_proj.c` compares a header and then replaces it field by field; the model replaces the whole project record.
- Missing fields in a project manifest other than the list and count: the model treats every project entry as well-formed.
- DispMerge: a source `Name` that is not a string is undefined behaviour in `parse.cpp` and is not modelled. The position at which `IsDisplay` is re-inserted is not modelled; only its value is kept.
- DispMerge.MergeOne: a failing `cJSON_Duplicate` in the matched branch (`parse.cpp` lines 111-121) returns the out-of-memory code, after the second failure with the matched item already deleted; allocation is not modelled, so neither that code from the merge nor the shortened array appears. The array is never saved on that path (`save_json_into_file` is reached only after a full merge), so only the code is lost. The unchecked duplicate of the no-match branch is taken to succeed as well.
- `DeInit` of the TCP servers: it only frees resources.
- `push_drop_new` (`tcpsMsg.cpp`): its body is not part of this model, so it is an enqueue function passed in.
- Df: `log_once` and the error ignore list only affect logging. `statvfs` and ignore-list matching are parameters. A failed mount-list read is the `None` table.
- Df.KindValues: the byte gauges are computed in `long double` and stored as a `double` gauge, and the percentages are `long double` quotients; the model keeps the exact integer product `count * blocksize` and the exact ratio `Percent(part, whole)`, so rounding for counts beyond 2^53 and the floating-point percentage are not modelled.
- Disk: udev naming, allocation failures (`calloc`, `strdup`), `atoll`/`atof` parsing, `poll_count` wrap-around, overflow of the 64-bit accumulators, `disk_calc_time_incr` and the utilisation value (floating point), and the 32-field cap of `strsplit` are not modelled.
- Cpu: rates and percentages in floating point, `stoi` out-of-range exceptions, and number parsing are not modelled; each line carries its parsed numbers.
- Callbacks: the context from `plugin_get_ctx` is a parameter.
- Plugins: `load` (`dlopen`), `is_loaded` and `thread_create` are not modelled. `log` and `daemon_log` formatting is not modelled. `dispatch_multivalue` (floating point and varargs) is not modelled. `register_config`, `register_complex_config`, `unregister_config`, `unregister_complex_config` and `unregister_read_group` return constants and store nothing, so they are not modelled. `init_ctx`, `get_ctx` and `set_ctx` are not modelled. Each callback's status comes from a function passed in.
- Csv: `vlToString` (floating point) is not modelled; the rendered line is a parameter. `touchCsv`, `fopen` and `fcntl` are one `fileOk` flag. `FORMAT_VL`, `escape_string` and the `strftime` date are parameters.
- XmlToCsv: `ElementTree` parsing is not modelled; the input is an element tree. `csv.DictWriter` quoting is not modelled; the output is the row sequence.

## Findings

| source | as written | input that shows it | evidently intended | confidence | as-written member | corrected member |
|---|---|---|---|---|---|---|
| collect/module/df.c:279-299 | `bavail` is clamped to `bfree` before `bfree` is clamped to `blocks`, so a free count above the total can leave `bavail` above the clamped `bfree`, and `bfree - bavail` wraps as an unsigned 64-bit value (`blocks - bfree` cannot, after the second clamp). The inode split at lines 337-352 has the same order. | blocks 5, bfree 10, bavail 8: reserved wraps to 2^64-3 | clamp so that bavail ≤ bfree ≤ blocks, and free + reserved + used = blocks | not executed | Df.SplitAsWrittenWraps | Df.SplitClamped |
| collected/cpu.cpp:49-74 | each optional field is staged only while `iss.good()` holds, but the stream is no longer good once the last number on the line has been read, so fields that were read are dropped | "cpu0 1 2 3 4 5 6 7 8 9 10" | stage every field that was read | not executed | Cpu.StagesAsWrittenDropsReadFields | Cpu.StagesEveryReadField |

=== FILE: callbacks.dfy ===
/** The callback manager: one registry per kind of callback, each an ordered
    map from name to entry; registration, unregistration with the release of
    user data, listings in key order, and the release at destruction. */
module Callbacks {
  import opened Wrappers
  import opened OrderedKeys

  /** Function and data pointers, as opaque handles; null is `None`. */
  type Handle = nat

  /** `user_data_t`: a data pointer and the function that frees it. */
  datatype UserData = UserData(data: Option<Handle>, freeFunc: Option<Handle>)

  const NoUserData: UserData := UserData(None, None)

  datatype Kind = Init | Shutdown | Read | Write | Flush | Log | Notification | Missing | CacheEvent

  /** Init and shutdown entries hold no user data. */
  predicate HasUserData(k: Kind) {
    k != Init && k != Shutdown
  }

  /** An entry: the callback, the plugin context it was registered in, the
      read interval (read entries only) and the user data. */
  datatype Entry = Entry(cb: Handle, ctx: Handle, interval: nat, ud: UserData)

  type Registry = map<string, Entry>

  /** The position of each kind's registry in the manager. */
  function Index(k: Kind): (i: nat)
    ensures i < 9
  {
    match k
    case Init => 0
    case Shutdown => 1
    case Read => 2
    case Write => 3
    case Flush => 4
    case Log => 5
    case Notification => 6
    case Missing => 7
    case CacheEvent => 8
  }

  lemma IndexInjective(a: Kind, b: Kind)
    requires a != b
    ensures Index(a) != Index(b)
  {
  }

  /** The manager's nine maps, one per kind. */
  type Manager = s: seq<Registry> | |s| == 9 witness [map[], map[], map[], map[], map[], map[], map[], map[], map[]]

  function Empty(): Manager {
    [map[], map[], map[], map[], map[], map[], map[], map[], map[]]
  }

  function Get(m: Manager, k: Kind): Registry {
    m[Index(k)]
  }

  /** The manager with the registry of one kind replaced. */
  function Put(m: Manager, k: Kind, reg: Registry): (r: Manager)
    ensures Get(r, k) == reg
    ensures forall i :: 0 <= i < 9 && i != Index(k) ==> r[i] == m[i]
  {
    m[Index(k) := reg]
  }

  /** Replacing one kind's registry keeps every other kind's. */
  lemma PutKeepsOthers(m: Manager, k: Kind, reg: Registry, o: Kind)
    requires o != k
    ensures Get(Put(m, k, reg), o) == Get(m, o)
  {
    IndexInjective(o, k);
  }

  /** The call `freeUserData` makes: the free function on the data. */
  datatype FreeCall = FreeCall(freeFunc: Handle, data: Handle)

  /** `freeUserData`: one call when both pointers are set, none otherwise. */
  function Release(ud: UserData): (r: Option<FreeCall>)
    ensures r.Some? <==> ud.data.Some? && ud.freeFunc.Some?
    ensures r.Some? ==> r.value == FreeCall(ud.freeFunc.value, ud.data.value)
  {
    if ud.data.Some? && ud.freeFunc.Some? then Some(FreeCall(ud.freeFunc.value, ud.data.value)) else None
  }

  /** The entry `Register*` stores: the user data is copied when given and
      null otherwise; only read entries keep an interval. */
  function NewEntry(k: Kind, cb: Handle, ctx: Handle, interval: nat, ud: Option<UserData>): (e: Entry)
    ensures e.cb == cb && e.ctx == ctx
    ensures e.ud == (if HasUserData(k) && ud.Some? then ud.value else NoUserData)
    ensures k == Read ==> e.interval == interval
  {
    Entry(cb, ctx, if k == Read then interval else 0,
          if HasUserData(k) && ud.Some? then ud.value else NoUserData)
  }

  /** `Register*`: -1 and no change for a null callback; otherwise 0 and the
      name (new or not) maps to the new entry, every other name and every
      other kind unchanged. */
  function Register(m: Manager, k: Kind, name: string, cb: Option<Handle>, ctx: Handle,
                    interval: nat, ud: Option<UserData>): (r: (int, Manager))
    ensures cb.None? ==> r == (-1, m)
    ensures cb.Some? ==> (
      r.0 == 0 && Get(r.1, k).Keys == Get(m, k).Keys + {name}
      && Get(r.1, k)[name] == NewEntry(k, cb.value, ctx, interval, ud)
      && (forall n :: n in Get(m, k) && n != name ==> Get(r.1, k)[n] == Get(m, k)[n])
      && (forall i :: 0 <= i < 9 && i != Index(k) ==> r.1[i] == m[i]))
  {
    if cb.None? then (-1, m)
    else (0, Put(m, k, Get(m, k)[name := NewEntry(k, cb.value, ctx, interval, ud)]))
  }

  /** `Unregister*`: -1 and no change for an absent name; otherwise 0, the
      name removed and nothing else, and the entry's user data released
      (kinds with user data only). */
  function Unregister(m: Manager, k: Kind, name: string): (r: (int, Manager, Option<FreeCall>))
    ensures name !in Get(m, k) ==> r == (-1, m, None)
    ensures name in Get(m, k) ==> (
      r.0 == 0 && Get(r.1, k).Keys == Get(m, k).Keys - {name}
      && (forall n :: n in Get(r.1, k) ==> Get(r.1, k)[n] == Get(m, k)[n])
      && (forall i :: 0 <= i < 9 && i != Index(k) ==> r.1[i] == m[i])
      && r.2 == (if HasUserData(k) then Release(Get(m, k)[name].ud) else None))
  {
    var reg := Get(m, k);
    if name !in reg then (-1, m, None)
    else (0, Put(m, k, reg - {name}), if HasUserData(k) then Release(reg[name].ud) else None)
  }

  /** Registering a name twice keeps only the second registration. */
  lemma RegisterOverwrites(m: Manager, k: Kind, name: string, a: Handle, b: Handle,
                           ctx: Handle, interval: nat, ud: Option<UserData>, ud2: Option<UserData>)
    ensures Register(Register(m, k, name, Some(a), ctx, interval, ud).1, k, name, Some(b), ctx, interval, ud2)
         == Register(m, k, name, Some(b), ctx, interval, ud2)
  {
    var r1 := Register(m, k, name, Some(a), ctx, interval, ud).1;
    var r2 := Register(r1, k, name, Some(b), ctx, interval, ud2).1;
    var r3 := Register(m, k, name, Some(b), ctx, interval, ud2).1;
    assert Get(r2, k) == Get(r3, k);
    assert forall i :: 0 <= i < 9 ==> r2[i] == r3[i];
    assert r2 == r3;
  }

  /** Unregistering what was just registered under a new name restores the
      manager, releasing the user data that was handed in. */
  lemma RegisterThenUnregister(m: Manager, k: Kind, name: string, cb: Handle, ctx: Handle,
                               interval: nat, ud: Option<UserData>)
    requires name !in Get(m, k)
    ensures var r := Unregister(Register(m, k, name, Some(cb), ctx, interval, ud).1, k, name);
      r.0 == 0 && r.1 == m
      && r.2 == (if HasUserData(k) && ud.Some? then Release(ud.value) else None)
  {
    var r1 := Register(m, k, name, Some(cb), ctx, interval, ud).1;
    var r := Unregister(r1, k, name);
    assert Get(r.1, k) == Get(m, k);
    assert forall i :: 0 <= i < 9 ==> r.1[i] == m[i];
  }

  /** A second unregistration of the same name fails and releases nothing. */
  lemma UnregisterTwice(m: Manager, k: Kind, name: string)
    ensures var r := Unregister(Unregister(m, k, name).1, k, name);
      r == (-1, Unregister(m, k, name).1, None)
  {
  }

  /** `GetAll*Callbacks`: the callbacks in key order, with the names in the
      same order (the read listing hands these back). */
  function List(m: Manager, k: Kind): (r: (seq<Handle>, seq<string>))
    ensures |r.0| == |r.1| == |Get(m, k).Keys|
    ensures Increasing(r.1)
    ensures forall n :: n in Get(m, k) <==> n in r.1
    ensures forall i :: 0 <= i < |r.1| ==> r.1[i] in Get(m, k) && r.0[i] == Get(m, k)[r.1[i]].cb
  {
    var reg := Get(m, k);
    var names := Ordered(reg.Keys);
    (CallbacksOf(reg, names), names)
  }

  /** The callbacks of the named entries, in the order of the names. */
  function CallbacksOf(reg: Registry, names: seq<string>): (r: seq<Handle>)
    requires forall n :: n in names ==> n in reg
    ensures |r| == |names|
    ensures forall i :: 0 <= i < |names| ==> r[i] == reg[names[i]].cb
  {
    seq(|names|, i requires 0 <= i < |names| => reg[names[i]].cb)
  }

  /** The listing order is the map's order: any increasing enumeration of
      the names is the one returned. */
  lemma ListIsKeyOrder(m: Manager, k: Kind, names: seq<string>)
    requires Increasing(names)
    requires forall n :: n in Get(m, k) <==> n in names
    ensures List(m, k).1 == names
  {
    IncreasingUnique(List(m, k).1, names);
  }

  /** Registering under a new name adds exactly that name to the listing. */
  lemma RegisterListed(m: Manager, k: Kind, name: string, cb: Handle, ctx: Handle,
                       interval: nat, ud: Option<UserData>)
    ensures var after := List(Register(m, k, name, Some(cb), ctx, interval, ud).1, k);
      (forall n :: n in after.1 <==> n in List(m, k).1 || n == name)
      && (forall i :: 0 <= i < |after.1| && after.1[i] == name ==> after.0[i] == cb)
  {
  }

  /** The destructor releases the user data of read, write and flush entries
      only; log, notification, missing and cache-event entries keep theirs. */
  function Destroy(m: Manager): (frees: set<FreeCall>)
    ensures forall f :: f in frees <==>
      exists n :: Frees(Get(m, Read), n, f) || Frees(Get(m, Write), n, f) || Frees(Get(m, Flush), n, f)
  {
    ReleasedBy(Get(m, Read)) + ReleasedBy(Get(m, Write)) + ReleasedBy(Get(m, Flush))
  }

  /** Entry `n` of a registry, when released, makes the call `f`. */
  predicate Frees(reg: Registry, n: string, f: FreeCall) {
    n in reg && Release(reg[n].ud) == Some(f)
  }

  function ReleasedBy(reg: Registry): (frees: set<FreeCall>)
    ensures forall f :: f in frees <==> exists n :: Frees(reg, n, f)
  {
    var frees := set n | n in reg && Release(reg[n].ud).Some? :: Release(reg[n].ud).value;
    assert forall n, f :: Frees(reg, n, f) ==> f in frees;
    assert forall f :: f in frees ==> exists n :: Frees(reg, n, f) by {
      forall f | f in frees ensures exists n :: Frees(reg, n, f) {
        var n :| n in reg && Release(reg[n].ud).Some? && Release(reg[n].ud).value == f;
        assert Frees(reg, n, f);
      }
    }
    frees
  }
}

=== FILE: configure.dfy ===
/** The line-based configuration reader of `collected/configure.cpp`: global
    `Key Value` lines and `<Plugin name>` ... `</Plugin>` blocks of settings. */
module Configure {
  import opened Wrappers
  import opened Text

  /** One plugin block: its name and its settings. */
  datatype PluginConfig = PluginConfig(name: string, settings: map<string, string>)

  /** Global settings and the plugin blocks, keyed by plugin name. */
  datatype GlobalConfig = GlobalConfig(settings: map<string, string>, plugins: map<string, PluginConfig>)

  /** The reader's state between two lines. */
  datatype ReaderState = ReaderState(inBlock: bool, current: PluginConfig, config: GlobalConfig)

  /** What reading a whole stream gives: the verdict and the configuration
      as it stands when reading stopped. */
  datatype Outcome = Outcome(ok: bool, config: GlobalConfig)

  const PluginOpen: string := "<Plugin"
  const PluginClose: string := "</Plugin>"

  // ---------------------------------------------------------------------
  // Lines

  predicate NotNewline(c: char) {
    c != '\n'
  }

  /** The lines `std::getline` extracts one after another: pieces between
      newlines, the last one only when it is not empty. */
  function Lines(text: string): (r: seq<string>)
    ensures forall i :: 0 <= i < |r| ==> '\n' !in r[i]
    decreases |text|
  {
    if text == [] then []
    else
      var i := SkipLeft(text, NotNewline, 0);
      if i == |text| then [text] else [text[..i]] + Lines(text[i + 1..])
  }

  /** Lines written one after the other, each ended by a newline. */
  function JoinLines(ls: seq<string>): string {
    if ls == [] then [] else ls[0] + "\n" + JoinLines(ls[1..])
  }

  lemma FirstNewline(l: string, rest: string)
    requires '\n' !in l
    ensures SkipLeft(l + "\n" + rest, NotNewline, 0) == |l|
  {
    var s := l + "\n" + rest;
    assert forall k :: 0 <= k < |l| ==> s[k] == l[k];
    assert !NotNewline(s[|l|]);
  }

  /** Splitting newline-terminated lines gives the lines back. */
  lemma {:induction false} LinesJoin(ls: seq<string>)
    requires forall i :: 0 <= i < |ls| ==> '\n' !in ls[i]
    ensures Lines(JoinLines(ls)) == ls
  {
    if ls != [] {
      var rest := JoinLines(ls[1..]);
      var text := ls[0] + "\n" + rest;
      FirstNewline(ls[0], rest);
      assert text[..|ls[0]|] == ls[0];
      assert text[|ls[0]| + 1..] == rest;
      LinesJoin(ls[1..]);
    }
  }

  // ---------------------------------------------------------------------
  // String helpers

  /** `trim`: whitespace stripped from both ends. */
  function TrimSpace(s: string): (r: string)
    ensures |r| <= |s|
    ensures r == [] <==> forall k :: 0 <= k < |s| ==> IsSpace(s[k])
    ensures r != [] ==> !IsSpace(r[0]) && !IsSpace(r[|r| - 1])
  {
    TrimEmptyIff(s, IsSpace);
    Trim(s, IsSpace)
  }

  predicate IsQuoted(s: string) {
    |s| >= 2 && s[0] == '"' && s[|s| - 1] == '"'
  }

  /** `removeQuotes`: one pair of surrounding double quotes is dropped. */
  function RemoveQuotes(s: string): (r: string)
    ensures IsQuoted(s) ==> s == "\"" + r + "\""
    ensures !IsQuoted(s) ==> r == s
  {
    if IsQuoted(s) then s[1..|s| - 1] else s
  }

  /** Quoting any text and removing the quotes gives the text back. */
  lemma RemoveQuotesInverse(v: string)
    ensures RemoveQuotes("\"" + v + "\"") == v
  {
    var s := "\"" + v + "\"";
    assert IsQuoted(s);
    assert s[1..|s| - 1] == v;
  }

  predicate NotSpace(c: char) {
    !IsSpace(c)
  }

  predicate Word(w: string) {
    w != [] && forall k :: 0 <= k < |w| ==> !IsSpace(w[k])
  }

  /** `parseKeyValue`: the key is the first whitespace-delimited word and
      the value the trimmed rest of the line; a line without a word fails. */
  function ParseKeyValue(line: string): (r: Option<(string, string)>)
    ensures r.None? <==> forall k :: 0 <= k < |line| ==> IsSpace(line[k])
    ensures r.Some? ==> Word(r.value.0) && exists lead: nat, rest: string ::
              lead <= |line| && (forall k :: 0 <= k < lead ==> IsSpace(line[k]))
              && line == line[..lead] + r.value.0 + rest
              && (rest == [] || IsSpace(rest[0])) && r.value.1 == TrimSpace(rest)
  {
    var a := SkipLeft(line, IsSpace, 0);
    if a == |line| then None
    else
      var b := SkipLeft(line, NotSpace, a);
      KeySplit(line, a, b);
      Some((line[a..b], TrimSpace(line[b..])))
  }

  lemma KeySplit(line: string, a: nat, b: nat)
    requires a == SkipLeft(line, IsSpace, 0) < |line| && b == SkipLeft(line, NotSpace, a)
    ensures Word(line[a..b]) && line == line[..a] + line[a..b] + line[b..]
    ensures line[b..] == [] || IsSpace(line[b..][0])
  {
    assert line[a..b][0] == line[a];
    assert forall k :: 0 <= k < b - a ==> line[a..b][k] == line[a + k];
  }

  /** A word, a space and a trimmed value read back as that key and value. */
  lemma ParseKeyValueJoin(key: string, value: string)
    requires Word(key) && value == TrimSpace(value)
    ensures ParseKeyValue(key + " " + value) == Some((key, value))
  {
    var line := key + " " + value;
    assert SkipLeft(line, IsSpace, 0) == 0 by {
      assert !IsSpace(line[0]);
    }
    var b := SkipLeft(line, NotSpace, 0);
    assert forall k :: 0 <= k < |key| ==> line[k] == key[k];
    assert !NotSpace(line[|key|]);
    assert b == |key|;
    assert line[0..b] == key;
    assert line[b..] == " " + value;
    TrimSpaceLead(value);
  }

  /** Leading whitespace does not change a trimmed string. */
  lemma TrimSpaceLead(value: string)
    requires value == TrimSpace(value)
    ensures TrimSpace(" " + value) == value
  {
    var s := " " + value;
    var a := SkipLeft(s, IsSpace, 0);
    if value == [] {
      assert forall k :: 0 <= k < |s| ==> IsSpace(s[k]);
    } else {
      assert !IsSpace(value[0]) && !IsSpace(value[|value| - 1]);
      assert a == 1 by {
        assert SkipLeft(s, IsSpace, 1) == 1 by { assert !IsSpace(s[1]); }
      }
      assert SkipRight(s, IsSpace, 1, |s|) == |s| by { assert !IsSpace(s[|s| - 1]); }
      assert s[1..|s|] == value;
    }
  }

  // ---------------------------------------------------------------------
  // The reader

  predicate StartsWith(s: string, prefix: string) {
    |prefix| <= |s| && s[..|prefix|] == prefix
  }

  /** The first position of `c` in `s`, or `|s|` when there is none. */
  function Find(s: string, c: char): (r: nat)
    ensures r <= |s| && c !in s[..r]
    ensures r < |s| ==> s[r] == c
  {
    var r := SkipLeft(s, x => x != c, 0);
    assert forall k :: 0 <= k < r ==> s[..r][k] == s[k];
    r
  }

  /** Whether a trimmed line opens a plugin block in the given state: only
      outside a block, and only lines of at least eight characters. */
  predicate OpensBlock(st: ReaderState, line: string) {
    !st.inBlock && |line| >= 8 && StartsWith(line, PluginOpen)
  }

  /** The name in a block-opening line, between "<Plugin" and the first '>',
      trimmed and unquoted; None when there is no '>'. */
  function BlockName(line: string): (r: Option<string>)
    requires |line| >= 8 && StartsWith(line, PluginOpen)
    ensures r.None? <==> '>' !in line
  {
    var e := Find(line, '>');
    if e == |line| then None
    else
      assert '>' !in line[..7] by { assert line[..7] == PluginOpen; }
      Some(RemoveQuotes(TrimSpace(line[7..e])))
  }

  /** One iteration of the loop of `ConfigParser::parseStream`; None is the
      early `return false`. */
  function Step(st: ReaderState, raw: string): (r: Option<ReaderState>)
    ensures r.None? ==> OpensBlock(st, TrimSpace(raw))
  {
    var line := TrimSpace(raw);
    if line == [] || line[0] == '#' then Some(st)
    else if OpensBlock(st, line) then
      match BlockName(line)
      case None => None
      case Some(name) =>
        if name == [] then None
        else Some(st.(inBlock := true, current := PluginConfig(name, map[])))
    else if st.inBlock && line == PluginClose then
      Some(st.(inBlock := false,
               config := st.config.(plugins := st.config.plugins[st.current.name := st.current])))
    else
      match ParseKeyValue(line)
      case None => Some(st)
      case Some((key, value)) =>
        var v := RemoveQuotes(value);
        if st.inBlock then
          Some(st.(current := st.current.(settings := st.current.settings[key := v])))
        else
          Some(st.(config := st.config.(settings := st.config.settings[key := v])))
  }

  /** The loop over all lines, then the check for an unclosed block. */
  function Run(st: ReaderState, lines: seq<string>): Outcome
    decreases |lines|
  {
    if lines == [] then Outcome(!st.inBlock, st.config)
    else match Step(st, lines[0])
      case None => Outcome(false, st.config)
      case Some(st1) => Run(st1, lines[1..])
  }

  /** Every line is accepted by its step. */
  predicate Completes(st: ReaderState, lines: seq<string>)
    decreases |lines|
  {
    lines == [] || (Step(st, lines[0]).Some? && Completes(Step(st, lines[0]).value, lines[1..]))
  }

  /** The state after reading `lines`, as far as the steps succeed. */
  function RunState(st: ReaderState, lines: seq<string>): ReaderState
    decreases |lines|
  {
    if lines == [] then st
    else match Step(st, lines[0])
      case None => st
      case Some(st1) => RunState(st1, lines[1..])
  }

  /** The stream is accepted exactly when every line is and no block is
      left open at the end; the configuration is the one built so far. */
  lemma {:induction false} RunVerdict(st: ReaderState, lines: seq<string>)
    ensures Run(st, lines).ok <==> Completes(st, lines) && !RunState(st, lines).inBlock
    ensures Run(st, lines).config == RunState(st, lines).config
    decreases |lines|
  {
    if lines != [] && Step(st, lines[0]).Some? {
      RunVerdict(Step(st, lines[0]).value, lines[1..]);
    }
  }

  function Start(config: GlobalConfig): ReaderState {
    ReaderState(false, PluginConfig([], map[]), config)
  }

  /** `ConfigParser::parseStream` on the text of a stream, starting from the
      caller's configuration. */
  function ParseStream(text: string, config: GlobalConfig): Outcome {
    Run(Start(config), Lines(text))
  }

  // ---------------------------------------------------------------------
  // What one line does

  /** Blank lines and lines whose first non-blank character is '#' leave
      the state as it is. */
  lemma StepSkips(st: ReaderState, raw: string)
    requires TrimSpace(raw) == [] || TrimSpace(raw)[0] == '#'
    ensures Step(st, raw) == Some(st)
  {
  }

  /** Outside a block, a line of eight or more characters starting with
      "<Plugin" opens a block: it fails when there is no '>' or the name is
      empty, and otherwise starts an empty block of that name. */
  lemma StepOpen(st: ReaderState, raw: string)
    requires OpensBlock(st, TrimSpace(raw))
    ensures var name := BlockName(TrimSpace(raw));
            Step(st, raw).None? <==> name.None? || name.value == []
    ensures Step(st, raw).Some? ==>
              var r := Step(st, raw).value;
              r.inBlock && r.current == PluginConfig(BlockName(TrimSpace(raw)).value, map[])
              && r.config == st.config
  {
  }

  /** Inside a block, "</Plugin>" stores the block under its name, replacing
      an earlier block of that name and leaving the other blocks alone. */
  lemma StepClose(st: ReaderState, raw: string)
    requires st.inBlock && TrimSpace(raw) == PluginClose
    ensures Step(st, raw).Some?
    ensures var r := Step(st, raw).value;
            !r.inBlock && r.config.settings == st.config.settings
            && r.config.plugins[st.current.name] == st.current
            && (forall n :: n in st.config.plugins && n != st.current.name ==>
                  n in r.config.plugins && r.config.plugins[n] == st.config.plugins[n])
            && r.config.plugins.Keys == st.config.plugins.Keys + {st.current.name}
  {
  }

  /** Any other non-blank line is a setting: the first word is the key and
      the unquoted trimmed rest the value, stored in the open block or, with
      no block open, globally. */
  lemma StepSetting(st: ReaderState, raw: string)
    requires var line := TrimSpace(raw);
             line != [] && line[0] != '#' && !OpensBlock(st, line)
             && !(st.inBlock && line == PluginClose)
    ensures ParseKeyValue(TrimSpace(raw)).Some?
    ensures var (key, value) := ParseKeyValue(TrimSpace(raw)).value;
            Step(st, raw) == Some(
              if st.inBlock then st.(current := st.current.(settings := st.current.settings[key := RemoveQuotes(value)]))
              else st.(config := st.config.(settings := st.config.settings[key := RemoveQuotes(value)])))
  {
  }

  /** Blocks do not nest: inside a block a "<Plugin ...>" line is read as a
      setting whose key is its first word. */
  lemma NestedOpenIsSetting(st: ReaderState, raw: string)
    requires st.inBlock && StartsWith(TrimSpace(raw), PluginOpen)
    ensures Step(st, raw).Some? && Step(st, raw).value.inBlock
    ensures Step(st, raw).value.config == st.config
    ensures ParseKeyValue(TrimSpace(raw)).Some?
    ensures var key := ParseKeyValue(TrimSpace(raw)).value.0;
            key in Step(st, raw).value.current.settings
  {
    var line := TrimSpace(raw);
    assert line[..7] == PluginOpen;
    assert line != PluginClose by { assert line[1] != PluginClose[1]; }
    StepSetting(st, raw);
  }

  /** A stream that ends inside a block is rejected. */
  lemma UnclosedRejected(st: ReaderState, lines: seq<string>)
    requires RunState(st, lines).inBlock
    ensures !Run(st, lines).ok
  {
    RunVerdict(st, lines);
  }

  // ---------------------------------------------------------------------
  // Writing a configuration and reading it back

  /** A key a setting line can carry: one word not starting a comment. */
  predicate ValidKey(k: string) {
    Word(k) && k[0] != '#'
  }

  function SettingLine(k: string, v: string): string {
    k + " \"" + v + "\""
  }

  function SettingLines(kvs: seq<(string, string)>): (r: seq<string>)
    ensures |r| == |kvs|
    ensures forall i :: 0 <= i < |kvs| ==> r[i] == SettingLine(kvs[i].0, kvs[i].1)
  {
    if kvs == [] then [] else [SettingLine(kvs[0].0, kvs[0].1)] + SettingLines(kvs[1..])
  }

  function OpenLine(name: string): string {
    PluginOpen + " \"" + name + "\">"
  }

  function BlockLines(name: string, kvs: seq<(string, string)>): seq<string> {
    [OpenLine(name)] + SettingLines(kvs) + [PluginClose]
  }

  /** The settings in order, a later one replacing an earlier one. */
  function ApplySettings(m: map<string, string>, kvs: seq<(string, string)>): map<string, string>
    decreases |kvs|
  {
    if kvs == [] then m else ApplySettings(m[kvs[0].0 := kvs[0].1], kvs[1..])
  }

  lemma Trimmed(s: string)
    requires s != [] && !IsSpace(s[0]) && !IsSpace(s[|s| - 1])
    ensures TrimSpace(s) == s
  {
    assert SkipLeft(s, IsSpace, 0) == 0;
    assert SkipRight(s, IsSpace, 0, |s|) == |s|;
  }

  /** A written setting reads back as its key and its value. */
  lemma SettingLineReads(k: string, v: string)
    requires ValidKey(k)
    ensures TrimSpace(SettingLine(k, v)) == SettingLine(k, v)
    ensures ParseKeyValue(SettingLine(k, v)) == Some((k, "\"" + v + "\""))
  {
    var q := "\"" + v + "\"";
    assert SettingLine(k, v) == k + " " + q;
    Trimmed(SettingLine(k, v));
    Trimmed(q);
    ParseKeyValueJoin(k, q);
  }

  lemma StepSettingLine(st: ReaderState, k: string, v: string)
    requires ValidKey(k) && (st.inBlock || k[0] != '<')
    ensures Step(st, SettingLine(k, v)) == Some(
              if st.inBlock then st.(current := st.current.(settings := st.current.settings[k := v]))
              else st.(config := st.config.(settings := st.config.settings[k := v])))
  {
    var line := SettingLine(k, v);
    SettingLineReads(k, v);
    RemoveQuotesInverse(v);
    assert line[0] == k[0];
    assert line != PluginClose by { assert line[|line| - 1] != PluginClose[|PluginClose| - 1]; }
    if !st.inBlock {
      assert !StartsWith(line, PluginOpen) by { assert line[0] != PluginOpen[0]; }
    }
    StepSetting(st, line);
  }

  lemma RunCons(st: ReaderState, l: string, ls: seq<string>, st1: ReaderState)
    requires Step(st, l) == Some(st1)
    ensures Run(st, [l] + ls) == Run(st1, ls)
  {
    assert ([l] + ls)[0] == l && ([l] + ls)[1..] == ls;
  }

  /** Setting lines inside a block add their settings to the block. */
  lemma {:induction false} RunSettingsInBlock(st: ReaderState, kvs: seq<(string, string)>, more: seq<string>)
    requires st.inBlock && forall i :: 0 <= i < |kvs| ==> ValidKey(kvs[i].0)
    ensures Run(st, SettingLines(kvs) + more)
            == Run(st.(current := st.current.(settings := ApplySettings(st.current.settings, kvs))), more)
    decreases |kvs|
  {
    if kvs == [] {
      assert SettingLines(kvs) + more == more;
    } else {
      var st1 := st.(current := st.current.(settings := st.current.settings[kvs[0].0 := kvs[0].1]));
      RunSettingHead(st, kvs, more, st1);
      RunSettingsInBlock(st1, kvs[1..], more);
    }
  }

  /** Setting lines outside a block update the global settings. */
  lemma {:induction false} RunSettingsGlobal(st: ReaderState, kvs: seq<(string, string)>, more: seq<string>)
    requires !st.inBlock && forall i :: 0 <= i < |kvs| ==> ValidKey(kvs[i].0) && kvs[i].0[0] != '<'
    ensures Run(st, SettingLines(kvs) + more)
            == Run(st.(config := st.config.(settings := ApplySettings(st.config.settings, kvs))), more)
    decreases |kvs|
  {
    if kvs == [] {
      assert SettingLines(kvs) + more == more;
    } else {
      var st1 := st.(config := st.config.(settings := st.config.settings[kvs[0].0 := kvs[0].1]));
      RunSettingHead(st, kvs, more, st1);
      RunSettingsGlobal(st1, kvs[1..], more);
    }
  }

  /** The first of several setting lines. */
  lemma RunSettingHead(st: ReaderState, kvs: seq<(string, string)>, more: seq<string>, st1: ReaderState)
    requires kvs != [] && ValidKey(kvs[0].0) && (st.inBlock || kvs[0].0[0] != '<')
    requires st1 == if st.inBlock then st.(current := st.current.(settings := st.current.settings[kvs[0].0 := kvs[0].1]))
                    else st.(config := st.config.(settings := st.config.settings[kvs[0].0 := kvs[0].1]))
    ensures Run(st, SettingLines(kvs) + more) == Run(st1, SettingLines(kvs[1..]) + more)
  {
    var l := SettingLine(kvs[0].0, kvs[0].1);
    StepSettingLine(st, kvs[0].0, kvs[0].1);
    SettingLinesCons(kvs, more);
    RunCons(st, l, SettingLines(kvs[1..]) + more, st1);
  }

  lemma SettingLinesCons(kvs: seq<(string, string)>, more: seq<string>)
    requires kvs != []
    ensures SettingLines(kvs) + more == [SettingLine(kvs[0].0, kvs[0].1)] + (SettingLines(kvs[1..]) + more)
  {
    assert SettingLines(kvs) == [SettingLine(kvs[0].0, kvs[0].1)] + SettingLines(kvs[1..]);
  }

  /** A written block header opens a block of that name. */
  lemma OpenLineReads(st: ReaderState, name: string)
    requires !st.inBlock && name != [] && '>' !in name
    ensures Step(st, OpenLine(name)) == Some(st.(inBlock := true, current := PluginConfig(name, map[])))
  {
    OpenLineName(name);
  }

  /** The name written into a block header is the name read from it. */
  lemma OpenLineName(name: string)
    requires name != [] && '>' !in name
    ensures TrimSpace(OpenLine(name)) == OpenLine(name)
    ensures |OpenLine(name)| >= 8 && StartsWith(OpenLine(name), PluginOpen)
    ensures BlockName(OpenLine(name)) == Some(name)
  {
    var line := OpenLine(name);
    var q := "\"" + name + "\"";
    Trimmed(line);
    assert line[..7] == PluginOpen;
    assert forall k :: 0 <= k < |line| - 1 ==> line[k] != '>' by {
      assert forall k :: 8 < k < |line| - 2 ==> line[k] == name[k - 9];
    }
    assert Find(line, '>') == |line| - 1;
    assert line[7..|line| - 1] == " " + q;
    Trimmed(q);
    TrimSpaceLead(q);
    RemoveQuotesInverse(name);
  }

  /** A written block reads back as a block of that name holding exactly
      its settings; the global settings and the other blocks stay. */
  lemma BlockRoundTrip(st: ReaderState, name: string, kvs: seq<(string, string)>, more: seq<string>)
    requires !st.inBlock && name != [] && '>' !in name
    requires forall i :: 0 <= i < |kvs| ==> ValidKey(kvs[i].0)
    ensures var block := PluginConfig(name, ApplySettings(map[], kvs));
            Run(st, BlockLines(name, kvs) + more)
            == Run(ReaderState(false, block, st.config.(plugins := st.config.plugins[name := block])), more)
  {
    var block := PluginConfig(name, ApplySettings(map[], kvs));
    var st1 := st.(inBlock := true, current := PluginConfig(name, map[]));
    var st2 := st1.(current := block);
    OpenLineReads(st, name);
    assert BlockLines(name, kvs) + more == [OpenLine(name)] + (SettingLines(kvs) + ([PluginClose] + more));
    RunCons(st, OpenLine(name), SettingLines(kvs) + ([PluginClose] + more), st1);
    RunSettingsInBlock(st1, kvs, [PluginClose] + more);
    assert TrimSpace(PluginClose) == PluginClose by { Trimmed(PluginClose); }
    RunCons(st2, PluginClose, more, ReaderState(false, block, st.config.(plugins := st.config.plugins[name := block])));
  }

  /** Reading the text of one written block into a configuration succeeds
      and stores exactly that block. */
  lemma ParseBlockText(config: GlobalConfig, name: string, kvs: seq<(string, string)>)
    requires name != [] && '>' !in name && '\n' !in name
    requires forall i :: 0 <= i < |kvs| ==> ValidKey(kvs[i].0) && '\n' !in kvs[i].1
    ensures ParseStream(JoinLines(BlockLines(name, kvs)), config)
            == Outcome(true, config.(plugins := config.plugins[name := PluginConfig(name, ApplySettings(map[], kvs))]))
  {
    var ls := BlockLines(name, kvs);
    BlockLinesSingle(name, kvs);
    LinesJoin(ls);
    BlockRoundTrip(Start(config), name, kvs, []);
    assert ls + [] == ls;
  }

  /** Reading the text of written global settings succeeds and applies them
      in order. */
  lemma ParseSettingsText(config: GlobalConfig, kvs: seq<(string, string)>)
    requires forall i :: 0 <= i < |kvs| ==> ValidKey(kvs[i].0) && kvs[i].0[0] != '<' && '\n' !in kvs[i].1
    ensures ParseStream(JoinLines(SettingLines(kvs)), config)
            == Outcome(true, config.(settings := ApplySettings(config.settings, kvs)))
  {
    var ls := SettingLines(kvs);
    SettingLinesSingle(kvs);
    LinesJoin(ls);
    RunSettingsGlobal(Start(config), kvs, []);
    assert ls + [] == ls;
  }

  lemma SettingLinesSingle(kvs: seq<(string, string)>)
    requires forall i :: 0 <= i < |kvs| ==> ValidKey(kvs[i].0) && '\n' !in kvs[i].1
    ensures forall i :: 0 <= i < |kvs| ==> '\n' !in SettingLines(kvs)[i]
  {
    forall i | 0 <= i < |kvs| ensures '\n' !in SettingLines(kvs)[i] {
      var k := kvs[i].0;
      assert forall j :: 0 <= j < |k| ==> k[j] != '\n' by {
        assert forall j :: 0 <= j < |k| ==> !IsSpace(k[j]);
      }
    }
  }

  lemma BlockLinesSingle(name: string, kvs: seq<(string, string)>)
    requires '\n' !in name
    requires forall i :: 0 <= i < |kvs| ==> ValidKey(kvs[i].0) && '\n' !in kvs[i].1
    ensures forall i :: 0 <= i < |BlockLines(name, kvs)| ==> '\n' !in BlockLines(name, kvs)[i]
  {
    var ls := BlockLines(name, kvs);
    SettingLinesSingle(kvs);
    forall i | 0 <= i < |ls| ensures '\n' !in ls[i] {
      if 0 < i < |ls| - 1 {
        assert ls[i] == SettingLines(kvs)[i - 1];
      }
    }
  }
}

=== FILE: cpu.dfy ===
/** The cpu module: its configuration, the per-CPU, per-state counter
    staging that turns two readings into a difference, the selection of
    per-CPU lines of the kernel's statistics table, the raw commit, and the
    reset that ends every read. */
module Cpu {
  import opened Wrappers
  import opened Text
  import opened Fixed

  /** The states, numbered as the module's enumeration numbers them. */
  const StUser: nat := 0
  const StSystem: nat := 1
  const StWait: nat := 2
  const StNice: nat := 3
  const StSwap: nat := 4
  const StInterrupt: nat := 5
  const StSoftirq: nat := 6
  const StSteal: nat := 7
  const StGuest: nat := 8
  const StGuestNice: nat := 9
  const StIdle: nat := 10
  const StActive: nat := 11
  const StMaxState: nat := 12

  /** The error `stage` returns for a state it does not stage. */
  const EInval: int := 22

  /** The keys `config` accepts, compared exactly (case matters). */
  datatype Key = ReportByCpu | ReportByState | ValuesPercentage
               | ReportNumCpu | ReportGuestState | SubtractGuestState

  function Name(k: Key): string {
    match k
    case ReportByCpu => "ReportByCpu"
    case ReportByState => "ReportByState"
    case ValuesPercentage => "ValuesPercentage"
    case ReportNumCpu => "ReportNumCpu"
    case ReportGuestState => "ReportGuestState"
    case SubtractGuestState => "SubtractGuestState"
  }

  /** The key a configuration key names, if any. */
  function KeyOf(key: string): (r: Option<Key>)
    ensures r.Some? ==> Name(r.value) == key
    ensures r.None? ==> forall k: Key :: Name(k) != key
  {
    if key == "ReportByCpu" then Some(ReportByCpu)
    else if key == "ReportByState" then Some(ReportByState)
    else if key == "ValuesPercentage" then Some(ValuesPercentage)
    else if key == "ReportNumCpu" then Some(ReportNumCpu)
    else if key == "ReportGuestState" then Some(ReportGuestState)
    else if key == "SubtractGuestState" then Some(SubtractGuestState)
    else None
  }

  /** The names are distinct, so every key is recognised as itself. */
  lemma KeyOfName(k: Key)
    ensures KeyOf(Name(k)) == Some(k)
  {
    var r := KeyOf(Name(k));
    assert r.Some?;
    if r.value != k {
      NamesDistinct(r.value, k);
    }
  }

  lemma NamesDistinct(a: Key, b: Key)
    requires a != b
    ensures Name(a) != Name(b)
  {
    var x, y := Name(a), Name(b);
    if |x| == |y| {
      assert {a, b} == {ValuesPercentage, ReportGuestState};
      assert x[0] != y[0];
    }
  }

  datatype Config = Config(byCpu: bool, byState: bool, percent: bool,
                           numCpu: bool, guest: bool, subGuest: bool)

  const Defaults: Config := Config(true, true, false, false, false, true)

  /** The flag a key sets. */
  function Flag(c: Config, k: Key): bool {
    match k
    case ReportByCpu => c.byCpu
    case ReportByState => c.byState
    case ValuesPercentage => c.percent
    case ReportNumCpu => c.numCpu
    case ReportGuestState => c.guest
    case SubtractGuestState => c.subGuest
  }

  /** The configuration with one flag replaced. */
  function Set(c: Config, k: Key, on: bool): (r: Config)
    ensures Flag(r, k) == on
    ensures forall o: Key :: o != k ==> Flag(r, o) == Flag(c, o)
  {
    match k
    case ReportByCpu => c.(byCpu := on)
    case ReportByState => c.(byState := on)
    case ValuesPercentage => c.(percent := on)
    case ReportNumCpu => c.(numCpu := on)
    case ReportGuestState => c.(guest := on)
    case SubtractGuestState => c.(subGuest := on)
  }

  /** `config(key, val)`: -1 and no change for a key naming no flag;
      otherwise 0 and the named flag set from the value, every other flag
      kept. */
  function Configure(c: Config, key: string, val: string): (r: (int, Config))
    ensures KeyOf(key).None? ==> r == (-1, c)
    ensures KeyOf(key).Some? ==> (
      r.0 == 0 && Flag(r.1, KeyOf(key).value) == IsTrue(val)
      && forall o: Key :: o != KeyOf(key).value ==> Flag(r.1, o) == Flag(c, o))
  {
    match KeyOf(key)
    case None => (-1, c)
    case Some(k) => (0, Set(c, k, IsTrue(val)))
  }

  /** Exactly the six names are accepted, each setting its own flag. */
  lemma ConfigureAcceptsExactlyNames(c: Config, key: string, val: string)
    ensures Configure(c, key, val).0 == -1 <==> forall k: Key :: Name(k) != key
    ensures forall k: Key :: Name(k) == key ==> Flag(Configure(c, key, val).1, k) == IsTrue(val)
  {
    match KeyOf(key)
    case None =>
    case Some(k) =>
      forall o: Key | Name(o) == key ensures o == k {
        KeyOfName(o);
      }
  }

  /** Setting a key once more with the same value changes nothing. */
  lemma ConfigureIdempotent(c: Config, key: string, val: string)
    ensures Configure(Configure(c, key, val).1, key, val) == Configure(c, key, val)
  {
    var r := Configure(c, key, val).1;
    if KeyOf(key).Some? {
      var k := KeyOf(key).value;
      assert Set(r, k, IsTrue(val)) == r by {
        SetSame(r, k);
      }
    }
  }

  /** A flag set to its own value leaves the configuration as it is. */
  lemma SetSame(c: Config, k: Key)
    ensures Set(c, k, Flag(c, k)) == c
  {
  }

  /** A rate is derived from the difference of two readings and the
      interval in floating point; the model keeps the difference. */
  datatype Rate = NoRate | PerInterval(diff: U64)

  /** The staging slot of one state of one CPU. */
  datatype RateState = RateState(lastRaw: U64, rate: Rate, hasValue: bool)

  const Unset: RateState := RateState(0, NoRate, false)

  /** The slots of one CPU, one per state. */
  type PerCpu = s: seq<RateState> | |s| == StMaxState witness seq(StMaxState, _ => Unset)

  function FreshCpu(): PerCpu { seq(StMaxState, _ => Unset) }

  /** `resize(n)` on the per-CPU vector: new entries are fresh. */
  function Grow(cpus: seq<PerCpu>, n: nat): (r: seq<PerCpu>)
    ensures |r| == Max(|cpus|, n)
    ensures forall k :: 0 <= k < |cpus| ==> r[k] == cpus[k]
    ensures forall k :: |cpus| <= k < |r| ==> r[k] == FreshCpu()
  {
    if n <= |cpus| then cpus else cpus + seq(n - |cpus|, _ => FreshCpu())
  }

  /** One reading for one slot: the first reading (no earlier non-zero
      reading) and a reading below the last one only remember the reading;
      any other reading also yields the difference. */
  function Observe(rs: RateState, raw: U64): (r: RateState)
    ensures r.lastRaw == raw
    ensures (rs.lastRaw == 0 || raw < rs.lastRaw) <==> !r.hasValue
    ensures !r.hasValue ==> r.rate == rs.rate
    ensures r.hasValue ==> r.rate == PerInterval(raw - rs.lastRaw)
  {
    if rs.lastRaw == 0 then rs.(lastRaw := raw, hasValue := false)
    else if raw < rs.lastRaw then rs.(lastRaw := raw, hasValue := false)
    else rs.(lastRaw := raw, rate := PerInterval(raw - rs.lastRaw), hasValue := true)
  }

  /** `stage(cpu, st, raw)`: EINVAL for "active" and beyond, leaving the
      vector alone; otherwise the vector grows to hold the CPU and only that
      CPU's slot for the state changes. */
  function Stage(cpus: seq<PerCpu>, cpu: nat, st: nat, raw: U64): (r: (int, seq<PerCpu>))
    ensures st >= StActive ==> r == (EInval, cpus)
    ensures st < StActive ==> (
      r.0 == 0 && |r.1| == Max(|cpus|, cpu + 1)
      && r.1[cpu][st] == Observe(Grow(cpus, cpu + 1)[cpu][st], raw)
      && (forall k :: 0 <= k < |r.1| && k != cpu ==> r.1[k] == Grow(cpus, cpu + 1)[k])
      && (forall s :: 0 <= s < StMaxState && s != st ==> r.1[cpu][s] == Grow(cpus, cpu + 1)[cpu][s]))
  {
    if st >= StActive then (EInval, cpus)
    else
      var g := Grow(cpus, cpu + 1);
      var pc: PerCpu := g[cpu][st := Observe(g[cpu][st], raw)];
      (0, g[cpu := pc])
  }

  /** Over three readings of a slot that never fall and start above 0, the
      differences reported add up to the total advance. */
  lemma ObserveTelescopes(rs: RateState, a: U64, b: U64, c: U64)
    requires 0 < a <= b <= c
    ensures var r1 := Observe(Observe(rs, a), b);
      var r2 := Observe(r1, c);
      r1.hasValue && r2.hasValue && r1.rate.diff + r2.rate.diff == c - a
  {
  }

  /** A counter that reads 0 keeps every later reading a first reading. */
  lemma ZeroReadingRestarts(rs: RateState, raw: U64)
    requires rs.lastRaw == 0
    ensures !Observe(rs, raw).hasValue && Observe(rs, raw).lastRaw == raw
  {
  }

  /** A line of the statistics table: its text, the numbers the stream reads
      after the label (at most eleven; reading stops at the first token that
      is not a number or at the end), and whether unread text follows the
      eleventh number. */
  datatype Line = Line(text: string, values: seq<U64>, trailing: bool)

  /** Only "cpu" followed by a digit: the per-CPU lines, not the total. */
  predicate IsCpuLine(text: string) {
    |text| >= 4 && text[..3] == "cpu" && IsDigit(text[3])
  }

  /** The number `stoi` reads from the start of a string of digits. */
  function LeadingNumber(s: string, acc: nat): (n: nat)
    ensures n >= acc
  {
    if s == [] || !IsDigit(s[0]) then acc
    else LeadingNumber(s[1..], acc * 10 + (s[0] as int - '0' as int))
  }

  /** The CPU index of a per-CPU line. */
  function CpuIndex(text: string): nat
    requires IsCpuLine(text)
  {
    LeadingNumber(text[3..], 0)
  }

  lemma CpuIndexExamples()
    ensures CpuIndex("cpu0 1 2") == 0
    ensures CpuIndex("cpu12 5") == 12
    ensures !IsCpuLine("cpu 1 2 3") && !IsCpuLine("cpu") && !IsCpuLine("intr 5")
  {
    assert "cpu12 5"[3..] == "12 5";
    assert "12 5"[1..] == "2 5";
    assert "2 5"[1..] == " 5";
  }

  /** Field `k` as the module holds it: 0 when it was not read. */
  function V(l: Line, k: nat): U64 {
    if k < |l.values| then l.values[k] else 0
  }

  /** `iss.good()` after the reading loop: the stream is good only when all
      eleven numbers were read and text remains after them. */
  predicate StreamGood(l: Line) {
    |l.values| == 11 && l.trailing
  }

  /** The (state, reading) pairs a line stages, in call order, as written:
      the optional states are guarded by the stream state. */
  function StagesAsWritten(cfg: Config, l: Line): (r: seq<(nat, U64)>)
    ensures !StreamGood(l) ==> r == [(StSystem, V(l, 2)), (StIdle, V(l, 3)), (StUser, V(l, 0)), (StNice, V(l, 1))]
  {
    var good := StreamGood(l);
    var user := if good && cfg.guest && cfg.subGuest && V(l, 0) >= V(l, 8) then V(l, 0) - V(l, 8) else V(l, 0);
    var nice := if good && cfg.guest && cfg.subGuest && V(l, 1) >= V(l, 9) then V(l, 1) - V(l, 9) else V(l, 1);
    [(StSystem, V(l, 2)), (StIdle, V(l, 3))]
    + (if good then [(StWait, V(l, 4)), (StInterrupt, V(l, 5)), (StSoftirq, V(l, 6)), (StSteal, V(l, 7))] else [])
    + (if good && cfg.guest then [(StGuest, V(l, 8)), (StGuestNice, V(l, 9))] else [])
    + [(StUser, user), (StNice, nice)]
  }

  /** A kernel line carries ten numbers and ends after the last: the stream
      is then at its end, so the wait, interrupt, softirq and steal figures
      are read but never staged. */
  lemma StagesAsWrittenDropsReadFields(cfg: Config)
    ensures var l := Line("cpu0 1 2 3 4 5 6 7 8 9 10", [1, 2, 3, 4, 5, 6, 7, 8, 9, 10], false);
      |StagesAsWritten(cfg, l)| == 4
      && (forall k :: 0 <= k < 4 ==> StagesAsWritten(cfg, l)[k].0 !in {StWait, StInterrupt, StSoftirq, StSteal})
      && |Stages(cfg, l)| >= 8 && Stages(cfg, l)[2] == (StWait, 5)
  {
  }

  /** The staging the guards evidently intend: every optional state whose
      number was read is staged, guest states only when they are reported,
      and user and nice lose the guest time when asked to. */
  function Stages(cfg: Config, l: Line): (r: seq<(nat, U64)>)
    ensures |r| >= 4 && r[0] == (StSystem, V(l, 2)) && r[1] == (StIdle, V(l, 3))
  {
    [(StSystem, V(l, 2)), (StIdle, V(l, 3))] + (ReadFields(l) + Guests(cfg, l)) + UserNice(cfg, l)
  }

  /** User and nice time, less the guest time when guest time is reported
      and subtracted and does not exceed them. */
  function UserNice(cfg: Config, l: Line): (r: seq<(nat, U64)>)
    ensures |r| == 2 && r[0].0 == StUser && r[1].0 == StNice
    ensures r[0].1 <= V(l, 0) && r[1].1 <= V(l, 1)
  {
    var g := cfg.guest && cfg.subGuest;
    var n := |l.values|;
    [(StUser, if g && n > 8 && V(l, 0) >= V(l, 8) then V(l, 0) - V(l, 8) else V(l, 0)),
     (StNice, if g && n > 9 && V(l, 1) >= V(l, 9) then V(l, 1) - V(l, 9) else V(l, 1))]
  }

  /** The wait, interrupt, softirq and steal fields that were read, in that
      order. */
  function ReadFields(l: Line): (r: seq<(nat, U64)>)
    ensures |r| <= 4
    ensures forall i :: 0 <= i < |r| ==> r[i] == (OptionalState(4 + i), V(l, 4 + i)) && 4 + i < |l.values|
  {
    var m := if |l.values| <= 4 then 0 else Min(|l.values|, 8) - 4;
    seq(m, i requires 0 <= i < m => (OptionalState(4 + i), V(l, 4 + i)))
  }

  /** The guest fields that were read, when guest time is reported. */
  function Guests(cfg: Config, l: Line): (r: seq<(nat, U64)>)
    ensures forall i :: 0 <= i < |r| ==> r[i].0 in {StGuest, StGuestNice}
    ensures cfg.guest && |l.values| > 8 ==> |r| >= 1 && r[0] == (StGuest, V(l, 8))
  {
    var n := |l.values|;
    (if cfg.guest && n > 8 then [(StGuest, V(l, 8))] else [])
    + (if cfg.guest && n > 9 then [(StGuestNice, V(l, 9))] else [])
  }

  /** The corrected staging stages each of the optional kernel fields
      exactly when it was read, with its own value. */
  lemma StagesEveryReadField(cfg: Config, l: Line, k: nat)
    requires 4 <= k <= 7
    ensures (exists j :: 0 <= j < |Stages(cfg, l)| && Stages(cfg, l)[j] == (OptionalState(k), V(l, k)))
        <==> k < |l.values|
  {
    var r := Stages(cfg, l);
    var f := ReadFields(l);
    var m := f + Guests(cfg, l);
    var t := UserNice(cfg, l);
    assert r == [(StSystem, V(l, 2)), (StIdle, V(l, 3))] + m + t;
    if k < |l.values| {
      assert m[k - 4] == f[k - 4] == (OptionalState(k), V(l, k));
      assert r[2 + (k - 4)] == m[k - 4];
    } else {
      StagesMissField(cfg, l, k);
    }
  }

  lemma StagesMissField(cfg: Config, l: Line, k: nat)
    requires 4 <= k <= 7 && k >= |l.values|
    ensures forall j :: 0 <= j < |Stages(cfg, l)| ==> Stages(cfg, l)[j].0 != OptionalState(k)
  {
    var r := Stages(cfg, l);
    var f := ReadFields(l);
    var m := f + Guests(cfg, l);
    var t := UserNice(cfg, l);
    assert r == [(StSystem, V(l, 2)), (StIdle, V(l, 3))] + m + t;
    forall j | 0 <= j < |r| ensures r[j].0 != OptionalState(k) {
      if 2 <= j < 2 + |m| {
        assert r[j] == m[j - 2];
      } else if j >= 2 + |m| {
        assert r[j] == t[j - 2 - |m|];
      }
    }
  }

  /** The state kernel field `k` (4 to 7) belongs to. */
  function OptionalState(k: nat): nat
    requires 4 <= k <= 7
  {
    if k == 4 then StWait else if k == 5 then StInterrupt else if k == 6 then StSoftirq else StSteal
  }

  /** The two stagings agree when the stream is good. */
  lemma StagesAgreeOnGoodStream(cfg: Config, l: Line)
    requires StreamGood(l)
    ensures StagesAsWritten(cfg, l) == Stages(cfg, l)
  {
  }

  /** The last reading staged for state `st` in a list of pairs, if any. */
  function LastFor(ps: seq<(nat, U64)>, st: nat): Option<U64>
    decreases |ps|
  {
    if ps == [] then None
    else if LastFor(ps[1..], st).Some? then LastFor(ps[1..], st)
    else if ps[0].0 == st then Some(ps[0].1)
    else None
  }

  /** A state staged at `j` and not after it ends with the reading at `j`. */
  lemma {:induction false} LastForLast(ps: seq<(nat, U64)>, j: nat, st: nat)
    requires j < |ps| && ps[j].0 == st
    requires forall i :: j < i < |ps| ==> ps[i].0 != st
    ensures LastFor(ps, st) == Some(ps[j].1)
    decreases |ps|
  {
    if j > 0 {
      LastForLast(ps[1..], j - 1, st);
    } else {
      LastForAbsent(ps[1..], st);
    }
  }

  /** A state never staged has no last reading. */
  lemma {:induction false} LastForAbsent(ps: seq<(nat, U64)>, st: nat)
    requires forall i :: 0 <= i < |ps| ==> ps[i].0 != st
    ensures LastFor(ps, st).None?
    decreases |ps|
  {
    if ps != [] {
      LastForAbsent(ps[1..], st);
    }
  }

  /** Staging a list of (state, reading) pairs for one CPU: other CPUs keep
      their slots, a state staged in the list ends with its last reading,
      and a state not in the list keeps its slot. */
  function StageAll(cpus: seq<PerCpu>, cpu: nat, ps: seq<(nat, U64)>): (r: seq<PerCpu>)
    requires forall j :: 0 <= j < |ps| ==> ps[j].0 < StActive
    ensures |r| == Max(|cpus|, cpu + 1)
    ensures forall k :: 0 <= k < |r| && k != cpu ==> r[k] == Grow(cpus, cpu + 1)[k]
    ensures forall st :: 0 <= st < StMaxState && LastFor(ps, st).Some? ==> r[cpu][st].lastRaw == LastFor(ps, st).value
    ensures forall st :: 0 <= st < StMaxState && LastFor(ps, st).None? ==> r[cpu][st] == Grow(cpus, cpu + 1)[cpu][st]
    decreases |ps|
  {
    if ps == [] then Grow(cpus, cpu + 1)
    else
      var c1 := Stage(cpus, cpu, ps[0].0, ps[0].1).1;
      assert Grow(c1, cpu + 1) == c1;
      StageAll(c1, cpu, ps[1..])
  }

  /** The module's state between lines and reads. */
  datatype State = State(cpus: seq<PerCpu>, cpuSeen: nat)

  const Start: State := State([], 0)

  /** One line of the table: non-CPU lines are skipped; a CPU line stages
      its states as the module writes it and raises the count of CPUs seen
      to cover its index. Other CPUs keep their slots; on the line's CPU a
      state the line stages ends with its last reading and any other state
      keeps its slot. */
  function ReadLine(cfg: Config, s: State, l: Line): (r: State)
    ensures !IsCpuLine(l.text) ==> r == s
    ensures IsCpuLine(l.text) ==> (
      var idx := CpuIndex(l.text);
      var ps := StagesAsWritten(cfg, l);
      r.cpuSeen == Max(s.cpuSeen, idx + 1)
      && |r.cpus| == Max(|s.cpus|, idx + 1)
      && (forall k :: 0 <= k < |r.cpus| && k != idx ==> r.cpus[k] == Grow(s.cpus, idx + 1)[k])
      && (forall st :: 0 <= st < StMaxState && LastFor(ps, st).Some? ==> r.cpus[idx][st].lastRaw == LastFor(ps, st).value)
      && (forall st :: 0 <= st < StMaxState && LastFor(ps, st).None? ==> r.cpus[idx][st] == Grow(s.cpus, idx + 1)[idx][st]))
  {
    if !IsCpuLine(l.text) then s
    else
      var idx := CpuIndex(l.text);
      var cpus := StageAll(Grow(s.cpus, idx + 1), idx, StagesAsWritten(cfg, l));
      State(cpus, if s.cpuSeen <= idx then idx + 1 else s.cpuSeen)
  }

  /** On a CPU line after which the stream is no longer good (every line of
      the kernel's table), the line sets system, idle, user and nice and
      leaves the wait, interrupt, softirq, steal and guest slots of its CPU
      as they were. */
  lemma ReadLineShortStream(cfg: Config, s: State, l: Line)
    requires IsCpuLine(l.text) && !StreamGood(l)
    ensures var idx := CpuIndex(l.text); var c := ReadLine(cfg, s, l).cpus[idx];
      var g := Grow(s.cpus, idx + 1)[idx];
      c[StSystem].lastRaw == V(l, 2) && c[StIdle].lastRaw == V(l, 3)
      && c[StUser].lastRaw == V(l, 0) && c[StNice].lastRaw == V(l, 1)
      && c[StWait] == g[StWait] && c[StInterrupt] == g[StInterrupt]
      && c[StSoftirq] == g[StSoftirq] && c[StSteal] == g[StSteal]
      && c[StGuest] == g[StGuest] && c[StGuestNice] == g[StGuestNice]
  {
    var ps := StagesAsWritten(cfg, l);
    assert ps == [(StSystem, V(l, 2)), (StIdle, V(l, 3)), (StUser, V(l, 0)), (StNice, V(l, 1))];
    LastForLast(ps, 0, StSystem);
    LastForLast(ps, 1, StIdle);
    LastForLast(ps, 2, StUser);
    LastForLast(ps, 3, StNice);
    forall st | st in {StWait, StInterrupt, StSoftirq, StSteal, StGuest, StGuestNice}
      ensures LastFor(ps, st).None?
    {
      LastForAbsent(ps, st);
    }
  }


  /** The lines of one read, in order: the CPU count seen covers every CPU
      line and is either the count before or one past some line's CPU; a
      CPU that no line names keeps its slots. */
  function ReadLines(cfg: Config, s: State, ls: seq<Line>): (r: State)
    ensures r.cpuSeen >= s.cpuSeen && |r.cpus| >= |s.cpus|
    ensures s.cpuSeen <= |s.cpus| ==> r.cpuSeen <= |r.cpus|
    ensures forall k :: 0 <= k < |ls| && IsCpuLine(ls[k].text) ==> r.cpuSeen > CpuIndex(ls[k].text)
    ensures r.cpuSeen == s.cpuSeen
         || exists k :: 0 <= k < |ls| && IsCpuLine(ls[k].text) && r.cpuSeen == CpuIndex(ls[k].text) + 1
    ensures forall c :: 0 <= c < |r.cpus| && Untouched(ls, c) ==> r.cpus[c] == Grow(s.cpus, |r.cpus|)[c]
    decreases |ls|
  {
    if ls == [] then s
    else
      var s1 := ReadLine(cfg, s, ls[0]);
      var r := ReadLines(cfg, s1, ls[1..]);
      assert forall k :: 1 <= k < |ls| ==> ls[k] == ls[1..][k - 1];
      assert forall c :: Untouched(ls, c) ==> Untouched(ls[1..], c);
      r
  }

  /** No CPU line among `ls` is for CPU `c`. */
  predicate Untouched(ls: seq<Line>, c: nat) {
    forall k :: 0 <= k < |ls| && IsCpuLine(ls[k].text) ==> CpuIndex(ls[k].text) != c
  }

  /** A value committed by the raw path: the CPU, the state and the last
      reading. */
  datatype Raw = Raw(cpu: nat, state: nat, value: U64)

  /** `commitDeriveRaw`: for every state below "active", and within it every
      CPU seen, the last reading of each slot that has a value. */
  function CommitRaw(s: State): (out: seq<Raw>)
    requires s.cpuSeen <= |s.cpus|
    ensures forall k :: 0 <= k < |out| ==> (
      out[k].cpu < s.cpuSeen && out[k].state < StActive
      && s.cpus[out[k].cpu][out[k].state].hasValue
      && out[k].value == s.cpus[out[k].cpu][out[k].state].lastRaw)
  {
    CommitStates(s, 0)
  }

  function CommitStates(s: State, st: nat): (out: seq<Raw>)
    requires s.cpuSeen <= |s.cpus| && st <= StActive
    ensures forall k :: 0 <= k < |out| ==> (
      out[k].cpu < s.cpuSeen && st <= out[k].state < StActive
      && s.cpus[out[k].cpu][out[k].state].hasValue
      && out[k].value == s.cpus[out[k].cpu][out[k].state].lastRaw)
    decreases StActive - st
  {
    if st == StActive then [] else CommitCpus(s, st, 0) + CommitStates(s, st + 1)
  }

  function CommitCpus(s: State, st: nat, c: nat): (out: seq<Raw>)
    requires s.cpuSeen <= |s.cpus| && st < StActive && c <= s.cpuSeen
    ensures forall k :: 0 <= k < |out| ==> (
      c <= out[k].cpu < s.cpuSeen && out[k].state == st
      && s.cpus[out[k].cpu][st].hasValue && out[k].value == s.cpus[out[k].cpu][st].lastRaw)
    ensures forall x :: c <= x < s.cpuSeen && s.cpus[x][st].hasValue ==>
      Raw(x, st, s.cpus[x][st].lastRaw) in out
    decreases s.cpuSeen - c
  {
    if c == s.cpuSeen then []
    else
      var rest := CommitCpus(s, st, c + 1);
      (if s.cpus[c][st].hasValue then [Raw(c, st, s.cpus[c][st].lastRaw)] else []) + rest
  }

  /** `resetIteration`: every slot of every CPU seen loses its value and the
      count of CPUs seen returns to 0. */
  function Reset(s: State): (r: State)
    ensures r.cpuSeen == 0 && |r.cpus| == |s.cpus|
    ensures forall c, st :: 0 <= c < |s.cpus| && 0 <= st < StMaxState ==>
      r.cpus[c][st] == (if c < s.cpuSeen then s.cpus[c][st].(hasValue := false) else s.cpus[c][st])
  {
    State(seq(|s.cpus|, c requires 0 <= c < |s.cpus| =>
            if c < s.cpuSeen then Cleared(s.cpus[c]) else s.cpus[c]), 0)
  }

  function Cleared(p: PerCpu): (r: PerCpu)
    ensures forall st :: 0 <= st < StMaxState ==> r[st] == p[st].(hasValue := false)
  {
    seq(StMaxState, st requires 0 <= st < StMaxState => p[st].(hasValue := false))
  }

  /** What a read commits: the number of CPUs seen when asked for, then the
      raw readings, or the percentage computation over the slots (floating
      point, outside the model) together with the slots it reads. */
  datatype Commit = Commit(numCpu: Option<nat>, raw: Option<seq<Raw>>, percentOver: Option<seq<PerCpu>>)

  /** Between reads no slot has a value and no CPU counts as seen. */
  predicate Quiet(s: State) {
    s.cpuSeen == 0 && forall c, st :: 0 <= c < |s.cpus| && 0 <= st < StMaxState ==> !s.cpus[c][st].hasValue
  }

  /** `read`: -1 when the table cannot be opened; otherwise the CPU lines
      are staged, the commit is chosen by the configuration and the
      iteration is reset. */
  function Read(cfg: Config, s: State, table: Option<seq<Line>>): (r: (int, State, Commit))
    requires s.cpuSeen <= |s.cpus|
    ensures table.None? ==> r.0 == -1 && r.1 == s
    ensures table.Some? ==> r.0 == 0 && r.1.cpuSeen == 0
    ensures table.Some? ==> (r.2.raw.Some? <==> cfg.byState && cfg.byCpu && !cfg.percent)
    ensures table.Some? ==> (r.2.percentOver.Some? <==> r.2.raw.None?)
    ensures r.2.numCpu.Some? ==> cfg.numCpu
    ensures table.Some? ==> var t := ReadLines(cfg, s, table.value);
      (cfg.numCpu ==> r.2.numCpu == Some(t.cpuSeen))
      && (r.2.raw.Some? ==> r.2.raw.value == CommitRaw(t))
      && (r.2.percentOver.Some? ==> r.2.percentOver.value == t.cpus)
  {
    if table.None? then (-1, s, Commit(None, None, None))
    else
      var t := ReadLines(cfg, s, table.value);
      var n := if cfg.numCpu then Some(t.cpuSeen) else None;
      var c := if cfg.byState && cfg.byCpu && !cfg.percent then Commit(n, Some(CommitRaw(t)), None)
               else Commit(n, None, Some(t.cpus));
      (0, Reset(t), c)
  }

  /** Staging only sets values on the CPU staged: every slot with a value
      after a line belongs to a CPU seen, if all did before. */
  lemma {:induction false} ValuesOnlyOnSeen(cfg: Config, s: State, ls: seq<Line>)
    requires forall c, st :: 0 <= c < |s.cpus| && 0 <= st < StMaxState && s.cpus[c][st].hasValue ==> c < s.cpuSeen
    ensures forall c, st :: (0 <= c < |ReadLines(cfg, s, ls).cpus| && 0 <= st < StMaxState
      && ReadLines(cfg, s, ls).cpus[c][st].hasValue) ==> c < ReadLines(cfg, s, ls).cpuSeen
    decreases |ls|
  {
    if ls != [] {
      var s1 := ReadLine(cfg, s, ls[0]);
      if IsCpuLine(ls[0].text) {
        var idx := CpuIndex(ls[0].text);
        forall c, st | 0 <= c < |s1.cpus| && 0 <= st < StMaxState && s1.cpus[c][st].hasValue
          ensures c < s1.cpuSeen
        {
          if c != idx {
            var g := Grow(s.cpus, idx + 1);
            assert s1.cpus[c] == Grow(g, idx + 1)[c] == g[c];
            if c >= |s.cpus| {
              assert g[c] == FreshCpu();
            }
          }
        }
      }
      assert forall c, st :: 0 <= c < |s1.cpus| && 0 <= st < StMaxState && s1.cpus[c][st].hasValue ==> c < s1.cpuSeen;
      ValuesOnlyOnSeen(cfg, s1, ls[1..]);
      assert ReadLines(cfg, s, ls) == ReadLines(cfg, s1, ls[1..]);
    }
  }

  /** Every read leaves the module quiet again: the reset reaches every slot
      the read gave a value. */
  lemma ReadEndsQuiet(cfg: Config, s: State, ls: seq<Line>)
    requires Quiet(s)
    ensures Quiet(Read(cfg, s, Some(ls)).1)
  {
    ValuesOnlyOnSeen(cfg, s, ls);
    var t := ReadLines(cfg, s, ls);
    var r := Reset(t);
    assert r == Read(cfg, s, Some(ls)).1;
    forall c, st | 0 <= c < |r.cpus| && 0 <= st < StMaxState
      ensures !r.cpus[c][st].hasValue
    {
      if c >= t.cpuSeen {
        assert !t.cpus[c][st].hasValue;
      }
    }
  }

  /** In raw mode every slot staged twice with a non-falling, non-zero
      reading is committed with its reading. */
  lemma RawCommitsEveryValue(s: State, c: nat, st: nat)
    requires s.cpuSeen <= |s.cpus| && c < s.cpuSeen && st < StActive && s.cpus[c][st].hasValue
    ensures Raw(c, st, s.cpus[c][st].lastRaw) in CommitRaw(s)
  {
    CommitStatesContains(s, 0, c, st);
  }

  lemma {:induction false} CommitStatesContains(s: State, from: nat, c: nat, st: nat)
    requires s.cpuSeen <= |s.cpus| && from <= st < StActive && c < s.cpuSeen && s.cpus[c][st].hasValue
    ensures Raw(c, st, s.cpus[c][st].lastRaw) in CommitStates(s, from)
    decreases StActive - from
  {
    var x := Raw(c, st, s.cpus[c][st].lastRaw);
    if from == st {
      assert x in CommitCpus(s, st, 0);
    } else {
      CommitStatesContains(s, from + 1, c, st);
    }
  }
}

=== FILE: csv.dfy ===
/** The CSV writer plugin: its configuration, the output path of a value
    list, and what one write does — a PUTVAL line on a standard stream or a
    line appended to a per-identifier (and optionally per-day) file. */
module Csv {
  import opened Wrappers
  import opened Text

  /** The plugin's settings; at most one of the two stream flags is set. */
  datatype Config = Config(useStdout: bool, useStderr: bool, dataDir: string,
                           storeRates: bool, withDate: bool)

  /** The defaults before `config`: no stream, the default directory, no
      rates, and one file per day. */
  const Initial: Config := Config(false, false, "", false, true)

  /** `rstripSlash`: drops every trailing '/'. */
  function RStripSlash(s: string): (r: string)
    ensures |r| <= |s| && r == s[..|r|]
    ensures forall i :: |r| <= i < |s| ==> s[i] == '/'
    ensures r == [] || r[|r| - 1] != '/'
  {
    TrimRight(s, c => c == '/')
  }

  /** A string that does not end in '/' is kept as it is. */
  lemma RStripSlashKeeps(s: string)
    requires s == [] || s[|s| - 1] != '/'
    ensures RStripSlash(s) == s
  {
    assert SkipRight(s, c => c == '/', 0, |s|) == |s|;
  }

  /** Stripping twice strips nothing more. */
  lemma RStripSlashIdempotent(s: string)
    ensures RStripSlash(RStripSlash(s)) == RStripSlash(s)
  {
    RStripSlashKeeps(RStripSlash(s));
  }

  /** Trailing slashes added to a stripped directory are stripped again. */
  lemma RStripSlashAppended(s: string, n: nat)
    ensures RStripSlash(RStripSlash(s) + seq(n, _ => '/')) == RStripSlash(s)
  {
    var r := RStripSlash(s);
    var t := r + seq(n, _ => '/');
    assert forall i :: |r| <= i < |t| ==> t[i] == '/';
    assert r != [] ==> t[|r| - 1] != '/';
    assert t[..|r|] == r;
  }

  /** `config`: "DataDir" resets both stream flags and the directory, then
      selects stdout or stderr (any case) or the directory with trailing
      slashes removed; "StoreRates" and "FileDate" read a boolean; any other
      key is refused with -1. Keys are compared ignoring case. */
  function Configure(c: Config, key: string, val: string): (r: (int, Config))
    ensures r.0 == -1 <==> !(EqualsIgnoreCase(key, "DataDir") || EqualsIgnoreCase(key, "StoreRates")
                             || EqualsIgnoreCase(key, "FileDate"))
    ensures r.0 == -1 ==> r.1 == c
    ensures EqualsIgnoreCase(key, "DataDir") ==> (
      r.1.storeRates == c.storeRates && r.1.withDate == c.withDate
      && r.1.useStdout == EqualsIgnoreCase(val, "stdout")
      && r.1.useStderr == (!EqualsIgnoreCase(val, "stdout") && EqualsIgnoreCase(val, "stderr"))
      && r.1.dataDir == (if r.1.useStdout || r.1.useStderr then "" else RStripSlash(val)))
    ensures !EqualsIgnoreCase(key, "DataDir") && EqualsIgnoreCase(key, "StoreRates") ==>
      r.1 == c.(storeRates := IsTrue(val))
    ensures !EqualsIgnoreCase(key, "DataDir") && !EqualsIgnoreCase(key, "StoreRates")
            && EqualsIgnoreCase(key, "FileDate") ==>
      r.1 == c.(withDate := IsTrue(val))
  {
    if EqualsIgnoreCase(key, "DataDir") then
      var cleared := c.(useStdout := false, useStderr := false, dataDir := "");
      if EqualsIgnoreCase(val, "stdout") then (0, cleared.(useStdout := true))
      else if EqualsIgnoreCase(val, "stderr") then (0, cleared.(useStderr := true))
      else (0, cleared.(dataDir := RStripSlash(val)))
    else if EqualsIgnoreCase(key, "StoreRates") then (0, c.(storeRates := IsTrue(val)))
    else if EqualsIgnoreCase(key, "FileDate") then (0, c.(withDate := IsTrue(val)))
    else (-1, c)
  }

  /** What configuration keeps: never both streams, and a directory only
      when writing to files, without a trailing slash. */
  predicate Valid(c: Config) {
    !(c.useStdout && c.useStderr)
    && (c.dataDir != [] ==> !c.useStdout && !c.useStderr && c.dataDir[|c.dataDir| - 1] != '/')
  }

  /** Every configuration step keeps the settings valid. */
  lemma ConfigureKeepsValid(c: Config, key: string, val: string)
    requires Valid(c)
    ensures Valid(Configure(c, key, val).1)
  {
  }

  /** The last "DataDir" wins: an earlier one leaves no trace. */
  lemma DataDirLastWins(c: Config, a: string, b: string)
    ensures Configure(Configure(c, "DataDir", a).1, "DataDir", b).1 == Configure(c, "DataDir", b).1
  {
  }

  /** `vlToPath`: the formatted identifier (`ident`, None when formatting
      fails) under the data directory, with the date suffix (`date`, None
      when the local time cannot be had or formatted) appended only when
      writing to files with dates on. */
  function Path(c: Config, ident: Option<string>, date: Option<string>): (r: Option<string>)
    ensures ident.None? ==> r.None?
    ensures ident.Some? && (c.useStdout || c.useStderr || !c.withDate) ==> r == Some(Prefix(c) + ident.value)
    ensures ident.Some? && !(c.useStdout || c.useStderr || !c.withDate) ==>
      r == (if date.None? then None else Some(Prefix(c) + ident.value + date.value))
  {
    if ident.None? then None
    else
      var path := Prefix(c) + ident.value;
      if c.useStdout || c.useStderr || !c.withDate then Some(path)
      else if date.None? then None
      else Some(path + date.value)
  }

  /** The directory part of a path: the data directory and a '/', or
      nothing. */
  function Prefix(c: Config): (r: string)
    ensures c.dataDir == [] ==> r == []
    ensures c.dataDir != [] ==> |r| == |c.dataDir| + 1 && r[..|c.dataDir|] == c.dataDir && r[|c.dataDir|] == '/'
  {
    if c.dataDir == [] then [] else c.dataDir + "/"
  }

  /** A path from a valid configuration has exactly one '/' between the
      directory and the identifier. */
  lemma PathJoinsOnce(c: Config, ident: string)
    requires Valid(c) && c.dataDir != [] && !c.withDate
    ensures var p := Path(c, Some(ident), None).value;
      p[|c.dataDir|] == '/' && p[|c.dataDir| - 1] != '/'
  {
  }

  /** The PUTVAL rewrite: every ',' of the value line becomes ':'. */
  function ToColons(line: string): (r: string)
    ensures |r| == |line|
    ensures forall i :: 0 <= i < |line| ==> r[i] == (if line[i] == ',' then ':' else line[i])
  {
    seq(|line|, i requires 0 <= i < |line| => if line[i] == ',' then ':' else line[i])
  }

  /** No ',' is left after the rewrite, a second rewrite changes nothing,
      and a line without ',' is kept as it is. */
  lemma ToColonsProperties(line: string)
    ensures forall i :: 0 <= i < |line| ==> ToColons(line)[i] != ','
    ensures ToColons(ToColons(line)) == ToColons(line)
    ensures (forall i :: 0 <= i < |line| ==> line[i] != ',') ==> ToColons(line) == line
  {
  }

  /** A data set or value list reduced to what the write checks. */
  datatype Typed = Typed(typ: string)

  /** What one write does. */
  datatype Outcome =
    | Failed
    | Stream(toStderr: bool, text: string)
    | Appended(path: string, text: string)

  /** `write`: -1 (Failed) for a missing data set or value list, for types
      that differ, or when the value line cannot be rendered. On a stream,
      a PUTVAL line carrying the escaped identifier, the interval and the
      value line with ':' for ','. Otherwise the line is appended to the
      file at `Path`, when the path, the file and its lock can be had.
      The rendered value line, the identifier, its escaped form, the
      interval text, the date suffix and the file operations' success are
      parameters. */
  function Write(c: Config, ds: Option<Typed>, vl: Option<Typed>, line: Option<string>,
                 ident: Option<string>, escape: string -> string, interval: string,
                 date: Option<string>, fileOk: bool): (r: Outcome)
    ensures (ds.None? || vl.None? || ds.value.typ != vl.value.typ || line.None?) ==> r == Failed
    ensures r.Stream? <==> (c.useStdout || c.useStderr) && r != Failed
    ensures r.Stream? ==> (
      r.toStderr == !c.useStdout && ident.Some?
      && r.text == "PUTVAL " + escape(ident.value) + " interval=" + interval + " " + ToColons(line.value) + "\n")
    ensures r.Appended? ==> (
      fileOk && Path(c, ident, date) == Some(r.path) && r.text == line.value + "\n")
    ensures r == Failed && !(c.useStdout || c.useStderr) && ds.Some? && vl.Some?
            && ds.value.typ == vl.value.typ && line.Some? ==>
      Path(c, ident, date).None? || !fileOk
  {
    if ds.None? || vl.None? || ds.value.typ != vl.value.typ then Failed
    else if line.None? then Failed
    else if c.useStdout || c.useStderr then
      if ident.None? then Failed
      else Stream(!c.useStdout,
                  "PUTVAL " + escape(ident.value) + " interval=" + interval + " " + ToColons(line.value) + "\n")
    else match Path(c, ident, date)
      case None => Failed
      case Some(p) => if fileOk then Appended(p, line.value + "\n") else Failed
  }

  /** With a valid configuration, a write that succeeds either prints a
      line with no ',' in its values or appends to a file under the data
      directory. */
  lemma WriteSucceeds(c: Config, t: Typed, line: string, ident: string,
                      escape: string -> string, interval: string, date: string)
    requires Valid(c)
    ensures var r := Write(c, Some(t), Some(t), Some(line), Some(ident), escape, interval, Some(date), true);
      r != Failed
      && (r.Appended? ==> r.path[..|Prefix(c)|] == Prefix(c))
  {
  }
}

=== FILE: df.dfy ===
/** The `df` read plugin: configuration keys, the per-mount selection (ignore
    lists, duplicate mounts, empty file systems), the derivation of the
    reported name, and the block and inode figures it dispatches. */
module Df {
  import opened Wrappers
  import opened Text
  import opened Fixed
  import opened IgnoreLists

  /** `DATA_MAX_NAME_LEN`: names are copied into buffers of this size. */
  const NameLen: nat := 64

  /** The keys announced to the configuration layer, in declaration order. */
  const ConfigKeys: seq<string> := ["Device", "MountPoint", "FSType",
    "IgnoreSelected", "ReportByDevice", "ReportInodes",
    "ValuesAbsolute", "ValuesPercentage", "LogOnce"]

  datatype Config = Config(
    device: IgnoreList, mountPoint: IgnoreList, fsType: IgnoreList,
    byDevice: bool, reportInodes: bool,
    valuesAbsolute: bool, valuesPercentage: bool, logOnce: bool)

  /** The state after `df_init`: empty inverted lists, absolute values on. */
  const Initial: Config := Config(
    IgnoreList([], true), IgnoreList([], true), IgnoreList([], true),
    false, false, true, false, false)

  /** `df_config(key, value)`: the return code and the new configuration. */
  function Configure(c: Config, key: string, value: string, addOk: bool): (r: (int, Config))
    ensures r.0 == -1 <==> !Known(key)
    ensures r.0 == -1 ==> r.1 == c
    ensures EqualsIgnoreCase(key, "IgnoreSelected") ==>
      r.0 == 0 && r.1.device.invert == !IsTrue(value)
      && r.1.mountPoint.invert == !IsTrue(value) && r.1.fsType.invert == !IsTrue(value)
      && r.1.device.entries == c.device.entries
      && r.1.mountPoint.entries == c.mountPoint.entries
      && r.1.fsType.entries == c.fsType.entries
    ensures EqualsIgnoreCase(key, "ReportByDevice") ==> r.0 == 0 && r.1 == c.(byDevice := IsTrue(value))
    ensures EqualsIgnoreCase(key, "ReportInodes") ==> r.0 == 0 && r.1 == c.(reportInodes := IsTrue(value))
    ensures EqualsIgnoreCase(key, "ValuesAbsolute") ==> r.0 == 0 && r.1 == c.(valuesAbsolute := IsTrue(value))
    ensures EqualsIgnoreCase(key, "ValuesPercentage") ==> r.0 == 0 && r.1 == c.(valuesPercentage := IsTrue(value))
    ensures EqualsIgnoreCase(key, "LogOnce") ==> r.0 == 0 && r.1 == c.(logOnce := IsTrue(value))
  {
    if EqualsIgnoreCase(key, "Device") then
      var (rc, l) := Add(c.device, value, addOk); (rc, c.(device := l))
    else if EqualsIgnoreCase(key, "MountPoint") then
      var (rc, l) := Add(c.mountPoint, value, addOk); (rc, c.(mountPoint := l))
    else if EqualsIgnoreCase(key, "FSType") then
      var (rc, l) := Add(c.fsType, value, addOk); (rc, c.(fsType := l))
    else if EqualsIgnoreCase(key, "IgnoreSelected") then
      var inv := !IsTrue(value);
      assert LowerStr(key)[0] == 'i' != LowerStr("ReportByDevice")[0];
      (0, c.(device := c.device.(invert := inv), mountPoint := c.mountPoint.(invert := inv),
             fsType := c.fsType.(invert := inv)))
    else if EqualsIgnoreCase(key, "ReportByDevice") then (0, c.(byDevice := IsTrue(value)))
    else if EqualsIgnoreCase(key, "ReportInodes") then (0, c.(reportInodes := IsTrue(value)))
    else if EqualsIgnoreCase(key, "ValuesAbsolute") then (0, c.(valuesAbsolute := IsTrue(value)))
    else if EqualsIgnoreCase(key, "ValuesPercentage") then (0, c.(valuesPercentage := IsTrue(value)))
    else if EqualsIgnoreCase(key, "LogOnce") then (0, c.(logOnce := IsTrue(value)))
    else (-1, c)
  }

  /** The keys `df_config` acts on, compared as `strcasecmp` does. */
  predicate Known(key: string) {
    EqualsIgnoreCase(key, "Device") || EqualsIgnoreCase(key, "MountPoint")
    || EqualsIgnoreCase(key, "FSType") || EqualsIgnoreCase(key, "IgnoreSelected")
    || EqualsIgnoreCase(key, "ReportByDevice") || EqualsIgnoreCase(key, "ReportInodes")
    || EqualsIgnoreCase(key, "ValuesAbsolute") || EqualsIgnoreCase(key, "ValuesPercentage")
    || EqualsIgnoreCase(key, "LogOnce")
  }

  /** The keys acted on are exactly the announced keys. */
  lemma KnownIsAnnounced(key: string)
    ensures Known(key) <==> (exists i :: 0 <= i < |ConfigKeys| && EqualsIgnoreCase(key, ConfigKeys[i]))
  {
    if Known(key) {
      var i := if EqualsIgnoreCase(key, "Device") then 0
        else if EqualsIgnoreCase(key, "MountPoint") then 1
        else if EqualsIgnoreCase(key, "FSType") then 2
        else if EqualsIgnoreCase(key, "IgnoreSelected") then 3
        else if EqualsIgnoreCase(key, "ReportByDevice") then 4
        else if EqualsIgnoreCase(key, "ReportInodes") then 5
        else if EqualsIgnoreCase(key, "ValuesAbsolute") then 6
        else if EqualsIgnoreCase(key, "ValuesPercentage") then 7
        else 8;
      assert EqualsIgnoreCase(key, ConfigKeys[i]);
    }
  }

  /** One entry of the mount table. */
  datatype Mount = Mount(specDevice: Option<string>, device: string, dir: string, fsType: string)

  /** The device a mount is filtered and named by. */
  function Dev(m: Mount): (r: string)
    ensures m.specDevice.None? ==> r == m.device
    ensures m.specDevice.Some? ==> r == m.specDevice.value
  {
    if m.specDevice.Some? then m.specDevice.value else m.device
  }

  /** Whether `b` counts as the same file system as `a` for duplicate
      suppression: equal mount points, or, when reporting by device, equal
      non-null spec devices. */
  predicate SameKind(a: Mount, b: Mount, byDevice: bool) {
    if byDevice then a.specDevice.Some? && b.specDevice.Some? && a.specDevice.value == b.specDevice.value
    else a.dir == b.dir
  }

  /** The backward search for a duplicate: the index of the first earlier
      mount (ignored or not) of the same kind as mount `i`, if any. */
  function FindDuplicate(ms: seq<Mount>, i: nat, j: nat, byDevice: bool): (r: Option<nat>)
    requires j <= i < |ms|
    ensures r.Some? ==> (j <= r.value < i && SameKind(ms[i], ms[r.value], byDevice)
        && (forall k :: j <= k < r.value ==> !SameKind(ms[i], ms[k], byDevice)))
    ensures r.None? ==> forall k :: j <= k < i ==> !SameKind(ms[i], ms[k], byDevice)
    decreases i - j
  {
    if j == i then None
    else if SameKind(ms[i], ms[j], byDevice) then Some(j)
    else FindDuplicate(ms, i, j + 1, byDevice)
  }

  /** `s` with every '/' turned into '-'. */
  function Dashes(s: string): (r: string)
    ensures |r| == |s|
    ensures forall k :: 0 <= k < |s| ==> r[k] == (if s[k] == '/' then '-' else s[k])
  {
    if s == [] then [] else [if s[0] == '/' then '-' else s[0]] + Dashes(s[1..])
  }

  /** Name of a mount when reporting by mount point: "/" is "root",
      otherwise the directory without its first character, with '/' as '-'. */
  function MountName(dir: string): (r: string)
    requires dir != []
    ensures dir == "/" ==> r == "root"
    ensures dir != "/" ==> (|r| == Min(|dir| - 1, NameLen - 1)
        && (forall k :: 0 <= k < |r| ==> r[k] == (if dir[k + 1] == '/' then '-' else dir[k + 1])))
    ensures '/' !in r
  {
    if dir == "/" then "root" else Dashes(Truncate(dir[1..], NameLen))
  }

  /** Name of a mount when reporting by device: a leading "/dev/" dropped. */
  function DeviceName(dev: string): (r: string)
    ensures |dev| >= 5 && dev[..5] == "/dev/" ==> r == Truncate(dev[5..], NameLen)
    ensures !(|dev| >= 5 && dev[..5] == "/dev/") ==> r == Truncate(dev, NameLen)
    ensures |r| < NameLen
  {
    if EqualsUpTo(dev, "/dev/", 5) then Truncate(dev[5..], NameLen) else Truncate(dev, NameLen)
  }

  /** A device under "/dev/" with a short name is reported by that name. */
  lemma DeviceNameUnderDev(name: string)
    requires |name| < NameLen
    ensures DeviceName("/dev/" + name) == name
  {
    assert ("/dev/" + name)[5..] == name;
  }

  /** A one-level mount point with a short name is reported without its
      slash, and a nested one with its inner slashes turned into dashes. */
  lemma MountNameOfPath(a: string, b: string)
    requires '/' !in a && '/' !in b && a != [] && |a| + 1 + |b| < NameLen
    ensures MountName("/" + a) == a
    ensures MountName("/" + a + "/" + b) == a + "-" + b
  {
    var d1 := "/" + a;
    assert d1 != "/";
    assert forall k :: 0 <= k < |a| ==> d1[k + 1] == a[k];
    var d2 := "/" + a + "/" + b;
    assert d2 != "/";
    var r := MountName(d2);
    assert |r| == |a + "-" + b|;
    forall k | 0 <= k < |r| ensures r[k] == (a + "-" + b)[k] {
      assert d2[k + 1] == ("" + a + "/" + b)[k];
    }
  }

  /** What `statvfs` reports about a file system. */
  datatype StatVfs = StatVfs(frsize: U64, blocks: U64, bfree: U64, bavail: U64,
                             files: U64, ffree: U64, favail: U64)

  /** A (total, free, available) triple split into free, reserved and used. */
  datatype Split = Split(free: U64, reserved: U64, used: U64)

  /** The clamping and split exactly as the plugin writes it: `avail` is
      lowered to `free` first and `free` to `total` afterwards, so a lowered
      `free` can end below `avail` and the reserved count wraps. */
  function SplitAsWritten(total: U64, free: U64, avail: U64): (r: Split)
    ensures (r.free + r.reserved + r.used) % TwoTo64 == total
  {
    var a := if avail > free then free else avail;
    var f := if free > total then total else free;
    Split(a, Sub64(f, a), Sub64(total, f))
  }

  /** Total 5, free 10, available 8: available survives the first clamp and
      free drops to 5 below it, so "reserved" becomes 2^64 - 3. */
  lemma SplitAsWrittenWraps()
    ensures SplitAsWritten(5, 10, 8).reserved == TwoTo64 - 3
    ensures SplitAsWritten(5, 10, 8).free > 5
  {
  }

  /** The clamping the comments promise (available <= free <= total): clamp
      `free` to `total` first, then `avail` to the clamped `free`. */
  function SplitClamped(total: U64, free: U64, avail: U64): (r: Split)
    ensures r.free <= r.free + r.reserved <= total
    ensures r.free + r.reserved + r.used == total
    ensures avail <= free <= total ==> r == Split(avail, free - avail, total - free)
  {
    var f := if free > total then total else free;
    var a := if avail > f then f else avail;
    Split(a, f - a, total - f)
  }

  /** The two agree whenever free does not exceed total; only there the
      order of the clamps matters. */
  lemma SplitAgreesWhenFreeFits(total: U64, free: U64, avail: U64)
    requires free <= total
    ensures SplitAsWritten(total, free, avail) == SplitClamped(total, free, avail)
  {
  }

  /** A gauge dispatched by the plugin: an exact count, or the percentage
      `100 * part / whole` computed in floating point. */
  datatype Gauge = Count(n: int) | Percent(part: int, whole: int)

  datatype Value = Value(pluginInstance: string, typ: string, typeInstance: string, gauge: Gauge)

  /** Three values, "free", "reserved" and "used", of one type. */
  function Triple(name: string, typ: string, f: Gauge, r: Gauge, u: Gauge): (vs: seq<Value>)
    ensures |vs| == 3
    ensures vs[0].typeInstance == "free" && vs[1].typeInstance == "reserved" && vs[2].typeInstance == "used"
    ensures forall k :: 0 <= k < 3 ==> vs[k].pluginInstance == name && vs[k].typ == typ
    ensures vs[0].gauge == f && vs[1].gauge == r && vs[2].gauge == u
  {
    [Value(name, typ, "free", f), Value(name, typ, "reserved", r), Value(name, typ, "used", u)]
  }

  /** The type instance at position `k` of a run of triples. */
  function TripleName(k: nat): string {
    if k % 3 == 0 then "free" else if k % 3 == 1 then "reserved" else "used"
  }

  /** Whole triples of values, all under `name`, each free, reserved, used. */
  predicate Grouped(vs: seq<Value>, name: string) {
    |vs| % 3 == 0
    && forall k :: 0 <= k < |vs| ==> vs[k].pluginInstance == name && vs[k].typeInstance == TripleName(k)
  }

  lemma GroupedConcat(a: seq<Value>, b: seq<Value>, name: string)
    requires Grouped(a, name) && Grouped(b, name)
    ensures Grouped(a + b, name)
  {
    forall k | |a| <= k < |a + b| ensures (a + b)[k].typeInstance == TripleName(k) {
      var j := k - |a|;
      assert (a + b)[k] == b[j];
      assert |a| == 3 * (|a| / 3);
      assert k == 3 * (|a| / 3) + j;
      assert k % 3 == j % 3;
    }
  }

  /** The number of values a file system reports: a triple per enabled kind
      (absolute, percentage), for blocks and, when asked and present, for
      inodes. */
  function ValueCount(c: Config, st: StatVfs): nat {
    var kinds := (if c.valuesAbsolute then 3 else 0) + (if c.valuesPercentage then 3 else 0);
    kinds + (if c.reportInodes && st.files != 0 then kinds else 0)
  }

  lemma TripleGrouped(name: string, typ: string, f: Gauge, r: Gauge, u: Gauge)
    ensures Grouped(Triple(name, typ, f, r, u), name)
  {
    var vs := Triple(name, typ, f, r, u);
    assert TripleName(0) == "free" && TripleName(1) == "reserved" && TripleName(2) == "used";
  }

  /** The triples of one split (blocks or inodes): absolute counts scaled by
      `scale` under `absType`, then percentages of `whole` under `pctType`,
      each when enabled. */
  function KindValues(c: Config, name: string, absType: string, pctType: string,
                      sp: Split, scale: nat, whole: nat): (vs: seq<Value>)
    ensures |vs| == (if c.valuesAbsolute then 3 else 0) + (if c.valuesPercentage then 3 else 0)
    ensures Grouped(vs, name)
    ensures forall k :: 0 <= k < |vs| ==> vs[k].typ == (if c.valuesAbsolute && k < 3 then absType else pctType)
    ensures forall k :: 0 <= k < |vs| && vs[k].gauge.Percent? ==> vs[k].gauge.whole == whole
  {
    var abs := if c.valuesAbsolute then
        Triple(name, absType, Count(sp.free * scale), Count(sp.reserved * scale), Count(sp.used * scale))
      else [];
    var pct := if c.valuesPercentage then
        Triple(name, pctType, Percent(sp.free, whole), Percent(sp.reserved, whole), Percent(sp.used, whole))
      else [];
    TripleGrouped(name, absType, Count(sp.free * scale), Count(sp.reserved * scale), Count(sp.used * scale));
    TripleGrouped(name, pctType, Percent(sp.free, whole), Percent(sp.reserved, whole), Percent(sp.used, whole));
    GroupedConcat(abs, pct, name);
    abs + pct
  }

  /** The values of one file system already accepted under `name`: whole
      triples under that name, as many as the enabled kinds ask for, block
      figures before inode figures; percentages are taken of the block or
      inode total. */
  function FsValues(c: Config, name: string, st: StatVfs): (vs: seq<Value>)
    requires st.blocks != 0 && st.frsize != 0
    ensures |vs| == ValueCount(c, st) && Grouped(vs, name)
    ensures forall k :: 0 <= k < |vs| && vs[k].gauge.Percent? ==>
              vs[k].gauge.whole == st.blocks || vs[k].gauge.whole == st.files
  {
    var bytes := KindValues(c, name, "df_complex", "percent_bytes",
                            SplitAsWritten(st.blocks, st.bfree, st.bavail), st.frsize, st.blocks);
    var inodes := if c.reportInodes && st.files != 0 then
        KindValues(c, name, "df_inodes", "percent_inodes", SplitAsWritten(st.files, st.ffree, st.favail), 1, st.files)
      else [];
    GroupedConcat(bytes, inodes, name);
    bytes + inodes
  }

  /** The name a mount is reported under. */
  function ReportName(c: Config, m: Mount): string
    requires m.dir != []
  {
    if c.byDevice then DeviceName(Dev(m)) else MountName(m.dir)
  }

  /** Mount `i` passes every check of `df_read`: no list ignores it, no
      earlier mount has its kind, `statvfs` succeeds with blocks and a block
      size, and a device name is not empty. */
  predicate Reports(c: Config, ignored: Matcher, stat: string -> Option<StatVfs>, ms: seq<Mount>, i: nat)
    requires i < |ms| && ms[i].dir != []
  {
    !ignored(c.device, Dev(ms[i])) && !ignored(c.mountPoint, ms[i].dir) && !ignored(c.fsType, ms[i].fsType)
    && FindDuplicate(ms, i, 0, c.byDevice).None?
    && stat(ms[i].dir).Some? && stat(ms[i].dir).value.blocks != 0 && stat(ms[i].dir).value.frsize != 0
    && (c.byDevice ==> ReportName(c, ms[i]) != [])
  }

  /** The values `df_read` dispatches for mount `i` of the table; `stat`
      gives `statvfs` of a directory, `None` when the call fails. */
  function MountValues(c: Config, ignored: Matcher, stat: string -> Option<StatVfs>,
                       ms: seq<Mount>, i: nat): (vs: seq<Value>)
    requires i < |ms| && ms[i].dir != []
    ensures Reports(c, ignored, stat, ms, i) ==>
      vs == FsValues(c, ReportName(c, ms[i]), stat(ms[i].dir).value)
    ensures !Reports(c, ignored, stat, ms, i) ==> vs == []
    ensures Grouped(vs, ReportName(c, ms[i]))
  {
    var m := ms[i];
    if ignored(c.device, Dev(m)) || ignored(c.mountPoint, m.dir) || ignored(c.fsType, m.fsType) then []
    else if FindDuplicate(ms, i, 0, c.byDevice).Some? then []
    else if stat(m.dir).None? then []
    else
      var st := stat(m.dir).value;
      if st.blocks == 0 then []
      else
        var name := ReportName(c, m);
        if c.byDevice && name == [] then []
        else if st.frsize == 0 then []
        else FsValues(c, name, st)
  }

  /** `df_read`: -1 when the mount table cannot be read, otherwise 0 and the
      values of every mount in table order. */
  function Read(c: Config, ignored: Matcher, stat: string -> Option<StatVfs>,
                table: Option<seq<Mount>>): (r: (int, seq<Value>))
    requires table.Some? ==> forall k :: 0 <= k < |table.value| ==> table.value[k].dir != []
    ensures table.None? <==> r.0 == -1
    ensures table.None? ==> r.1 == []
    ensures table.Some? ==> r.0 == 0
  {
    if table.None? then (-1, []) else (0, Concat(PerMount(c, ignored, stat, table.value)))
  }

  /** The per-mount outputs of a table, in table order. */
  function PerMount(c: Config, ignored: Matcher, stat: string -> Option<StatVfs>,
                    ms: seq<Mount>): (parts: seq<seq<Value>>)
    requires forall k :: 0 <= k < |ms| ==> ms[k].dir != []
    ensures |parts| == |ms|
    ensures forall i :: 0 <= i < |ms| ==> parts[i] == MountValues(c, ignored, stat, ms, i)
  {
    seq(|ms|, i requires 0 <= i < |ms| => MountValues(c, ignored, stat, ms, i))
  }

  /** The parts written one after another. */
  function Concat<T>(parts: seq<seq<T>>): (r: seq<T>)
  {
    if parts == [] then [] else parts[0] + Concat(parts[1..])
  }

  /** The dispatched byte triple counts the free, reserved and used blocks
      of one file system in bytes; the three block counts add up to the
      block total modulo 2^64, and exactly when the free count does not
      exceed it. */
  lemma BytesAddUp(c: Config, name: string, st: StatVfs)
    requires st.blocks != 0 && st.frsize != 0 && c.valuesAbsolute
    ensures var vs := FsValues(c, name, st);
      |vs| >= 3 && vs[0].typ == "df_complex"
      && var b := SplitAsWritten(st.blocks, st.bfree, st.bavail);
         vs[0].gauge == Count(b.free * st.frsize) && vs[1].gauge == Count(b.reserved * st.frsize)
         && vs[2].gauge == Count(b.used * st.frsize)
         && (b.free + b.reserved + b.used) % TwoTo64 == st.blocks
         && (st.bfree <= st.blocks ==> b.free + b.reserved + b.used == st.blocks)
  {
    var b := SplitAsWritten(st.blocks, st.bfree, st.bavail);
    var vs := FsValues(c, name, st);
    var bytes := KindValues(c, name, "df_complex", "percent_bytes", b, st.frsize, st.blocks);
    assert vs[..|bytes|] == bytes;
    assert bytes[..3] == Triple(name, "df_complex", Count(b.free * st.frsize),
      Count(b.reserved * st.frsize), Count(b.used * st.frsize));
    assert vs[0] == bytes[..3][0] && vs[1] == bytes[..3][1] && vs[2] == bytes[..3][2];
    if st.bfree <= st.blocks {
      SplitAgreesWhenFreeFits(st.blocks, st.bfree, st.bavail);
    }
  }

  /** The inode triple, when reported, counts free, reserved and used inodes;
      the three add up to the inode total modulo 2^64, and exactly when the
      free count does not exceed it. */
  lemma InodesAddUp(c: Config, name: string, st: StatVfs)
    requires st.blocks != 0 && st.frsize != 0 && c.valuesAbsolute && !c.valuesPercentage
    requires c.reportInodes && st.files != 0
    ensures var vs := FsValues(c, name, st);
      |vs| == 6 && vs[3].typ == "df_inodes"
      && vs[3].gauge.Count? && vs[4].gauge.Count? && vs[5].gauge.Count?
      && (vs[3].gauge.n + vs[4].gauge.n + vs[5].gauge.n) % TwoTo64 == st.files
      && (st.ffree <= st.files ==> vs[3].gauge.n + vs[4].gauge.n + vs[5].gauge.n == st.files)
  {
    var n := SplitAsWritten(st.files, st.ffree, st.favail);
    var vs := FsValues(c, name, st);
    var inodes := KindValues(c, name, "df_inodes", "percent_inodes", n, 1, st.files);
    assert vs[3..] == inodes == Triple(name, "df_inodes", Count(n.free * 1), Count(n.reserved * 1), Count(n.used * 1));
    assert vs[3] == vs[3..][0] && vs[4] == vs[3..][1] && vs[5] == vs[3..][2];
    if st.ffree <= st.files {
      SplitAgreesWhenFreeFits(st.files, st.ffree, st.favail);
    }
  }

  /** A mount dispatches something exactly when it passes every check and
      at least one of absolute values and percentages is enabled. */
  lemma MountReportsIff(c: Config, ignored: Matcher, stat: string -> Option<StatVfs>, ms: seq<Mount>, i: nat)
    requires i < |ms| && ms[i].dir != []
    ensures MountValues(c, ignored, stat, ms, i) != [] <==>
      Reports(c, ignored, stat, ms, i) && (c.valuesAbsolute || c.valuesPercentage)
  {
    if Reports(c, ignored, stat, ms, i) {
      var st := stat(ms[i].dir).value;
      assert |FsValues(c, ReportName(c, ms[i]), st)| == ValueCount(c, st);
    }
  }

  /** A mount with an earlier mount of the same kind in the table is never
      reported, and neither is one with no blocks or a failing `statvfs`. */
  lemma SkippedMounts(c: Config, ignored: Matcher, stat: string -> Option<StatVfs>, ms: seq<Mount>, i: nat, j: nat)
    requires i < |ms| && ms[i].dir != [] && j < i
    ensures SameKind(ms[i], ms[j], c.byDevice) ==> MountValues(c, ignored, stat, ms, i) == []
    ensures stat(ms[i].dir).None? ==> MountValues(c, ignored, stat, ms, i) == []
    ensures stat(ms[i].dir).Some? && stat(ms[i].dir).value.blocks == 0 ==> MountValues(c, ignored, stat, ms, i) == []
  {
    if SameKind(ms[i], ms[j], c.byDevice) {
      var d := FindDuplicate(ms, i, 0, c.byDevice);
      assert d.Some?;
    }
  }

  /** Every value reported under a mount belongs to that mount's name, and a
      mount that is first of its kind, accepted by all three lists and has a
      usable `statvfs` is reported when absolute values are on. */
  lemma ReportedUnderName(c: Config, ignored: Matcher, stat: string -> Option<StatVfs>, ms: seq<Mount>, i: nat)
    requires i < |ms| && ms[i].dir != [] && !c.byDevice && c.valuesAbsolute
    requires !ignored(c.device, Dev(ms[i])) && !ignored(c.mountPoint, ms[i].dir)
    requires !ignored(c.fsType, ms[i].fsType)
    requires forall j :: 0 <= j < i ==> ms[j].dir != ms[i].dir
    requires stat(ms[i].dir).Some? && stat(ms[i].dir).value.blocks != 0 && stat(ms[i].dir).value.frsize != 0
    ensures var vs := MountValues(c, ignored, stat, ms, i);
      |vs| >= 3 && vs[0].pluginInstance == MountName(ms[i].dir) && vs[0].typeInstance == "free"
  {
    var d := FindDuplicate(ms, i, 0, c.byDevice);
    assert d.None?;
    var vs := FsValues(c, MountName(ms[i].dir), stat(ms[i].dir).value);
    assert vs[..3][0] == vs[0];
  }

  /** Every value of every part occurs in the concatenation, and the
      concatenation is no shorter than any part. */
  lemma {:induction false} ConcatContains<T>(parts: seq<seq<T>>, i: nat)
    requires i < |parts|
    ensures |Concat(parts)| >= |parts[i]|
    ensures forall k :: 0 <= k < |parts[i]| ==> parts[i][k] in Concat(parts)
  {
    assert Concat(parts) == parts[0] + Concat(parts[1..]);
    if i > 0 {
      ConcatContains(parts[1..], i - 1);
      assert parts[1..][i - 1] == parts[i];
    } else {
      forall k | 0 <= k < |parts[0]| ensures parts[0][k] in Concat(parts) {
        assert Concat(parts)[k] == parts[0][k];
      }
    }
  }

  /** Whatever `df_read` produces for one mount is dispatched by the read. */
  lemma ReadContainsMount(c: Config, ignored: Matcher, stat: string -> Option<StatVfs>,
                          ms: seq<Mount>, i: nat)
    requires i < |ms|
    requires forall k :: 0 <= k < |ms| ==> ms[k].dir != []
    ensures Read(c, ignored, stat, Some(ms)).0 == 0
    ensures forall v :: v in MountValues(c, ignored, stat, ms, i) ==> v in Read(c, ignored, stat, Some(ms)).1
  {
    var parts := PerMount(c, ignored, stat, ms);
    ConcatContains(parts, i);
    forall v | v in MountValues(c, ignored, stat, ms, i) ensures v in Concat(parts) {
      var k :| 0 <= k < |parts[i]| && parts[i][k] == v;
    }
  }

  /** Every value of the concatenation comes from some part. */
  lemma {:induction false} ConcatFrom<T>(parts: seq<seq<T>>, v: T)
    requires v in Concat(parts)
    ensures exists i :: 0 <= i < |parts| && v in parts[i]
  {
    if v in parts[0] {
      assert v in parts[0];
    } else {
      ConcatFrom(parts[1..], v);
      var i :| 0 <= i < |parts[1..]| && v in parts[1..][i];
      assert v in parts[i + 1];
    }
  }

  /** A read of a table dispatches exactly the values its mounts produce:
      a value is dispatched iff some mount of the table yields it. */
  lemma ReadValuesIff(c: Config, ignored: Matcher, stat: string -> Option<StatVfs>,
                      ms: seq<Mount>, v: Value)
    requires forall k :: 0 <= k < |ms| ==> ms[k].dir != []
    ensures v in Read(c, ignored, stat, Some(ms)).1 <==>
      exists i :: 0 <= i < |ms| && v in MountValues(c, ignored, stat, ms, i)
  {
    var parts := PerMount(c, ignored, stat, ms);
    if v in Concat(parts) {
      ConcatFrom(parts, v);
      var i :| 0 <= i < |parts| && v in parts[i];
      assert v in MountValues(c, ignored, stat, ms, i);
    }
    if exists i :: 0 <= i < |ms| && v in MountValues(c, ignored, stat, ms, i) {
      var i :| 0 <= i < |ms| && v in MountValues(c, ignored, stat, ms, i);
      ReadContainsMount(c, ignored, stat, ms, i);
    }
  }
}

=== FILE: disk.dfy ===
/** The `disk` read plugin on Linux: its configuration keys, the list of
    known disks kept between reads, the wrap-around counter differences, and
    which values one read of the disk statistics table dispatches. */
module Disk {
  import opened Wrappers
  import opened Text
  import opened IgnoreLists

  /** `UINT_MAX`: the counters are assumed to wrap at 32 bits. */
  const UintMax: int := 4294967295
  const SectorSize: int := 512

  datatype Config = Config(ignore: IgnoreList, reportDiscard: bool, reportFlush: bool)

  /** The ignore list is created inverted; both reports start off. */
  const Initial: Config := Config(IgnoreList([], true), false, false)

  /** The keys `disk_config` accepts, compared as `strcasecmp` does. */
  predicate Known(key: string) {
    EqualsIgnoreCase(key, "Disk") || EqualsIgnoreCase(key, "IgnoreSelected")
    || EqualsIgnoreCase(key, "UseBSDName") || EqualsIgnoreCase(key, "UdevNameAttr")
    || EqualsIgnoreCase(key, "ReportDiscard") || EqualsIgnoreCase(key, "ReportFlush")
  }

  /** `disk_config(key, value)` without udev support; `addOk` is whether the
      ignore-list library manages to add an entry (its result is not
      checked). */
  function Configure(c: Config, key: string, value: string, addOk: bool): (r: (int, Config))
    ensures r.0 == -1 <==> !Known(key)
    ensures r.0 != -1 ==> r.0 == 0
    ensures r.0 == -1 ==> r.1 == c
    ensures EqualsIgnoreCase(key, "Disk") ==> (r.1.ignore.invert == c.ignore.invert
      && r.1.ignore.entries == c.ignore.entries + (if addOk then [value] else [])
      && r.1.reportDiscard == c.reportDiscard && r.1.reportFlush == c.reportFlush)
    ensures EqualsIgnoreCase(key, "IgnoreSelected") ==>
      r.1 == c.(ignore := IgnoreList(c.ignore.entries, !IsTrue(value)))
    ensures EqualsIgnoreCase(key, "UseBSDName") || EqualsIgnoreCase(key, "UdevNameAttr") ==> r.1 == c
    ensures EqualsIgnoreCase(key, "ReportDiscard") ==> r.1 == c.(reportDiscard := IsTrue(value))
    ensures EqualsIgnoreCase(key, "ReportFlush") ==> r.1 == c.(reportFlush := IsTrue(value))
  {
    if EqualsIgnoreCase(key, "Disk") then (0, c.(ignore := Add(c.ignore, value, addOk).1))
    else if EqualsIgnoreCase(key, "IgnoreSelected") then
      (0, c.(ignore := c.ignore.(invert := if IsTrue(value) then false else true)))
    else if EqualsIgnoreCase(key, "UseBSDName") then (0, c)
    else if EqualsIgnoreCase(key, "UdevNameAttr") then (0, c)
    else if EqualsIgnoreCase(key, "ReportDiscard") then (0, c.(reportDiscard := IsTrue(value)))
    else if EqualsIgnoreCase(key, "ReportFlush") then (0, c.(reportFlush := IsTrue(value)))
    else (-1, c)
  }

  /** Difference of two readings of a counter; a smaller new reading is
      taken as one wrap of a 32-bit counter. */
  function Diff(now: int, before: int): (d: int)
    ensures now >= before ==> d == now - before
    ensures now < before ==> d == now - before + UintMax + 1
  {
    if now < before then 1 + now + (UintMax - before) else now - before
  }

  /** For readings of a 32-bit counter the difference is the counter's
      advance modulo 2^32, and adding it back to the old reading gives the
      new one. */
  lemma DiffIsModular(now: int, before: int)
    requires 0 <= now <= UintMax && 0 <= before <= UintMax
    ensures 0 <= Diff(now, before) <= UintMax
    ensures Diff(now, before) == (now - before) % (UintMax + 1)
    ensures (before + Diff(now, before)) % (UintMax + 1) == now
  {
  }

  /** One line of the statistics table after splitting: the device name
      (field 2) and the numeric fields from field 3 on, already converted. */
  datatype Line = Line(name: string, counters: seq<int>)

  function NumFields(l: Line): nat {
    3 + |l.counters|
  }

  /** A partition line has 7 fields, a whole-disk line at least 14; every
      other line is skipped. */
  predicate Accepted(l: Line) {
    NumFields(l) == 7 || NumFields(l) >= 14
  }

  predicate IsWholeDisk(l: Line) {
    NumFields(l) >= 14
  }

  /** Field `k` of the line, counted as the kernel documents it. */
  function Field(l: Line, k: nat): int
    requires 3 <= k < NumFields(l)
  {
    l.counters[k - 3]
  }

  /** The readings of one line. For a partition only the first four are
      present; the others stay 0 and are never used for it. */
  datatype Sample = Sample(readOps: int, writeOps: int, readSectors: int, writeSectors: int,
                           readMerged: int, writeMerged: int, readTime: int, writeTime: int,
                           inProgress: int, ioTime: int, weightedTime: int)

  function SampleOf(l: Line): (s: Sample)
    requires Accepted(l)
    ensures s.readOps == Field(l, 3)
    ensures !IsWholeDisk(l) ==> (s.writeOps == Field(l, 5) && s.readSectors == Field(l, 4)
      && s.writeSectors == Field(l, 6))
    ensures IsWholeDisk(l) ==> (s.writeOps == Field(l, 7) && s.readSectors == Field(l, 5)
      && s.writeSectors == Field(l, 9))
  {
    if NumFields(l) == 7 then
      Sample(Field(l, 3), Field(l, 5), Field(l, 4), Field(l, 6), 0, 0, 0, 0, 0, 0, 0)
    else
      Sample(Field(l, 3), Field(l, 7), Field(l, 5), Field(l, 9), Field(l, 4), Field(l, 8),
             Field(l, 6), Field(l, 10), Field(l, 11), Field(l, 12), Field(l, 13))
  }

  /** The discard and flush readings. They live for the whole read, so a
      line that lacks them keeps the values of an earlier line. */
  datatype Carry = Carry(discardOps: int, discardMerged: int, discardSectors: int, discardTime: int,
                         flushOps: int, flushTime: int)

  const NoCarry: Carry := Carry(0, 0, 0, 0, 0, 0)

  function NextCarry(c: Carry, l: Line): (r: Carry)
    requires Accepted(l)
    ensures NumFields(l) < 18 ==> r == c
    ensures NumFields(l) >= 18 ==> r.discardOps == Field(l, 14) && r.discardTime == Field(l, 17)
    ensures NumFields(l) < 20 ==> r.flushOps == c.flushOps && r.flushTime == c.flushTime
    ensures NumFields(l) >= 20 ==> r.flushOps == Field(l, 18) && r.flushTime == Field(l, 19)
  {
    var d := if NumFields(l) >= 18 then
      c.(discardOps := Field(l, 14), discardMerged := Field(l, 15),
         discardSectors := Field(l, 16), discardTime := Field(l, 17))
      else c;
    if NumFields(l) >= 20 then d.(flushOps := Field(l, 18), flushTime := Field(l, 19)) else d
  }

  /** What the plugin remembers about one disk between lines and reads. */
  datatype Disk = Disk(
    name: string, pollCount: nat,
    readSectors: int, writeSectors: int, readBytes: int, writeBytes: int,
    readOps: int, writeOps: int, readTime: int, writeTime: int,
    avgReadTime: int, avgWriteTime: int, ioTime: int,
    hasMerged: bool, hasInProgress: bool, hasIoTime: bool, hasDiscard: bool, hasFlush: bool)

  /** A newly allocated, zero-filled entry. */
  function Fresh(name: string): (d: Disk)
    ensures d.name == name && d.pollCount == 0
  {
    Disk(name, 0, 0, 0, 0, 0, 0, 0, 0, 0, 0, 0, 0, false, false, false, false, false)
  }

  /** The rounded average-time increment of `disk_calc_time_incr`, computed
      in floating point from a time difference and an operation count. */
  type TimeIncr = (int, int) -> int

  /** The counter updates one accepted line makes to its disk. */
  function Observe(d: Disk, l: Line, c: Carry, incr: TimeIncr): (r: Disk)
    requires Accepted(l)
    ensures r.name == d.name && r.pollCount == d.pollCount
    ensures r.readBytes == d.readBytes + SectorSize * Diff(SampleOf(l).readSectors, d.readSectors)
    ensures r.writeBytes == d.writeBytes + SectorSize * Diff(SampleOf(l).writeSectors, d.writeSectors)
    ensures r.readSectors == SampleOf(l).readSectors && r.writeSectors == SampleOf(l).writeSectors
    ensures !IsWholeDisk(l) ==> r == d.(readBytes := r.readBytes, writeBytes := r.writeBytes,
                                        readSectors := r.readSectors, writeSectors := r.writeSectors)
    ensures IsWholeDisk(l) ==> (r.readOps == SampleOf(l).readOps && r.writeOps == SampleOf(l).writeOps
      && r.hasInProgress && (d.hasMerged ==> r.hasMerged) && (d.hasIoTime ==> r.hasIoTime))
  {
    var s := SampleOf(l);
    var d1 := d.(readBytes := d.readBytes + SectorSize * Diff(s.readSectors, d.readSectors),
                 writeBytes := d.writeBytes + SectorSize * Diff(s.writeSectors, d.writeSectors),
                 readSectors := s.readSectors, writeSectors := s.writeSectors);
    if !IsWholeDisk(l) then d1
    else
      var dro := Diff(s.readOps, d.readOps);
      var dwo := Diff(s.writeOps, d.writeOps);
      d1.(avgReadTime := d1.avgReadTime + (if dro != 0 then incr(Diff(s.readTime, d.readTime), dro) else 0),
          avgWriteTime := d1.avgWriteTime + (if dwo != 0 then incr(Diff(s.writeTime, d.writeTime), dwo) else 0),
          readOps := s.readOps, readTime := s.readTime, writeOps := s.writeOps, writeTime := s.writeTime,
          ioTime := s.ioTime,
          hasMerged := d.hasMerged || s.readMerged != 0 || s.writeMerged != 0,
          hasInProgress := true,
          hasIoTime := d.hasIoTime || s.ioTime != 0,
          hasDiscard := c.discardOps != 0 || c.discardMerged != 0 || c.discardSectors != 0 || c.discardTime != 0,
          hasFlush := c.flushOps != 0 || c.flushTime != 0)
  }

  /** A value handed to the dispatcher: a counter, a gauge, or the
      utilisation percentage computed in floating point from an I/O time
      difference and the read interval. */
  datatype Val = Derive(n: int) | Gauge(g: int) | Utilization(deltaIoTime: int)

  /** One call of a submit helper, before the disk's name is attached. */
  datatype Sent = Sent(typ: string, values: seq<Val>)

  datatype Dispatch = Dispatch(instance: string, typ: string, values: seq<Val>)

  /** The values that only whole-disk lines carry. */
  function WholeDiskSent(cfg: Config, d: Disk, s: Sample, c: Carry, diffIo: int): (out: seq<Sent>)
    ensures |out| >= 1 && out[|out| - 1] == Sent("percent", [Utilization(diffIo)])
    ensures d.hasIoTime ==> Sent("disk_io_time", [Derive(s.ioTime), Derive(s.weightedTime)]) in out
  {
    (if d.hasMerged then [Sent("disk_merged", [Derive(s.readMerged), Derive(s.writeMerged)])] else [])
    + (if d.hasInProgress then [Sent("pending_operations", [Gauge(s.inProgress)])] else [])
    + (if d.hasIoTime then [Sent("disk_io_time", [Derive(s.ioTime), Derive(s.weightedTime)])] else [])
    + (if cfg.reportDiscard && d.hasDiscard then
         [Sent("disk_discard_ops", [Derive(c.discardOps)]),
          Sent("disk_discard_merged", [Derive(c.discardMerged)]),
          Sent("disk_discard_sectors", [Derive(c.discardSectors)]),
          Sent("disk_discard_time", [Derive(c.discardTime)])] else [])
    + (if cfg.reportFlush && d.hasFlush then
         [Sent("disk_flush_ops", [Derive(c.flushOps)]), Sent("disk_flush_time", [Derive(c.flushTime)])]
       else [])
    + [Sent("percent", [Utilization(diffIo)])]
  }

  /** The values one line sends for its disk once the guard lets it
      through, in the order the plugin sends them: octets only when some
      bytes accumulated, the current operation counts always. */
  function Submit(cfg: Config, d: Disk, l: Line, c: Carry, diffIo: int): (out: seq<Sent>)
    requires Accepted(l)
    ensures |out| >= 1
    ensures (d.readBytes != 0 || d.writeBytes != 0)
        ==> out[0] == Sent("disk_octets", [Derive(d.readBytes), Derive(d.writeBytes)])
    ensures !(d.readBytes != 0 || d.writeBytes != 0)
        ==> out[0] == Sent("disk_ops", [Derive(SampleOf(l).readOps), Derive(SampleOf(l).writeOps)])
    ensures Sent("disk_ops", [Derive(SampleOf(l).readOps), Derive(SampleOf(l).writeOps)]) in out
    ensures IsWholeDisk(l) ==> out[|out| - 1] == Sent("percent", [Utilization(diffIo)])
  {
    var s := SampleOf(l);
    var octets := if d.readBytes != 0 || d.writeBytes != 0 then
       [Sent("disk_octets", [Derive(d.readBytes), Derive(d.writeBytes)])] else [];
    var ops := [Sent("disk_ops", [Derive(s.readOps), Derive(s.writeOps)])];
    var time := if d.avgReadTime != 0 || d.avgWriteTime != 0 then
         [Sent("disk_time", [Derive(d.avgReadTime), Derive(d.avgWriteTime)])] else [];
    var whole := if IsWholeDisk(l) then WholeDiskSent(cfg, d, s, c, diffIo) else [];
    assert (octets + ops + time + whole)[|octets|] == ops[0];
    octets + ops + time + whole
  }

  /** The sent values as dispatched under one instance name. */
  function Tag(name: string, sent: seq<Sent>): (out: seq<Dispatch>)
    ensures |out| == |sent|
    ensures forall k :: 0 <= k < |out| ==> out[k] == Dispatch(name, sent[k].typ, sent[k].values)
  {
    seq(|sent|, k requires 0 <= k < |sent| => Dispatch(name, sent[k].typ, sent[k].values))
  }

  /** The accumulators cleared after a first observation or a submission. */
  function Cleared(d: Disk, poll: nat): (r: Disk)
    ensures r.readBytes == 0 && r.writeBytes == 0 && r.avgReadTime == 0 && r.avgWriteTime == 0
    ensures r.pollCount == poll && r.name == d.name
    ensures r.readSectors == d.readSectors && r.writeSectors == d.writeSectors
  {
    d.(pollCount := poll, readBytes := 0, writeBytes := 0, avgReadTime := 0, avgWriteTime := 0)
  }

  /** The names of a list of disks. */
  function Names(ds: seq<Disk>): (r: seq<string>)
    ensures |r| == |ds|
    ensures forall k :: 0 <= k < |ds| ==> r[k] == ds[k].name
  {
    seq(|ds|, k requires 0 <= k < |ds| => ds[k].name)
  }

  /** At most one entry per name. */
  predicate UniqueNames(ds: seq<Disk>) {
    forall i, j :: 0 <= i < j < |ds| ==> ds[i].name != ds[j].name
  }

  /** The walk along the disk list for an entry with the given name. */
  function Find(ds: seq<Disk>, name: string): (r: Option<nat>)
    ensures r.None? <==> name !in Names(ds)
    ensures r.Some? ==> (r.value < |ds| && ds[r.value].name == name
      && forall k :: 0 <= k < r.value ==> ds[k].name != name)
  {
    if ds == [] then None
    else if ds[0].name == name then Some(0)
    else match Find(ds[1..], name)
      case None => None
      case Some(i) => Some(i + 1)
  }

  /** The state of one line's processing: the disk list, the carried
      readings and what has been dispatched by this line. */
  datatype Step = Step(disks: seq<Disk>, carry: Carry, out: seq<Dispatch>)

  /** The list after looking up a line's disk: an unknown name is appended at
      the tail. */
  function Lookup(ds: seq<Disk>, name: string): (r: (seq<Disk>, nat))
    ensures r.1 < |r.0| && r.0[r.1].name == name
    ensures Find(ds, name).Some? ==> r.0 == ds && r.1 == Find(ds, name).value
    ensures Find(ds, name).None? ==> r.0 == ds + [Fresh(name)] && r.1 == |ds|
  {
    match Find(ds, name)
    case Some(i) => (ds, i)
    case None => (ds + [Fresh(name)], |ds|)
  }

  /** What one accepted line does to its disk (as found or freshly
      appended): the updated entry and what it dispatches. The entry always
      ends up stamped with the current counter, and something is dispatched
      only when it already carried that counter, above 1. */
  function Visit(cfg: Config, ignored: Matcher, incr: TimeIncr, poll: nat,
                 e: Disk, c: Carry, l: Line): (r: (Disk, seq<Dispatch>))
    requires Accepted(l) && poll >= 1
    ensures r.0.name == e.name && r.0.pollCount == poll
    ensures r.1 != [] ==> e.pollCount == poll && poll > 1
    ensures e.pollCount == 0 ==> r.1 == [] && r.0.readBytes == 0 && r.0.writeBytes == 0
  {
    var d := Observe(e, l, c, incr);
    if d.pollCount == 0 then (Cleared(d, poll), [])
    else if d.pollCount == poll && d.pollCount > 1 then
      if ignored(cfg.ignore, l.name) then (d, [])
      else (Cleared(d, poll), Tag(l.name, Submit(cfg, d, l, c, Diff(SampleOf(l).ioTime, e.ioTime))))
    else (d.(pollCount := poll), [])
  }

  /** What one line of the table does in read number `poll`. */
  function LineStep(cfg: Config, ignored: Matcher, incr: TimeIncr, poll: nat,
                    ds: seq<Disk>, c: Carry, l: Line): (r: Step)
    requires poll >= 1
  {
    if !Accepted(l) then Step(ds, c, [])
    else
      var c1 := NextCarry(c, l);
      var (ds1, i) := Lookup(ds, l.name);
      var v := Visit(cfg, ignored, incr, poll, ds1[i], c1, l);
      Step(ds1[i := v.0], c1, v.1)
  }

  /** The effect of one line on the disk list: a skipped line changes
      nothing; otherwise the line's disk exists afterwards with the current
      poll count, an unseen name is appended at the tail, no other entry
      changes, and nothing is dispatched unless the disk already carried the
      current poll count, above 1, before the line. */
  lemma LineStepEffect(cfg: Config, ignored: Matcher, incr: TimeIncr, poll: nat,
                       ds: seq<Disk>, c: Carry, l: Line)
    requires poll >= 1
    ensures var r := LineStep(cfg, ignored, incr, poll, ds, c, l);
      (!Accepted(l) ==> r == Step(ds, c, []))
      && (Accepted(l) && Find(ds, l.name).Some? ==> |r.disks| == |ds|)
      && (Accepted(l) && Find(ds, l.name).None? ==> |r.disks| == |ds| + 1 && r.disks[|ds|].name == l.name)
      && |ds| <= |r.disks| <= |ds| + 1
      && (forall k :: 0 <= k < |ds| ==> r.disks[k].name == ds[k].name)
      && (forall k :: 0 <= k < |ds| && ds[k].name != l.name ==> r.disks[k] == ds[k])
      && (forall k :: |ds| <= k < |r.disks| ==> r.disks[k].name == l.name)
      && (Accepted(l) && UniqueNames(ds) ==>
            forall k :: 0 <= k < |r.disks| && r.disks[k].name == l.name ==> r.disks[k].pollCount == poll)
      && (r.out != [] ==> exists k :: 0 <= k < |ds| && ds[k].name == l.name && ds[k].pollCount == poll && poll > 1)
  {
    if Accepted(l) {
      var (ds1, i) := Lookup(ds, l.name);
      var c1 := NextCarry(c, l);
      var v := Visit(cfg, ignored, incr, poll, ds1[i], c1, l);
      var r := ds1[i := v.0];
      assert LineStep(cfg, ignored, incr, poll, ds, c, l) == Step(r, c1, v.1);
      forall k | UniqueNames(ds) && 0 <= k < |r| && k != i ensures r[k].name != l.name {
        assert r[k] == ds[k];
        if Find(ds, l.name).None? {
          assert Names(ds)[k] == ds[k].name;
        }
      }
      if v.1 != [] {
        assert ds1[i].pollCount == poll;
        assert i < |ds|;
      }
    }
  }

  /** A disk's first observation dispatches nothing, clears its
      accumulators and records the current poll count. */
  lemma FirstObservationSilent(cfg: Config, ignored: Matcher, incr: TimeIncr, poll: nat,
                               ds: seq<Disk>, c: Carry, l: Line)
    requires poll >= 1 && Accepted(l) && l.name !in Names(ds)
    ensures var r := LineStep(cfg, ignored, incr, poll, ds, c, l);
      r.out == [] && |r.disks| == |ds| + 1 && r.disks[..|ds|] == ds
      && r.disks[|ds|].pollCount == poll && r.disks[|ds|].readBytes == 0 && r.disks[|ds|].writeBytes == 0
      && r.disks[|ds|].readSectors == SampleOf(l).readSectors
  {
    var r := LineStep(cfg, ignored, incr, poll, ds, c, l);
    assert r.disks[..|ds|] == (ds + [Fresh(l.name)])[..|ds|];
  }

  /** Every line of the table, in order. */
  function Lines(cfg: Config, ignored: Matcher, incr: TimeIncr, poll: nat,
                 ds: seq<Disk>, c: Carry, ls: seq<Line>): (r: (seq<Disk>, seq<Dispatch>))
    requires poll >= 1
    decreases |ls|
  {
    if ls == [] then (ds, [])
    else
      var s := LineStep(cfg, ignored, incr, poll, ds, c, ls[0]);
      var rest := Lines(cfg, ignored, incr, poll, s.disks, s.carry, ls[1..]);
      (rest.0, s.out + rest.1)
  }

  /** The final pass: disks not seen in this read are dropped, the others
      keep their order. */
  function Prune(ds: seq<Disk>, poll: nat): (r: seq<Disk>)
    ensures |r| <= |ds|
    ensures forall d :: d in r ==> d in ds && d.pollCount == poll
    ensures forall d :: d in ds && d.pollCount == poll ==> d in r
  {
    if ds == [] then []
    else if ds[0].pollCount == poll then [ds[0]] + Prune(ds[1..], poll)
    else Prune(ds[1..], poll)
  }

  /** Pruning keeps order: it distributes over concatenation, so the
      pruned list is the kept entries of the old list, front to back. */
  lemma {:induction false} PruneConcat(a: seq<Disk>, b: seq<Disk>, poll: nat)
    ensures Prune(a + b, poll) == Prune(a, poll) + Prune(b, poll)
    decreases |a|
  {
    if a == [] {
      assert a + b == b;
    } else {
      assert (a + b)[1..] == a[1..] + b;
      PruneConcat(a[1..], b, poll);
    }
  }

  /** Pruning keeps names unique. */
  lemma {:induction false} PruneUnique(ds: seq<Disk>, poll: nat)
    requires UniqueNames(ds)
    ensures UniqueNames(Prune(ds, poll))
    decreases |ds|
  {
    if ds != [] {
      assert UniqueNames(ds[1..]) by {
        forall x, y | 0 <= x < y < |ds[1..]| ensures ds[1..][x].name != ds[1..][y].name {
          assert ds[1..][x] == ds[x + 1] && ds[1..][y] == ds[y + 1];
        }
      }
      PruneUnique(ds[1..], poll);
      var tl := Prune(ds[1..], poll);
      if ds[0].pollCount == poll {
        forall x | 0 <= x < |tl| ensures tl[x].name != ds[0].name {
          assert tl[x] in ds[1..];
        }
        var r := [ds[0]] + tl;
        forall x, y | 0 <= x < y < |r| ensures r[x].name != r[y].name {
          if x > 0 {
            assert r[x] == tl[x - 1] && r[y] == tl[y - 1];
          } else {
            assert r[y] == tl[y - 1];
          }
        }
      }
    }
  }

  /** The list and the read counter kept between reads. */
  datatype State = State(disks: seq<Disk>, poll: nat)

  const Start: State := State([], 0)

  /** Between reads the list has one entry per name, each stamped with the
      counter of a read that has already happened. */
  predicate Valid(s: State) {
    UniqueNames(s.disks) && forall k :: 0 <= k < |s.disks| ==> 1 <= s.disks[k].pollCount <= s.poll
  }

  /** `disk_read`: -1 when the table cannot be opened (the counter is not
      advanced); otherwise the counter advances, every line is processed
      and the disks not seen are dropped. */
  function Read(cfg: Config, ignored: Matcher, incr: TimeIncr, s: State,
                table: Option<seq<Line>>): (r: (int, State, seq<Dispatch>))
    ensures table.None? <==> r.0 == -1
    ensures table.None? ==> r.1 == s && r.2 == []
    ensures table.Some? ==> r.0 == 0 && r.1.poll == s.poll + 1
  {
    if table.None? then (-1, s, [])
    else
      var poll := s.poll + 1;
      var (ds, out) := Lines(cfg, ignored, incr, poll, s.disks, NoCarry, table.value);
      (0, State(Prune(ds, poll), poll), out)
  }

  /** The lines' names, of accepted lines only. */
  function AcceptedNames(ls: seq<Line>): (r: set<string>)
    ensures forall k :: 0 <= k < |ls| && Accepted(ls[k]) ==> ls[k].name in r
    ensures forall n :: n in r ==> exists k :: 0 <= k < |ls| && Accepted(ls[k]) && ls[k].name == n
  {
    if ls == [] then {}
    else
      var tail := AcceptedNames(ls[1..]);
      assert forall k :: 1 <= k < |ls| ==> ls[k] == ls[1..][k - 1];
      (if Accepted(ls[0]) then {ls[0].name} else {}) + tail
  }

  /** Running the lines keeps names unique, touches every disk of an
      accepted line, keeps every other existing disk as it was, and stamps
      no disk with the current counter unless its name was read. */
  lemma {:induction false} LinesEffect(cfg: Config, ignored: Matcher, incr: TimeIncr, poll: nat,
                                       ds: seq<Disk>, c: Carry, ls: seq<Line>)
    requires poll >= 1 && UniqueNames(ds)
    ensures var r := Lines(cfg, ignored, incr, poll, ds, c, ls).0;
      UniqueNames(r) && |r| >= |ds|
      && (forall k :: 0 <= k < |ds| ==> r[k].name == ds[k].name)
      && (forall k :: 0 <= k < |ds| && ds[k].name !in AcceptedNames(ls) ==> r[k] == ds[k])
      && (forall k :: |ds| <= k < |r| ==> r[k].name in AcceptedNames(ls))
      && (forall k :: 0 <= k < |r| && r[k].name in AcceptedNames(ls) ==> r[k].pollCount == poll)
    decreases |ls|
  {
    if ls != [] {
      var s := LineStep(cfg, ignored, incr, poll, ds, c, ls[0]);
      LineStepEffect(cfg, ignored, incr, poll, ds, c, ls[0]);
      assert UniqueNames(s.disks) by {
        if Accepted(ls[0]) && Find(ds, ls[0].name).None? {
          forall x, y | 0 <= x < y < |s.disks| ensures s.disks[x].name != s.disks[y].name {
            if y == |ds| {
              assert Names(ds)[x] == ds[x].name;
            }
          }
        }
      }
      LinesEffect(cfg, ignored, incr, poll, s.disks, s.carry, ls[1..]);
      var r := Lines(cfg, ignored, incr, poll, ds, c, ls).0;
      assert r == Lines(cfg, ignored, incr, poll, s.disks, s.carry, ls[1..]).0;
      assert AcceptedNames(ls) == (if Accepted(ls[0]) then {ls[0].name} else {}) + AcceptedNames(ls[1..]);
    }
  }

  /** After a read the list holds exactly one entry per name of an accepted
      line, every one stamped with the new counter. */
  lemma ReadKeepsExactlySeen(cfg: Config, ignored: Matcher, incr: TimeIncr, s: State, ls: seq<Line>)
    requires Valid(s)
    ensures var r := Read(cfg, ignored, incr, s, Some(ls)).1;
      Valid(r) && (forall k :: 0 <= k < |r.disks| ==> r.disks[k].pollCount == r.poll)
      && (forall n :: n in Names(r.disks) <==> n in AcceptedNames(ls))
  {
    var poll := s.poll + 1;
    var ds := Lines(cfg, ignored, incr, poll, s.disks, NoCarry, ls).0;
    LinesEffect(cfg, ignored, incr, poll, s.disks, NoCarry, ls);
    PruneUnique(ds, poll);
    var p := Prune(ds, poll);
    assert Read(cfg, ignored, incr, s, Some(ls)).1 == State(p, poll);
    forall n | n in Names(p) ensures n in AcceptedNames(ls) {
      SurvivorSeen(s, AcceptedNames(ls), ds, poll, n);
    }
    forall n | n in AcceptedNames(ls) ensures n in Names(p) {
      var k :| 0 <= k < |ls| && Accepted(ls[k]) && ls[k].name == n;
      NewNameAppended(cfg, ignored, incr, poll, s.disks, NoCarry, ls, k);
      var x :| 0 <= x < |ds| && Names(ds)[x] == n;
      StampedSurvives(ds, poll, x);
    }
  }

  /** An entry stamped with the current counter keeps its name through
      pruning. */
  lemma StampedSurvives(ds: seq<Disk>, poll: nat, x: nat)
    requires x < |ds| && ds[x].pollCount == poll
    ensures ds[x].name in Names(Prune(ds, poll))
  {
    var p := Prune(ds, poll);
    assert ds[x] in p;
    var y :| 0 <= y < |p| && p[y] == ds[x];
    assert Names(p)[y] == ds[x].name;
  }

  /** A disk that survives pruning was read: an old entry not read keeps its
      old, smaller counter. */
  lemma SurvivorSeen(s: State, seen: set<string>, ds: seq<Disk>, poll: nat, n: string)
    requires Valid(s) && poll == s.poll + 1 && |ds| >= |s.disks|
    requires forall k :: 0 <= k < |s.disks| ==> ds[k].name == s.disks[k].name
    requires forall k :: 0 <= k < |s.disks| && s.disks[k].name !in seen ==> ds[k] == s.disks[k]
    requires forall k :: |s.disks| <= k < |ds| ==> ds[k].name in seen
    requires n in Names(Prune(ds, poll))
    ensures n in seen
  {
    var p := Prune(ds, poll);
    var k :| 0 <= k < |p| && Names(p)[k] == n;
    assert p[k] in ds;
    var j :| 0 <= j < |ds| && ds[j] == p[k];
    assert n == ds[j].name && ds[j].pollCount == poll;
    assert j < |s.disks| ==> s.disks[j].name == ds[j].name;
  }

  /** A name read on an accepted line has an entry afterwards. */
  lemma {:induction false} NewNameAppended(cfg: Config, ignored: Matcher, incr: TimeIncr, poll: nat,
                                           ds: seq<Disk>, c: Carry, ls: seq<Line>, k: nat)
    requires poll >= 1 && k < |ls| && Accepted(ls[k])
    ensures ls[k].name in Names(Lines(cfg, ignored, incr, poll, ds, c, ls).0)
    decreases |ls|
  {
    var s := LineStep(cfg, ignored, incr, poll, ds, c, ls[0]);
    LineStepEffect(cfg, ignored, incr, poll, ds, c, ls[0]);
    var r := Lines(cfg, ignored, incr, poll, s.disks, s.carry, ls[1..]).0;
    assert Lines(cfg, ignored, incr, poll, ds, c, ls).0 == r;
    if k == 0 {
      var j: nat := if Find(ds, ls[0].name).Some? then Find(ds, ls[0].name).value else |ds|;
      assert j < |s.disks| && s.disks[j].name == ls[0].name;
      KeptNames(cfg, ignored, incr, poll, s.disks, s.carry, ls[1..], j);
      assert Names(r)[j] == ls[0].name;
    } else {
      assert ls[1..][k - 1] == ls[k];
      NewNameAppended(cfg, ignored, incr, poll, s.disks, s.carry, ls[1..], k - 1);
    }
  }

  /** Entries are never renamed or removed while lines are processed. */
  lemma {:induction false} KeptNames(cfg: Config, ignored: Matcher, incr: TimeIncr, poll: nat,
                                     ds: seq<Disk>, c: Carry, ls: seq<Line>, j: nat)
    requires poll >= 1 && j < |ds|
    ensures j < |Lines(cfg, ignored, incr, poll, ds, c, ls).0|
    ensures Lines(cfg, ignored, incr, poll, ds, c, ls).0[j].name == ds[j].name
    decreases |ls|
  {
    if ls != [] {
      var s := LineStep(cfg, ignored, incr, poll, ds, c, ls[0]);
      LineStepEffect(cfg, ignored, incr, poll, ds, c, ls[0]);
      KeptNames(cfg, ignored, incr, poll, s.disks, s.carry, ls[1..], j);
    }
  }

  /** The submission guard: in a read where no name occurs on two accepted
      lines, starting from a valid state, nothing at all is dispatched. */
  lemma {:induction false} DistinctNamesDispatchNothing(cfg: Config, ignored: Matcher, incr: TimeIncr, poll: nat,
                                                        ds: seq<Disk>, c: Carry, ls: seq<Line>)
    requires poll >= 1
    requires forall k :: 0 <= k < |ds| && ds[k].pollCount == poll ==>
      forall j :: 0 <= j < |ls| ==> ls[j].name != ds[k].name
    requires forall i, j :: 0 <= i < j < |ls| ==> ls[i].name != ls[j].name
    ensures Lines(cfg, ignored, incr, poll, ds, c, ls).1 == []
    decreases |ls|
  {
    if ls != [] {
      var s := LineStep(cfg, ignored, incr, poll, ds, c, ls[0]);
      LineStepEffect(cfg, ignored, incr, poll, ds, c, ls[0]);
      forall k | 0 <= k < |s.disks| && s.disks[k].pollCount == poll
        ensures forall j :: 0 <= j < |ls[1..]| ==> ls[1..][j].name != s.disks[k].name
      {
        forall j | 0 <= j < |ls[1..]| ensures ls[1..][j].name != s.disks[k].name {
          assert ls[1..][j] == ls[j + 1];
          if k < |ds| && s.disks[k] == ds[k] {
          } else {
            assert s.disks[k].name == ls[0].name;
          }
        }
      }
      forall i, j | 0 <= i < j < |ls[1..]| ensures ls[1..][i].name != ls[1..][j].name {
        assert ls[1..][i] == ls[i + 1] && ls[1..][j] == ls[j + 1];
      }
      DistinctNamesDispatchNothing(cfg, ignored, incr, poll, s.disks, s.carry, ls[1..]);
    }
  }

  /** From a valid state, a read whose table names every disk at most once
      dispatches nothing: the guard only lets a repeated name through. */
  lemma ReadDistinctDispatchesNothing(cfg: Config, ignored: Matcher, incr: TimeIncr, s: State, ls: seq<Line>)
    requires Valid(s)
    requires forall i, j :: 0 <= i < j < |ls| ==> ls[i].name != ls[j].name
    ensures Read(cfg, ignored, incr, s, Some(ls)).2 == []
  {
    DistinctNamesDispatchNothing(cfg, ignored, incr, s.poll + 1, s.disks, NoCarry, ls);
  }
}

=== FILE: dispmerge.dfy ===
/** The display-template merge of `communication/parse.cpp`
    (`CDispManage::UpdateJson`) and `communication/demo.cpp`
    (`MergeKeepingIsDisplay`): the items of a fresh template replace the
    items of the working copy with the same name, keeping the working copy's
    `IsDisplay`, and items the template no longer has are dropped. */
module DispMerge {
  import opened Wrappers
  import opened Text

  /** One member of the `EItems` array. `name` is None when the item has no
      string "Name"; `isDisplay` is the item's "IsDisplay" value, None when it
      has none; `body` stands for the rest of the object. JSON values are
      kept as their text. */
  datatype Item = Item(name: Option<string>, isDisplay: Option<string>, body: string)

  /** A parsed document: its `EItems` array, None when it has none. */
  datatype Doc = Doc(eItems: Option<seq<Item>>)

  datatype MergeError = FileNotFound | OutOfMemory | NodeNoExist

  /** What the scan of the destination for one source name finds. */
  datatype Scan = NoMatch | MissingName | Match(index: nat)

  /** Name comparison length of `communication/demo.cpp`. */
  const DemoNameLen: nat := 128

  /** Item `k` is named and its name is not equal to `sn` within `nameLen`. */
  predicate Passes(dst: seq<Item>, k: nat, sn: string, nameLen: nat)
    requires k < |dst|
  {
    dst[k].name.Some? && !EqualsUpTo(dst[k].name.value, sn, nameLen)
  }

  /** The inner loop over positions `j .. n0 - 1` of the destination, where
      `n0` is its length before the merge started: an unnamed item aborts,
      the first name equal within `nameLen` is the match. */
  function ScanFrom(dst: seq<Item>, n0: nat, sn: string, nameLen: nat, j: nat): (r: Scan)
    requires j <= n0 <= |dst|
    ensures r.NoMatch? ==> forall k :: j <= k < n0 ==> Passes(dst, k, sn, nameLen)
    ensures r.Match? ==> j <= r.index < n0 && dst[r.index].name.Some?
                         && EqualsUpTo(dst[r.index].name.value, sn, nameLen)
                         && forall k :: j <= k < r.index ==> Passes(dst, k, sn, nameLen)
    ensures r.MissingName? ==>
              exists m :: j <= m < n0 && dst[m].name.None? && forall k :: j <= k < m ==> Passes(dst, k, sn, nameLen)
    decreases n0 - j
  {
    if j == n0 then NoMatch
    else if dst[j].name.None? then MissingName
    else if EqualsUpTo(dst[j].name.value, sn, nameLen) then Match(j)
    else ScanFrom(dst, n0, sn, nameLen, j + 1)
  }

  /** `s` with the destination's `IsDisplay`. */
  function Refresh(s: Item, prev: Item): Item {
    s.(isDisplay := prev.isDisplay)
  }

  /** One pass of the outer loop for source item `s`. */
  function MergeOne(dst: seq<Item>, n0: nat, s: Item, nameLen: nat): (r: Result<seq<Item>, MergeError>)
    requires s.name.Some? && n0 <= |dst|
    ensures r.Success? ==> |r.value| == |dst| + (if ScanFrom(dst, n0, s.name.value, nameLen, 0).NoMatch? && n0 > 0 then 1 else 0)
    ensures r.Failure? ==> r.error == NodeNoExist
  {
    match ScanFrom(dst, n0, s.name.value, nameLen, 0)
    case MissingName => Failure(NodeNoExist)
    case Match(k) =>
      if dst[k].isDisplay.None? then Failure(NodeNoExist)
      else Success(dst[..k] + dst[k + 1..] + [Refresh(s, dst[k])])
    case NoMatch => Success(if n0 > 0 then dst + [s] else dst)
  }

  /** The outer loop over the source items. */
  function MergeAll(src: seq<Item>, dst: seq<Item>, n0: nat, nameLen: nat): (r: Result<seq<Item>, MergeError>)
    requires n0 <= |dst|
    ensures r.Success? ==> |r.value| >= |dst|
    ensures r.Success? ==> forall i :: 0 <= i < |src| ==> src[i].name.Some?
    ensures r.Failure? ==> r.error == NodeNoExist
    decreases |src|
  {
    if src == [] then Success(dst)
    else if src[0].name.None? then Failure(NodeNoExist)
    else match MergeOne(dst, n0, src[0], nameLen)
      case Failure(e) => Failure(e)
      case Success(dst1) =>
        var r := MergeAll(src[1..], dst1, n0, nameLen);
        assert forall i :: 1 <= i < |src| ==> src[i] == src[1..][i - 1];
        r
  }

  /** The names of the source items. */
  function Names(src: seq<Item>): (r: set<string>)
    ensures forall n :: n in r <==> exists i :: 0 <= i < |src| && src[i].name == Some(n)
  {
    set i | 0 <= i < |src| && src[i].name.Some? :: src[i].name.value
  }

  predicate Kept(it: Item, names: set<string>) {
    it.name.Some? && it.name.value in names
  }

  /** The items that survive the final pass: named, with a source name. */
  function Prune(xs: seq<Item>, names: set<string>): (r: seq<Item>)
    ensures |r| <= |xs|
    ensures forall k :: 0 <= k < |r| ==> Kept(r[k], names)
    ensures forall it :: it in r <==> it in xs && Kept(it, names)
  {
    if xs == [] then []
    else if Kept(xs[0], names) then [xs[0]] + Prune(xs[1..], names)
    else Prune(xs[1..], names)
  }

  /** The final loop, which walks the array from its end and deletes the
      items that are not kept, leaves exactly `Prune`. */
  method PruneFromEnd(xs: seq<Item>, names: set<string>) returns (r: seq<Item>)
    ensures r == Prune(xs, names)
  {
    r := xs;
    var j := |xs|;
    while j > 0
      invariant 0 <= j <= |xs|
      invariant r == xs[..j] + Prune(xs[j..], names)
      decreases j
    {
      j := j - 1;
      PruneStep(xs, j, names);
      if !Kept(r[j], names) {
        r := r[..j] + r[j + 1..];
      }
    }
    assert xs[0..] == xs;
  }

  lemma PruneStep(xs: seq<Item>, j: nat, names: set<string>)
    requires j < |xs|
    ensures var r := xs[..j + 1] + Prune(xs[j + 1..], names);
            r[j] == xs[j]
            && (Kept(xs[j], names) ==> r == xs[..j] + Prune(xs[j..], names))
            && (!Kept(xs[j], names) ==> r[..j] + r[j + 1..] == xs[..j] + Prune(xs[j..], names))
  {
    assert xs[j..] == [xs[j]] + xs[j + 1..];
    assert xs[..j + 1] == xs[..j] + [xs[j]];
    PruneCons(xs[j], xs[j + 1..], names);
    SpliceOut(xs[..j], xs[j], Prune(xs[j + 1..], names));
  }

  /** `Prune` of a non-empty sequence, one item at a time. */
  lemma PruneCons(x: Item, t: seq<Item>, names: set<string>)
    ensures Prune([x] + t, names) == if Kept(x, names) then [x] + Prune(t, names) else Prune(t, names)
  {
    assert ([x] + t)[1..] == t;
  }

  /** Deleting the item after a prefix leaves the prefix and the rest. */
  lemma SpliceOut(a: seq<Item>, x: Item, rest: seq<Item>)
    ensures (a + [x] + rest)[|a|] == x
    ensures (a + [x] + rest)[..|a|] + (a + [x] + rest)[|a| + 1..] == a + rest
    ensures a + [x] + rest == a + ([x] + rest)
  {
    var r := a + [x] + rest;
    assert r[..|a|] == a;
    assert r[|a| + 1..] == rest;
  }

  /** The merge and the prune over already parsed arrays. */
  function MergeItems(src: seq<Item>, dst: seq<Item>, nameLen: nat): (r: Result<seq<Item>, MergeError>)
    ensures r.Success? ==> forall k :: 0 <= k < |r.value| ==> Kept(r.value[k], Names(src))
  {
    match MergeAll(src, dst, |dst|, nameLen)
    case Failure(e) => Failure(e)
    case Success(merged) => Success(Prune(merged, Names(src)))
  }

  /** `CDispManage::UpdateJson` up to saving: the items to be saved, or the
      error code. A document that cannot be read is None. */
  function UpdateJson(srcPath: string, dstPath: string, srcDoc: Option<Doc>, dstDoc: Option<Doc>,
                      nameLen: nat): (r: Result<seq<Item>, MergeError>)
    ensures (srcPath == [] || dstPath == []) ==> r == Failure(FileNotFound)
    ensures srcPath != [] && dstPath != [] && (srcDoc.None? || dstDoc.None?) ==> r == Failure(OutOfMemory)
    ensures (srcPath != [] && dstPath != [] && srcDoc.Some? && dstDoc.Some?
             && (srcDoc.value.eItems.None? || dstDoc.value.eItems.None?)) ==> r == Failure(NodeNoExist)
  {
    if srcPath == [] || dstPath == [] then Failure(FileNotFound)
    else if srcDoc.None? || dstDoc.None? then Failure(OutOfMemory)
    else if srcDoc.value.eItems.None? || dstDoc.value.eItems.None? then Failure(NodeNoExist)
    else MergeItems(srcDoc.value.eItems.value, dstDoc.value.eItems.value, nameLen)
  }

  /** `MergeKeepingIsDisplay`: the same merge with names compared on 128
      characters; None is the `false` result. */
  function MergeKeepingIsDisplay(srcDoc: Option<Doc>, dstDoc: Option<Doc>): (r: Option<seq<Item>>)
    ensures (srcDoc.None? || dstDoc.None?) ==> r.None?
    ensures srcDoc.Some? && dstDoc.Some? && (srcDoc.value.eItems.None? || dstDoc.value.eItems.None?) ==> r.None?
  {
    if srcDoc.None? || dstDoc.None? || srcDoc.value.eItems.None? || dstDoc.value.eItems.None? then None
    else match MergeItems(srcDoc.value.eItems.value, dstDoc.value.eItems.value, DemoNameLen)
      case Success(items) => Some(items)
      case Failure(_) => None
  }

  // ---------------------------------------------------------------------
  // Properties

  /** Positions at or after `n0` are never looked at by the scan. */
  lemma {:induction false} ScanIgnoresTail(dst: seq<Item>, extra: seq<Item>, n0: nat, sn: string, nameLen: nat, j: nat)
    requires j <= n0 <= |dst|
    ensures ScanFrom(dst + extra, n0, sn, nameLen, j) == ScanFrom(dst, n0, sn, nameLen, j)
    decreases n0 - j
  {
    if j < n0 {
      assert (dst + extra)[j] == dst[j];
      ScanIgnoresTail(dst, extra, n0, sn, nameLen, j + 1);
    }
  }

  /** A match replaces the matched item: it leaves its place and a copy of
      the source item carrying the matched item's `IsDisplay` goes to the
      end; an item without `IsDisplay` aborts the merge. */
  lemma MergeOneMatch(dst: seq<Item>, n0: nat, s: Item, nameLen: nat, k: nat)
    requires s.name.Some? && n0 <= |dst| && ScanFrom(dst, n0, s.name.value, nameLen, 0) == Match(k)
    ensures dst[k].isDisplay.None? ==> MergeOne(dst, n0, s, nameLen) == Failure(NodeNoExist)
    ensures dst[k].isDisplay.Some? ==>
              MergeOne(dst, n0, s, nameLen).Success?
              && var r := MergeOne(dst, n0, s, nameLen).value;
                 |r| == |dst| && r[..|r| - 1] == dst[..k] + dst[k + 1..]
                 && r[|r| - 1].name == s.name && r[|r| - 1].body == s.body
                 && r[|r| - 1].isDisplay == dst[k].isDisplay
  {
  }

  /** A source item no original destination item matches is appended, but
      only when the destination started out non-empty. */
  lemma MergeOneNoMatch(dst: seq<Item>, n0: nat, s: Item, nameLen: nat)
    requires s.name.Some? && n0 <= |dst| && ScanFrom(dst, n0, s.name.value, nameLen, 0) == NoMatch
    ensures n0 > 0 ==> MergeOne(dst, n0, s, nameLen) == Success(dst + [s])
    ensures n0 == 0 ==> MergeOne(dst, n0, s, nameLen) == Success(dst)
  {
  }

  /** Merging into an initially empty destination adds nothing: the result
      is empty, or the merge fails on an unnamed source item. */
  lemma {:induction false} EmptyDestinationStaysEmpty(src: seq<Item>, nameLen: nat)
    ensures MergeAll(src, [], 0, nameLen) == Failure(NodeNoExist) || MergeAll(src, [], 0, nameLen) == Success([])
    ensures MergeAll(src, [], 0, nameLen).Success? <==> forall i :: 0 <= i < |src| ==> src[i].name.Some?
    decreases |src|
  {
    if src != [] && src[0].name.Some? {
      assert ScanFrom([], 0, src[0].name.value, nameLen, 0) == NoMatch;
      EmptyDestinationStaysEmpty(src[1..], nameLen);
      assert forall i :: 1 <= i < |src| ==> src[i] == src[1..][i - 1];
    }
  }

  /** Some item of `xs` carries the name and the body of `s`. */
  predicate Has(xs: seq<Item>, s: Item) {
    exists k :: 0 <= k < |xs| && xs[k].name == s.name && xs[k].body == s.body
  }

  /** No two named source items are equal within `nameLen`. */
  predicate Distinct(src: seq<Item>, nameLen: nat) {
    forall a, b :: 0 <= a < b < |src| && src[a].name.Some? && src[b].name.Some? ==>
      !EqualsUpTo(src[a].name.value, src[b].name.value, nameLen)
  }

  /** A named item that the source item's name does not match survives its
      pass. */
  lemma MergeOneKeeps(dst: seq<Item>, n0: nat, s: Item, nameLen: nat, x: Item)
    requires s.name.Some? && n0 <= |dst| && MergeOne(dst, n0, s, nameLen).Success?
    requires x in dst && x.name.Some? && !EqualsUpTo(x.name.value, s.name.value, nameLen)
    ensures x in MergeOne(dst, n0, s, nameLen).value
  {
    var r := MergeOne(dst, n0, s, nameLen).value;
    match ScanFrom(dst, n0, s.name.value, nameLen, 0)
    case NoMatch =>
      assert dst <= r;
    case Match(k) =>
      var m :| 0 <= m < |dst| && dst[m] == x;
      assert m != k;
      if m < k {
        assert r[m] == x;
      } else {
        assert r[m - 1] == x;
      }
  }

  /** After its pass, a source item is present in a destination that
      started out non-empty. */
  lemma MergeOneAdds(dst: seq<Item>, n0: nat, s: Item, nameLen: nat)
    requires s.name.Some? && 0 < n0 <= |dst| && MergeOne(dst, n0, s, nameLen).Success?
    ensures Has(MergeOne(dst, n0, s, nameLen).value, s)
  {
    var r := MergeOne(dst, n0, s, nameLen).value;
    assert r[|r| - 1].name == s.name && r[|r| - 1].body == s.body;
  }

  lemma {:induction false} MergeAllKeeps(src: seq<Item>, dst: seq<Item>, n0: nat, nameLen: nat, x: Item)
    requires n0 <= |dst| && MergeAll(src, dst, n0, nameLen).Success?
    requires x in dst && x.name.Some?
    requires forall i :: 0 <= i < |src| && src[i].name.Some? ==> !EqualsUpTo(x.name.value, src[i].name.value, nameLen)
    ensures x in MergeAll(src, dst, n0, nameLen).value
    decreases |src|
  {
    if src != [] {
      var dst1 := MergeOne(dst, n0, src[0], nameLen).value;
      MergeOneKeeps(dst, n0, src[0], nameLen, x);
      assert forall i :: 0 <= i < |src[1..]| ==> src[1..][i] == src[i + 1];
      MergeAllKeeps(src[1..], dst1, n0, nameLen, x);
    }
  }

  lemma {:induction false} MergeAllCovers(src: seq<Item>, dst: seq<Item>, n0: nat, nameLen: nat)
    requires 0 < n0 <= |dst| && Distinct(src, nameLen) && MergeAll(src, dst, n0, nameLen).Success?
    ensures forall i :: 0 <= i < |src| ==> Has(MergeAll(src, dst, n0, nameLen).value, src[i])
    decreases |src|
  {
    if src != [] {
      var r := MergeAll(src, dst, n0, nameLen).value;
      var dst1 := MergeOne(dst, n0, src[0], nameLen).value;
      assert forall i :: 0 <= i < |src[1..]| ==> src[1..][i] == src[i + 1];
      MergeAllCovers(src[1..], dst1, n0, nameLen);
      MergeOneAdds(dst, n0, src[0], nameLen);
      var k :| 0 <= k < |dst1| && dst1[k].name == src[0].name && dst1[k].body == src[0].body;
      MergeAllKeeps(src[1..], dst1, n0, nameLen, dst1[k]);
      assert Has(r, src[0]);
      forall i | 0 < i < |src| ensures Has(r, src[i]) {
        assert src[i] == src[1..][i - 1];
      }
    }
  }

  /** With source names that do not collide within `nameLen` and a
      non-empty destination, a successful merge holds every source item,
      by name and content, and nothing whose name is not a source name. */
  lemma MergeItemsNames(src: seq<Item>, dst: seq<Item>, nameLen: nat)
    requires dst != [] && Distinct(src, nameLen) && MergeItems(src, dst, nameLen).Success?
    ensures forall i :: 0 <= i < |src| ==> Has(MergeItems(src, dst, nameLen).value, src[i])
    ensures forall k :: 0 <= k < |MergeItems(src, dst, nameLen).value| ==>
              MergeItems(src, dst, nameLen).value[k].name.Some?
              && MergeItems(src, dst, nameLen).value[k].name.value in Names(src)
  {
    var merged := MergeAll(src, dst, |dst|, nameLen).value;
    var r := Prune(merged, Names(src));
    MergeAllCovers(src, dst, |dst|, nameLen);
    forall i | 0 <= i < |src| ensures Has(r, src[i]) {
      var k :| 0 <= k < |merged| && merged[k].name == src[i].name && merged[k].body == src[i].body;
      assert src[i].name.Some? && src[i].name.value in Names(src);
      assert merged[k] in merged && Kept(merged[k], Names(src));
      var m :| 0 <= m < |r| && r[m] == merged[k];
    }
  }
}

=== FILE: fixed.dfy ===
/** Fixed-width unsigned integers of the C sources, and their wrap-around. */
module Fixed {

  const TwoTo32: int := 0x1_0000_0000
  const TwoTo64: int := 0x1_0000_0000_0000_0000

  type Byte = b: int | 0 <= b < 256
  type U32 = x: int | 0 <= x < 0x1_0000_0000
  type U64 = x: int | 0 <= x < 0x1_0000_0000_0000_0000

  /** `a - b` on `uint64_t`: a smaller minuend wraps around. */
  function Sub64(a: U64, b: U64): (r: U64)
    ensures (b + r) % TwoTo64 == a
    ensures a >= b ==> r == a - b
  {
    if a >= b then a - b else a - b + TwoTo64
  }

  /** `std::max` on two values. */
  function Max64(a: U64, b: U64): (r: U64)
    ensures r >= a && r >= b && (r == a || r == b)
  {
    if a >= b then a else b
  }
}

=== FILE: framework_proj.dfy ===
/** The solution-file bookkeeping of `VibeCoding/framework_proj.c`: how
    `.sln` and `.scsln` files in the solution directory become the entries of
    the project manifest, when the manifest must be rebuilt, which project
    becomes the last-used one, and how a project is added to or refreshed in
    the manifest. The manifest is a value here; reading and writing its JSON
    file, the directory listing and the solution headers are inputs. */
module FrameworkProj {
  import opened Wrappers
  import opened Text

  /** DEFAULT_PROJ_NAME */
  const DefaultProjName: string := "Untitled"
  /** PROJ_DIR */
  const ProjDir: string := "/mnt/data/project_dir/"
  /** The line configuration stored for a project whose DI source clashes. */
  const NoLineCfg: string := "*****"

  /** Buffer sizes whose defining header is not part of this model:
      MAX_FNAME_LEN, MAX_PROJECT_SWITCH_NUM and MAX_ALGO_NAME_LEN. */
  datatype Limits = Limits(fnameLen: nat, switchNum: nat, algoNameLen: nat)

  // ---------------------------------------------------------------------
  // Solution file names

  /** `enum sln_file_ext` without SLN_FILE_NONE, which is the None of an
      Option. */
  datatype Ext = Sln | Scsln

  function ExtText(e: Ext): string {
    match e
    case Sln => ".sln"
    case Scsln => ".scsln"
  }

  predicate EndsWith(s: string, suffix: string) {
    |s| >= |suffix| && s[|s| - |suffix|..] == suffix
  }

  /** `scfw_parse_sln_filename` with a name buffer of `nameLen` bytes: the
      extension is tested as `.sln` first, the file name must be longer than
      it, and the base name must fit the buffer with its terminator. */
  function ParseSlnFilename(filename: Option<string>, nameLen: nat): (r: Option<(Ext, string)>)
    ensures r.Some? ==> filename.Some? && filename.value == r.value.1 + ExtText(r.value.0)
    ensures r.Some? ==> 0 < |r.value.1| < nameLen
    ensures r.Some? && r.value.0 == Scsln ==> !EndsWith(filename.value, ".sln")
  {
    if filename.None? || nameLen == 0 then None
    else
      var f := filename.value;
      var ext := if |f| > 4 && EndsWith(f, ".sln") then Some(Sln)
                 else if |f| > 6 && EndsWith(f, ".scsln") then Some(Scsln)
                 else None;
      if ext.None? then None
      else
        var base := |f| - |ExtText(ext.value)|;
        if base >= nameLen then None
        else Some((ext.value, f[..base]))
  }

  /** A name with one of the extensions parses back to itself. */
  lemma ParseSlnRoundTrip(name: string, e: Ext, nameLen: nat)
    requires 0 < |name| < nameLen
    requires e == Scsln ==> !EndsWith(name + ".scsln", ".sln")
    ensures ParseSlnFilename(Some(name + ExtText(e)), nameLen) == Some((e, name))
  {
    var f := name + ExtText(e);
    assert f[|f| - |ExtText(e)|..] == ExtText(e);
    assert f[..|name|] == name;
  }

  /** A base name that does not fit the buffer is refused. */
  lemma ParseSlnTooLong(name: string, e: Ext, nameLen: nat)
    requires |name| >= nameLen
    ensures ParseSlnFilename(Some(name + ExtText(e)), nameLen).None?
  {
  }

  // ---------------------------------------------------------------------
  // Collecting the solution directory

  /** `struct sln_file_entry` */
  datatype SlnEntry = SlnEntry(filename: string, name: string, ext: Ext)

  /** One directory listing entry. */
  datatype DirEntry = DirEntry(name: string, isFile: bool)

  /** `scfw_find_sln_entry`: the first entry whose name agrees with `name`
      on the first `fnameLen` characters, -1 when there is none. */
  function FindSlnEntry(entries: seq<SlnEntry>, name: string, fnameLen: nat): (r: int)
    ensures -1 <= r < |entries|
    ensures r >= 0 ==> EqualsUpTo(entries[r].name, name, fnameLen)
                       && forall j :: 0 <= j < r ==> !EqualsUpTo(entries[j].name, name, fnameLen)
    ensures r == -1 <==> forall j :: 0 <= j < |entries| ==> !EqualsUpTo(entries[j].name, name, fnameLen)
    decreases |entries|
  {
    if entries == [] then -1
    else if EqualsUpTo(entries[0].name, name, fnameLen) then 0
    else
      var k := FindSlnEntry(entries[1..], name, fnameLen);
      if k == -1 then -1 else k + 1
  }

  /** `scfw_project_name_in_entries` */
  predicate NameInEntries(entries: seq<SlnEntry>, name: string, fnameLen: nat) {
    exists j :: 0 <= j < |entries| && EqualsUpTo(entries[j].name, name, fnameLen)
  }

  /** `scfw_project_name_in_list` */
  predicate NameInList(names: seq<string>, name: string, fnameLen: nat) {
    exists j :: 0 <= j < |names| && EqualsUpTo(names[j], name, fnameLen)
  }

  /** What one directory entry does to the collected entries: None when
      the table is full and the name is new, which ends the scan. */
  function CollectStep(entries: seq<SlnEntry>, d: DirEntry, lim: Limits): (r: Option<seq<SlnEntry>>)
    ensures r.Some? ==> |r.value| == |entries| || (|r.value| == |entries| + 1 && r.value[..|entries|] == entries)
    ensures r.Some? ==> forall i :: 0 <= i < |entries| ==>
              r.value[i].name == entries[i].name && (entries[i].ext == Sln ==> r.value[i] == entries[i])
  {
    if !d.isFile then Some(entries)
    else match ParseSlnFilename(Some(d.name), lim.fnameLen + 1)
      case None => Some(entries)
      case Some((ext, name)) =>
        var idx := FindSlnEntry(entries, name, lim.fnameLen);
        if idx >= 0 then
          if entries[idx].ext == Scsln && ext == Sln then
            Some(entries[idx := SlnEntry(d.name, entries[idx].name, ext)])
          else Some(entries)
        else if |entries| >= lim.switchNum then None
        else Some(entries + [SlnEntry(d.name, name, ext)])
  }

  /** The scan loop of `scfw_collect_sln_files` over the listing. */
  function CollectFrom(entries: seq<SlnEntry>, dir: seq<DirEntry>, lim: Limits): seq<SlnEntry>
    decreases |dir|
  {
    if dir == [] then entries
    else match CollectStep(entries, dir[0], lim)
      case None => entries
      case Some(next) => CollectFrom(next, dir[1..], lim)
  }

  /** `scfw_collect_sln_files`: -2 when the directory cannot be opened. */
  function CollectSlnFiles(dir: Option<seq<DirEntry>>, lim: Limits): (r: Result<seq<SlnEntry>, int>)
    ensures dir.None? <==> r == Failure(-2)
  {
    if dir.None? then Failure(-2) else Success(CollectFrom([], dir.value, lim))
  }

  /** Names are pairwise different (they fit `fnameLen`, so agreeing on
      the first `fnameLen` characters is equality). */
  predicate DistinctNames(entries: seq<SlnEntry>) {
    forall i, j :: 0 <= i < j < |entries| ==> entries[i].name != entries[j].name
  }

  /** The entry is the parse of its own file name. */
  predicate EntryOk(e: SlnEntry, lim: Limits) {
    ParseSlnFilename(Some(e.filename), lim.fnameLen + 1) == Some((e.ext, e.name))
  }

  /** Every entry comes from a file of the listing and carries the name
      parsed from it. */
  predicate WellFormed(entries: seq<SlnEntry>, lim: Limits) {
    forall i :: 0 <= i < |entries| ==> EntryOk(entries[i], lim)
  }

  /** On strings that fit `n`, agreeing on `n` characters is equality. */
  lemma EqualsUpToShort(a: string, b: string, n: nat)
    requires |a| <= n && |b| <= n && EqualsUpTo(a, b, n)
    ensures a == b
  {
    assert a == a[..|a|] && b == b[..|b|];
  }

  lemma EntryNameFits(e: SlnEntry, lim: Limits)
    requires EntryOk(e, lim)
    ensures |e.name| <= lim.fnameLen
  {
  }

  lemma AppendKeeps(entries: seq<SlnEntry>, e: SlnEntry, lim: Limits)
    requires DistinctNames(entries) && WellFormed(entries, lim) && EntryOk(e, lim)
    requires forall i :: 0 <= i < |entries| ==> entries[i].name != e.name
    ensures DistinctNames(entries + [e]) && WellFormed(entries + [e], lim)
  {
  }

  lemma ReplaceKeeps(entries: seq<SlnEntry>, idx: nat, e: SlnEntry, lim: Limits)
    requires idx < |entries| && entries[idx].name == e.name
    requires DistinctNames(entries) && WellFormed(entries, lim) && EntryOk(e, lim)
    ensures DistinctNames(entries[idx := e]) && WellFormed(entries[idx := e], lim)
  {
  }

  lemma CollectStepKeeps(entries: seq<SlnEntry>, d: DirEntry, lim: Limits)
    requires DistinctNames(entries) && |entries| <= lim.switchNum && WellFormed(entries, lim)
    requires CollectStep(entries, d, lim).Some?
    ensures var next := CollectStep(entries, d, lim).value;
            DistinctNames(next) && |next| <= lim.switchNum && WellFormed(next, lim)
  {
    var p := ParseSlnFilename(Some(d.name), lim.fnameLen + 1);
    if d.isFile && p.Some? {
      var ext := p.value.0;
      var name := p.value.1;
      var e := SlnEntry(d.name, name, ext);
      assert EntryOk(e, lim);
      var idx := FindSlnEntry(entries, name, lim.fnameLen);
      if idx >= 0 {
        if entries[idx].ext == Scsln && ext == Sln {
          EntryNameFits(entries[idx], lim);
          EqualsUpToShort(entries[idx].name, name, lim.fnameLen);
          ReplaceKeeps(entries, idx, e, lim);
          assert CollectStep(entries, d, lim).value == entries[idx := e];
        }
      } else {
        forall i | 0 <= i < |entries|
          ensures entries[i].name != name
        {
          assert !EqualsUpTo(entries[i].name, name, lim.fnameLen);
        }
        AppendKeeps(entries, e, lim);
        assert CollectStep(entries, d, lim).value == entries + [e];
      }
    }
  }

  /** The collected entries have distinct names, number at most
      `switchNum`, and each is the parse of a listed file. */
  lemma {:induction false} CollectFromKeeps(entries: seq<SlnEntry>, dir: seq<DirEntry>, lim: Limits)
    requires DistinctNames(entries) && |entries| <= lim.switchNum && WellFormed(entries, lim)
    ensures var r := CollectFrom(entries, dir, lim);
            DistinctNames(r) && |r| <= lim.switchNum && WellFormed(r, lim)
    decreases |dir|
  {
    if dir != [] && CollectStep(entries, dir[0], lim).Some? {
      CollectStepKeeps(entries, dir[0], lim);
      CollectFromKeeps(CollectStep(entries, dir[0], lim).value, dir[1..], lim);
    }
  }

  /** A `.sln` entry is never replaced: once a name is collected from a
      `.sln` file, it keeps that file whatever follows. */
  lemma {:induction false} SlnIsNeverReplaced(entries: seq<SlnEntry>, dir: seq<DirEntry>, lim: Limits, i: nat)
    requires i < |entries| && entries[i].ext == Sln
    ensures var r := CollectFrom(entries, dir, lim);
            i < |r| && r[i] == entries[i]
    decreases |dir|
  {
    if dir != [] && CollectStep(entries, dir[0], lim).Some? {
      SlnIsNeverReplaced(CollectStep(entries, dir[0], lim).value, dir[1..], lim, i);
    }
  }

  /** In well-formed distinct entries, each name is found at its own
      position. */
  lemma FindsOwnName(entries: seq<SlnEntry>, i: nat, lim: Limits)
    requires i < |entries| && DistinctNames(entries) && WellFormed(entries, lim)
    ensures FindSlnEntry(entries, entries[i].name, lim.fnameLen) == i
  {
    var name := entries[i].name;
    var idx := FindSlnEntry(entries, name, lim.fnameLen);
    assert EqualsUpTo(entries[i].name, name, lim.fnameLen);
    assert EntryOk(entries[idx], lim) && EntryOk(entries[i], lim);
    EntryNameFits(entries[idx], lim);
    EntryNameFits(entries[i], lim);
    EqualsUpToShort(entries[idx].name, name, lim.fnameLen);
  }

  /** A `.sln` file replaces the `.scsln` entry of the same name. */
  lemma SlnReplacesScsln(entries: seq<SlnEntry>, name: string, lim: Limits, i: nat)
    requires i < |entries| && entries[i].ext == Scsln && entries[i].name == name
    requires DistinctNames(entries) && WellFormed(entries, lim) && 0 < |name| <= lim.fnameLen
    ensures CollectStep(entries, DirEntry(name + ".sln", true), lim)
            == Some(entries[i := SlnEntry(name + ".sln", name, Sln)])
  {
    var d := DirEntry(name + ".sln", true);
    ParseSlnRoundTrip(name, Sln, lim.fnameLen + 1);
    assert ParseSlnFilename(Some(d.name), lim.fnameLen + 1) == Some((Sln, name));
    FindsOwnName(entries, i, lim);
  }

  // ---------------------------------------------------------------------
  // The manifest

  /** One project object of the manifest's project list. Fields whose
      values are only copied are grouped in `details`. */
  datatype Project = Project(name: Option<string>, passwd: string, createTime: string, intervalMs: int,
                             diEnable: int, lineCfg: string, imageSource: string, details: SwitchDetails,
                             reload: bool)

  /** The remaining switch fields copied from `struct switch_info`. */
  datatype SwitchDetails = SwitchDetails(cmStr: string, cmSuffix: string, cmRet: string, cmFail: string,
                                         source: int, active: int, time: int, cmEnable: int, ioInput: int,
                                         camTriggerSource: int, camTriggerMode: int, triggerCmStr: string)

  /** What `add_proj_to_proj_mng_json` is given about a project. */
  datatype ProjectInfo = ProjectInfo(name: string, passwd: string, createTime: string, intervalMs: int)
  datatype SwitchInfo = SwitchInfo(diEnable: int, lineCfg: string, details: SwitchDetails)

  /** The manifest root: last-used name, project count and project list;
      None stands for a missing member. */
  datatype Manifest = Manifest(lastUsed: Option<string>, num: Option<int>, list: Option<seq<Option<Project>>>)

  /** `scfw_collect_proj_names_from_mng`: the names of the first `num`
      projects (bounded by the list), skipping objects without a name,
      at most `switchNum` of them, each cut to `fnameLen`. */
  function CollectNames(list: seq<Option<Project>>, count: int, room: nat, lim: Limits): (r: seq<string>)
    ensures |r| <= room
    ensures forall k :: 0 <= k < |r| ==> |r[k]| <= lim.fnameLen
    decreases |list|
  {
    if count <= 0 || list == [] || room == 0 then []
    else if list[0].Some? && list[0].value.name.Some? then
      [Truncate(list[0].value.name.value, lim.fnameLen + 1)] + CollectNames(list[1..], count - 1, room - 1, lim)
    else CollectNames(list[1..], count - 1, room, lim)
  }

  function CollectProjNamesFromMng(root: Option<Manifest>, lim: Limits): (r: Result<seq<string>, int>)
    ensures r.Failure? <==> root.None? || root.value.list.None? || root.value.num.None?
    ensures r.Failure? ==> r.error == (if root.None? then -1 else -2)
    ensures r.Success? ==> |r.value| <= lim.switchNum
  {
    if root.None? then Failure(-1)
    else if root.value.list.None? || root.value.num.None? then Failure(-2)
    else Success(CollectNames(root.value.list.value, root.value.num.value, lim.switchNum, lim))
  }

  /** What is known of the manifest file when the sync starts. */
  datatype ManifestFile = NoFile | Unreadable | Loaded(root: Manifest)

  /** The need-update decision of `scfw_sync_project_mng_with_sln_files`. */
  function NeedUpdate(entries: seq<SlnEntry>, file: ManifestFile, lim: Limits): bool {
    match file
    case NoFile => |entries| > 0
    case Unreadable => true
    case Loaded(root) =>
      match CollectProjNamesFromMng(Some(root), lim)
      case Failure(_) => true
      case Success(names) =>
        |names| != |entries|
        || (exists i :: 0 <= i < |entries| && !NameInList(names, entries[i].name, lim.fnameLen))
        || (exists i :: 0 <= i < |names| && !NameInEntries(entries, names[i], lim.fnameLen))
  }

  /** The names the loaded manifest lists. */
  function ManifestNames(file: ManifestFile, lim: Limits): seq<string>
    requires file.Loaded?
  {
    match CollectProjNamesFromMng(Some(file.root), lim)
    case Failure(_) => []
    case Success(names) => names
  }

  /** No rebuild happens exactly when a readable manifest lists as many
      names as there are solution entries and the two name sets contain
      each other. */
  lemma NeedUpdateIff(entries: seq<SlnEntry>, file: ManifestFile, lim: Limits)
    requires file.Loaded? && file.root.list.Some? && file.root.num.Some?
    ensures var names := ManifestNames(file, lim);
            !NeedUpdate(entries, file, lim) <==>
              |names| == |entries|
              && (forall i :: 0 <= i < |entries| ==> NameInList(names, entries[i].name, lim.fnameLen))
              && (forall i :: 0 <= i < |names| ==> NameInEntries(entries, names[i], lim.fnameLen))
  {
  }

  /** The last-used project chosen after a rebuild: the stored name if it
      is among the entries, else "Untitled" if it is, else the first entry,
      else "Untitled". */
  function LastUsed(entries: seq<SlnEntry>, stored: string, lim: Limits): (r: string)
    ensures r == DefaultProjName || (exists i :: 0 <= i < |entries| && r == entries[i].name)
            || (r == stored && NameInEntries(entries, stored, lim.fnameLen))
  {
    if |stored| > 0 && NameInEntries(entries, stored, lim.fnameLen) then stored
    else if NameInEntries(entries, DefaultProjName, lim.fnameLen) then DefaultProjName
    else if |entries| > 0 then entries[0].name
    else DefaultProjName
  }

  /** The precedence of `LastUsed`, one rule at a time. */
  lemma LastUsedPrecedence(entries: seq<SlnEntry>, stored: string, lim: Limits)
    ensures |stored| > 0 && NameInEntries(entries, stored, lim.fnameLen) ==> LastUsed(entries, stored, lim) == stored
    ensures ((|stored| == 0 || !NameInEntries(entries, stored, lim.fnameLen))
             && NameInEntries(entries, DefaultProjName, lim.fnameLen)) ==> LastUsed(entries, stored, lim) == DefaultProjName
    ensures ((|stored| == 0 || !NameInEntries(entries, stored, lim.fnameLen))
             && !NameInEntries(entries, DefaultProjName, lim.fnameLen) && |entries| > 0)
            ==> LastUsed(entries, stored, lim) == entries[0].name
    ensures entries == [] ==> LastUsed(entries, stored, lim) == DefaultProjName
  {
  }

  // ---------------------------------------------------------------------
  // Adding a project

  /** A listed DI-enabled project on the switch's line configuration. */
  predicate Clashes(p: Option<Project>, sw: SwitchInfo) {
    p.Some? && p.value.diEnable != 0 && p.value.lineCfg == sw.lineCfg
  }

  /** `has_same_io_switch_src`: a DI-enabled switch clashes with any listed
      DI-enabled project on the same line configuration. Every list element
      is examined, whatever the stored count says. */
  function HasSameIoSwitchSrc(list: seq<Option<Project>>, sw: SwitchInfo): (r: bool)
    ensures r <==> sw.diEnable != 0 && (exists i :: 0 <= i < |list| && Clashes(list[i], sw))
    decreases |list|
  {
    if sw.diEnable == 0 || list == [] then false
    else if Clashes(list[0], sw) then true
    else
      var r := HasSameIoSwitchSrc(list[1..], sw);
      assert r ==> exists i :: 1 <= i < |list| && Clashes(list[i], sw) by {
        if r {
          var i :| 0 <= i < |list[1..]| && Clashes(list[1..][i], sw);
          assert Clashes(list[i + 1], sw);
        }
      }
      r
  }

  /** The result of `get_project_obj`. */
  datatype Found = At(index: nat) | NotFound

  /** `get_project_obj`: the first of the first `count` list positions
      whose project name agrees with `name` on `fnameLen` characters. A
      missing position is skipped; a project without a name ends the search
      with nothing found. */
  function GetProjectObj(list: seq<Option<Project>>, count: int, name: string, lim: Limits, i: nat): (r: Found)
    ensures r.At? ==> i <= r.index < |list| && r.index < count && list[r.index].Some?
                         && list[r.index].value.name.Some?
                         && EqualsUpTo(list[r.index].value.name.value, name, lim.fnameLen)
    decreases if count - i < 0 then 0 else count - i
  {
    if i >= count then NotFound
    else if i >= |list| || list[i].None? then GetProjectObj(list, count, name, lim, i + 1)
    else if list[i].value.name.None? then NotFound
    else if EqualsUpTo(list[i].value.name.value, name, lim.fnameLen) then At(i)
    else GetProjectObj(list, count, name, lim, i + 1)
  }

  function FindProject(m: Manifest, name: string, lim: Limits): Found {
    if m.list.None? || m.num.None? then NotFound
    else GetProjectObj(m.list.value, m.num.value, name, lim, 0)
  }

  /** The project object a new project is stored as; a clashing DI source
      is switched off and its line configuration blanked. */
  function NewProject(info: ProjectInfo, sw: SwitchInfo, imageSource: string, clash: bool): (p: Project)
    ensures p.name == Some(info.name) && p.reload
    ensures clash ==> p.diEnable == 0 && p.lineCfg == NoLineCfg
    ensures !clash ==> p.diEnable == sw.diEnable && p.lineCfg == sw.lineCfg
  {
    Project(Some(info.name), info.passwd, info.createTime, info.intervalMs,
            if clash then 0 else sw.diEnable, if clash then NoLineCfg else sw.lineCfg,
            imageSource, sw.details, true)
  }

  /** The refresh of an existing project: every field takes the new value
      (the DI source without a clash check), the image source only when
      `typ` is non-zero, and the reload flag is set. */
  function Refresh(p: Project, info: ProjectInfo, sw: SwitchInfo, imageSource: string, typ: int): (r: Project)
    ensures r.name == p.name && r.reload && r.diEnable == sw.diEnable && r.lineCfg == sw.lineCfg
    ensures r.imageSource == (if typ != 0 then imageSource else p.imageSource)
  {
    p.(passwd := info.passwd, createTime := info.createTime, intervalMs := info.intervalMs,
       diEnable := sw.diEnable, lineCfg := sw.lineCfg,
       imageSource := if typ != 0 then imageSource else p.imageSource,
       details := sw.details, reload := true)
  }

  /** `add_proj_to_proj_mng_json` on a present manifest; the status is 0,
      -4 without a project list, or -6 without a count, in which case the
      new project has already been appended. */
  function AddProj(m: Manifest, info: ProjectInfo, sw: SwitchInfo, imageSource: string, typ: int, lim: Limits): (r: (Manifest, int))
    ensures r.1 == -4 ==> r.0 == m
    ensures r.0.lastUsed == m.lastUsed
  {
    match FindProject(m, info.name, lim)
    case At(i) =>
      var p := m.list.value[i].value;
      (m.(list := Some(m.list.value[i := Some(Refresh(p, info, sw, imageSource, typ))])), 0)
    case NotFound =>
      if m.list.None? then (m, -4)
      else
        var clash := HasSameIoSwitchSrc(m.list.value, sw);
        var list := m.list.value + [Some(NewProject(info, sw, imageSource, clash))];
        if m.num.None? then (m.(list := Some(list)), -6)
        else (m.(list := Some(list), num := Some(m.num.value + 1)), 0)
  }

  /** A consistent manifest: the count is the list length and every
      project has a name. */
  predicate Consistent(m: Manifest) {
    m.list.Some? && m.num.Some? && m.num.value == |m.list.value|
    && forall i :: 0 <= i < |m.list.value| ==> m.list.value[i].Some? && m.list.value[i].value.name.Some?
  }

  /** The lookup finds a name that some later project carries. */
  lemma {:induction false} LookupFinds(list: seq<Option<Project>>, name: string, lim: Limits, i: nat, k: nat)
    requires i <= k < |list|
    requires forall j :: 0 <= j < |list| ==> list[j].Some? && list[j].value.name.Some?
    requires EqualsUpTo(list[k].value.name.value, name, lim.fnameLen)
    ensures GetProjectObj(list, |list|, name, lim, i).At?
    decreases |list| - i
  {
    if !EqualsUpTo(list[i].value.name.value, name, lim.fnameLen) {
      LookupFinds(list, name, lim, i + 1, k);
    }
  }

  /** Adding a project to a consistent manifest keeps it consistent, and
      the project can then be looked up. A new project lands at the end
      with the clash rule applied; an existing one keeps its position. */
  lemma AddProjThenFound(m: Manifest, info: ProjectInfo, sw: SwitchInfo, imageSource: string, typ: int, lim: Limits)
    requires Consistent(m)
    ensures var (m2, st) := AddProj(m, info, sw, imageSource, typ, lim);
            st == 0 && Consistent(m2) && FindProject(m2, info.name, lim).At?
    ensures var (m2, st) := AddProj(m, info, sw, imageSource, typ, lim);
            FindProject(m, info.name, lim).NotFound? ==>
              m2.list.value == m.list.value + [Some(NewProject(info, sw, imageSource, HasSameIoSwitchSrc(m.list.value, sw)))]
  {
    var (m2, st) := AddProj(m, info, sw, imageSource, typ, lim);
    match FindProject(m, info.name, lim)
    case At(i) =>
      var list2 := m2.list.value;
      assert list2[i].value.name == m.list.value[i].value.name;
      LookupFinds(list2, info.name, lim, 0, i);
    case NotFound =>
      var list2 := m2.list.value;
      assert EqualsUpTo(info.name, info.name, lim.fnameLen);
      LookupFinds(list2, info.name, lim, 0, |list2| - 1);
  }

  // ---------------------------------------------------------------------
  // Rebuilding the manifest

  /** What is read from one solution header, or the defaults filled in
      when it cannot be read. */
  datatype Header = Header(info: ProjectInfo, sw: SwitchInfo, imageSource: string)

  /** The add loop of the rebuild: each entry is added under its own name
      with image-source type UNSAVE_IMAGE_SOURCE (0). */
  function AddAll(m: Manifest, entries: seq<SlnEntry>, headers: seq<Header>, lim: Limits): Manifest
    requires |headers| == |entries|
    decreases |entries|
  {
    if entries == [] then m
    else AddAll(AddEntry(m, entries[0].name, headers[0], lim), entries[1..], headers[1..], lim)
  }

  /** One entry added under its own name with image-source type
      UNSAVE_IMAGE_SOURCE (0). */
  function AddEntry(m: Manifest, name: string, h: Header, lim: Limits): Manifest {
    AddProj(m, h.info.(name := name), h.sw, h.imageSource, 0, lim).0
  }

  /** `scfw_sync_project_mng_with_sln_files`: nothing happens when a
      manifest is already loaded or no update is needed; otherwise the
      manifest to save is built from scratch. */
  function Sync(loaded: bool, entries: seq<SlnEntry>, file: ManifestFile, headers: seq<Header>, lim: Limits): (r: Option<Manifest>)
    requires |headers| == |entries|
    ensures r.Some? <==> !loaded && NeedUpdate(entries, file, lim)
  {
    if loaded || !NeedUpdate(entries, file, lim) then None
    else
      var stored := if file.Loaded? && file.root.lastUsed.Some? then Truncate(file.root.lastUsed.value, lim.fnameLen + 1) else "";
      Some(AddAll(Manifest(Some(LastUsed(entries, stored, lim)), Some(0), Some([])), entries, headers, lim))
  }

  /** The names a manifest lists, in order. */
  function ListedNames(list: seq<Option<Project>>): seq<Option<string>> {
    seq(|list|, i requires 0 <= i < |list| => if list[i].Some? then list[i].value.name else None)
  }

  function EntryNames(entries: seq<SlnEntry>): seq<Option<string>> {
    seq(|entries|, i requires 0 <= i < |entries| => Some(entries[i].name))
  }

  lemma EntryNamesCons(entries: seq<SlnEntry>)
    requires entries != []
    ensures EntryNames(entries) == [Some(entries[0].name)] + EntryNames(entries[1..])
  {
  }

  lemma ConcatAssoc<T>(a: seq<T>, b: seq<T>, c: seq<T>)
    ensures (a + b) + c == a + (b + c)
  {
  }

  /** A name no listed project agrees with is not found. */
  lemma {:induction false} LookupMisses(list: seq<Option<Project>>, name: string, lim: Limits, i: nat)
    requires i <= |list|
    requires forall k :: 0 <= k < |list| ==>
               (list[k].Some? && list[k].value.name.Some? && !EqualsUpTo(list[k].value.name.value, name, lim.fnameLen))
    ensures GetProjectObj(list, |list|, name, lim, i) == NotFound
    decreases |list| - i
  {
    if i < |list| {
      LookupMisses(list, name, lim, i + 1);
    }
  }

  /** Names every listed project carries, each fitting `fnameLen`. */
  predicate NamesFit(m: Manifest, lim: Limits)
    requires Consistent(m)
  {
    forall k :: 0 <= k < |m.list.value| ==> |m.list.value[k].value.name.value| <= lim.fnameLen
  }

  /** No listed project carries `name`. */
  predicate Unlisted(m: Manifest, name: string)
    requires Consistent(m)
  {
    forall k :: 0 <= k < |m.list.value| ==> m.list.value[k].value.name.value != name
  }

  /** Adding an unlisted name appends it. */
  lemma AddStep(m: Manifest, name: string, h: Header, lim: Limits)
    requires Consistent(m) && NamesFit(m, lim) && Unlisted(m, name) && |name| <= lim.fnameLen
    ensures var m1 := AddEntry(m, name, h, lim);
            Consistent(m1) && NamesFit(m1, lim) && m1.lastUsed == m.lastUsed
            && ListedNames(m1.list.value) == ListedNames(m.list.value) + [Some(name)]
    ensures var m1 := AddEntry(m, name, h, lim);
            forall x :: x != name && Unlisted(m, x) ==> Unlisted(m1, x)
  {
    var list := m.list.value;
    forall k | 0 <= k < |list|
      ensures !EqualsUpTo(list[k].value.name.value, name, lim.fnameLen)
    {
      if EqualsUpTo(list[k].value.name.value, name, lim.fnameLen) {
        EqualsUpToShort(list[k].value.name.value, name, lim.fnameLen);
        assert false;
      }
    }
    LookupMisses(list, name, lim, 0);
    var p := NewProject(h.info.(name := name), h.sw, h.imageSource, HasSameIoSwitchSrc(list, h.sw));
    var m1 := AddEntry(m, name, h, lim);
    assert m1.list.value == list + [Some(p)];
    assert ListedNames(list + [Some(p)]) == ListedNames(list) + [Some(name)];
  }

  lemma {:induction false} AddAllAppends(m: Manifest, entries: seq<SlnEntry>, headers: seq<Header>, lim: Limits)
    requires |headers| == |entries| && Consistent(m) && NamesFit(m, lim)
    requires DistinctNames(entries) && WellFormed(entries, lim)
    requires forall j :: 0 <= j < |entries| ==> Unlisted(m, entries[j].name)
    ensures var r := AddAll(m, entries, headers, lim);
            Consistent(r) && r.lastUsed == m.lastUsed
            && ListedNames(r.list.value) == ListedNames(m.list.value) + EntryNames(entries)
    decreases |entries|
  {
    if entries == [] {
      assert EntryNames(entries) == [];
      assert ListedNames(m.list.value) + [] == ListedNames(m.list.value);
    } else {
      var e := entries[0];
      assert EntryOk(e, lim);
      EntryNameFits(e, lim);
      assert Unlisted(m, e.name);
      AddStep(m, e.name, headers[0], lim);
      var m1 := AddEntry(m, e.name, headers[0], lim);
      assert forall j :: 0 <= j < |entries[1..]| ==> entries[1..][j].name != e.name;
      AddAllAppends(m1, entries[1..], headers[1..], lim);
      EntryNamesCons(entries);
      ConcatAssoc(ListedNames(m.list.value), [Some(e.name)], EntryNames(entries[1..]));
    }
  }

  /** A rebuilt manifest lists the collected entries, in order, with the
      right count and the chosen last-used name. */
  lemma SyncListsEntries(entries: seq<SlnEntry>, file: ManifestFile, headers: seq<Header>, lim: Limits)
    requires |headers| == |entries| && DistinctNames(entries) && WellFormed(entries, lim)
    requires NeedUpdate(entries, file, lim)
    ensures var r := Sync(false, entries, file, headers, lim).value;
            Consistent(r) && ListedNames(r.list.value) == EntryNames(entries)
            && r.num == Some(|entries|)
  {
    var stored := if file.Loaded? && file.root.lastUsed.Some? then Truncate(file.root.lastUsed.value, lim.fnameLen + 1) else "";
    var m := Manifest(Some(LastUsed(entries, stored, lim)), Some(0), Some([]));
    AddAllAppends(m, entries, headers, lim);
    assert ListedNames([]) == [];
    assert [] + EntryNames(entries) == EntryNames(entries);
  }

  /** `scfw_get_project_path_ddr`: the project directory with a trailing
      slash, -2 when it does not fit `len` bytes; the text is cut to the
      formatting buffer of `2 * algoNameLen` bytes. */
  function GetProjectPathDdr(projectName: Option<string>, len: int, lim: Limits): (r: Result<string, int>)
    requires lim.algoNameLen > 0
    ensures projectName.None? ==> r == Failure(-1)
    ensures projectName.Some? ==> (r.Failure? <==> |ProjDir + projectName.value + "/"| >= len)
    ensures r.Failure? ==> r.error == -1 || r.error == -2
    ensures r.Success? && |ProjDir + projectName.value + "/"| < 2 * lim.algoNameLen ==>
              r.value == ProjDir + projectName.value + "/"
    ensures r.Success? ==> |r.value| < len
  {
    if projectName.None? then Failure(-1)
    else
      var full := ProjDir + projectName.value + "/";
      if |full| >= len then Failure(-2)
      else Success(Truncate(full, 2 * lim.algoNameLen))
  }
}

=== FILE: ignorelist.dfy ===
/** collectd's ignore lists as the plugins see them. How an entry matches a
    name (plain string or regular expression) belongs to the ignore-list
    library and is a parameter of every read that consults a list. */
module IgnoreLists {

  /** The entries added so far and the inversion flag. */
  datatype IgnoreList = IgnoreList(entries: seq<string>, invert: bool)

  /** `ignorelist_match`: whether a name is ignored by a list. */
  type Matcher = (IgnoreList, string) -> bool

  /** `ignorelist_add`; `ok` is false when the library fails to add, in which
      case the list is unchanged and 1 is returned. */
  function Add(l: IgnoreList, value: string, ok: bool): (r: (int, IgnoreList))
    ensures ok ==> r.0 == 0 && r.1.entries == l.entries + [value]
    ensures !ok ==> r.0 == 1 && r.1 == l
    ensures r.1.invert == l.invert
  {
    if ok then (0, l.(entries := l.entries + [value])) else (1, l)
  }
}

=== FILE: oconfig.dfy ===
/** The collectd-style configuration reader: a character tokenizer over a
    `FILE*` and a recursive block parser that builds an item tree.
    The file is the whole input as a string with a read cursor; `fgetc`
    advances the cursor (and leaves it at the end on EOF) and `ungetc`
    moves it back by one. Line counting only feeds diagnostics and is not
    modelled. */
module OConfig {
  import opened Text

  /** `OConfigValue`: a string, a number or a boolean. */
  datatype Value = VString(s: string) | VNumber(n: real) | VBool(b: bool)

  /** `OConfigItem`: a key, its values in order and its child items in order. */
  datatype Item = Item(key: string, values: seq<Value>, children: seq<Item>)

  /** The tokens `oconfig_next_token` returns, with the text it fills in. */
  datatype Token = TEof | TEol | TBlockStart | TBlockEnd | TString(text: string)
                 | TComment(text: string) | TError

  /** What `skip_spaces` returns: EOF, or a character (the letter 'n' doubles
      as the newline signal). */
  datatype Skipped = SkipEof | SkipChar(c: char)

  /** Whitespace other than '\n': what `skip_spaces` passes over. */
  predicate Blank(c: char) {
    IsSpace(c) && c != '\n'
  }

  /** Where `skip_spaces` stops: the first position at or after `pos` that
      does not hold a blank, or the end of the input. */
  function NextNonBlank(input: string, pos: nat): (q: nat)
    requires pos <= |input|
    ensures pos <= q <= |input|
    ensures forall k :: pos <= k < q ==> Blank(input[k])
    ensures q < |input| ==> !Blank(input[q])
    decreases |input| - pos
  {
    if pos == |input| || !Blank(input[pos]) then pos else NextNonBlank(input, pos + 1)
  }

  /** The first '\n' at or after `pos`, or the end of the input. */
  function LineEnd(input: string, pos: nat): (e: nat)
    requires pos <= |input|
    ensures pos <= e <= |input|
    ensures forall k :: pos <= k < e ==> input[k] != '\n'
    ensures e < |input| ==> input[e] == '\n'
    decreases |input| - pos
  {
    if pos == |input| || input[pos] == '\n' then pos else LineEnd(input, pos + 1)
  }

  /** `skip_spaces`: skips whitespace other than '\n'. A '\n' is pushed back
      and reported as 'n'; any other character is consumed and returned. */
  function SkipSpaces(input: string, pos: nat): (r: (Skipped, nat))
    requires pos <= |input|
    ensures pos <= r.1 <= |input|
    ensures r.0 == SkipEof ==> r.1 == |input|
    ensures r.0.SkipChar? && r.0.c == 'n' ==>
              (r.1 < |input| && input[r.1] == '\n') || (r.1 > pos && input[r.1 - 1] == 'n')
    ensures r.0.SkipChar? && r.0.c != 'n' ==> r.1 > pos && input[r.1 - 1] == r.0.c && !IsSpace(r.0.c)
    decreases |input| - pos
  {
    if pos == |input| then (SkipEof, pos)
    else if input[pos] == '\n' then (SkipChar('n'), pos)
    else if !IsSpace(input[pos]) then (SkipChar(input[pos]), pos + 1)
    else SkipSpaces(input, pos + 1)
  }

  /** Reads a comment body up to EOF or '\n' (the newline is consumed). */
  function ReadComment(input: string, pos: nat, acc: string): (r: (string, nat))
    requires pos <= |input|
    ensures pos <= r.1 <= |input|
    decreases |input| - pos
  {
    if pos == |input| then (acc, pos)
    else if input[pos] == '\n' then (acc, pos + 1)
    else ReadComment(input, pos + 1, acc + [input[pos]])
  }

  /** The character an escape `\esc` stands for inside a `quote`-quoted string. */
  function Unescape(esc: char, quote: char): char {
    if esc == 'n' then '\n'
    else if esc == 't' then '\t'
    else if esc == 'r' then '\r'
    else if esc == quote then quote
    else esc
  }

  /** `input[pos..end]` is the inside of a string quoted with `quote`: plain
      characters other than the quote and '\n', and escapes, each a
      backslash with the character after it. */
  predicate QuotedBody(input: string, pos: nat, end: nat, quote: char)
    requires pos <= end <= |input|
    decreases end - pos
  {
    pos == end
    || (input[pos] != quote && input[pos] != '\n'
        && if input[pos] == '\\' then pos + 2 <= end && QuotedBody(input, pos + 2, end, quote)
           else QuotedBody(input, pos + 1, end, quote))
  }

  /** The string opened before `pos` closes at `e`. */
  predicate ClosesAt(input: string, pos: nat, e: nat, quote: char) {
    pos <= e < |input| && QuotedBody(input, pos, e, quote) && input[e] == quote
  }

  /** The string opened before `pos` closes somewhere. */
  ghost predicate Closes(input: string, pos: nat, quote: char) {
    exists e :: ClosesAt(input, pos, e, quote)
  }

  /** Reads the rest of a quoted string after its opening `quote`. A string
      ends at its closing quote; reading fails at the end of the input, at
      a raw '\n', or at a backslash that ends the input. */
  function ReadQuoted(input: string, pos: nat, quote: char, acc: string): (r: (Token, nat))
    requires pos <= |input|
    ensures pos < r.1 <= |input| || (r.0 == TError && r.1 == pos == |input|)
    ensures r.0.TString? || r.0 == TError
    decreases |input| - pos
  {
    if pos == |input| then (TError, pos)
    else if input[pos] == quote then (TString(acc), pos + 1)
    else if input[pos] == '\n' then (TError, pos + 1)
    else if input[pos] == '\\' then
      if pos + 1 == |input| then (TError, pos + 1)
      else ReadQuoted(input, pos + 2, quote, acc + [Unescape(input[pos + 1], quote)])
    else ReadQuoted(input, pos + 1, quote, acc + [input[pos]])
  }

  /** Characters that end an unquoted token and are pushed back. */
  predicate IsDelimiter(c: char) {
    c == '{' || c == '}' || c == '#' || c == '"' || c == '\''
  }

  /** The first whitespace or delimiter at or after `pos`, or the end of
      the input. */
  function WordEnd(input: string, pos: nat): (e: nat)
    requires pos <= |input|
    ensures pos <= e <= |input|
    ensures forall k :: pos <= k < e ==> !IsSpace(input[k]) && !IsDelimiter(input[k])
    ensures e < |input| ==> IsSpace(input[e]) || IsDelimiter(input[e])
    decreases |input| - pos
  {
    if pos == |input| || IsSpace(input[pos]) || IsDelimiter(input[pos]) then pos else WordEnd(input, pos + 1)
  }

  /** Accumulates an unquoted token: stops at EOF, at whitespace (which is
      consumed, a newline included) or before a delimiter. */
  function ReadBare(input: string, pos: nat, acc: string): (r: (string, nat))
    requires pos <= |input|
    ensures pos <= r.1 <= |input|
    decreases |input| - pos
  {
    if pos == |input| then (acc, pos)
    else if IsSpace(input[pos]) then (acc, pos + 1)
    else if IsDelimiter(input[pos]) then (acc, pos)
    else ReadBare(input, pos + 1, acc + [input[pos]])
  }

  /** Drops one trailing '\r'. */
  function DropCR(s: string): string {
    if |s| > 0 && s[|s| - 1] == '\r' then s[..|s| - 1] else s
  }

  /** `oconfig_next_token`: the next token and the cursor after it. Every
      token except EOF consumes at least one character. After the blanks:
      the end of input is EOF; a newline, or the letter 'n' together with
      the character after it, is EOL; a brace is a block token; '#' starts
      a comment running to the end of the line, less one trailing '\r'; a
      quote starts a quoted string; anything else starts a word running to
      the next whitespace (consumed) or delimiter (left). */
  function NextToken(input: string, pos: nat): (r: (Token, nat))
    requires pos <= |input|
    ensures pos <= r.1 <= |input|
    ensures r.0 != TEof ==> pos < r.1
  {
    var (sk, p) := SkipSpaces(input, pos);
    match sk
    case SkipEof => (TEof, p)
    case SkipChar(c) =>
      if c == 'n' then (TEol, if p < |input| then p + 1 else p)
      else if c == '{' then (TBlockStart, p)
      else if c == '}' then (TBlockEnd, p)
      else if c == '#' then
        var (body, p2) := ReadComment(input, p, []);
        (TComment(DropCR(body)), p2)
      else if c == '"' || c == '\'' then ReadQuoted(input, p, c, [])
      else
        var (word, p2) := ReadBare(input, p, [c]);
        if word == "{" then (TBlockStart, p2)
        else if word == "}" then (TBlockEnd, p2)
        else (TString(word), p2)
  }

  /** Only blanks other than newlines lie between `pos` and the end. */
  predicate BlankToEnd(input: string, pos: nat)
    requires pos <= |input|
  {
    forall k :: pos <= k < |input| ==> IsSpace(input[k]) && input[k] != '\n'
  }

  /** A comment body is the rest of the line; the newline is consumed. */
  lemma {:induction false} ReadCommentReads(input: string, pos: nat, acc: string)
    requires pos <= |input|
    ensures var r := ReadComment(input, pos, acc); var e := LineEnd(input, pos);
      r.0 == acc + input[pos..e] && r.1 == (if e < |input| then e + 1 else e)
    decreases |input| - pos
  {
    if pos < |input| && input[pos] != '\n' {
      ReadCommentReads(input, pos + 1, acc + [input[pos]]);
      assert acc + [input[pos]] + input[pos + 1..LineEnd(input, pos)] == acc + input[pos..LineEnd(input, pos)];
    }
  }

  /** An unquoted word runs to the next whitespace, which is consumed, or to
      the next delimiter, which is left. */
  lemma {:induction false} ReadBareReads(input: string, pos: nat, acc: string)
    requires pos <= |input|
    ensures var r := ReadBare(input, pos, acc); var e := WordEnd(input, pos);
      r.0 == acc + input[pos..e] && r.1 == (if e < |input| && IsSpace(input[e]) then e + 1 else e)
    decreases |input| - pos
  {
    if pos < |input| && !IsSpace(input[pos]) && !IsDelimiter(input[pos]) {
      ReadBareReads(input, pos + 1, acc + [input[pos]]);
      assert acc + [input[pos]] + input[pos + 1..WordEnd(input, pos)] == acc + input[pos..WordEnd(input, pos)];
    }
  }

  /** A quoted string read succeeds just after its closing quote; a failed
      read stops at the end of the input, just after a raw '\n', or just
      after a backslash that ends the input, a well-formed body coming
      before it in every case. */
  lemma {:induction false} ReadQuotedOutcome(input: string, pos: nat, quote: char, acc: string)
    requires pos <= |input|
    ensures var r := ReadQuoted(input, pos, quote, acc);
      (r.0.TString? ==> ClosesAt(input, pos, r.1 - 1, quote))
      && (r.0 == TError ==>
        (r.1 == |input| && QuotedBody(input, pos, r.1, quote))
        || (pos < r.1 && QuotedBody(input, pos, r.1 - 1, quote)
            && (input[r.1 - 1] == '\n' || (input[r.1 - 1] == '\\' && r.1 == |input|))))
    decreases |input| - pos
  {
    if pos < |input| && input[pos] != quote && input[pos] != '\n' {
      if input[pos] == '\\' {
        if pos + 1 < |input| {
          ReadQuotedOutcome(input, pos + 2, quote, acc + [Unescape(input[pos + 1], quote)]);
        }
      } else {
        ReadQuotedOutcome(input, pos + 1, quote, acc + [input[pos]]);
      }
    }
  }

  /** `skip_spaces` stops at the first non-blank character: EOF at the end,
      a newline left unread and reported as 'n', anything else consumed. */
  lemma {:induction false} SkipSpacesFinds(input: string, pos: nat)
    requires pos <= |input|
    ensures var r := SkipSpaces(input, pos); var q := NextNonBlank(input, pos);
      r == (if q == |input| then (SkipEof, q)
            else if input[q] == '\n' then (SkipChar('n'), q)
            else (SkipChar(input[q]), q + 1))
    decreases |input| - pos
  {
    if pos < |input| && Blank(input[pos]) {
      SkipSpacesFinds(input, pos + 1);
    }
  }

  /** `skip_spaces` reports EOF exactly when the rest of the input is blank
      with no newline. */
  lemma {:induction false} SkipSpacesEof(input: string, pos: nat)
    requires pos <= |input|
    ensures SkipSpaces(input, pos).0 == SkipEof <==> BlankToEnd(input, pos)
    decreases |input| - pos
  {
    if pos < |input| && IsSpace(input[pos]) && input[pos] != '\n' {
      SkipSpacesEof(input, pos + 1);
    }
  }

  /** What `next_token` reads from the first non-blank character at or after
      `pos`: EOF exactly at the end; a newline or the letter 'n' (which
      `skip_spaces` turns into a newline, swallowing the next character) is
      an end of line; braces are block delimiters; '#' starts a comment that
      runs to the end of the line and loses one trailing carriage return; a quote
      starts a quoted string; anything else starts a bare word that runs to
      the next blank or delimiter, the blank that ends it being consumed. */
  lemma NextTokenClassified(input: string, pos: nat)
    requires pos <= |input|
    ensures var r := NextToken(input, pos); var q := NextNonBlank(input, pos);
      (q == |input| <==> r.0 == TEof)
      && (q == |input| ==> r.1 == q)
      && (q < |input| && input[q] == '\n' ==> r == (TEol, q + 1))
      && (q < |input| && input[q] == 'n' ==> r == (TEol, if q + 1 < |input| then q + 2 else q + 1))
      && (q < |input| && input[q] == '{' ==> r == (TBlockStart, q + 1))
      && (q < |input| && input[q] == '}' ==> r == (TBlockEnd, q + 1))
      && (q < |input| && input[q] == '#' ==>
            var e := LineEnd(input, q + 1);
            r == (TComment(DropCR(input[q + 1..e])), if e < |input| then e + 1 else e))
      && (q < |input| && (input[q] == '"' || input[q] == '\'') ==> r == ReadQuoted(input, q + 1, input[q], []))
      && (q < |input| && input[q] != '\n' && input[q] != 'n' && !IsDelimiter(input[q]) ==>
            var e := WordEnd(input, q + 1);
            r == (TString(input[q..e]), if e < |input| && IsSpace(input[e]) then e + 1 else e))
  {
    var q := NextNonBlank(input, pos);
    if q == |input| {
      NextTokenAtEnd(input, pos);
    } else {
      var c := input[q];
      if c == '#' {
        NextTokenComment(input, pos, q);
      } else if c != '\n' && c != 'n' && !IsDelimiter(c) {
        NextTokenWord(input, pos, q);
      } else {
        NextTokenMark(input, pos, q);
      }
    }
  }

  lemma NextTokenAtEnd(input: string, pos: nat)
    requires pos <= |input| && NextNonBlank(input, pos) == |input|
    ensures NextToken(input, pos) == (TEof, |input|)
  {
    SkipSpacesFinds(input, pos);
  }

  /** The tokens a single character decides: end of line, braces, quotes. */
  lemma NextTokenMark(input: string, pos: nat, q: nat)
    requires pos <= |input| && q == NextNonBlank(input, pos) < |input|
    ensures input[q] == '\n' ==> NextToken(input, pos) == (TEol, q + 1)
    ensures input[q] == 'n' ==> NextToken(input, pos) == (TEol, if q + 1 < |input| then q + 2 else q + 1)
    ensures input[q] == '{' ==> NextToken(input, pos) == (TBlockStart, q + 1)
    ensures input[q] == '}' ==> NextToken(input, pos) == (TBlockEnd, q + 1)
    ensures input[q] == '"' || input[q] == '\'' ==> NextToken(input, pos) == ReadQuoted(input, q + 1, input[q], [])
  {
    SkipSpacesFinds(input, pos);
  }

  lemma NextTokenComment(input: string, pos: nat, q: nat)
    requires pos <= |input| && q == NextNonBlank(input, pos) < |input| && input[q] == '#'
    ensures var e := LineEnd(input, q + 1);
      NextToken(input, pos) == (TComment(DropCR(input[q + 1..e])), if e < |input| then e + 1 else e)
  {
    SkipSpacesFinds(input, pos);
    assert SkipSpaces(input, pos) == (SkipChar('#'), q + 1);
    var rc := ReadComment(input, q + 1, []);
    assert NextToken(input, pos) == (TComment(DropCR(rc.0)), rc.1);
    ReadCommentReads(input, q + 1, []);
    assert rc.0 == [] + input[q + 1..LineEnd(input, q + 1)] == input[q + 1..LineEnd(input, q + 1)];
  }

  lemma NextTokenWord(input: string, pos: nat, q: nat)
    requires pos <= |input| && q == NextNonBlank(input, pos) < |input|
    requires input[q] != '\n' && input[q] != 'n' && !IsDelimiter(input[q])
    ensures var e := WordEnd(input, q + 1);
      NextToken(input, pos) == (TString(input[q..e]), if e < |input| && IsSpace(input[e]) then e + 1 else e)
  {
    SkipSpacesFinds(input, pos);
    var c := input[q];
    ReadBareReads(input, q + 1, [c]);
    var e := WordEnd(input, q + 1);
    assert [c] + input[q + 1..e] == input[q..e];
    assert ReadBare(input, q + 1, [c]).0[0] == c;
  }

  /** The tokenizer reports EOF exactly when only blanks other than newlines
      remain; in particular every newline yields a token. */
  lemma NextTokenEof(input: string, pos: nat)
    requires pos <= |input|
    ensures NextToken(input, pos).0 == TEof <==> BlankToEnd(input, pos)
  {
    SkipSpacesEof(input, pos);
  }

  /** A quoted string fails to read exactly when it never closes: no
      quote follows a well-formed body. */
  lemma {:induction false} ReadQuotedErrorIff(input: string, pos: nat, quote: char, acc: string)
    requires pos <= |input|
    ensures ReadQuoted(input, pos, quote, acc).0 == TError <==> !Closes(input, pos, quote)
    decreases |input| - pos
  {
    ReadQuotedOutcome(input, pos, quote, acc);
    if pos == |input| {
    } else if input[pos] == quote {
      assert ClosesAt(input, pos, pos, quote);
    } else if input[pos] == '\n' {
      forall e ensures !ClosesAt(input, pos, e, quote) {
        if e == pos {}
      }
    } else if input[pos] == '\\' {
      if pos + 1 == |input| {
        forall e ensures !ClosesAt(input, pos, e, quote) {
          if e == pos {}
        }
      } else {
        ReadQuotedErrorIff(input, pos + 2, quote, acc + [Unescape(input[pos + 1], quote)]);
        ClosesShift(input, pos, pos + 2, quote);
      }
    } else {
      ReadQuotedErrorIff(input, pos + 1, quote, acc + [input[pos]]);
      ClosesShift(input, pos, pos + 1, quote);
    }
  }

  /** Past the first character (or escape) of the body, the string closes
      where it closed before. */
  lemma ClosesShift(input: string, pos: nat, next: nat, quote: char)
    requires next <= |input| && pos < |input| && input[pos] != quote && input[pos] != '\n'
    requires next == (if input[pos] == '\\' then pos + 2 else pos + 1)
    ensures Closes(input, pos, quote) <==> Closes(input, next, quote)
  {
    forall e | ClosesAt(input, pos, e, quote) ensures ClosesAt(input, next, e, quote) {
      assert e != pos;
    }
    forall e | ClosesAt(input, next, e, quote) ensures ClosesAt(input, pos, e, quote) {
    }
  }

  /** The tokenizer fails exactly on a quoted string that never closes. */
  lemma NextTokenErrorIff(input: string, pos: nat)
    requires pos <= |input|
    ensures var q := NextNonBlank(input, pos);
      NextToken(input, pos).0 == TError <==>
        q < |input| && (input[q] == '"' || input[q] == '\'') && !Closes(input, q + 1, input[q])
  {
    NextTokenClassified(input, pos);
    var q := NextNonBlank(input, pos);
    if q < |input| && (input[q] == '"' || input[q] == '\'') {
      ReadQuotedErrorIff(input, q + 1, input[q], []);
    }
  }

  // ---------------------------------------------------------------------
  // Parser

  /** How a values loop ended: `break` back to the enclosing loop, or a
      `return` of 0 or -1 from the enclosing parse function. */
  datatype LoopExit = Break | ReturnOk | ReturnFail

  /** Result of a block or file loop: status 0 or -1, the items appended to
      the parent so far (also on failure) and the cursor. */
  datatype Parsed = Parsed(status: int, items: seq<Item>, pos: nat)

  /** Result of a values loop: the values and child block items gathered for
      the current key. */
  datatype ValuesParsed = ValuesParsed(exit: LoopExit, values: seq<Value>, children: seq<Item>, pos: nat)

  /** `oconfig_parse_block`, entered after a '{'; `acc` holds the children
      already added to the parent. */
  function ParseBlock(input: string, pos: nat, acc: seq<Item>): (r: Parsed)
    requires pos <= |input|
    ensures pos <= r.pos <= |input|
    ensures r.status == 0 || r.status == -1
    ensures acc <= r.items
    decreases |input| - pos, 2
  {
    var (tok, p1) := NextToken(input, pos);
    match tok
    case TEof => Parsed(-1, acc, p1)
    case TError => Parsed(-1, acc, p1)
    case TBlockEnd => Parsed(0, acc, p1)
    case TEol => ParseBlock(input, p1, acc)
    case TComment(_) => ParseBlock(input, p1, acc)
    case TBlockStart => Parsed(-1, acc, p1)
    case TString(key) => ParseBlockEntry(input, p1, key, acc)
  }

  /** The block loop after a key token that ends at `pos`. */
  function ParseBlockEntry(input: string, pos: nat, key: string, acc: seq<Item>): (r: Parsed)
    requires 0 < pos <= |input|
    ensures pos <= r.pos <= |input|
    ensures r.status == 0 || r.status == -1
    ensures acc <= r.items
    decreases |input| - pos + 1, 1
  {
    var (tok2, p2) := NextToken(input, pos);
    match tok2
    case TBlockStart =>
      var sub := ParseBlock(input, p2, []);
      var child := Item(key, [], sub.items);
      if sub.status != 0 then Parsed(-1, acc + [child], sub.pos)
      else ParseBlock(input, sub.pos, acc + [child])
    case TError => Parsed(-1, acc, p2)
    case TEof => Parsed(-1, acc, p2)
    case TEol => ParseBlock(input, p2, acc)
    case TComment(_) => ParseBlock(input, p2, acc)
    case TBlockEnd => ParseBlock(input, p2 - 1, acc)
    case TString(v) =>
      var vr := ParseValues(input, p2, [VString(v)]);
      var child := Item(key, vr.values, vr.children);
      match vr.exit
      case Break => ParseBlock(input, vr.pos, acc + [child])
      case ReturnOk => Parsed(0, acc + [child], vr.pos)
      case ReturnFail => Parsed(-1, acc + [child], vr.pos)
  }

  /** The loop after `key value` that gathers further values on the line, an
      optional child block, and stops at EOL, comment, '}' (pushed back), EOF
      (success) or a token error. */
  function ParseValues(input: string, pos: nat, values: seq<Value>): (r: ValuesParsed)
    requires pos <= |input|
    ensures pos <= r.pos <= |input|
    decreases |input| - pos, 0
  {
    var (tok, p1) := NextToken(input, pos);
    match tok
    case TString(v) => ParseValues(input, p1, values + [VString(v)])
    case TEol => ValuesParsed(Break, values, [], p1)
    case TComment(_) => ValuesParsed(Break, values, [], p1)
    case TBlockStart =>
      var sub := ParseBlock(input, p1, []);
      ValuesParsed(if sub.status != 0 then ReturnFail else Break, values, sub.items, sub.pos)
    case TBlockEnd => ValuesParsed(Break, values, [], p1 - 1)
    case TEof => ValuesParsed(ReturnOk, values, [], p1)
    case TError => ValuesParsed(ReturnFail, values, [], p1)
  }

  /** `oconfig_parse_file_internal`: the top-level loop. */
  function ParseTop(input: string, pos: nat, acc: seq<Item>): (r: Parsed)
    requires pos <= |input|
    ensures r.status == 0 || r.status == -1
    ensures acc <= r.items
    decreases |input| - pos, 1
  {
    var (tok, p1) := NextToken(input, pos);
    match tok
    case TEof => Parsed(0, acc, p1)
    case TEol => ParseTop(input, p1, acc)
    case TComment(_) => ParseTop(input, p1, acc)
    case TBlockEnd => Parsed(-1, acc, p1)
    case TBlockStart => Parsed(-1, acc, p1)
    case TError => Parsed(-1, acc, p1)
    case TString(key) => ParseTopEntry(input, p1, key, acc)
  }

  /** The top-level loop after a key token at `pos`. */
  function ParseTopEntry(input: string, pos: nat, key: string, acc: seq<Item>): (r: Parsed)
    requires 0 < pos <= |input|
    ensures r.status == 0 || r.status == -1
    ensures acc <= r.items
    decreases |input| - pos, 0
  {
    var (tok2, p2) := NextToken(input, pos);
    match tok2
    case TBlockStart =>
      var sub := ParseBlock(input, p2, []);
      var child := Item(key, [], sub.items);
      if sub.status != 0 then Parsed(sub.status, acc + [child], sub.pos)
      else ParseTop(input, sub.pos, acc + [child])
    case TEof => Parsed(0, acc, p2)
    case TError => Parsed(-1, acc, p2)
    case TEol => ParseTop(input, p2, acc)
    case TComment(_) => ParseTop(input, p2, acc)
    case TBlockEnd => Parsed(-1, acc, p2 - 1)
    case TString(v) =>
      var vr := ParseValues(input, p2, [VString(v)]);
      var child := Item(key, vr.values, vr.children);
      match vr.exit
      case Break => ParseTop(input, vr.pos, acc + [child])
      case ReturnOk => Parsed(0, acc + [child], vr.pos)
      case ReturnFail => Parsed(-1, acc + [child], vr.pos)
  }

  /** `parse_block`'s verdicts that need no key: a block fails at the end of
      input or at a stray '{', and succeeds at its closing '}'. */
  lemma ParseBlockVerdicts(input: string, pos: nat, acc: seq<Item>)
    requires pos <= |input|
    ensures var r := ParseBlock(input, pos, acc); var q := NextNonBlank(input, pos);
      (q == |input| ==> r == Parsed(-1, acc, q))
      && (q < |input| && input[q] == '{' ==> r == Parsed(-1, acc, q + 1))
      && (q < |input| && input[q] == '}' ==> r == Parsed(0, acc, q + 1))
  {
    NextTokenClassified(input, pos);
  }

  /** `oconfig_parse_file_internal`'s verdicts that need no key: the end of
      input succeeds and a brace where a key should be fails. */
  lemma ParseTopVerdicts(input: string, pos: nat, acc: seq<Item>)
    requires pos <= |input|
    ensures var r := ParseTop(input, pos, acc); var q := NextNonBlank(input, pos);
      (q == |input| ==> r == Parsed(0, acc, q))
      && (q < |input| && (input[q] == '{' || input[q] == '}') ==> r == Parsed(-1, acc, q + 1))
  {
    NextTokenClassified(input, pos);
  }

  /** Text that is blank to the end parses to the unchanged root with status
      0; text whose first non-blank character is a brace fails. */
  lemma ParseConfigVerdicts(input: string, root: Item)
    ensures var r := ParseConfig(input, root); var q := NextNonBlank(input, 0);
      (q == |input| ==> r == (0, root))
      && (q < |input| && (input[q] == '{' || input[q] == '}') ==> r == (-1, root))
  {
    ParseTopVerdicts(input, 0, root.children);
  }

  /** A key followed only by blanks up to the end of input inside a block
      makes the block fail. */
  lemma ParseBlockEntryAtEof(input: string, pos: nat, q: nat, key: string, acc: seq<Item>)
    requires 0 < pos <= |input| && q == NextNonBlank(input, pos) == |input|
    ensures ParseBlockEntry(input, pos, key, acc) == Parsed(-1, acc, q)
  {
    NextTokenClassified(input, pos);
    assert NextToken(input, pos) == (TEof, q);
  }

  /** A key opening a child block that fails fails the block, with the
      partial child still attached. */
  lemma ParseBlockEntryChildFails(input: string, pos: nat, q: nat, key: string, acc: seq<Item>)
    requires 0 < pos <= |input| && q == NextNonBlank(input, pos) && q < |input| && input[q] == '{'
    requires ParseBlock(input, q + 1, []).status != 0
    ensures var sub := ParseBlock(input, q + 1, []);
      ParseBlockEntry(input, pos, key, acc) == Parsed(-1, acc + [Item(key, [], sub.items)], sub.pos)
  {
    NextTokenClassified(input, pos);
    assert NextToken(input, pos) == (TBlockStart, q + 1);
  }

  /** A key followed by a quoted value that never closes fails the block. */
  lemma ParseBlockEntryUnclosed(input: string, pos: nat, q: nat, key: string, acc: seq<Item>)
    requires 0 < pos <= |input| && q == NextNonBlank(input, pos) && q < |input| && (input[q] == '"' || input[q] == '\'')
    requires ReadQuoted(input, q + 1, input[q], []).0 == TError
    ensures ParseBlockEntry(input, pos, key, acc) == Parsed(-1, acc, ReadQuoted(input, q + 1, input[q], []).1)
  {
    NextTokenClassified(input, pos);
    assert NextToken(input, pos) == ReadQuoted(input, q + 1, input[q], []);
  }

  /** At top level, a key followed only by blanks to the end of input still
      succeeds, without adding an item. */
  lemma ParseTopEntryAtEof(input: string, pos: nat, q: nat, key: string, acc: seq<Item>)
    requires 0 < pos <= |input| && q == NextNonBlank(input, pos) == |input|
    ensures ParseTopEntry(input, pos, key, acc) == Parsed(0, acc, q)
  {
    NextTokenClassified(input, pos);
    assert NextToken(input, pos) == (TEof, q);
  }

  /** At top level, a key followed by '}' fails and leaves the '}' unread. */
  lemma ParseTopEntryAtClose(input: string, pos: nat, q: nat, key: string, acc: seq<Item>)
    requires 0 < pos <= |input| && q == NextNonBlank(input, pos) && q < |input| && input[q] == '}'
    ensures ParseTopEntry(input, pos, key, acc) == Parsed(-1, acc, q)
  {
    NextTokenClassified(input, pos);
    assert NextToken(input, pos) == (TBlockEnd, q + 1);
  }

  /** At top level, a key opening a child block that fails fails the file,
      with the partial child still attached. */
  lemma ParseTopEntryChildFails(input: string, pos: nat, q: nat, key: string, acc: seq<Item>)
    requires 0 < pos <= |input| && q == NextNonBlank(input, pos) && q < |input| && input[q] == '{'
    requires ParseBlock(input, q + 1, []).status != 0
    ensures var sub := ParseBlock(input, q + 1, []);
      ParseTopEntry(input, pos, key, acc) == Parsed(-1, acc + [Item(key, [], sub.items)], sub.pos)
  {
    NextTokenClassified(input, pos);
    assert NextToken(input, pos) == (TBlockStart, q + 1);
  }

  /** At top level, a key followed by a quoted value that never closes
      fails the file. */
  lemma ParseTopEntryUnclosed(input: string, pos: nat, q: nat, key: string, acc: seq<Item>)
    requires 0 < pos <= |input| && q == NextNonBlank(input, pos) && q < |input| && (input[q] == '"' || input[q] == '\'')
    requires ReadQuoted(input, q + 1, input[q], []).0 == TError
    ensures ParseTopEntry(input, pos, key, acc) == Parsed(-1, acc, ReadQuoted(input, q + 1, input[q], []).1)
  {
    NextTokenClassified(input, pos);
    assert NextToken(input, pos) == ReadQuoted(input, q + 1, input[q], []);
  }

  /** How the values loop ends when the next token is not another value: a
      newline or a comment breaks back to the enclosing loop, a '}' does too
      and is left unread, the end of input returns success, and a quoted
      value that never closes returns failure. The values keep no addition. */
  lemma ParseValuesVerdicts(input: string, pos: nat, values: seq<Value>)
    requires pos <= |input|
    ensures var r := ParseValues(input, pos, values); var q := NextNonBlank(input, pos);
      (q == |input| ==> r == ValuesParsed(ReturnOk, values, [], q))
      && (q < |input| && input[q] == '\n' ==> r == ValuesParsed(Break, values, [], q + 1))
      && (q < |input| && input[q] == '}' ==> r == ValuesParsed(Break, values, [], q))
      && (q < |input| && input[q] == '#' ==> r.exit == Break && r.values == values && r.children == [])
      && (q < |input| && (input[q] == '"' || input[q] == '\'') && !Closes(input, q + 1, input[q]) ==>
            r == ValuesParsed(ReturnFail, values, [], ReadQuoted(input, q + 1, input[q], []).1))
  {
    NextTokenClassified(input, pos);
    var q := NextNonBlank(input, pos);
    if q < |input| && (input[q] == '"' || input[q] == '\'') {
      ReadQuotedErrorIff(input, q + 1, input[q], []);
    }
  }

  /** `oconfig_parse_string` / `oconfig_parse_file` on already-read text:
      the status and the root with the parsed items appended. */
  function ParseConfig(input: string, root: Item): (r: (int, Item))
    ensures r.0 == 0 || r.0 == -1
    ensures r.1.key == root.key && r.1.values == root.values
    ensures root.children <= r.1.children
  {
    var p := ParseTop(input, 0, root.children);
    (p.status, root.(children := p.items))
  }

  // ---------------------------------------------------------------------
  // Item operations

  /** `oconfig_set_string`: the values become exactly `[s]`. */
  function SetString(item: Item, s: string): (r: Item)
    ensures r.values == [VString(s)] && r.key == item.key && r.children == item.children
  {
    item.(values := [VString(s)])
  }

  /** `oconfig_set_number`. */
  function SetNumber(item: Item, n: real): (r: Item)
    ensures r.values == [VNumber(n)] && r.key == item.key && r.children == item.children
  {
    item.(values := [VNumber(n)])
  }

  /** `oconfig_set_boolean`. */
  function SetBoolean(item: Item, b: bool): (r: Item)
    ensures r.values == [VBool(b)] && r.key == item.key && r.children == item.children
  {
    item.(values := [VBool(b)])
  }

  /** `oconfig_add_string`: appends one value, keeping the earlier ones. */
  function AddString(item: Item, s: string): (r: Item)
    ensures |r.values| == |item.values| + 1 && r.values[..|item.values|] == item.values
    ensures r.values[|item.values|] == VString(s) && r.key == item.key && r.children == item.children
  {
    item.(values := item.values + [VString(s)])
  }

  /** `oconfig_add_number`. */
  function AddNumber(item: Item, n: real): (r: Item)
    ensures |r.values| == |item.values| + 1 && r.values[..|item.values|] == item.values
    ensures r.values[|item.values|] == VNumber(n) && r.key == item.key && r.children == item.children
  {
    item.(values := item.values + [VNumber(n)])
  }

  /** `oconfig_add_boolean`. */
  function AddBoolean(item: Item, b: bool): (r: Item)
    ensures |r.values| == |item.values| + 1 && r.values[..|item.values|] == item.values
    ensures r.values[|item.values|] == VBool(b) && r.key == item.key && r.children == item.children
  {
    item.(values := item.values + [VBool(b)])
  }

  /** `oconfig_clone_values`: `dest` takes `src`'s values and keeps its key
      and children. */
  function CloneValues(dest: Item, src: Item): (r: Item)
    ensures r.values == src.values && r.key == dest.key && r.children == dest.children
  {
    dest.(values := src.values)
  }

  /** `oconfig_clone`: a deep copy, rebuilt child by child. */
  function Clone(src: Item): (r: Item)
    ensures r == src
    decreases src, 1
  {
    Item(src.key, src.values, CloneAll(src.children))
  }

  function CloneAll(cs: seq<Item>): (r: seq<Item>)
    ensures r == cs
    decreases cs, 0
  {
    if cs == [] then [] else [Clone(cs[0])] + CloneAll(cs[1..])
  }
}

=== FILE: oconfig_props.dfy ===
/** Properties of the configuration reader: what the tokenizer can and
    cannot produce, and that the parser only ever appends to the lists it is
    handed. */
module OConfigProps {
  import opened Text
  import opened OConfig

  predicate IsPrefix<T(==)>(a: seq<T>, b: seq<T>) {
    |a| <= |b| && b[..|a|] == a
  }

  lemma PrefixAppend<T>(a: seq<T>, x: T, b: seq<T>)
    requires IsPrefix(a + [x], b)
    ensures IsPrefix(a, b)
  {
    assert b[..|a|] == (a + [x])[..|a|];
  }

  // ---------------------------------------------------------------------
  // Tokenizer

  /** A comment body never holds a newline: the newline ends it. */
  lemma {:induction false} ReadCommentLine(input: string, pos: nat, acc: string)
    requires pos <= |input| && '\n' !in acc
    ensures '\n' !in ReadComment(input, pos, acc).0
    decreases |input| - pos
  {
    if pos < |input| && input[pos] != '\n' {
      ReadCommentLine(input, pos + 1, acc + [input[pos]]);
    }
  }

  /** An unquoted word extends what was accumulated with characters that are
      neither whitespace nor delimiters. */
  lemma {:induction false} ReadBareWord(input: string, pos: nat, acc: string)
    requires pos <= |input|
    ensures IsPrefix(acc, ReadBare(input, pos, acc).0)
    ensures forall k :: |acc| <= k < |ReadBare(input, pos, acc).0| ==>
              !IsSpace(ReadBare(input, pos, acc).0[k]) && !IsDelimiter(ReadBare(input, pos, acc).0[k])
    decreases |input| - pos
  {
    if pos < |input| && !IsSpace(input[pos]) && !IsDelimiter(input[pos]) {
      var acc1 := acc + [input[pos]];
      ReadBareWord(input, pos + 1, acc1);
      PrefixAppend(acc, input[pos], ReadBare(input, pos, acc).0);
    }
  }

  /** An unquoted word never reads as "{" or "}": a brace is a delimiter and
      ends the word before it, so the branch of `oconfig_next_token` that
      turns such a word into a block token cannot fire. */
  lemma BareWordNotBrace(input: string, pos: nat, c: char)
    requires pos <= |input| && c != '{' && c != '}'
    ensures ReadBare(input, pos, [c]).0 != "{" && ReadBare(input, pos, [c]).0 != "}"
  {
    ReadBareWord(input, pos, [c]);
    var w := ReadBare(input, pos, [c]).0;
    assert w[0] == c;
  }

  /** The letter 'n' outside quotes is taken for a line end: the token is EOL
      and the character after the 'n' is skipped as well. */
  lemma LetterNIsEol(input: string, pos: nat)
    requires pos < |input| && input[pos] == 'n'
    ensures NextToken(input, pos) == (TEol, if pos + 1 < |input| then pos + 2 else pos + 1)
  {
    assert SkipSpaces(input, pos) == (SkipChar('n'), pos + 1);
  }

  /** A real newline is an EOL token that consumes just the newline. */
  lemma NewlineIsEol(input: string, pos: nat)
    requires pos < |input| && input[pos] == '\n'
    ensures NextToken(input, pos) == (TEol, pos + 1)
  {
  }

  /** An unquoted word swallows the whitespace after it, a newline included,
      so no EOL token follows it. */
  lemma WordEatsNewline(input: string, pos: nat, w: string)
    requires pos + |w| < |input| && w != [] && input[pos + |w|] == '\n'
    requires forall k :: 0 <= k < |w| ==> input[pos + k] == w[k]
    requires forall k :: 0 <= k < |w| ==> !IsSpace(w[k]) && !IsDelimiter(w[k])
    requires w[0] != 'n'
    ensures NextToken(input, pos) == (TString(w), pos + |w| + 1)
  {
    assert input[pos] == w[0] && !IsSpace(w[0]) && !IsDelimiter(w[0]);
    assert SkipSpaces(input, pos) == (SkipChar(w[0]), pos + 1);
    WordRead(input, pos + 1, w, 1);
    assert w[..1] == [w[0]];
    assert w != "{" && w != "}";
  }

  lemma {:induction false} WordRead(input: string, p: nat, w: string, i: nat)
    requires 1 <= i <= |w| && i <= p && p + |w| - i < |input| && input[p + |w| - i] == '\n'
    requires forall k :: i <= k < |w| ==> input[p - i + k] == w[k]
    requires forall k :: 0 <= k < |w| ==> !IsSpace(w[k]) && !IsDelimiter(w[k])
    ensures ReadBare(input, p, w[..i]) == (w, p + |w| - i + 1)
    decreases |w| - i
  {
    if i < |w| {
      assert input[p] == w[i];
      assert w[..i] + [input[p]] == w[..i + 1];
      WordRead(input, p + 1, w, i + 1);
    } else {
      assert w[..i] == w;
    }
  }

  // ---------------------------------------------------------------------
  // Parser: the item and value lists only grow

  lemma {:induction false} BlockExtends(input: string, pos: nat, acc: seq<Item>)
    requires pos <= |input|
    ensures IsPrefix(acc, ParseBlock(input, pos, acc).items)
    decreases |input| - pos, 2
  {
    var (tok, p1) := NextToken(input, pos);
    match tok
    case TEol => BlockExtends(input, p1, acc);
    case TComment(_) => BlockExtends(input, p1, acc);
    case TString(key) => BlockEntryExtends(input, p1, key, acc);
    case _ =>
  }

  lemma {:induction false} BlockEntryExtends(input: string, pos: nat, key: string, acc: seq<Item>)
    requires 0 < pos <= |input|
    ensures IsPrefix(acc, ParseBlockEntry(input, pos, key, acc).items)
    decreases |input| - pos + 1, 1
  {
    var (tok2, p2) := NextToken(input, pos);
    match tok2
    case TBlockStart =>
      var sub := ParseBlock(input, p2, []);
      var child := Item(key, [], sub.items);
      if sub.status == 0 {
        BlockExtends(input, sub.pos, acc + [child]);
        PrefixAppend(acc, child, ParseBlock(input, sub.pos, acc + [child]).items);
      }
    case TEol => BlockExtends(input, p2, acc);
    case TComment(_) => BlockExtends(input, p2, acc);
    case TBlockEnd => BlockExtends(input, p2 - 1, acc);
    case TString(v) =>
      var vr := ParseValues(input, p2, [VString(v)]);
      var child := Item(key, vr.values, vr.children);
      if vr.exit == Break {
        BlockExtends(input, vr.pos, acc + [child]);
        PrefixAppend(acc, child, ParseBlock(input, vr.pos, acc + [child]).items);
      }
    case _ =>
  }

  lemma {:induction false} TopExtends(input: string, pos: nat, acc: seq<Item>)
    requires pos <= |input|
    ensures IsPrefix(acc, ParseTop(input, pos, acc).items)
    decreases |input| - pos, 1
  {
    var (tok, p1) := NextToken(input, pos);
    match tok
    case TEol => TopExtends(input, p1, acc);
    case TComment(_) => TopExtends(input, p1, acc);
    case TString(key) => TopEntryExtends(input, p1, key, acc);
    case _ =>
  }

  lemma {:induction false} TopEntryExtends(input: string, pos: nat, key: string, acc: seq<Item>)
    requires 0 < pos <= |input|
    ensures IsPrefix(acc, ParseTopEntry(input, pos, key, acc).items)
    decreases |input| - pos, 0
  {
    var (tok2, p2) := NextToken(input, pos);
    match tok2
    case TBlockStart =>
      var sub := ParseBlock(input, p2, []);
      var child := Item(key, [], sub.items);
      if sub.status == 0 {
        TopExtends(input, sub.pos, acc + [child]);
        PrefixAppend(acc, child, ParseTop(input, sub.pos, acc + [child]).items);
      }
    case TEol => TopExtends(input, p2, acc);
    case TComment(_) => TopExtends(input, p2, acc);
    case TString(v) =>
      var vr := ParseValues(input, p2, [VString(v)]);
      var child := Item(key, vr.values, vr.children);
      if vr.exit == Break {
        TopExtends(input, vr.pos, acc + [child]);
        PrefixAppend(acc, child, ParseTop(input, vr.pos, acc + [child]).items);
      }
    case _ =>
  }

  /** The values loop keeps the values it started with, in front. */
  lemma {:induction false} ValuesExtend(input: string, pos: nat, values: seq<Value>)
    requires pos <= |input|
    ensures IsPrefix(values, ParseValues(input, pos, values).values)
    decreases |input| - pos
  {
    var (tok, p1) := NextToken(input, pos);
    if tok.TString? {
      ValuesExtend(input, p1, values + [VString(tok.text)]);
      PrefixAppend(values, VString(tok.text), ParseValues(input, p1, values + [VString(tok.text)]).values);
    }
  }

  /** Reading a configuration keeps the root's key and values and only
      appends to its children, on failure as well as on success. */
  lemma ParseConfigAppends(input: string, root: Item)
    ensures var r := ParseConfig(input, root);
            r.1.key == root.key && r.1.values == root.values
            && IsPrefix(root.children, r.1.children)
  {
    TopExtends(input, 0, root.children);
  }
}

=== FILE: oconfig_render.dfy ===
/** The inverse of the configuration reader: a renderer that writes an item
    tree as quoted configuration text, and the proof that reading the
    rendered text gives back exactly the same tree. */
module OConfigRender {
  import opened OConfig

  /** `w` occurs in `input` at `pos`. */
  predicate At(input: string, pos: nat, w: string)
    decreases w
  {
    if w == [] then pos <= |input|
    else pos < |input| && input[pos] == w[0] && At(input, pos + 1, w[1..])
  }

  lemma {:induction false} AtBound(input: string, pos: nat, w: string)
    requires At(input, pos, w)
    ensures pos + |w| <= |input|
    decreases w
  {
    if w != [] {
      AtBound(input, pos + 1, w[1..]);
    }
  }

  lemma {:induction false} AtSplit(input: string, pos: nat, a: string, b: string)
    requires At(input, pos, a + b)
    ensures At(input, pos, a) && At(input, pos + |a|, b)
    decreases a
  {
    if a == [] {
      assert a + b == b;
      AtBound(input, pos, b);
    } else {
      assert (a + b)[1..] == a[1..] + b;
      AtSplit(input, pos + 1, a[1..], b);
    }
  }

  /** `AtSplit` with the split point named by the caller. */
  lemma AtSplitAt(input: string, pos: nat, a: string, b: string, mid: nat)
    requires At(input, pos, a + b) && mid == pos + |a|
    ensures At(input, pos, a) && At(input, mid, b)
  {
    AtSplit(input, pos, a, b);
  }

  lemma AtHead(input: string, pos: nat, w: string)
    requires At(input, pos, w) && |w| > 0
    ensures pos < |input| && input[pos] == w[0]
  {
  }

  /** The escape sequence that stands for `c` between double quotes. */
  function EscapeChar(c: char): string {
    if c == '\\' || c == '"' then ['\\', c]
    else if c == '\n' then ['\\', 'n']
    else [c]
  }

  function Escape(s: string): (r: string)
    ensures |r| >= |s|
  {
    if s == [] then [] else EscapeChar(s[0]) + Escape(s[1..])
  }

  /** `s` written as a double-quoted token. */
  function Quote(s: string): string {
    ['"'] + Escape(s) + ['"']
  }

  /** The values of an item, each preceded by a space. Only strings can be
      read back, so other values render as empty strings. */
  function RenderValues(vs: seq<Value>): string {
    if vs == [] then []
    else " " + Quote(if vs[0].VString? then vs[0].s else "") + RenderValues(vs[1..])
  }

  /** What follows the key of an item: its values, then either a newline or
      a block holding its children. An item without values always gets a
      block, since a bare key line is dropped by the reader. */
  function RenderTail(it: Item): string
    decreases it, 1
  {
    RenderValues(it.values) + Closing(it)
  }

  function Closing(it: Item): string
    decreases it, 0
  {
    if it.values != [] && it.children == [] then "\n"
    else " {\n" + RenderItems(it.children) + "}\n"
  }

  function RenderItem(it: Item): string
    decreases it, 2
  {
    Quote(it.key) + RenderTail(it)
  }

  function RenderItems(its: seq<Item>): string
    decreases its, 3
  {
    if its == [] then [] else RenderItem(its[0]) + RenderItems(its[1..])
  }

  /** Every value in the tree is a string: the only kind the reader makes. */
  predicate Textual(it: Item)
    decreases it, 1
  {
    (forall i :: 0 <= i < |it.values| ==> it.values[i].VString?) && TextualAll(it.children)
  }

  predicate TextualAll(its: seq<Item>)
    decreases its, 0
  {
    forall i :: 0 <= i < |its| ==> Textual(its[i])
  }

  function Size(it: Item): (r: nat)
    ensures r >= 1
    decreases it, 1
  {
    1 + SizeAll(it.children)
  }

  function SizeAll(its: seq<Item>): nat
    decreases its, 0
  {
    if its == [] then 0 else Size(its[0]) + SizeAll(its[1..])
  }

  // ---------------------------------------------------------------------
  // Tokens of rendered text

  /** A rendered quoted body reads back as the original string. */
  lemma {:induction false} ReadEscaped(input: string, pos: nat, s: string, acc: string)
    requires At(input, pos, Escape(s) + ['"'])
    ensures ReadQuoted(input, pos, '"', acc) == (TString(acc + s), pos + |Escape(s)| + 1)
    decreases s
  {
    if s == [] {
      assert Escape(s) + ['"'] == ['"'] && acc + s == acc;
      AtHead(input, pos, Escape(s) + ['"']);
    } else {
      var e := EscapeChar(s[0]);
      var more := Escape(s[1..]) + ['"'];
      assert Escape(s) + ['"'] == e + more;
      AtSplit(input, pos, e, more);
      AtHead(input, pos, e);
      if |e| == 2 {
        AtHead(input, pos + 1, e[1..]);
        assert input[pos] == '\\' && pos + 1 < |input|;
        assert ReadQuoted(input, pos, '"', acc)
            == ReadQuoted(input, pos + 2, '"', acc + [Unescape(input[pos + 1], '"')]);
        assert Unescape(input[pos + 1], '"') == s[0];
      } else {
        assert input[pos] == s[0] && s[0] != '"' && s[0] != '\n' && s[0] != '\\';
        assert ReadQuoted(input, pos, '"', acc) == ReadQuoted(input, pos + 1, '"', acc + [s[0]]);
      }
      ReadEscaped(input, pos + |e|, s[1..], acc + [s[0]]);
      assert acc + [s[0]] + s[1..] == acc + s;
    }
  }

  lemma TokenQuoted(input: string, pos: nat, s: string)
    requires At(input, pos, Quote(s))
    ensures NextToken(input, pos) == (TString(s), pos + |Quote(s)|)
  {
    AtHead(input, pos, Quote(s));
    assert Quote(s) == ['"'] + (Escape(s) + ['"']);
    AtSplit(input, pos, ['"'], Escape(s) + ['"']);
    ReadEscaped(input, pos + 1, s, []);
    assert SkipSpaces(input, pos) == (SkipChar('"'), pos + 1);
    assert [] + s == s && |Quote(s)| == |Escape(s)| + 2;
  }

  lemma TokenAfterSpace(input: string, pos: nat)
    requires pos < |input| && input[pos] == ' '
    ensures NextToken(input, pos) == NextToken(input, pos + 1)
  {
  }

  lemma TokenPunct(input: string, pos: nat)
    requires pos < |input|
    ensures input[pos] == '\n' ==> NextToken(input, pos) == (TEol, pos + 1)
    ensures input[pos] == '{' ==> NextToken(input, pos) == (TBlockStart, pos + 1)
    ensures input[pos] == '}' ==> NextToken(input, pos) == (TBlockEnd, pos + 1)
  {
  }

  lemma SkipNewline(input: string, pos: nat, acc: seq<Item>)
    requires pos < |input| && input[pos] == '\n'
    ensures ParseBlock(input, pos, acc) == ParseBlock(input, pos + 1, acc)
    ensures ParseTop(input, pos, acc) == ParseTop(input, pos + 1, acc)
  {
    TokenPunct(input, pos);
  }

  /** A space and a quoted string read as one string token. */
  lemma TokenSpacedQuote(input: string, pos: nat, v: string, more: string)
    requires At(input, pos, " " + (Quote(v) + more))
    ensures NextToken(input, pos) == (TString(v), pos + 1 + |Quote(v)|)
    ensures At(input, pos + 1 + |Quote(v)|, more)
  {
    AtSplit(input, pos, " ", Quote(v) + more);
    AtSplit(input, pos + 1, Quote(v), more);
    AtHead(input, pos, " ");
    TokenAfterSpace(input, pos);
    TokenQuoted(input, pos + 1, v);
  }

  /** Steps of the values loop. */
  lemma ValuesString(input: string, pos: nat, values: seq<Value>, v: string, p1: nat)
    requires pos <= |input| && NextToken(input, pos) == (TString(v), p1)
    ensures ParseValues(input, pos, values) == ParseValues(input, p1, values + [VString(v)])
  {
  }

  lemma ValuesEol(input: string, pos: nat, values: seq<Value>)
    requires At(input, pos, "\n")
    ensures pos < |input| && ParseValues(input, pos, values) == ValuesParsed(Break, values, [], pos + 1)
  {
    AtHead(input, pos, "\n");
    TokenPunct(input, pos);
  }

  lemma ValuesOpen(input: string, pos: nat, values: seq<Value>)
    requires pos + 1 < |input| && input[pos] == ' ' && input[pos + 1] == '{'
    ensures var sub := ParseBlock(input, pos + 2, []);
            ParseValues(input, pos, values)
            == ValuesParsed(if sub.status != 0 then ReturnFail else Break, values, sub.items, sub.pos)
  {
    TokenAfterSpace(input, pos);
    TokenPunct(input, pos + 1);
  }

  // ---------------------------------------------------------------------
  // Values

  lemma StringsTail(vs: seq<Value>)
    requires vs != [] && forall i :: 0 <= i < |vs| ==> vs[i].VString?
    ensures forall i :: 0 <= i < |vs[1..]| ==> vs[1..][i].VString?
  {
    forall i | 0 <= i < |vs[1..]| ensures vs[1..][i].VString? {
      assert vs[1..][i] == vs[i + 1];
    }
  }

  /** A space and a quoted string inside the values loop append one value. */
  lemma ValuesQuoted(input: string, pos: nat, values: seq<Value>, v: Value, more: string, p1: nat, w: seq<Value>)
    requires v.VString? && At(input, pos, " " + (Quote(v.s) + more))
    requires p1 == pos + 1 + |Quote(v.s)| && w == values + [v]
    ensures p1 <= |input| && At(input, p1, more)
    ensures ParseValues(input, pos, values) == ParseValues(input, p1, w)
  {
    TokenSpacedQuote(input, pos, v.s, more);
    ValuesString(input, pos, values, v.s, p1);
  }

  /** The values loop reads rendered values one by one. */
  lemma {:induction false} ValuesSkip(input: string, pos: nat, vs: seq<Value>, values: seq<Value>, more: string, e: nat)
    requires forall i :: 0 <= i < |vs| ==> vs[i].VString?
    requires At(input, pos, RenderValues(vs) + more) && e == pos + |RenderValues(vs)|
    ensures e <= |input| && At(input, e, more)
    ensures ParseValues(input, pos, values) == ParseValues(input, e, values + vs)
    decreases vs
  {
    if vs == [] {
      ValuesSkipNone(input, pos, vs, values, more, e);
    } else {
      var tail := vs[1..];
      var p1 := pos + 1 + |Quote(vs[0].s)|;
      var w := values + [vs[0]];
      ValuesSkipFirst(input, pos, vs, values, more, p1, w, tail);
      ValuesSkipJoin(input, pos, vs, values, p1, w, tail, e);
      ValuesSkip(input, p1, tail, w, more, e);
    }
  }

  lemma ValuesSkipNone(input: string, pos: nat, vs: seq<Value>, values: seq<Value>, more: string, e: nat)
    requires vs == [] && At(input, pos, RenderValues(vs) + more) && e == pos + |RenderValues(vs)|
    ensures e <= |input| && At(input, e, more)
    ensures ParseValues(input, pos, values) == ParseValues(input, e, values + vs)
  {
    assert RenderValues(vs) + more == more && values + vs == values;
    AtBound(input, pos, more);
  }

  lemma ValuesSkipFirst(input: string, pos: nat, vs: seq<Value>, values: seq<Value>, more: string,
                        p1: nat, w: seq<Value>, tail: seq<Value>)
    requires vs != [] && forall i :: 0 <= i < |vs| ==> vs[i].VString?
    requires At(input, pos, RenderValues(vs) + more)
    requires p1 == pos + 1 + |Quote(vs[0].s)| && w == values + [vs[0]] && tail == vs[1..]
    ensures vs[0].VString? && forall i :: 0 <= i < |tail| ==> tail[i].VString?
    ensures p1 <= |input| && At(input, p1, RenderValues(tail) + more)
    ensures ParseValues(input, pos, values) == ParseValues(input, p1, w)
  {
    ValuesFirstShape(vs, more, tail);
    ValuesQuoted(input, pos, values, vs[0], RenderValues(tail) + more, p1, w);
  }

  lemma ValuesFirstShape(vs: seq<Value>, more: string, tail: seq<Value>)
    requires vs != [] && forall i :: 0 <= i < |vs| ==> vs[i].VString?
    requires tail == vs[1..]
    ensures vs[0].VString? && forall i :: 0 <= i < |tail| ==> tail[i].VString?
    ensures RenderValues(vs) + more == " " + (Quote(vs[0].s) + (RenderValues(tail) + more))
  {
    StringsTail(vs);
    Assoc3(" " + Quote(vs[0].s), RenderValues(tail), more);
    Assoc3(" ", Quote(vs[0].s), RenderValues(tail) + more);
  }

  lemma ValuesSkipJoin(input: string, pos: nat, vs: seq<Value>, values: seq<Value>,
                       p1: nat, w: seq<Value>, tail: seq<Value>, e: nat)
    requires vs != [] && vs[0].VString? && p1 == pos + 1 + |Quote(vs[0].s)|
    requires w == values + [vs[0]] && tail == vs[1..] && e == pos + |RenderValues(vs)|
    ensures e == p1 + |RenderValues(tail)| && w + tail == values + vs
  {
    RenderValuesLength(vs);
    AppendFirst(values, vs);
  }

  lemma RenderValuesLength(vs: seq<Value>)
    requires vs != [] && vs[0].VString?
    ensures |RenderValues(vs)| == 1 + |Quote(vs[0].s)| + |RenderValues(vs[1..])|
  {
  }

  lemma AppendFirst<T>(xs: seq<T>, ys: seq<T>)
    requires ys != []
    ensures (xs + [ys[0]]) + ys[1..] == xs + ys
  {
    assert ys == [ys[0]] + ys[1..];
  }

  lemma ValuesBlockAt(input: string, e: nat, values: seq<Value>, bpos: nat, children: seq<Item>, end: nat)
    requires At(input, e, " {") && bpos == e + 2 <= |input|
    requires ParseBlock(input, bpos, []) == Parsed(0, children, end)
    ensures ParseValues(input, e, values) == ValuesParsed(Break, values, children, end)
  {
    ValuesBlockOpen(input, e, values, children, end);
  }

  lemma ValuesBlockOpen(input: string, pos: nat, values: seq<Value>, children: seq<Item>, end: nat)
    requires At(input, pos, " {")
    requires pos + 2 <= |input| && ParseBlock(input, pos + 2, []) == Parsed(0, children, end)
    ensures ParseValues(input, pos, values) == ValuesParsed(Break, values, children, end)
  {
    AtSplit(input, pos, " ", "{");
    AtHead(input, pos, " ");
    AtHead(input, pos + 1, "{");
    ValuesOpen(input, pos, values);
  }

  // ---------------------------------------------------------------------
  // Steps of the block and top-level loops

  lemma BlockKey(input: string, pos: nat, acc: seq<Item>, key: string, p1: nat)
    requires pos <= |input| && NextToken(input, pos) == (TString(key), p1)
    ensures ParseBlock(input, pos, acc) == ParseBlockEntry(input, p1, key, acc)
  {
  }

  lemma TopKey(input: string, pos: nat, acc: seq<Item>, key: string, p1: nat)
    requires pos <= |input| && NextToken(input, pos) == (TString(key), p1)
    ensures ParseTop(input, pos, acc) == ParseTopEntry(input, p1, key, acc)
  {
  }

  /** A quoted key read by the block loop. */
  lemma QuotedKey(input: string, pos: nat, acc: seq<Item>, key: string, more: string)
    requires At(input, pos, Quote(key) + more)
    ensures 0 < pos + |Quote(key)| <= |input| && At(input, pos + |Quote(key)|, more)
    ensures ParseBlock(input, pos, acc) == ParseBlockEntry(input, pos + |Quote(key)|, key, acc)
  {
    AtSplit(input, pos, Quote(key), more);
    AtBound(input, pos + |Quote(key)|, more);
    TokenQuoted(input, pos, key);
    BlockKey(input, pos, acc, key, pos + |Quote(key)|);
  }

  /** A quoted key read by the top-level loop. */
  lemma TopQuotedKey(input: string, pos: nat, acc: seq<Item>, key: string, more: string)
    requires At(input, pos, Quote(key) + more)
    ensures 0 < pos + |Quote(key)| <= |input| && At(input, pos + |Quote(key)|, more)
    ensures ParseTop(input, pos, acc) == ParseTopEntry(input, pos + |Quote(key)|, key, acc)
  {
    AtSplit(input, pos, Quote(key), more);
    AtBound(input, pos + |Quote(key)|, more);
    TokenQuoted(input, pos, key);
    TopKey(input, pos, acc, key, pos + |Quote(key)|);
  }

  lemma EntryOpen(input: string, pos: nat, key: string, acc: seq<Item>, children: seq<Item>, end: nat)
    requires 0 < pos && pos + 1 < |input| && input[pos] == ' ' && input[pos + 1] == '{'
    requires ParseBlock(input, pos + 2, []) == Parsed(0, children, end)
    ensures ParseBlockEntry(input, pos, key, acc) == ParseBlock(input, end, acc + [Item(key, [], children)])
    ensures ParseTopEntry(input, pos, key, acc) == ParseTop(input, end, acc + [Item(key, [], children)])
  {
    TokenAfterSpace(input, pos);
    TokenPunct(input, pos + 1);
  }

  /** A key followed by " {" opens a child block. */
  lemma EntryOpenAt(input: string, pos: nat, it: Item, acc: seq<Item>, end: nat)
    requires 0 < pos && it.values == [] && At(input, pos, " {") && pos + 2 <= |input|
    requires ParseBlock(input, pos + 2, []) == Parsed(0, it.children, end)
    ensures ParseBlockEntry(input, pos, it.key, acc) == ParseBlock(input, end, acc + [it])
    ensures ParseTopEntry(input, pos, it.key, acc) == ParseTop(input, end, acc + [it])
  {
    AtSplit(input, pos, " ", "{");
    AtHead(input, pos, " ");
    AtHead(input, pos + 1, "{");
    assert Item(it.key, [], it.children) == it;
    EntryOpen(input, pos, it.key, acc, it.children, end);
  }

  lemma EntryValues(input: string, pos: nat, key: string, acc: seq<Item>, v: string, p2: nat,
                    values: seq<Value>, children: seq<Item>, end: nat)
    requires 0 < pos <= |input| && NextToken(input, pos) == (TString(v), p2)
    requires ParseValues(input, p2, [VString(v)]) == ValuesParsed(Break, values, children, end)
    ensures ParseBlockEntry(input, pos, key, acc) == ParseBlock(input, end, acc + [Item(key, values, children)])
    ensures ParseTopEntry(input, pos, key, acc) == ParseTop(input, end, acc + [Item(key, values, children)])
  {
  }

  /** A key followed by a quoted value starts the values loop. */
  lemma EntryQuotedValue(input: string, pos: nat, it: Item, acc: seq<Item>, more: string, p2: nat, end: nat)
    requires 0 < pos && it.values != [] && it.values[0].VString?
    requires At(input, pos, " " + (Quote(it.values[0].s) + more))
    requires p2 == pos + 1 + |Quote(it.values[0].s)| <= |input|
    requires ParseValues(input, p2, [it.values[0]]) == ValuesParsed(Break, it.values, it.children, end)
    ensures ParseBlockEntry(input, pos, it.key, acc) == ParseBlock(input, end, acc + [it])
    ensures ParseTopEntry(input, pos, it.key, acc) == ParseTop(input, end, acc + [it])
  {
    var v := it.values[0].s;
    assert [VString(v)] == [it.values[0]];
    assert Item(it.key, it.values, it.children) == it;
    TokenSpacedQuote(input, pos, v, more);
    EntryValues(input, pos, it.key, acc, v, p2, it.values, it.children, end);
  }

  /** A newline between items is skipped. */
  lemma NewlineAt(input: string, pos: nat, acc: seq<Item>)
    requires At(input, pos, "\n")
    ensures pos < |input|
    ensures ParseBlock(input, pos, acc) == ParseBlock(input, pos + 1, acc)
    ensures ParseTop(input, pos, acc) == ParseTop(input, pos + 1, acc)
  {
    AtHead(input, pos, "\n");
    SkipNewline(input, pos, acc);
  }

  /** A '}' ends the block successfully. */
  lemma CloseAt(input: string, pos: nat, acc: seq<Item>)
    requires At(input, pos, "}")
    ensures pos < |input| && ParseBlock(input, pos, acc) == Parsed(0, acc, pos + 1)
  {
    AtHead(input, pos, "}");
    TokenPunct(input, pos);
  }

  lemma TopEnd(input: string, acc: seq<Item>)
    ensures ParseTop(input, |input|, acc) == Parsed(0, acc, |input|)
  {
  }

  lemma TextualTail(its: seq<Item>)
    requires its != [] && TextualAll(its)
    ensures Textual(its[0]) && TextualAll(its[1..])
  {
    forall i | 0 <= i < |its[1..]| ensures Textual(its[1..][i]) {
      assert its[1..][i] == its[i + 1];
    }
  }

  lemma TextualValues(it: Item)
    requires Textual(it) && it.values != []
    ensures it.values[0] == VString(it.values[0].s)
    ensures forall i :: 0 <= i < |it.values[1..]| ==> it.values[1..][i].VString?
    ensures TextualAll(it.children)
  {
    forall i | 0 <= i < |it.values[1..]| ensures it.values[1..][i].VString? {
      assert it.values[1..][i] == it.values[i + 1];
    }
  }

  // ---------------------------------------------------------------------
  // Shapes of rendered text

  lemma ItemsSplit(its: seq<Item>, suffix: string)
    requires its != []
    ensures RenderItems(its) + suffix
            == Quote(its[0].key) + (RenderTail(its[0]) + (RenderItems(its[1..]) + suffix))
    ensures |RenderItems(its)| == |Quote(its[0].key)| + |RenderTail(its[0])| + |RenderItems(its[1..])|
  {
    var k, t, r := Quote(its[0].key), RenderTail(its[0]), RenderItems(its[1..]);
    assert RenderItems(its) == (k + t) + r;
    Assoc4(k, t, r, suffix);
  }

  lemma Assoc4(a: string, b: string, c: string, d: string)
    ensures ((a + b) + c) + d == a + (b + (c + d))
  {
  }

  lemma InnerShape(ch: seq<Item>)
    ensures "\n" + RenderItems(ch) + "}" == "\n" + (RenderItems(ch) + "}")
    ensures |"\n" + RenderItems(ch) + "}"| == 1 + |RenderItems(ch)| + 1
  {
  }

  lemma NoValuesShape(it: Item)
    requires it.values == []
    ensures RenderTail(it) == " {" + (("\n" + RenderItems(it.children) + "}") + "\n")
    ensures |RenderTail(it)| == 2 + |"\n" + RenderItems(it.children) + "}"| + 1
  {
    assert RenderValues(it.values) == [];
  }

  lemma WithValuesShape(it: Item)
    requires it.values != []
    ensures RenderTail(it)
            == " " + (Quote(if it.values[0].VString? then it.values[0].s else "")
                      + (RenderValues(it.values[1..]) + Closing(it)))
    ensures |RenderTail(it)|
            == 1 + |Quote(if it.values[0].VString? then it.values[0].s else "")|
               + |RenderValues(it.values[1..]) + Closing(it)|
  {
  }

  lemma ClosingShape(it: Item, rr: string)
    requires it.values != [] && it.children != []
    ensures rr + Closing(it) == (rr + " {") + (("\n" + RenderItems(it.children) + "}") + "\n")
    ensures |rr + Closing(it)| == |rr| + 2 + |"\n" + RenderItems(it.children) + "}"| + 1
  {
  }

  lemma FirstRest<T>(xs: seq<T>)
    requires xs != []
    ensures [xs[0]] + xs[1..] == xs
  {
  }

  // ---------------------------------------------------------------------
  // Blocks

  /** A block body rendered as "\n", the items and "}" reads back as those
      items. */
  lemma {:induction false} InnerBlock(input: string, pos: nat, ch: seq<Item>)
    requires TextualAll(ch)
    requires At(input, pos, "\n" + RenderItems(ch) + "}")
    ensures pos + |"\n" + RenderItems(ch) + "}"| <= |input|
    ensures ParseBlock(input, pos, []) == Parsed(0, ch, pos + |"\n" + RenderItems(ch) + "}"|)
    decreases SizeAll(ch), 5
  {
    InnerShape(ch);
    AtSplit(input, pos, "\n", RenderItems(ch) + "}");
    AtBound(input, pos + 1, RenderItems(ch) + "}");
    assert [] + ch == ch;
    NewlineAt(input, pos, []);
    BlockRoundTrip(input, pos + 1, ch, [], ch, pos + 1 + |RenderItems(ch)| + 1);
  }

  /** Rendered items followed by '}' read back, inside a block, as the same
      items, and the block ends just after the '}'. */
  lemma {:induction false} BlockRoundTrip(input: string, pos: nat, its: seq<Item>, acc: seq<Item>,
                                          out: seq<Item>, end: nat)
    requires TextualAll(its)
    requires At(input, pos, RenderItems(its) + "}")
    requires out == acc + its && end == pos + |RenderItems(its)| + 1
    ensures end <= |input| && ParseBlock(input, pos, acc) == Parsed(0, out, end)
    decreases SizeAll(its), 4
  {
    if its == [] {
      assert RenderItems(its) + "}" == "}" && acc + its == acc;
      CloseAt(input, pos, acc);
    } else {
      var it := its[0];
      var p1 := pos + |Quote(it.key)|;
      var p3 := p1 + |RenderTail(it)|;
      var acc1 := acc + [it];
      ItemsPrep(input, pos, its, "}", acc, out, p1, p3, acc1);
      QuotedKey(input, pos, acc, it.key, RenderTail(it) + (RenderItems(its[1..]) + "}"));
      EntryRoundTrip(input, p1, it, acc, p3);
      BlockRoundTrip(input, p3, its[1..], acc1, out, end);
    }
  }

  /** How rendered text followed by `suffix` splits around the first of
      several items. */
  lemma ItemsPrep(input: string, pos: nat, its: seq<Item>, suffix: string, acc: seq<Item>, out: seq<Item>,
                  p1: nat, p3: nat, acc1: seq<Item>)
    requires its != [] && TextualAll(its)
    requires At(input, pos, RenderItems(its) + suffix) && out == acc + its
    requires p1 == pos + |Quote(its[0].key)| && p3 == p1 + |RenderTail(its[0])| && acc1 == acc + [its[0]]
    ensures At(input, pos, Quote(its[0].key) + (RenderTail(its[0]) + (RenderItems(its[1..]) + suffix)))
    ensures Textual(its[0]) && At(input, p1, RenderTail(its[0]))
    ensures TextualAll(its[1..]) && At(input, p3, RenderItems(its[1..]) + suffix)
    ensures out == acc1 + its[1..] && pos + |RenderItems(its)| == p3 + |RenderItems(its[1..])|
  {
    var it := its[0];
    var t := RenderTail(it);
    var rest := RenderItems(its[1..]) + suffix;
    ItemsSplit(its, suffix);
    AppendFirst(acc, its);
    TextualTail(its);
    AtSplitAt(input, pos, Quote(it.key), t + rest, p1);
    AtSplitAt(input, p1, t, rest, p3);
  }

  /** After its key, a rendered item reads back as itself and both loops go
      on just after it. */
  lemma {:induction false} EntryRoundTrip(input: string, pos: nat, it: Item, acc: seq<Item>, p3: nat)
    requires 0 < pos && Textual(it)
    requires At(input, pos, RenderTail(it)) && p3 == pos + |RenderTail(it)|
    ensures p3 <= |input|
    ensures ParseBlockEntry(input, pos, it.key, acc) == ParseBlock(input, p3, acc + [it])
    ensures ParseTopEntry(input, pos, it.key, acc) == ParseTop(input, p3, acc + [it])
    decreases Size(it), 3
  {
    AtBound(input, pos, RenderTail(it));
    if it.values == [] {
      EntryNoValuesBlock(input, pos, it, acc, p3);
      EntryNoValuesTop(input, pos, it, acc, p3);
    } else {
      EntryWithValues(input, pos, it, acc, p3);
    }
  }

  lemma {:induction false} EntryNoValuesBlock(input: string, pos: nat, it: Item, acc: seq<Item>, p3: nat)
    requires 0 < pos && Textual(it) && it.values == []
    requires At(input, pos, RenderTail(it)) && p3 == pos + |RenderTail(it)| <= |input|
    ensures ParseBlockEntry(input, pos, it.key, acc) == ParseBlock(input, p3, acc + [it])
    decreases Size(it), 2
  {
    NoValuesInner(input, pos, it, p3);
    NoValuesBlock(input, pos, it, acc, p3 - 1);
  }

  lemma {:induction false} EntryNoValuesTop(input: string, pos: nat, it: Item, acc: seq<Item>, p3: nat)
    requires 0 < pos && Textual(it) && it.values == []
    requires At(input, pos, RenderTail(it)) && p3 == pos + |RenderTail(it)| <= |input|
    ensures ParseTopEntry(input, pos, it.key, acc) == ParseTop(input, p3, acc + [it])
    decreases Size(it), 2
  {
    NoValuesInner(input, pos, it, p3);
    NoValuesBlock(input, pos, it, acc, p3 - 1);
  }

  /** The block of a rendered item without values reads back as its
      children and ends just before the closing newline. */
  lemma {:induction false} NoValuesInner(input: string, pos: nat, it: Item, p3: nat)
    requires Textual(it) && it.values == []
    requires At(input, pos, RenderTail(it)) && p3 == pos + |RenderTail(it)| <= |input|
    ensures 1 <= p3 && At(input, pos, " {") && pos + 2 <= |input| && At(input, p3 - 1, "\n")
    ensures ParseBlock(input, pos + 2, []) == Parsed(0, it.children, p3 - 1)
    decreases Size(it), 1
  {
    var e := pos + 2 + |"\n" + RenderItems(it.children) + "}"|;
    NoValuesPrep(input, pos, it, p3, e);
    InnerBlock(input, pos + 2, it.children);
  }

  /** An item without values opens its block on the key's line and the
      newline after the block closes the entry. */
  lemma NoValuesBlock(input: string, pos: nat, it: Item, acc: seq<Item>, e: nat)
    requires 0 < pos && it.values == [] && At(input, pos, " {") && pos + 2 <= |input|
    requires ParseBlock(input, pos + 2, []) == Parsed(0, it.children, e) && At(input, e, "\n")
    ensures e + 1 <= |input|
    ensures ParseBlockEntry(input, pos, it.key, acc) == ParseBlock(input, e + 1, acc + [it])
    ensures ParseTopEntry(input, pos, it.key, acc) == ParseTop(input, e + 1, acc + [it])
  {
    EntryOpenAt(input, pos, it, acc, e);
    NewlineAt(input, e, acc + [it]);
  }

  /** Where the block of a rendered item without values lies. */
  lemma NoValuesPrep(input: string, pos: nat, it: Item, p3: nat, e: nat)
    requires it.values == [] && At(input, pos, RenderTail(it)) && p3 == pos + |RenderTail(it)|
    requires e == pos + 2 + |"\n" + RenderItems(it.children) + "}"|
    ensures At(input, pos, " {") && pos + 2 <= |input|
    ensures At(input, pos + 2, "\n" + RenderItems(it.children) + "}")
    ensures At(input, e, "\n") && p3 == e + 1
  {
    var body := "\n" + RenderItems(it.children) + "}";
    NoValuesShape(it);
    AtSplit(input, pos, " {", body + "\n");
    AtSplit(input, pos + 2, body, "\n");
    AtBound(input, pos + 2, body + "\n");
  }

  lemma {:induction false} EntryWithValues(input: string, pos: nat, it: Item, acc: seq<Item>, p3: nat)
    requires 0 < pos && Textual(it) && it.values != []
    requires At(input, pos, RenderTail(it)) && p3 == pos + |RenderTail(it)| <= |input|
    ensures ParseBlockEntry(input, pos, it.key, acc) == ParseBlock(input, p3, acc + [it])
    ensures ParseTopEntry(input, pos, it.key, acc) == ParseTop(input, p3, acc + [it])
    decreases Size(it), 2
  {
    var more := RenderValues(it.values[1..]) + Closing(it);
    var p2 := pos + 1 + |Quote(it.values[0].s)|;
    var end := if it.children == [] then p2 + |more| else p2 + |more| - 1;
    WithValuesPrep(input, pos, it, p2, end, p3);
    ValuesTail(input, p2, it, end);
    EntryQuotedValue(input, pos, it, acc, more, p2, end);
    if it.children != [] {
      NewlineAt(input, end, acc + [it]);
    }
  }

  /** Where the first value and the rest of a rendered item with values lie. */
  lemma WithValuesPrep(input: string, pos: nat, it: Item, p2: nat, end: nat, p3: nat)
    requires Textual(it) && it.values != []
    requires At(input, pos, RenderTail(it)) && p3 == pos + |RenderTail(it)|
    requires p2 == pos + 1 + |Quote(it.values[0].s)|
    requires end == if it.children == [] then p2 + |RenderValues(it.values[1..]) + Closing(it)|
                    else p2 + |RenderValues(it.values[1..]) + Closing(it)| - 1
    ensures it.values[0].VString?
    ensures At(input, pos, " " + (Quote(it.values[0].s) + (RenderValues(it.values[1..]) + Closing(it))))
    ensures p2 <= |input| && At(input, p2, RenderValues(it.values[1..]) + Closing(it))
    ensures p3 == if it.children == [] then end else end + 1
  {
    var q := Quote(it.values[0].s);
    var more := RenderValues(it.values[1..]) + Closing(it);
    TextualValues(it);
    WithValuesShape(it);
    assert RenderTail(it) == " " + (q + more);
    AtSplitAt(input, pos, " ", q + more, pos + 1);
    AtSplitAt(input, pos + 1, q, more, p2);
    AtBound(input, p2, more);
    if it.children != [] {
      assert |more| >= 1 by { ClosingShape(it, RenderValues(it.values[1..])); }
    }
  }

  /** The values loop over the rest of a rendered item gathers its values
      and children. */
  lemma {:induction false} ValuesTail(input: string, pos: nat, it: Item, end: nat)
    requires Textual(it) && it.values != []
    requires At(input, pos, RenderValues(it.values[1..]) + Closing(it))
    requires end == if it.children == [] then pos + |RenderValues(it.values[1..]) + Closing(it)|
                    else pos + |RenderValues(it.values[1..]) + Closing(it)| - 1
    ensures end <= |input|
    ensures ParseValues(input, pos, [it.values[0]]) == ValuesParsed(Break, it.values, it.children, end)
    ensures it.children != [] ==> At(input, end, "\n")
    decreases Size(it), 1
  {
    var rest := it.values[1..];
    var e := pos + |RenderValues(rest)|;
    TextualValues(it);
    FirstRest(it.values);
    ValuesSkip(input, pos, rest, [it.values[0]], Closing(it), e);
    assert ParseValues(input, pos, [it.values[0]]) == ParseValues(input, e, it.values);
    assert |RenderValues(rest) + Closing(it)| == |RenderValues(rest)| + |Closing(it)|;
    if it.children == [] {
      ClosingLine(input, e, it, it.values, end);
    } else {
      ClosingBlock(input, e, it, it.values, end);
    }
  }

  /** An item without children ends its values with a newline. */
  lemma ClosingLine(input: string, e: nat, it: Item, values: seq<Value>, end: nat)
    requires it.children == [] && it.values != []
    requires At(input, e, Closing(it)) && end == e + 1
    ensures end <= |input|
    ensures ParseValues(input, e, values) == ValuesParsed(Break, values, it.children, end)
  {
    assert Closing(it) == "\n";
    AtHead(input, e, "\n");
    ValuesEol(input, e, values);
  }

  /** An item with children ends its values with its block, read back by
      the block loop. */
  lemma {:induction false} ClosingBlock(input: string, e: nat, it: Item, values: seq<Value>, end: nat)
    requires Textual(it) && it.children != [] && it.values != []
    requires At(input, e, Closing(it)) && end == e + |Closing(it)| - 1
    ensures end <= |input| && At(input, end, "\n")
    ensures ParseValues(input, e, values) == ValuesParsed(Break, values, it.children, end)
    decreases Size(it), 0
  {
    var ch := it.children;
    var inner := "\n" + RenderItems(ch) + "}";
    TextualValues(it);
    ClosingShape(it, []);
    assert Closing(it) == " {" + (inner + "\n");
    AtSplitAt(input, e, " {", inner + "\n", e + 2);
    AtSplitAt(input, e + 2, inner, "\n", end);
    AtBound(input, e + 2, inner + "\n");
    InnerBlock(input, e + 2, ch);
    ValuesBlockAt(input, e, values, e + 2, ch, end);
  }

  /** Rendered items that run to the end of the input read back, at top
      level, as the same items with status 0. */
  lemma {:induction false} TopRoundTrip(input: string, pos: nat, its: seq<Item>, acc: seq<Item>, out: seq<Item>)
    requires TopRest(input, pos, its, acc, out)
    ensures ParseTop(input, pos, acc) == Parsed(0, out, |input|)
    decreases its
  {
    if its == [] {
      TopDone(input, pos, its, acc, out);
    } else {
      var p1 := pos + |Quote(its[0].key)|;
      var p3 := p1 + |RenderTail(its[0])|;
      TopSplit(input, pos, its, acc, out, p1, p3);
      TopItem(input, pos, its[0], acc, RenderItems(its[1..]), p1, p3);
      TopRoundTrip(input, p3, its[1..], acc + [its[0]], out);
    }
  }

  lemma TopDone(input: string, pos: nat, its: seq<Item>, acc: seq<Item>, out: seq<Item>)
    requires its == [] && TopRest(input, pos, its, acc, out)
    ensures ParseTop(input, pos, acc) == Parsed(0, out, |input|)
  {
    assert acc + its == acc;
    TopEnd(input, acc);
  }

  /** One rendered item at top level: the loop moves past it with the item
      appended. */
  lemma TopItem(input: string, pos: nat, it: Item, acc: seq<Item>, rest: string, p1: nat, p3: nat)
    requires Textual(it) && At(input, pos, Quote(it.key) + (RenderTail(it) + rest))
    requires p1 == pos + |Quote(it.key)| && At(input, p1, RenderTail(it)) && p3 == p1 + |RenderTail(it)|
    requires p3 <= |input|
    ensures ParseTop(input, pos, acc) == ParseTop(input, p3, acc + [it])
  {
    TopQuotedKey(input, pos, acc, it.key, RenderTail(it) + rest);
    EntryRoundTrip(input, p1, it, acc, p3);
  }

  /** What remains for the top-level loop: rendered items running to the end
      of the input, to be appended to `acc` giving `out`. */
  predicate TopRest(input: string, pos: nat, its: seq<Item>, acc: seq<Item>, out: seq<Item>) {
    TextualAll(its) && At(input, pos, RenderItems(its)) && pos + |RenderItems(its)| == |input|
    && out == acc + its
  }

  lemma TopSplit(input: string, pos: nat, its: seq<Item>, acc: seq<Item>, out: seq<Item>, p1: nat, p3: nat)
    requires its != [] && TopRest(input, pos, its, acc, out)
    requires p1 == pos + |Quote(its[0].key)| && p3 == p1 + |RenderTail(its[0])|
    ensures At(input, pos, Quote(its[0].key) + (RenderTail(its[0]) + RenderItems(its[1..])))
    ensures 0 < p1 && Textual(its[0]) && At(input, p1, RenderTail(its[0]))
    ensures TopRest(input, p3, its[1..], acc + [its[0]], out)
  {
    var it := its[0];
    var t := RenderTail(it);
    var rest := RenderItems(its[1..]);
    ItemsHead(its);
    AppendFirst(acc, its);
    TextualTail(its);
    AtSplitAt(input, pos, Quote(it.key), t + rest, p1);
    AtSplitAt(input, p1, t, rest, p3);
  }

  lemma ItemsHead(its: seq<Item>)
    requires its != []
    ensures RenderItems(its) == Quote(its[0].key) + (RenderTail(its[0]) + RenderItems(its[1..]))
    ensures |Quote(its[0].key)| > 0
  {
    var k, t, r := Quote(its[0].key), RenderTail(its[0]), RenderItems(its[1..]);
    assert RenderItems(its) == (k + t) + r;
    Assoc3(k, t, r);
  }

  lemma Assoc3(a: string, b: string, c: string)
    ensures (a + b) + c == a + (b + c)
  {
  }

  /** Reading rendered text appends exactly the rendered items to the root
      and succeeds. */
  lemma ParseRendered(its: seq<Item>, root: Item)
    requires TextualAll(its)
    ensures ParseConfig(RenderItems(its), root) == (0, root.(children := root.children + its))
  {
    var input := RenderItems(its);
    AtSelf(input, 0);
    assert input[0..] == input;
    TopRoundTrip(input, 0, its, root.children, root.children + its);
  }

  lemma {:induction false} AtSelf(input: string, pos: nat)
    requires pos <= |input|
    ensures At(input, pos, input[pos..])
    decreases |input| - pos
  {
    if pos < |input| {
      assert input[pos..][1..] == input[pos + 1..];
      AtSelf(input, pos + 1);
    }
  }
}

=== FILE: oplog.dfy ===
/** The operation log of `VibeCoding/oplog_list.c`: records are prepared
    on entry (IP filled in, text cut to its buffer) and written in batches
    into a table of at most `DbOplogMax` rows used as a ring. Row
    `DbOplogMax + 1` of the table is a header holding the current insert
    index (its `ts` column) and the coverage index (its `type` column); here
    it is the `index` of a `Store`, and the other rows are a map from id to
    row. Every SQL statement is taken to succeed except where the table
    itself refuses it: an UPDATE batch whose first id is missing (-6), and
    an INSERT batch that meets an existing id (SQLITE_CONSTRAINT, after
    which the transaction is rolled back). */
module Oplog {
  import opened Wrappers
  import opened Text

  /** DB_OPLOG_MAX: the number of ring positions, ids 1 to DB_OPLOG_MAX. */
  const DbOplogMax: int := 100000
  /** DB_OPLOG_LIST_LEN and DB_IP_LEN: the text and IP buffers. */
  const DbOplogListLen: nat := 256
  const DbIpLen: nat := 32
  /** DB_OPLOG_DEFAULT_IP */
  const DefaultIp: string := "0.0.0.0"

  /** OPLOG_TYPE */
  const OplogInfo: int := 0
  const OplogError: int := 2

  /** SQLITE_CONSTRAINT */
  const SqliteConstraint: int := 19

  /** `DB_OPLOG_INFO`; the strings are the C strings in the buffers. */
  datatype Record = Record(id: int, typ: int, ts: int, ip: string, info: string)

  /** One stored table row (the id is its key). */
  datatype Row = Row(typ: int, ts: int, ip: string, info: string)

  function RowOf(r: Record): Row {
    Row(r.typ, r.ts, r.ip, r.info)
  }

  // ---------------------------------------------------------------------
  // Operator IP and record preparation

  /** `db_oplog_list_set_operator_ip`: the stored operator IP, with a
      missing or empty argument replaced by the default. */
  function SetOperatorIp(ip: Option<string>): (stored: string)
    ensures ip.None? || ip.value == [] ==> stored == DefaultIp
    ensures ip.Some? && 0 < |ip.value| < DbIpLen ==> stored == ip.value
    ensures stored != [] && |stored| < DbIpLen
  {
    Truncate(if ip.Some? && ip.value != [] then ip.value else DefaultIp, DbIpLen)
  }

  /** `oplog_get_operator_ip`: the stored IP, or the default when it is
      empty. */
  function OperatorIp(stored: string): (r: string)
    ensures r != [] && |r| < DbIpLen
    ensures 0 < |stored| < DbIpLen ==> r == stored
  {
    Truncate(if stored != [] then stored else DefaultIp, DbIpLen)
  }

  /** `oplog_fill_ip_if_empty`: the IP buffer is terminated at its last
      byte; an empty IP is replaced by the operator IP. */
  function FillIpIfEmpty(rec: Record, stored: string): (r: Record)
    ensures r == rec.(ip := r.ip) && r.ip != [] && |r.ip| < DbIpLen
    ensures 0 < |rec.ip| < DbIpLen ==> r.ip == rec.ip
    ensures rec.ip == [] ==> r.ip == OperatorIp(stored)
  {
    var ip := Truncate(rec.ip, DbIpLen);
    if ip != [] then rec.(ip := ip) else rec.(ip := OperatorIp(stored))
  }

  /** What `db_oplog_list_add` hands to the queue: the text terminated at
      the last byte of its buffer and the IP filled in. A missing record is
      refused. The queue itself is not part of this model. */
  function Add(rec: Option<Record>, stored: string): (r: Option<Record>)
    ensures rec.None? <==> r.None?
    ensures r.Some? ==> |r.value.info| < DbOplogListLen && |r.value.info| <= |rec.value.info|
                        && r.value.info == rec.value.info[..|r.value.info|]
                        && r.value.ip != [] && r.value.typ == rec.value.typ && r.value.ts == rec.value.ts
  {
    if rec.None? then None
    else Some(FillIpIfEmpty(rec.value.(info := Truncate(rec.value.info, DbOplogListLen)), stored))
  }

  // ---------------------------------------------------------------------
  // The table

  /** The header row: current insert index and coverage index. */
  datatype Index = Index(cur: int, cov: int)

  /** The table: the ring rows and the header row, if present. */
  datatype Store = Store(rows: map<int, Row>, index: Option<Index>)

  /** The ids `start`, …, `start + n - 1`. */
  function Span(start: int, n: nat): (r: set<int>)
    ensures forall id :: id in r <==> start <= id < start + n
  {
    var ids := seq(n, i => start + i);
    assert forall id :: start <= id < start + n ==> id in ids by {
      forall id | start <= id < start + n
        ensures id in ids
      {
        assert ids[id - start] == id;
      }
    }
    set id | id in ids
  }

  /** The UPDATE statements of `oplog_list_batch_update` after its check:
      record `i` goes to id `start + i`; an UPDATE of a missing id changes
      nothing. */
  function UpdateAll(rows: map<int, Row>, start: int, recs: seq<Record>): (r: map<int, Row>)
    ensures r.Keys == rows.Keys
    ensures forall id :: id in r && start <= id < start + |recs| ==> r[id] == RowOf(recs[id - start])
    ensures forall id :: id in r && !(start <= id < start + |recs|) ==> r[id] == rows[id]
    decreases |recs|
  {
    if recs == [] then rows
    else
      var rows1 := if start in rows then rows[start := RowOf(recs[0])] else rows;
      var r := UpdateAll(rows1, start + 1, recs[1..]);
      assert forall id :: id in r && start < id < start + |recs| ==> recs[1..][id - (start + 1)] == recs[id - start];
      r
  }

  /** `oplog_list_batch_update`: -6 unless the first id exists. */
  function BatchUpdate(rows: map<int, Row>, start: int, recs: seq<Record>): (r: (map<int, Row>, int))
    ensures r.1 == -6 <==> start !in rows
    ensures r.1 == -6 ==> r.0 == rows
    ensures r.1 != -6 ==> r.1 == 0
  {
    if start !in rows then (rows, -6) else (UpdateAll(rows, start, recs), 0)
  }

  /** No id of the span is taken yet. */
  predicate Free(rows: map<int, Row>, start: int, n: nat) {
    forall id :: id in rows ==> !(start <= id < start + n)
  }

  /** The INSERT statements of `oplog_list_batch_add`, one per record,
      record `i` with id `start + i`. */
  function InsertAll(rows: map<int, Row>, start: int, recs: seq<Record>): (r: map<int, Row>)
    ensures forall id :: id in r <==> id in rows || start <= id < start + |recs|
    ensures forall i :: 0 <= i < |recs| ==> r[start + i] == RowOf(recs[i])
    ensures forall id :: id in rows && !(start <= id < start + |recs|) ==> r[id] == rows[id]
    decreases |recs|
  {
    if recs == [] then rows
    else
      InsertAll(rows[start := RowOf(recs[0])], start + 1, recs[1..])
  }

  /** `oplog_list_batch_add`: record `i` is inserted with id `start + i`;
      one id already present fails the whole transaction. */
  function BatchInsert(rows: map<int, Row>, start: int, recs: seq<Record>): (r: (map<int, Row>, int))
    ensures r.1 == 0 <==> Free(rows, start, |recs|)
    ensures r.1 != 0 ==> r.1 == SqliteConstraint && r.0 == rows
    ensures r.1 == 0 ==> r.0 == InsertAll(rows, start, recs)
  {
    if !Free(rows, start, |recs|) then (rows, SqliteConstraint) else (InsertAll(rows, start, recs), 0)
  }

  /** The write of one part of a batch in `db_oplog_list_batch_add`: an
      update, falling back to an insert at the same ids when the first row
      is missing. A refused insert is only logged, so the rows stay as
      they were. */
  function Place(rows: map<int, Row>, start: int, recs: seq<Record>): map<int, Row> {
    var (u, rc) := BatchUpdate(rows, start, recs);
    if rc == -6 then BatchInsert(rows, start, recs).0 else u
  }

  /** The header stays within the ring. */
  predicate ValidIndex(ix: Index) {
    0 <= ix.cur <= DbOplogMax && 0 <= ix.cov <= DbOplogMax
  }

  /** `db_oplog_list_batch_add` for the records `recs` (the writer thread
      passes between 1 and DB_BATCH_NUM of them), given whether the mutex
      was obtained in time. Only the first record's type is checked.
      Before the insert index reaches DbOplogMax the records are inserted
      after it and what does not fit wraps to id 1; afterwards they are
      written after the coverage index, wrapping to id 1 in the same way. */
  function BatchAdd(s: Store, recs: seq<Record>, locked: bool): (r: (Store, int))
    requires |recs| > 0
    requires s.index.Some? ==> ValidIndex(s.index.value)
    ensures r.1 == -1 <==> !(OplogInfo <= recs[0].typ <= OplogError)
    ensures r.1 != 0 ==> r.0 == s
    ensures r.1 == 0 <==> OplogInfo <= recs[0].typ <= OplogError && locked && s.index.Some?
    ensures r.1 == 0 ==> r.0.index.Some?
  {
    if !(OplogInfo <= recs[0].typ <= OplogError) then (s, -1)
    else if !locked then (s, -2)
    else if s.index.None? then (s, -3)
    else
      var ix := s.index.value;
      if ix.cur >= DbOplogMax then
        var (rows, cov) := CoverageMode(s.rows, ix.cov, recs);
        (Store(rows, Some(Index(ix.cur, cov))), 0)
      else
        var (rows, cur, cov) := InsertMode(s.rows, ix.cur, ix.cov, recs);
        (Store(rows, Some(Index(cur, cov))), 0)
  }

  /** The two writes of a batch: the first `n1` records from `start` on,
      the rest from id 1. */
  function WriteTwo(rows: map<int, Row>, start: int, n1: int, recs: seq<Record>): map<int, Row>
    requires 0 <= n1 <= |recs|
  {
    var rows1 := if n1 > 0 then Place(rows, start, recs[..n1]) else rows;
    if n1 < |recs| then Place(rows1, 1, recs[n1..]) else rows1
  }

  /** The coverage-mode write of `db_oplog_list_batch_add`: the part that
      fits after the coverage index, then the rest from id 1; the result
      carries the new coverage index. */
  function CoverageMode(rows: map<int, Row>, cov: int, recs: seq<Record>): (map<int, Row>, int)
    requires 0 <= cov <= DbOplogMax
  {
    var num := |recs|;
    var n1 := if DbOplogMax - cov >= num then num else DbOplogMax - cov;
    var n2 := if DbOplogMax - cov >= num then 0 else num - (DbOplogMax - cov);
    (WriteTwo(rows, cov + 1, n1, recs), if n2 > 0 then n2 else if n1 > 0 then cov + n1 else cov)
  }

  /** The insert-mode write of `db_oplog_list_batch_add`: the part that
      fits after the insert index is inserted, the rest is written from id
      1; the result carries the new insert and coverage indexes. */
  function InsertMode(rows: map<int, Row>, cur: int, cov: int, recs: seq<Record>): (map<int, Row>, int, int)
    requires 0 <= cur < DbOplogMax
  {
    var num := |recs|;
    var n1 := if DbOplogMax - cur >= num then num else DbOplogMax - cur;
    var n2 := if DbOplogMax - cur >= num then 0 else num - (DbOplogMax - cur);
    var rows1 := BatchInsert(rows, cur + 1, recs[..n1]).0;
    var rows2 := if n2 > 0 then Place(rows1, 1, recs[n1..]) else rows1;
    (rows2, cur + n1, if n2 > 0 then n2 else cov)
  }

  /** `oplog_list_del_all`: every ring row goes, the header stays. */
  function DelAll(s: Store): (r: Store)
    ensures r.rows == map[] && r.index == s.index
  {
    s.(rows := map[])
  }

  // ---------------------------------------------------------------------
  // Properties

  /** The ring position of the `i`-th record written after position
      `base`: ids run from 1 to DbOplogMax and wrap back to 1. */
  function Slot(base: int, i: int): (id: int)
    ensures 1 <= id <= DbOplogMax
  {
    (base + i) % DbOplogMax + 1
  }

  /** The ring is full: every position holds a row. */
  predicate Full(rows: map<int, Row>) {
    forall id :: 1 <= id <= DbOplogMax ==> id in rows
  }

  /** A refused update hands the same records to an insert at the same
      ids: into free ids they all go, in order. */
  lemma UpdateFallsBackToInsert(rows: map<int, Row>, start: int, recs: seq<Record>)
    requires start !in rows && Free(rows, start, |recs|)
    ensures var r := Place(rows, start, recs);
            (forall i :: 0 <= i < |recs| ==> start + i in r && r[start + i] == RowOf(recs[i]))
            && forall id :: id in rows ==> id in r && r[id] == rows[id]
  {
  }

  /** A batch never moves the header out of the ring. */
  lemma BatchAddKeepsIndex(s: Store, recs: seq<Record>, locked: bool)
    requires 0 < |recs| <= DbOplogMax && s.index.Some? && ValidIndex(s.index.value)
    ensures var r := BatchAdd(s, recs, locked).0;
            r.index.Some? && ValidIndex(r.index.value)
  {
  }

  /** Before the ring has been filled, a batch is split into the part
      that fits after the insert index and the part that wraps to id 1;
      the insert index advances by the first part and, when there is a
      second part, the coverage index becomes its length. Into free ids the
      first part is stored in order. */
  lemma InsertModeSplit(s: Store, recs: seq<Record>)
    requires 0 < |recs| <= DbOplogMax && s.index.Some? && ValidIndex(s.index.value)
    requires s.index.value.cur < DbOplogMax && OplogInfo <= recs[0].typ <= OplogError
    ensures var cur := s.index.value.cur;
            var n1 := Min(|recs|, DbOplogMax - cur);
            var r := BatchAdd(s, recs, true).0;
            r.index.value.cur == cur + n1
            && r.index.value.cov == (if n1 < |recs| then |recs| - n1 else s.index.value.cov)
            && (n1 == |recs| && Free(s.rows, cur + 1, n1) ==>
                  forall i :: 0 <= i < |recs| ==> r.rows[cur + 1 + i] == RowOf(recs[i]))
            && (n1 == |recs| && !Free(s.rows, cur + 1, n1) ==> r.rows == s.rows)
  {
    BatchAddInsertMode(s, recs);
    InsertModeFits(s.rows, s.index.value.cur, s.index.value.cov, recs);
  }

  /** A batch that does not fit before DbOplogMax: its first part fills
      the free ids after the insert index and the rest lands on ids 1
      onwards, over the rows there or into an empty ring. */
  lemma InsertModeSplitWraps(s: Store, recs: seq<Record>)
    requires 0 < |recs| <= DbOplogMax && s.index.Some? && ValidIndex(s.index.value)
    requires s.index.value.cur < DbOplogMax && OplogInfo <= recs[0].typ <= OplogError
    requires DbOplogMax - s.index.value.cur < |recs|
    requires Free(s.rows, s.index.value.cur + 1, DbOplogMax - s.index.value.cur)
    requires Present(s.rows, 1, |recs| - (DbOplogMax - s.index.value.cur)) || Free(s.rows, 1, DbOplogMax)
    ensures var cur := s.index.value.cur; var n1 := DbOplogMax - cur;
            var r := BatchAdd(s, recs, true).0;
            (forall i :: 0 <= i < n1 ==> r.rows[cur + 1 + i] == RowOf(recs[i]))
            && (forall i :: n1 <= i < |recs| ==> r.rows[1 + i - n1] == RowOf(recs[i]))
  {
    BatchAddInsertMode(s, recs);
    InsertModeWraps(s.rows, s.index.value.cur, s.index.value.cov, recs);
  }

  lemma BatchAddInsertMode(s: Store, recs: seq<Record>)
    requires 0 < |recs| && s.index.Some? && ValidIndex(s.index.value)
    requires s.index.value.cur < DbOplogMax && OplogInfo <= recs[0].typ <= OplogError
    ensures var m := InsertMode(s.rows, s.index.value.cur, s.index.value.cov, recs);
      BatchAdd(s, recs, true).0 == Store(m.0, Some(Index(m.1, m.2)))
  {
  }

  /** The indexes insert mode leaves, and the batch that fits: stored in
      order into free ids, refused as a whole otherwise. */
  lemma InsertModeFits(rows: map<int, Row>, cur: int, cov: int, recs: seq<Record>)
    requires 0 < |recs| <= DbOplogMax && 0 <= cur < DbOplogMax
    ensures var n1 := Min(|recs|, DbOplogMax - cur); var m := InsertMode(rows, cur, cov, recs);
      m.1 == cur + n1 && m.2 == (if n1 < |recs| then |recs| - n1 else cov)
      && (n1 == |recs| && Free(rows, cur + 1, n1) ==> forall i :: 0 <= i < |recs| ==> m.0[cur + 1 + i] == RowOf(recs[i]))
      && (n1 == |recs| && !Free(rows, cur + 1, n1) ==> m.0 == rows)
  {
    var n1 := Min(|recs|, DbOplogMax - cur);
    if n1 == |recs| {
      assert recs[..n1] == recs;
    }
  }

  /** Every id of the span holds a row. */
  predicate Present(rows: map<int, Row>, start: int, n: nat) {
    forall id :: start <= id < start + n ==> id in rows
  }

  /** A write over rows that are all there updates each of them; a write
      into free ids inserts each record; in both cases every other row
      stays. */
  lemma PlaceSpan(rows: map<int, Row>, start: int, recs: seq<Record>)
    requires 0 < |recs| && (Present(rows, start, |recs|) || Free(rows, start, |recs|))
    ensures var r := Place(rows, start, recs);
      (forall i :: 0 <= i < |recs| ==> start + i in r && r[start + i] == RowOf(recs[i]))
      && (forall id :: id in rows && !(start <= id < start + |recs|) ==> id in r && r[id] == rows[id])
  {
    if Present(rows, start, |recs|) {
      assert start in rows;
      forall i | 0 <= i < |recs| ensures Place(rows, start, recs)[start + i] == RowOf(recs[i]) {
        assert start + i in rows;
      }
    }
  }

  /** Insert mode with a wrapped part: the first part fills the free ids
      after `cur`, and the rest lands on ids 1 onwards, either updating
      rows that are there or inserting into an empty ring. */
  lemma InsertModeWraps(rows: map<int, Row>, cur: int, cov: int, recs: seq<Record>)
    requires 0 <= cur < DbOplogMax && |recs| <= DbOplogMax && DbOplogMax - cur < |recs|
    requires Free(rows, cur + 1, DbOplogMax - cur)
    requires Present(rows, 1, |recs| - (DbOplogMax - cur)) || Free(rows, 1, DbOplogMax)
    ensures var n1 := DbOplogMax - cur; var r := InsertMode(rows, cur, cov, recs).0;
      (forall i :: 0 <= i < n1 ==> r[cur + 1 + i] == RowOf(recs[i]))
      && (forall i :: n1 <= i < |recs| ==> r[1 + i - n1] == RowOf(recs[i]))
  {
    InsertModeWrapsShape(rows, cur, cov, recs);
    WrapsPlaced(rows, cur, recs);
  }

  /** Row `id` holds record `rec`. */
  predicate Holds(rows: map<int, Row>, id: int, rec: Record) {
    id in rows && rows[id] == RowOf(rec)
  }

  /** The two writes of a wrapped batch: the first part inserted after
      `cur`, the rest written from id 1. */
  lemma WrapsPlaced(rows: map<int, Row>, cur: int, recs: seq<Record>)
    requires 0 <= cur < DbOplogMax && |recs| <= DbOplogMax && DbOplogMax - cur < |recs|
    requires Present(rows, 1, |recs| - (DbOplogMax - cur)) || Free(rows, 1, DbOplogMax)
    ensures var n1 := DbOplogMax - cur; var r := Place(InsertAll(rows, cur + 1, recs[..n1]), 1, recs[n1..]);
      (forall i :: 0 <= i < n1 ==> Holds(r, cur + 1 + i, recs[i]))
      && (forall i :: n1 <= i < |recs| ==> Holds(r, 1 + i - n1, recs[i]))
  {
    var n1 := DbOplogMax - cur;
    WrapsTailSpan(rows, cur, recs);
    InsertedHead(rows, cur, recs);
    WrapsOver(InsertAll(rows, cur + 1, recs[..n1]), cur, recs);
  }

  /** The first part of a wrapped batch, inserted after `cur`, sits at
      `cur + 1` onwards. */
  lemma InsertedHead(rows: map<int, Row>, cur: int, recs: seq<Record>)
    requires 0 <= cur < DbOplogMax && DbOplogMax - cur < |recs|
    ensures var n1 := DbOplogMax - cur; var rows1 := InsertAll(rows, cur + 1, recs[..n1]);
      forall i :: 0 <= i < n1 ==> Holds(rows1, cur + 1 + i, recs[i])
  {
    var n1 := DbOplogMax - cur;
    forall i | 0 <= i < n1
      ensures Holds(InsertAll(rows, cur + 1, recs[..n1]), cur + 1 + i, recs[i])
    {
      assert recs[..n1][i] == recs[i];
    }
  }

  /** Writing the rest of a wrapped batch from id 1 over rows that hold the
      first part after `cur`: both parts end where they belong. */
  lemma WrapsOver(rows1: map<int, Row>, cur: int, recs: seq<Record>)
    requires 0 <= cur < DbOplogMax && |recs| <= DbOplogMax && DbOplogMax - cur < |recs|
    requires forall i :: 0 <= i < DbOplogMax - cur ==> Holds(rows1, cur + 1 + i, recs[i])
    requires Present(rows1, 1, |recs| - (DbOplogMax - cur)) || Free(rows1, 1, |recs| - (DbOplogMax - cur))
    ensures var n1 := DbOplogMax - cur; var r := Place(rows1, 1, recs[n1..]);
      (forall i :: 0 <= i < n1 ==> Holds(r, cur + 1 + i, recs[i]))
      && (forall i :: n1 <= i < |recs| ==> Holds(r, 1 + i - n1, recs[i]))
  {
    var n1 := DbOplogMax - cur;
    PlaceSpan(rows1, 1, recs[n1..]);
    WrapsHead(rows1, Place(rows1, 1, recs[n1..]), cur, |recs| - n1, recs);
    WrapsTail(rows1, n1, recs);
  }

  /** Insert mode with a wrapped part inserts the first part into the free
      ids after `cur` and then writes the rest from id 1. */
  lemma InsertModeWrapsShape(rows: map<int, Row>, cur: int, cov: int, recs: seq<Record>)
    requires 0 <= cur < DbOplogMax && DbOplogMax - cur < |recs|
    requires Free(rows, cur + 1, DbOplogMax - cur)
    ensures var n1 := DbOplogMax - cur;
      InsertMode(rows, cur, cov, recs).0 == Place(InsertAll(rows, cur + 1, recs[..n1]), 1, recs[n1..])
  {
    assert Free(rows, cur + 1, |recs[..DbOplogMax - cur]|);
  }

  /** After the first part is inserted, the ids the rest goes to are still
      all present, or still all free. */
  lemma WrapsTailSpan(rows: map<int, Row>, cur: int, recs: seq<Record>)
    requires 0 <= cur < DbOplogMax && |recs| <= DbOplogMax && DbOplogMax - cur < |recs|
    requires Present(rows, 1, |recs| - (DbOplogMax - cur)) || Free(rows, 1, DbOplogMax)
    ensures var n1 := DbOplogMax - cur; var rows1 := InsertAll(rows, cur + 1, recs[..n1]);
      Present(rows1, 1, |recs| - n1) || Free(rows1, 1, |recs| - n1)
  {
    var n1 := DbOplogMax - cur;
    var rows1 := InsertAll(rows, cur + 1, recs[..n1]);
    if !Present(rows, 1, |recs| - n1) {
      forall id | id in rows1 ensures !(1 <= id < 1 + (|recs| - n1)) {
      }
    }
  }

  /** Rows after `cur` that a write of `n2 <= cur` rows from id 1 leaves
      alone keep the first part of the batch. */
  lemma WrapsHead(rows1: map<int, Row>, r: map<int, Row>, cur: int, n2: int, recs: seq<Record>)
    requires 0 <= cur < DbOplogMax && DbOplogMax - cur <= |recs| && 0 <= n2 <= cur
    requires forall i :: 0 <= i < DbOplogMax - cur ==> Holds(rows1, cur + 1 + i, recs[i])
    requires forall id :: id in rows1 && !(1 <= id < 1 + n2) ==> id in r && r[id] == rows1[id]
    ensures forall i :: 0 <= i < DbOplogMax - cur ==> Holds(r, cur + 1 + i, recs[i])
  {
    forall i | 0 <= i < DbOplogMax - cur ensures Holds(r, cur + 1 + i, recs[i]) {
      assert Holds(rows1, cur + 1 + i, recs[i]);
    }
  }

  /** The rest of a wrapped batch lands on ids 1 onwards. */
  lemma WrapsTail(rows1: map<int, Row>, n1: int, recs: seq<Record>)
    requires 0 <= n1 < |recs|
    requires var t := recs[n1..]; var r := Place(rows1, 1, t);
      forall i :: 0 <= i < |t| ==> Holds(r, 1 + i, t[i])
    ensures var r := Place(rows1, 1, recs[n1..]);
      forall i :: n1 <= i < |recs| ==> Holds(r, 1 + i - n1, recs[i])
  {
    var t := recs[n1..];
    forall i | n1 <= i < |recs| ensures Holds(Place(rows1, 1, t), 1 + i - n1, recs[i]) {
      assert t[i - n1] == recs[i];
    }
  }

  /** On a full ring in coverage mode every record of a batch overwrites
      the next ring position after the coverage index, wrapping from
      DbOplogMax to 1; nothing else changes, and the coverage index ends on
      the last position written. */
  lemma CoverageWritesRing(s: Store, recs: seq<Record>)
    requires 0 < |recs| <= DbOplogMax && s.index.Some? && ValidIndex(s.index.value)
    requires s.index.value.cur >= DbOplogMax && OplogInfo <= recs[0].typ <= OplogError
    requires Full(s.rows)
    ensures var cov := s.index.value.cov;
            var r := BatchAdd(s, recs, true).0;
            r.rows.Keys == s.rows.Keys && r.index.value.cur == s.index.value.cur
            && r.index.value.cov == Slot(cov, |recs| - 1)
            && (forall i :: 0 <= i < |recs| ==> r.rows[Slot(cov, i)] == RowOf(recs[i]))
  {
    CoverageModeRing(s.rows, s.index.value.cov, recs);
  }

  lemma CoverageModeRing(rows: map<int, Row>, cov: int, recs: seq<Record>)
    requires 0 < |recs| <= DbOplogMax && 0 <= cov <= DbOplogMax && Full(rows)
    ensures CoverageMode(rows, cov, recs).0.Keys == rows.Keys
    ensures CoverageMode(rows, cov, recs).1 == Slot(cov, |recs| - 1)
    ensures forall i :: 0 <= i < |recs| ==> CoverageMode(rows, cov, recs).0[Slot(cov, i)] == RowOf(recs[i])
  {
    var num := |recs|;
    var n1 := if DbOplogMax - cov >= num then num else DbOplogMax - cov;
    WriteTwoFull(rows, cov + 1, n1, recs);
    var r := WriteTwo(rows, cov + 1, n1, recs);
    assert CoverageMode(rows, cov, recs).0 == r;
    forall i | 0 <= i < n1
      ensures r[Slot(cov, i)] == RowOf(recs[i])
    {
      SlotNoWrap(cov, i);
      var id := cov + 1 + i;
      assert r[id] == RowOf(recs[i]);
    }
    forall i | n1 <= i < num
      ensures r[Slot(cov, i)] == RowOf(recs[i])
    {
      SlotWrap(cov, i);
      var id := 1 + i - n1;
      assert r[id] == RowOf(recs[i]);
    }
    if n1 < num {
      SlotWrap(cov, num - 1);
    } else {
      SlotNoWrap(cov, num - 1);
    }
  }

  /** On a full ring the two writes put record `i` at `start + i` before
      the wrap and at `1 + i - n1` after it. */
  lemma WriteTwoFull(rows: map<int, Row>, start: int, n1: int, recs: seq<Record>)
    requires Full(rows) && 0 <= n1 <= |recs| && 1 <= start && start + n1 <= DbOplogMax + 1
    requires |recs| - n1 < start && |recs| <= DbOplogMax
    ensures var r := WriteTwo(rows, start, n1, recs);
            r.Keys == rows.Keys
            && (forall i :: 0 <= i < n1 ==> r[start + i] == RowOf(recs[i]))
            && (forall i :: n1 <= i < |recs| ==> r[1 + i - n1] == RowOf(recs[i]))
  {
    var rows1 := if n1 > 0 then Place(rows, start, recs[..n1]) else rows;
    if n1 > 0 {
      PlaceFull(rows, start, recs[..n1]);
    }
    if n1 < |recs| {
      var tail := recs[n1..];
      PlaceFull(rows1, 1, tail);
      var rows2 := Place(rows1, 1, tail);
      forall i | 0 <= i < n1
        ensures rows2[start + i] == RowOf(recs[i])
      {
        assert rows1[start + i] == RowOf(recs[..n1][i]);
      }
      forall i | n1 <= i < |recs|
        ensures rows2[1 + i - n1] == RowOf(recs[i])
      {
        assert tail[i - n1] == recs[i];
      }
    } else {
      forall i | 0 <= i < n1
        ensures rows1[start + i] == RowOf(recs[i])
      {
        assert recs[..n1][i] == recs[i];
      }
    }
  }

  /** Positions before the end of the ring follow the base directly. */
  lemma SlotNoWrap(base: int, i: int)
    requires 0 <= base && 0 <= i && base + i < DbOplogMax
    ensures Slot(base, i) == base + 1 + i
  {
  }

  /** Positions past the end of the ring start again at 1. */
  lemma SlotWrap(base: int, i: int)
    requires base + i >= DbOplogMax && base + i < 2 * DbOplogMax
    ensures Slot(base, i) == base + i - DbOplogMax + 1
  {
  }

  /** On a full ring a write within the ring overwrites exactly its span. */
  lemma PlaceFull(rows: map<int, Row>, start: int, recs: seq<Record>)
    requires Full(rows) && 1 <= start && start + |recs| <= DbOplogMax + 1
    ensures var r := Place(rows, start, recs);
            r.Keys == rows.Keys && Full(r)
            && (forall i :: 0 <= i < |recs| ==> r[start + i] == RowOf(recs[i]))
            && (forall id :: id in r && !(start <= id < start + |recs|) ==> r[id] == rows[id])
  {
  }

  /** After the ring rows are deleted the header still points into the
      ring, so a coverage-mode batch finds its first row missing and
      inserts through the fallback at the same ring positions. */
  lemma DelAllThenCoverage(s: Store, recs: seq<Record>)
    requires 0 < |recs| && s.index.Some? && ValidIndex(s.index.value)
    requires s.index.value.cur >= DbOplogMax && s.index.value.cov + |recs| <= DbOplogMax
    requires OplogInfo <= recs[0].typ <= OplogError
    ensures var cov := s.index.value.cov;
            var r := BatchAdd(DelAll(s), recs, true).0;
            r.rows.Keys == Span(cov + 1, |recs|) && r.index.value.cov == cov + |recs|
            && forall i :: 0 <= i < |recs| ==> r.rows[cov + 1 + i] == RowOf(recs[i])
  {
    assert recs[..|recs|] == recs;
  }
}

=== FILE: ordered.dfy ===
/** The iteration order of a `std::map<std::string, _>`: its keys, each
    once, in increasing lexicographic order. */
module OrderedKeys {
  import opened Text

  predicate Increasing(s: seq<string>) {
    forall i, j :: 0 <= i < j < |s| ==> Less(s[i], s[j])
  }

  /** `m` is the least element of `s`. */
  predicate IsLeast(m: string, s: set<string>) {
    m in s && forall o :: o in s && o != m ==> Less(m, o)
  }

  /** Every non-empty finite set of strings has a least element. */
  lemma {:induction false} LeastExists(s: set<string>)
    requires s != {}
    ensures exists m :: IsLeast(m, s)
    decreases |s|
  {
    var x :| x in s;
    if s - {x} == {} {
      assert s == {x};
      assert IsLeast(x, s);
    } else {
      LeastExists(s - {x});
      var y :| IsLeast(y, s - {x});
      LessTotal(x, y);
      if Less(x, y) {
        forall o | o in s && o != x ensures Less(x, o) {
          if o != y {
            assert o in s - {x};
            LessTransitive(x, y, o);
          }
        }
        assert IsLeast(x, s);
      } else {
        assert IsLeast(y, s);
      }
    }
  }

  /** A set has at most one least element. */
  lemma LeastUnique(s: set<string>, a: string, b: string)
    requires IsLeast(a, s) && IsLeast(b, s)
    ensures a == b
  {
    if a != b {
      LessAsymmetric(a, b);
    }
  }

  /** The least key of a non-empty set. */
  function Least(s: set<string>): (m: string)
    requires s != {}
    ensures IsLeast(m, s)
  {
    LeastExists(s);
    assert forall a, b :: IsLeast(a, s) && IsLeast(b, s) ==> a == b by {
      forall a, b | IsLeast(a, s) && IsLeast(b, s) ensures a == b {
        LeastUnique(s, a, b);
      }
    }
    var m :| m in s && IsLeast(m, s); m
  }

  /** The keys of a map in the order the map visits them. */
  function Ordered(s: set<string>): (r: seq<string>)
    ensures |r| == |s|
    ensures forall k :: k in s <==> k in r
    ensures Increasing(r)
    decreases |s|
  {
    if s == {} then []
    else
      var m := Least(s);
      var rest := Ordered(s - {m});
      assert forall j :: 0 <= j < |rest| ==> rest[j] in s - {m};
      [m] + rest
  }

  /** An increasing sequence is determined by its elements: the map's order
      is the only order with each key once and keys increasing. */
  lemma {:induction false} IncreasingUnique(a: seq<string>, b: seq<string>)
    requires Increasing(a) && Increasing(b)
    requires forall k :: k in a <==> k in b
    ensures a == b
    decreases |a|
  {
    if a != [] {
      assert a[0] in b;
    }
    if b != [] {
      assert b[0] in a;
    }
    if a != [] {
      if a[0] != b[0] {
        assert a[0] in b;
        assert b[0] in a;
        var i :| 0 <= i < |b| && b[i] == a[0];
        var j :| 0 <= j < |a| && a[j] == b[0];
        assert Less(b[0], a[0]) && Less(a[0], b[0]);
        LessAsymmetric(a[0], b[0]);
        assert false;
      }
      forall k ensures k in a[1..] <==> k in b[1..] {
        if k in a[1..] {
          var i :| 1 <= i < |a| && a[i] == k;
          LessIrreflexive(a[0]);
          assert k in b;
          var j :| 0 <= j < |b| && b[j] == k;
          if j == 0 {
            assert Less(a[0], a[i]);
            LessIrreflexive(k);
          }
        }
        if k in b[1..] {
          var j :| 1 <= j < |b| && b[j] == k;
          assert k in a;
          var i :| 0 <= i < |a| && a[i] == k;
          if i == 0 {
            assert Less(b[0], b[j]);
            LessIrreflexive(k);
          }
        }
      }
      IncreasingUnique(a[1..], b[1..]);
      assert a == [a[0]] + a[1..] && b == [b[0]] + b[1..];
    }
  }
}

=== FILE: output_mode.dfy ===
/** The output-mode engine of `communication/output_mode.cpp`: a bounded
    drop-oldest queue of scheduled payloads and one `tick` per poll that
    sends in immediate, timed or encoder mode. The trigger source, the clock
    and the encoder are observations handed to each tick; what is sent is
    returned instead of being passed to a callback. */
module OutputMode {
  import opened Wrappers
  import opened Fixed

  /** SCHEDULED_SEND_QUEUE_LEN */
  const QueueLen: nat := 8
  /** MAX_SCHEDULED_PAYLOAD_LEN, the size of a payload buffer */
  const PayloadCap: nat := 1280
  /** SCHEDULED_TRANS_NG_STRING */
  const DefaultNg: seq<Byte> := [78, 71]

  /** `scheduled_fifo_param`: the payload bytes; `len` is their count. */
  datatype Param = Param(buf: seq<Byte>)

  datatype Mode = Immediate | Timed | Encoder

  // ---------------------------------------------------------------------
  // DequeAdapter

  /** `push_drop_old`: a full queue loses its front before the new payload
      goes to the back. */
  function PushDropOld(q: seq<Param>, x: Param): (r: seq<Param>)
    ensures |q| < QueueLen ==> r == q + [x]
    ensures |q| >= QueueLen ==> r == q[1..] + [x]
    ensures |q| <= QueueLen ==> |r| <= QueueLen
  {
    if |q| >= QueueLen then q[1..] + [x] else q + [x]
  }

  /** `pop_one`: the front payload and the rest, None on an empty queue. */
  function PopOne(q: seq<Param>): (r: Option<(Param, seq<Param>)>)
    ensures r.None? <==> q == []
    ensures r.Some? ==> [r.value.0] + r.value.1 == q
  {
    if q == [] then None else Some((q[0], q[1..]))
  }

  /** Pushes in order, starting from `q`. */
  function PushAll(q: seq<Param>, xs: seq<Param>): seq<Param>
    decreases |xs|
  {
    if xs == [] then q else PushAll(PushDropOld(q, xs[0]), xs[1..])
  }

  /** The queue keeps the newest `QueueLen` payloads in arrival order. */
  lemma {:induction false} PushAllKeepsNewest(q: seq<Param>, xs: seq<Param>)
    requires |q| <= QueueLen
    ensures PushAll(q, xs) == Newest(q + xs)
    decreases |xs|
  {
    if xs != [] {
      var q1 := PushDropOld(q, xs[0]);
      PushAllKeepsNewest(q1, xs[1..]);
      PushStepNewest(q, xs);
    } else {
      assert q + xs == q;
    }
  }

  /** One push does not change the newest part of everything pushed. */
  lemma PushStepNewest(q: seq<Param>, xs: seq<Param>)
    requires |q| <= QueueLen && xs != []
    ensures Newest(PushDropOld(q, xs[0]) + xs[1..]) == Newest(q + xs)
  {
    if |q| >= QueueLen {
      assert q[1..] + [xs[0]] + xs[1..] == (q + xs)[1..];
      NewestDropsFront(q + xs);
    } else {
      assert q + [xs[0]] + xs[1..] == q + xs;
    }
  }

  /** Dropping the front of a sequence longer than the queue does not
      change its newest part. */
  lemma NewestDropsFront(all: seq<Param>)
    requires |all| > QueueLen
    ensures Newest(all[1..]) == Newest(all)
  {
  }

  // ---------------------------------------------------------------------
  // The engine

  /** What the engine remembers between ticks, with its configuration.
      `lastTrig` is -1 before the first trigger count is seen. */
  datatype Engine = Engine(mode: Mode, intervalMs: U32, ngText: Option<seq<Byte>>,
                           inTriggerMode: bool, lastTrig: int, lastImgMs: U64)

  /** What the outside world shows during one tick. A None stands for a
      missing provider or a failed `GetParam`; `imgTime` is Some(None) when
      the image time text does not parse. */
  datatype Observation = Observation(hasQueue: bool, trigMode: Option<int>, trigCount: Option<int>,
                                     imgTime: Option<Option<U64>>, now: Option<U64>, encoder: Option<int>)

  /** The outcome of a tick: the new engine and queue, the payloads taken
      from the queue and everything sent, in order. */
  datatype TickResult = TickResult(engine: Engine, queue: seq<Param>, taken: seq<Param>, sent: seq<Param>)

  function Initial(mode: Mode, intervalMs: U32): Engine {
    Engine(mode, intervalMs, Some(DefaultNg), false, -1, 0)
  }

  /** `setConfig`: mode and interval change, the trigger bookkeeping stays. */
  function SetConfig(e: Engine, mode: Mode, intervalMs: U32): (r: Engine)
    ensures r.mode == mode && r.intervalMs == intervalMs
    ensures r.(mode := e.mode, intervalMs := e.intervalMs) == e
  {
    e.(mode := mode, intervalMs := intervalMs)
  }

  /** `sendNG_`: the NG text, "NG" when none is set, cut to the buffer. */
  function NgParam(ngText: Option<seq<Byte>>): (r: Param)
    ensures |r.buf| <= PayloadCap
    ensures ngText.None? ==> r.buf == DefaultNg
    ensures ngText.Some? && |ngText.value| <= PayloadCap ==> r.buf == ngText.value
    ensures ngText.Some? ==> r.buf == ngText.value[..|r.buf|]
  {
    var txt := ngText.GetOr(DefaultNg);
    if |txt| <= PayloadCap then Param(txt) else Param(txt[..PayloadCap])
  }

  /** `fetchTrigImgTimeMs_`: an unparsable time keeps the old value. */
  function ImgTime(obs: Observation, prev: U64): (r: U64)
    ensures obs.imgTime.Some? && obs.imgTime.value.Some? ==> r == obs.imgTime.value.value
    ensures obs.imgTime.None? || obs.imgTime.value.None? ==> r == prev
  {
    match obs.imgTime
    case None => prev
    case Some(None) => prev
    case Some(Some(v)) => v
  }

  /** `fetchTriggerMode_`: trigger mode is on only when the parameter was
      read and is non-zero. */
  function TriggerMode(obs: Observation): (r: bool)
    ensures r <==> obs.trigMode.Some? && obs.trigMode.value != 0
  {
    match obs.trigMode
    case None => false
    case Some(m) => m != 0
  }

  function Idle(e: Engine, q: seq<Param>): TickResult {
    TickResult(e, q, [], [])
  }

  /** `stepImmediate_`: the whole queue is sent and emptied, whatever the
      trigger mode. */
  function StepImmediate(e: Engine, q: seq<Param>, obs: Observation): (r: TickResult)
    ensures obs.hasQueue ==> r == TickResult(e, [], q, q)
    ensures !obs.hasQueue ==> r == Idle(e, q)
  {
    if !obs.hasQueue then Idle(e, q) else TickResult(e, [], q, q)
  }

  /** `stepTimed_`. */
  function StepTimed(e: Engine, q: seq<Param>, obs: Observation): (r: TickResult)
    ensures r.taken + r.queue == q
  {
    if !obs.hasQueue || obs.now.None? then Idle(e, q)
    else
      var e1 := e.(inTriggerMode := TriggerMode(obs));
      if !e1.inTriggerMode || obs.trigCount.None? then Idle(e1, q)
      else
        var trig := obs.trigCount.value;
        if e1.lastTrig == -1 then Idle(e1.(lastTrig := trig, lastImgMs := ImgTime(obs, e1.lastImgMs)), q)
        else if trig == e1.lastTrig then Idle(e1, q)
        else
          var e2 := e1.(lastImgMs := ImgTime(obs, e1.lastImgMs));
          if Sub64(obs.now.value, e2.lastImgMs) < e2.intervalMs then Idle(e2, q)
          else match PopOne(q)
            case Some((one, rest)) => TickResult(e2.(lastTrig := trig), rest, [one], [one])
            case None => TickResult(e2.(lastTrig := trig), q, [], [NgParam(e2.ngText)])
  }

  /** `stepEncoder_`. */
  function StepEncoder(e: Engine, q: seq<Param>, obs: Observation): (r: TickResult)
    ensures r.taken + r.queue == q
    ensures r.sent == r.taken
  {
    if !obs.hasQueue then Idle(e, q)
    else
      var e1 := e.(inTriggerMode := TriggerMode(obs));
      if !e1.inTriggerMode || obs.trigCount.None? then Idle(e1, q)
      else
        var trig := obs.trigCount.value;
        if e1.lastTrig == -1 then Idle(e1.(lastTrig := trig), q)
        else if trig == e1.lastTrig then Idle(e1, q)
        else if obs.encoder.None? || obs.encoder.value != 1 then Idle(e1, q)
        else match PopOne(q)
          case Some((one, rest)) => TickResult(e1.(lastTrig := trig), rest, [one], [one])
          case None => TickResult(e1.(lastTrig := trig), q, [], [])
  }

  /** `tick`: one step of the configured mode. */
  function Tick(e: Engine, q: seq<Param>, obs: Observation): (r: TickResult)
    ensures r.taken + r.queue == q
    ensures r.engine.mode == e.mode && r.engine.intervalMs == e.intervalMs && r.engine.ngText == e.ngText
  {
    match e.mode
    case Immediate => StepImmediate(e, q, obs)
    case Timed => StepTimed(e, q, obs)
    case Encoder => StepEncoder(e, q, obs)
  }

  /** Ticks in order, collecting what was taken and sent. */
  function Run(e: Engine, q: seq<Param>, obss: seq<Observation>): TickResult
    decreases |obss|
  {
    if obss == [] then Idle(e, q)
    else
      var t := Tick(e, q, obss[0]);
      var rest := Run(t.engine, t.queue, obss[1..]);
      TickResult(rest.engine, rest.queue, t.taken + rest.taken, t.sent + rest.sent)
  }

  // ---------------------------------------------------------------------
  // Properties

  /** A new, unhandled trigger count is visible: the gate shared by timed
      and encoder mode. */
  predicate FreshFrame(e: Engine, obs: Observation) {
    obs.hasQueue && TriggerMode(obs) && obs.trigCount.Some?
    && e.lastTrig != -1 && obs.trigCount.value != e.lastTrig
  }

  /** The interval since the image time has elapsed, measured with
      unsigned 64-bit wrap-around. */
  predicate Due(e: Engine, obs: Observation) {
    obs.now.Some? && Sub64(obs.now.value, ImgTime(obs, e.lastImgMs)) >= e.intervalMs
  }

  /** Every payload leaves the queue at most once and in queue order. */
  lemma {:induction false} RunConserves(e: Engine, q: seq<Param>, obss: seq<Observation>)
    ensures Run(e, q, obss).taken + Run(e, q, obss).queue == q
    decreases |obss|
  {
    if obss != [] {
      var t := Tick(e, q, obss[0]);
      var rest := Run(t.engine, t.queue, obss[1..]);
      RunConserves(t.engine, t.queue, obss[1..]);
      assert Run(e, q, obss).taken == t.taken + rest.taken && Run(e, q, obss).queue == rest.queue;
      Concat3(t.taken, rest.taken, rest.queue);
    }
  }

  lemma Concat3<T>(a: seq<T>, b: seq<T>, c: seq<T>)
    ensures (a + b) + c == a + (b + c)
  {
  }

  /** The newest `QueueLen` payloads of `xs`, oldest first. */
  function Newest(xs: seq<Param>): (r: seq<Param>)
    ensures |r| == if |xs| > QueueLen then QueueLen else |xs|
  {
    if |xs| > QueueLen then xs[|xs| - QueueLen..] else xs
  }

  /** Immediate mode sends the newest `QueueLen` pushed payloads in the
      order they were pushed. */
  lemma ImmediateSendsNewest(e: Engine, xs: seq<Param>, obs: Observation)
    requires e.mode == Immediate && obs.hasQueue
    ensures Tick(e, PushAll([], xs), obs).queue == []
    ensures Tick(e, PushAll([], xs), obs).sent == Newest(xs)
  {
    PushAllKeepsNewest([], xs);
    assert [] + xs == xs;
    var q := Newest(xs);
    assert Tick(e, q, obs) == StepImmediate(e, q, obs);
  }

  /** Outside trigger mode, timed and encoder mode send nothing and leave
      the queue and the frame bookkeeping alone. */
  lemma NoTriggerModeNoSend(e: Engine, q: seq<Param>, obs: Observation)
    requires e.mode != Immediate && !TriggerMode(obs)
    ensures var r := Tick(e, q, obs);
            r.sent == [] && r.queue == q && r.engine.lastTrig == e.lastTrig
            && r.engine.lastImgMs == e.lastImgMs
  {
  }

  /** The first trigger count seen only initialises the bookkeeping. */
  lemma FirstTriggerOnlyInitialises(e: Engine, q: seq<Param>, obs: Observation)
    requires e.mode != Immediate && e.lastTrig == -1
    ensures var r := Tick(e, q, obs);
            r.sent == [] && r.queue == q
            && (r.engine.lastTrig != -1 ==> r.engine.lastTrig == obs.trigCount.value)
  {
  }

  /** Timed mode sends exactly when a fresh frame is due, then exactly one
      payload: the front of the queue, or the NG text when it is empty. */
  lemma TimedSendsIff(e: Engine, q: seq<Param>, obs: Observation)
    requires e.mode == Timed
    ensures var r := Tick(e, q, obs);
            r.sent != [] <==> FreshFrame(e, obs) && Due(e, obs)
    ensures var r := Tick(e, q, obs);
            r.sent != [] ==> r.engine.lastTrig == obs.trigCount.value
                             && (q != [] ==> r.sent == [q[0]] && r.queue == q[1..])
                             && (q == [] ==> r.sent == [NgParam(e.ngText)])
    ensures var r := Tick(e, q, obs);
            r.sent == [] ==> r.queue == q && (r.engine.lastTrig != e.lastTrig ==> e.lastTrig == -1)
  {
  }

  /** Encoder mode consumes a fresh frame exactly when the encoder reports
      1, sends the front of the queue only if there is one, and never
      sends the NG text. */
  lemma EncoderSendsIff(e: Engine, q: seq<Param>, obs: Observation)
    requires e.mode == Encoder && e.lastTrig != -1
    ensures var r := Tick(e, q, obs);
            r.engine.lastTrig != e.lastTrig <==> FreshFrame(e, obs) && obs.encoder == Some(1)
    ensures var r := Tick(e, q, obs);
            r.sent != [] <==> FreshFrame(e, obs) && obs.encoder == Some(1) && q != []
    ensures var r := Tick(e, q, obs);
            r.sent != [] ==> r.sent == [q[0]] && r.queue == q[1..]
  {
  }

  /** A frame is answered at most once: after a send in timed or encoder
      mode, a tick that sees the same trigger count sends nothing. */
  lemma OncePerFrame(e: Engine, q: seq<Param>, obs: Observation, next: Observation)
    requires e.mode != Immediate
    requires Tick(e, q, obs).sent != [] && next.trigCount == obs.trigCount
    ensures var r := Tick(e, q, obs);
            Tick(r.engine, r.queue, next).sent == []
  {
  }
}

=== FILE: plugin.dfy ===
/** The plugin registry: ordered callback lists that keep duplicates, their
    registration and first-match unregistration, write, flush and the other
    dispatchers, the data-set table, the severity parsers, notification
    metadata lists and the interval lookup. */
module Plugins {
  import opened Wrappers
  import opened Text

  /** A callback, as an opaque handle. */
  type Handle = nat

  /** What each callback returns when called; a parameter of the model. */
  type Status = Handle -> int

  /** One registration: a name and its callback. */
  datatype Entry = Entry(name: string, cb: Handle)

  /** `register_*`: the entry goes to the end, even when the name is
      already registered. */
  function Register(l: seq<Entry>, name: string, cb: Handle): (r: (int, seq<Entry>))
    ensures r.0 == 0 && |r.1| == |l| + 1
    ensures r.1[..|l|] == l && r.1[|l|] == Entry(name, cb)
  {
    (0, l + [Entry(name, cb)])
  }

  /** The first entry whose name equals `name` ignoring case. */
  function FirstMatch(l: seq<Entry>, name: string): (r: Option<nat>)
    ensures r.None? ==> forall i :: 0 <= i < |l| ==> !EqualsIgnoreCase(l[i].name, name)
    ensures r.Some? ==> (
      r.value < |l| && EqualsIgnoreCase(l[r.value].name, name)
      && forall i :: 0 <= i < r.value ==> !EqualsIgnoreCase(l[i].name, name))
  {
    if l == [] then None
    else if EqualsIgnoreCase(l[0].name, name) then Some(0)
    else match FirstMatch(l[1..], name)
      case None => None
      case Some(i) => Some(i + 1)
  }

  /** `unregister_callback`: -1 and no change when no name matches (ignoring
      case); otherwise 0 and only the first match removed, the order of the
      rest kept. */
  function Unregister(l: seq<Entry>, name: string): (r: (int, seq<Entry>))
    ensures r.0 == -1 <==> forall i :: 0 <= i < |l| ==> !EqualsIgnoreCase(l[i].name, name)
    ensures r.0 == -1 ==> r.1 == l
    ensures r.0 == 0 ==> exists i :: (
      0 <= i < |l| && EqualsIgnoreCase(l[i].name, name)
      && (forall j :: 0 <= j < i ==> !EqualsIgnoreCase(l[j].name, name))
      && r.1 == l[..i] + l[i + 1..])
  {
    match FirstMatch(l, name)
    case None => (-1, l)
    case Some(i) =>
      var r := l[..i] + l[i + 1..];
      assert 0 <= i < |l| && EqualsIgnoreCase(l[i].name, name)
        && (forall j :: 0 <= j < i ==> !EqualsIgnoreCase(l[j].name, name))
        && r == l[..i] + l[i + 1..];
      (0, r)
  }

  /** Registering and then unregistering a name that was not registered
      gives back the list as it was. */
  lemma RegisterThenUnregister(l: seq<Entry>, name: string, cb: Handle)
    requires forall i :: 0 <= i < |l| ==> !EqualsIgnoreCase(l[i].name, name)
    ensures Unregister(Register(l, name, cb).1, name) == (0, l)
  {
    var l2 := Register(l, name, cb).1;
    EqualsIgnoreCaseReflexive(name);
    assert FirstMatch([Entry(name, cb)], name) == Some(0);
    FirstMatchSkip(l, [Entry(name, cb)], name);
    assert l2[..|l|] + l2[|l| + 1..] == l;
  }

  /** Past a prefix with no match, the first match is the suffix's, shifted. */
  lemma {:induction false} FirstMatchSkip(l: seq<Entry>, t: seq<Entry>, name: string)
    requires forall i :: 0 <= i < |l| ==> !EqualsIgnoreCase(l[i].name, name)
    ensures FirstMatch(t, name).Some? ==> FirstMatch(l + t, name) == Some(|l| + FirstMatch(t, name).value)
    ensures FirstMatch(t, name).None? ==> FirstMatch(l + t, name).None?
  {
    if l != [] {
      assert (l + t)[0] == l[0];
      assert (l + t)[1..] == l[1..] + t;
      FirstMatchSkip(l[1..], t, name);
    } else {
      assert l + t == t;
    }
  }

  lemma EqualsIgnoreCaseReflexive(s: string)
    ensures EqualsIgnoreCase(s, s)
  {
  }

  /** With a name registered twice, unregistering removes the older entry
      and keeps the newer one. */
  lemma UnregisterRemovesOldest(l: seq<Entry>, name: string, cb: Handle)
    requires exists i :: 0 <= i < |l| && EqualsIgnoreCase(l[i].name, name)
    ensures Unregister(Register(l, name, cb).1, name) == (0, Unregister(l, name).1 + [Entry(name, cb)])
  {
    var l2 := Register(l, name, cb).1;
    var i := FirstMatch(l, name).value;
    assert FirstMatch(l2, name) == Some(i) by {
      FirstMatchPrefix(l, [Entry(name, cb)], name);
    }
    assert l2[..i] == l[..i];
    assert l2[i + 1..] == l[i + 1..] + [Entry(name, cb)];
    assert l2[..i] + l2[i + 1..] == (l[..i] + l[i + 1..]) + [Entry(name, cb)];
  }

  /** A match in a prefix is found in the longer list at the same place. */
  lemma {:induction false} FirstMatchPrefix(l: seq<Entry>, t: seq<Entry>, name: string)
    requires FirstMatch(l, name).Some?
    ensures FirstMatch(l + t, name) == FirstMatch(l, name)
  {
    if !EqualsIgnoreCase(l[0].name, name) {
      assert (l + t)[1..] == l[1..] + t;
      FirstMatchPrefix(l[1..], t, name);
    }
  }

  /** `unregister_read`: the name is unregistered from both the simple and
      the complex read lists; 0 when either had it. */
  function UnregisterRead(simple: seq<Entry>, complex: seq<Entry>, name: string): (r: (int, seq<Entry>, seq<Entry>))
    ensures r.1 == Unregister(simple, name).1 && r.2 == Unregister(complex, name).1
    ensures r.0 == 0 <==> (
      (exists i :: 0 <= i < |simple| && EqualsIgnoreCase(simple[i].name, name))
      || (exists i :: 0 <= i < |complex| && EqualsIgnoreCase(complex[i].name, name)))
    ensures r.0 == 0 || r.0 == -1
  {
    var (r1, s) := Unregister(simple, name);
    var (r2, c) := Unregister(complex, name);
    (if r1 == 0 || r2 == 0 then 0 else -1, s, c)
  }

  /** The status of a run over callbacks that keeps the last non-zero
      status: 0 when every callback returned 0, otherwise the status of the
      last one that did not. */
  function LastFailure(l: seq<Entry>, status: Status, acc: int): (r: int)
    ensures (forall i :: 0 <= i < |l| ==> status(l[i].cb) == 0) ==> r == acc
    ensures (exists i :: 0 <= i < |l| && status(l[i].cb) != 0) ==>
      exists i :: (0 <= i < |l| && r == status(l[i].cb) != 0
                   && forall j :: i < j < |l| ==> status(l[j].cb) == 0)
    decreases |l|
  {
    if l == [] then acc
    else
      var s := status(l[0].cb);
      var r := LastFailure(l[1..], status, if s != 0 then s else acc);
      assert forall j :: 1 <= j < |l| ==> l[j] == l[1..][j - 1];
      r
  }

  function Handles(l: seq<Entry>): (r: seq<Handle>)
    ensures |r| == |l| && forall i :: 0 <= i < |l| ==> r[i] == l[i].cb
  {
    seq(|l|, i requires 0 <= i < |l| => l[i].cb)
  }

  /** `write`: with no plugin name every writer is called in order and the
      last non-zero status is returned; with a name only the first writer
      whose name matches ignoring case is called, and -1 returned when none
      does. Returns the status and the callbacks called. */
  function Write(ws: seq<Entry>, name: string, status: Status): (r: (int, seq<Handle>))
    ensures name == [] ==> r == (LastFailure(ws, status, 0), Handles(ws))
    ensures name != [] && (forall i :: 0 <= i < |ws| ==> !EqualsIgnoreCase(ws[i].name, name)) ==> r == (-1, [])
    ensures name != [] && FirstMatch(ws, name).Some? ==>
      r == (status(ws[FirstMatch(ws, name).value].cb), [ws[FirstMatch(ws, name).value].cb])
  {
    if name == [] then (LastFailure(ws, status, 0), Handles(ws))
    else match FirstMatch(ws, name)
      case None => (-1, [])
      case Some(i) => (status(ws[i].cb), [ws[i].cb])
  }

  /** A broadcast write succeeds exactly when every writer does. */
  lemma WriteAllSucceedsIff(ws: seq<Entry>, status: Status)
    ensures Write(ws, [], status).0 == 0 <==> forall i :: 0 <= i < |ws| ==> status(ws[i].cb) == 0
  {
  }

  /** Whether a flush callback is called: every one for an empty name, else
      the ones named exactly (case matters here). */
  predicate FlushSelects(e: Entry, name: string) {
    name == [] || e.name == name
  }

  /** The entries a flush selects, in registration order. */
  function Selected(fs: seq<Entry>, name: string): (r: seq<Entry>)
    ensures |r| <= |fs|
    ensures forall e :: e in r <==> e in fs && FlushSelects(e, name)
    ensures name == [] ==> r == fs
    decreases |fs|
  {
    if fs == [] then []
    else (if FlushSelects(fs[0], name) then [fs[0]] else []) + Selected(fs[1..], name)
  }

  /** Selection distributes over concatenation: the selected entries of
      `a + b` are those of `a` followed by those of `b`. */
  lemma {:induction false} SelectedAppend(a: seq<Entry>, b: seq<Entry>, name: string)
    ensures Selected(a + b, name) == Selected(a, name) + Selected(b, name)
    decreases |a|
  {
    if a == [] {
      assert a + b == b;
    } else {
      assert (a + b)[1..] == a[1..] + b;
      SelectedAppend(a[1..], b, name);
    }
  }

  /** One entry is kept exactly when the flush selects it; with
      `SelectedAppend` this pins the selection down to an order-preserving
      filter. */
  lemma SelectedSingle(e: Entry, name: string)
    ensures Selected([e], name) == (if FlushSelects(e, name) then [e] else [])
  {
    assert [e][1..] == [];
  }

  /** `flush`: the selected callbacks are called once each in registration
      order, and the status of the last one called is returned (the
      starting `acc`, 0 in the plugin, when none is called), so a later
      success hides an earlier failure. */
  function Flush(fs: seq<Entry>, name: string, status: Status, acc: int): (r: (int, seq<Handle>))
    ensures r.1 == Handles(Selected(fs, name))
    ensures var sel := Selected(fs, name);
      r.0 == (if sel == [] then acc else status(sel[|sel| - 1].cb))
    decreases |fs|
  {
    if fs == [] then (acc, [])
    else
      var sel := FlushSelects(fs[0], name);
      var rest := Flush(fs[1..], name, status, if sel then status(fs[0].cb) else acc);
      var head := if sel then [fs[0]] else [];
      FlushStep(fs, name, status, acc, rest.0, rest.1);
      (rest.0, Handles(head) + rest.1)
  }

  /** One step of the flush loop: what the rest of the list calls and
      returns, put after the first entry's call, is what the whole list
      calls and returns. */
  lemma FlushStep(fs: seq<Entry>, name: string, status: Status, acc: int, a: int, h: seq<Handle>)
    requires fs != []
    requires var t := Selected(fs[1..], name);
      h == Handles(t)
      && a == (if t == [] then (if FlushSelects(fs[0], name) then status(fs[0].cb) else acc)
               else status(t[|t| - 1].cb))
    ensures var head := if FlushSelects(fs[0], name) then [fs[0]] else [];
      var sel := Selected(fs, name);
      Handles(head) + h == Handles(sel) && a == (if sel == [] then acc else status(sel[|sel| - 1].cb))
  {
    var head := if FlushSelects(fs[0], name) then [fs[0]] else [];
    var t := Selected(fs[1..], name);
    assert Selected(fs, name) == head + t;
    HandlesAppend(head, t);
  }

  lemma HandlesAppend(a: seq<Entry>, b: seq<Entry>)
    ensures Handles(a + b) == Handles(a) + Handles(b)
  {
  }

  /** A failing flush followed by a succeeding one reports success. */
  lemma FlushHidesEarlierFailure()
    ensures Flush([Entry("a", 1), Entry("b", 2)], [], h => if h == 1 then -1 else 0, 0).0 == 0
  {
    var fs := [Entry("a", 1), Entry("b", 2)];
    assert fs[1..] == [Entry("b", 2)];
  }

  /** `init_all`, `shutdown_all` and `read_all_once`: -1 when any callback
      returns non-zero, 0 otherwise. */
  function AnyFailed(l: seq<Entry>, status: Status): (r: int)
    ensures r == 0 <==> forall i :: 0 <= i < |l| ==> status(l[i].cb) == 0
    ensures r == 0 || r == -1
    decreases |l|
  {
    if l == [] then 0
    else
      var rest := AnyFailed(l[1..], status);
      assert forall j :: 1 <= j < |l| ==> l[j] == l[1..][j - 1];
      if status(l[0].cb) != 0 then -1 else rest
  }

  /** `read_all_once`: the simple readers, then the complex ones. */
  function ReadAllOnce(simple: seq<Entry>, complex: seq<Entry>, status: Status): (r: (int, seq<Handle>))
    ensures r.1 == Handles(simple) + Handles(complex)
    ensures r.0 == 0 <==> forall h :: h in r.1 ==> status(h) == 0
  {
    var r := if AnyFailed(simple, status) != 0 || AnyFailed(complex, status) != 0 then -1 else 0;
    (r, Handles(simple) + Handles(complex))
  }

  /** `dispatch_values`: -1 for a missing value list, otherwise a broadcast
      write. */
  function DispatchValues(ws: seq<Entry>, hasValues: bool, status: Status): (r: (int, seq<Handle>))
    ensures !hasValues ==> r == (-1, [])
    ensures hasValues ==> r == Write(ws, [], status)
  {
    if !hasValues then (-1, []) else Write(ws, [], status)
  }

  /** A data set: its type name and the names of its sources. */
  datatype DataSet = DataSet(typ: string, sources: seq<string>)

  /** `register_data_set`: -1 for a missing data set; otherwise it is
      stored under its type, replacing one of the same type. */
  function RegisterDataSet(m: map<string, DataSet>, ds: Option<DataSet>): (r: (int, map<string, DataSet>))
    ensures ds.None? ==> r == (-1, m)
    ensures ds.Some? ==> (
      r.0 == 0 && r.1.Keys == m.Keys + {ds.value.typ} && r.1[ds.value.typ] == ds.value
      && forall t :: t in m && t != ds.value.typ ==> r.1[t] == m[t])
  {
    if ds.None? then (-1, m) else (0, m[ds.value.typ := ds.value])
  }

  /** `unregister_data_set`: 0 when the type was present and is now gone,
      -1 when it was absent. */
  function UnregisterDataSet(m: map<string, DataSet>, typ: string): (r: (int, map<string, DataSet>))
    ensures r.0 == 0 <==> typ in m
    ensures r.1.Keys == m.Keys - {typ}
    ensures forall t :: t in r.1 ==> r.1[t] == m[t]
  {
    if typ in m then (0, m - {typ}) else (-1, m)
  }

  /** `get_ds`: the data set of a type, if registered. */
  function GetDataSet(m: map<string, DataSet>, typ: string): (r: Option<DataSet>)
    ensures r.Some? <==> typ in m
    ensures r.Some? ==> r.value == m[typ]
  {
    if typ in m then Some(m[typ]) else None
  }

  /** A registered data set is found under its type until it is
      unregistered. */
  lemma DataSetRoundTrip(m: map<string, DataSet>, ds: DataSet)
    ensures GetDataSet(RegisterDataSet(m, Some(ds)).1, ds.typ) == Some(ds)
    ensures GetDataSet(UnregisterDataSet(RegisterDataSet(m, Some(ds)).1, ds.typ).1, ds.typ) == None
  {
  }

  /** `parse_log_severity`: the syslog level of a severity name, ignoring
      case; the four most severe names all map to the error level. */
  function ParseLogSeverity(s: string): (r: int)
    ensures r == -1 || 3 <= r <= 7
    ensures r == 3 <==> (
      EqualsIgnoreCase(s, "emerg") || EqualsIgnoreCase(s, "alert")
      || EqualsIgnoreCase(s, "crit") || EqualsIgnoreCase(s, "err"))
    ensures r == 4 <==> EqualsIgnoreCase(s, "warning")
    ensures r == 5 <==> EqualsIgnoreCase(s, "notice")
    ensures r == 6 <==> EqualsIgnoreCase(s, "info")
    ensures r == 7 <==> EqualsIgnoreCase(s, "debug")
    ensures r == -1 <==> !IsLogSeverityName(s)
  {
    LogNamesLower();
    if EqualsIgnoreCase(s, "emerg") || EqualsIgnoreCase(s, "alert")
       || EqualsIgnoreCase(s, "crit") || EqualsIgnoreCase(s, "err") then 3
    else if EqualsIgnoreCase(s, "warning") then 4
    else if EqualsIgnoreCase(s, "notice") then 5
    else if EqualsIgnoreCase(s, "info") then 6
    else if EqualsIgnoreCase(s, "debug") then 7
    else -1
  }

  /** One of the nine severity names, in any case. */
  predicate IsLogSeverityName(s: string) {
    EqualsIgnoreCase(s, "emerg") || EqualsIgnoreCase(s, "alert") || EqualsIgnoreCase(s, "crit")
    || EqualsIgnoreCase(s, "err") || EqualsIgnoreCase(s, "warning") || EqualsIgnoreCase(s, "notice")
    || EqualsIgnoreCase(s, "info") || EqualsIgnoreCase(s, "debug")
  }

  /** The severity names are lower case, so a string matches at most one
      of them. */
  lemma LogNamesLower()
    ensures LowerStr("emerg") == "emerg" && LowerStr("alert") == "alert" && LowerStr("crit") == "crit"
    ensures LowerStr("err") == "err" && LowerStr("warning") == "warning" && LowerStr("notice") == "notice"
    ensures LowerStr("info") == "info" && LowerStr("debug") == "debug"
  {
    LowerOfLower("emerg");
    LowerOfLower("alert");
    LowerOfLower("crit");
    LowerOfLower("err");
    LowerOfLower("warning");
    LowerOfLower("notice");
    LowerOfLower("info");
    LowerOfLower("debug");
  }

  /** The name of each level `ParseLogSeverity` can return. */
  function LogSeverityName(level: int): string
    requires 3 <= level <= 7
  {
    if level == 3 then "err" else if level == 4 then "warning"
    else if level == 5 then "notice" else if level == 6 then "info" else "debug"
  }

  /** Every level is named, in any case: the name parses back to it. */
  lemma LogSeverityRoundTrip(level: int)
    requires 3 <= level <= 7
    ensures ParseLogSeverity(LogSeverityName(level)) == level
    ensures ParseLogSeverity(UpperStr(LogSeverityName(level))) == level
  {
    var n := LogSeverityName(level);
    LowerOfLower(n);
    LowerUpper(n);
    LowerOfLower("emerg");
    LowerOfLower("alert");
    LowerOfLower("crit");
    LowerOfLower("err");
    LowerOfLower("warning");
    LowerOfLower("notice");
    LowerOfLower("info");
    assert (n[0] != "emerg"[0] && n[0] != "alert"[0] && n[0] != "crit"[0]) || n == "err";
    assert "info"[0] != "notice"[0] && "debug"[0] != "info"[0] && "warning"[0] != "info"[0];
  }

  /** A lower-case word is its own lower-casing. */
  lemma LowerOfLower(s: string)
    requires forall i :: 0 <= i < |s| ==> 'a' <= s[i] <= 'z'
    ensures LowerStr(s) == s
  {
  }

  function UpperStr(s: string): (r: string)
    ensures |r| == |s|
  {
    seq(|s|, i requires 0 <= i < |s| => if 'a' <= s[i] <= 'z' then (s[i] as int - 32) as char else s[i])
  }

  /** Upper-casing a lower-case word keeps it equal ignoring case. */
  lemma LowerUpper(s: string)
    requires forall i :: 0 <= i < |s| ==> 'a' <= s[i] <= 'z'
    ensures LowerStr(UpperStr(s)) == LowerStr(s)
  {
    var u := UpperStr(s);
    assert forall i :: 0 <= i < |s| ==> Lower(u[i]) == Lower(s[i]);
  }

  /** `parse_notif_severity`: "FAILURE" in any case is 1; "OKAY", "WARNING"
      and "WARN" are recognised only as written. */
  function ParseNotifSeverity(s: string): (r: int)
    ensures r == 1 <==> EqualsIgnoreCase(s, "FAILURE")
    ensures r == 4 <==> !EqualsIgnoreCase(s, "FAILURE") && s == "OKAY"
    ensures r == 2 <==> !EqualsIgnoreCase(s, "FAILURE") && (s == "WARNING" || s == "WARN")
    ensures r == -1 || r == 1 || r == 2 || r == 4
  {
    if EqualsIgnoreCase(s, "FAILURE") then 1
    else if s == "OKAY" then 4
    else if s == "WARNING" || s == "WARN" then 2
    else -1
  }

  /** Case matters for "okay" and "warning" but not for "failure". */
  lemma NotifSeverityCase()
    ensures ParseNotifSeverity("failure") == 1
    ensures ParseNotifSeverity("okay") == -1
    ensures ParseNotifSeverity("Warning") == -1
  {
    assert LowerStr("failure") == LowerStr("FAILURE");
    assert LowerStr("okay") != LowerStr("FAILURE");
    assert LowerStr("Warning")[0] != LowerStr("FAILURE")[0];
  }

  /** A notification metadata value; a double is held as its bit pattern,
      since it is only copied. */
  datatype MetaValue = MString(s: string) | MSigned(i: int) | MUnsigned(u: nat)
                     | MDouble(bits: nat) | MBoolean(b: bool)

  datatype Meta = Meta(name: string, value: MetaValue)

  /** `notification_meta_add_*`: the entry goes to the tail of the list. */
  function MetaAdd(ms: seq<Meta>, name: string, v: MetaValue): (r: seq<Meta>)
    ensures |r| == |ms| + 1 && r[..|ms|] == ms && r[|ms|] == Meta(name, v)
  {
    ms + [Meta(name, v)]
  }

  /** `notification_meta_copy`: each entry of the source, in order, added
      to the destination. */
  function MetaCopy(dst: seq<Meta>, src: seq<Meta>): (r: seq<Meta>)
    decreases |src|
  {
    if src == [] then dst else MetaCopy(MetaAdd(dst, src[0].name, src[0].value), src[1..])
  }

  /** Copying appends the source's entries after the destination's. */
  lemma {:induction false} MetaCopyAppends(dst: seq<Meta>, src: seq<Meta>)
    ensures MetaCopy(dst, src) == dst + src
    decreases |src|
  {
    if src != [] {
      MetaCopyAppends(MetaAdd(dst, src[0].name, src[0].value), src[1..]);
      assert MetaAdd(dst, src[0].name, src[0].value) + src[1..] == dst + src by {
        assert src == [src[0]] + src[1..];
        assert Meta(src[0].name, src[0].value) == src[0];
      }
    }
  }

  /** `get_interval`: the context's interval when positive, otherwise the
      default interval. */
  function GetInterval(ctxInterval: nat, default: nat): (r: nat)
    ensures ctxInterval > 0 ==> r == ctxInterval
    ensures ctxInterval == 0 ==> r == default
  {
    if ctxInterval > 0 then ctxInterval else default
  }
}

=== FILE: redline.dfy ===
/** The red-line security state machine of `redline.c`: activation, login,
    authentication, password change and reset, restore to the inactive
    state, upgrade authentication and the failed-attempt lock.

    Cryptography (`generate_en_encrypt` with the 64-character comparison,
    `generate_e1_encrypt`, AES and RSA, SHA), `checkPasswd`, the BSP
    password calls, the MAC comparison, random strings and thread creation
    are outcomes handed in by the caller. The two timer threads become the
    events `LockExpire` and `AuthExpire`. */
module Redline {
  import opened Wrappers
  import opened Text

  /** REDLINE_DEVICE_LOGIN_STS_E */
  const LoggedOut: int := 0
  const LoggedIn: int := 1

  /** REDLINE_DEVICE_ACTIVE_STS_E */
  const DevDeactivated: int := 0
  const DevActivated: int := 1
  const DevInitSts: int := 0xff

  /** REDLINE_LOGIN_CMD_TYPE_E */
  const LoginCmdLogin: int := 0
  const LoginCmdAuth: int := 1

  /** REDLINE_INTERCHW_CMD_TYPE_E */
  const RedlineInactive: int := 1
  const RedlineActive: int := 2

  /** PWD_MAX_LENGTH: the stored password buffer of user 0. */
  const PwdMaxLength: nat := 16

  /** The characters of E1 activation copies: its 68-byte buffer less the
      terminator. */
  const E1Length: nat := 67

  /** The GVCP acknowledge statuses the commands answer with; `Ok` is
      GEV_STATUS_SUCCESS. */
  datatype Status =
    | Ok | LockedDenied | PwdVerifyFailed | NeedAuth | DeviceNotActive | DeviceAlreadyActive
    | AccessDenied | ApiFailed | BspSecureFailed | PwdFmtInvalid | NetenvInvalid

  /** An acknowledge, or none when a broadcast was meant for another MAC. */
  datatype Reply = NoReply | Ack(status: Status)

  /** User 0 of `REDLINE_SOLIDIFY_PARAM_T`, the parameters kept in flash. */
  datatype Solid = Solid(userName: string, password: string, salt: string, e1: string, activeSts: int)

  /** The parameters after `memset(…, 0, …)`. */
  const Zeroed: Solid := Solid("", "", "", "", DevDeactivated)

  /** Zeroed parameters with the administrator name written back. */
  const Blank: Solid := Zeroed.(userName := "root")

  /** `REDLINE_DEVICE_STS_T` without the two timestamps; `lock_sts` is only
      ever 0 or 1. */
  datatype Sts = Sts(loginSts: int, loginTimes: int, authSts: int, cookieTimeout: int, upgAuth: int,
                     locked: bool, lockTimes: int)

  /** Everything the commands read and write: the device status, the
      parameters in memory and in flash, the current random string
      (`active_random`), the session cookie and the reset token. */
  datatype Device = Device(sts: Sts, solid: Solid, flash: Solid, activeRandom: string,
                           sessionCookie: string, resetToken: string)

  /** The `device_configs` fields consulted here: the failed-attempt limit
      `LoginTimes` and the `ResetPwd` switch. */
  datatype Config = Config(loginLimit: int, resetPwd: int)

  /** The outcome of recomputing En and comparing it with the client's:
      the computation failed, or the first 64 characters agree or not. */
  datatype Check = GenFailed | Match | Mismatch

  /** `memcpy` of a string into a buffer that is not cleared first: the
      old contents survive past the end of the new one. */
  function Overlay(prev: string, s: string): (r: string)
    ensures |r| == Max(|prev|, |s|)
    ensures r[..|s|] == s
    ensures |s| < |prev| ==> r[|s|..] == prev[|s|..]
  {
    if |s| >= |prev| then s else s + prev[|s|..]
  }

  /** The first `n` characters, or all of a shorter string. */
  function Prefix(s: string, n: nat): (r: string)
    ensures |r| == Min(|s|, n) && r == s[..|r|]
  {
    if |s| <= n then s else s[..n]
  }

  // ---------------------------------------------------------------------
  // Status helpers

  /** `redline_is_sup_reg_operation`: registers may be used by a client
      that is logged in or authenticated. */
  predicate IsSupRegOperation(d: Device) {
    d.sts.loginSts == LoggedIn || d.sts.authSts != 0
  }

  /** `readline_recover_lock_info`: the lock and both counters return to
      zero; nothing else changes. */
  function RecoverLockInfo(s: Sts): (r: Sts)
    ensures !r.locked && r.loginTimes == 0 && r.lockTimes == 0
    ensures r.loginSts == s.loginSts && r.authSts == s.authSts && r.cookieTimeout == s.cookieTimeout
            && r.upgAuth == s.upgAuth
  {
    s.(locked := false, loginTimes := 0, lockTimes := 0)
  }

  /** `redline_lock_proc`: one more failed attempt. Reaching the limit
      locks the device; when it was not locked yet the lock timer thread
      is started first, and if that fails the lock is not set. */
  function LockProc(s: Sts, limit: int, spawnOk: bool): (r: Sts)
    ensures r.loginTimes == s.loginTimes + 1
    ensures r.locked <==> s.locked || (s.loginTimes + 1 >= limit && spawnOk)
    ensures r == s.(loginTimes := r.loginTimes, locked := r.locked)
  {
    var t := s.(loginTimes := s.loginTimes + 1);
    if t.loginTimes >= limit then
      if !s.locked && !spawnOk then t else t.(locked := true)
    else t
  }

  /** The lock timer thread running out: the lock information is recovered. */
  function LockExpire(d: Device): (r: Device)
    ensures !r.sts.locked && r.sts.loginTimes == 0 && r.sts.lockTimes == 0
    ensures r == d.(sts := r.sts) && r.sts == d.sts.(locked := false, loginTimes := 0, lockTimes := 0)
  {
    d.(sts := RecoverLockInfo(d.sts))
  }

  /** The authentication timer thread running out after three minutes. */
  function AuthExpire(d: Device): (r: Device)
    ensures r.sts.authSts == 0
    ensures r == d.(sts := r.sts) && r.sts == d.sts.(authSts := r.sts.authSts)
  {
    d.(sts := d.sts.(authSts := 0))
  }

  /** `redline_get_flash_solid_param`: parameters read from flash in the
      initial state are replaced by blank ones. */
  function LoadSolid(flash: Solid): (r: Solid)
    ensures r.activeSts != DevInitSts
    ensures flash.activeSts != DevInitSts ==> r == flash
    ensures flash.activeSts == DevInitSts ==> r.userName == "root" && r.password == "" && r.e1 == ""
  {
    if flash.activeSts == DevInitSts then Blank else flash
  }

  // ---------------------------------------------------------------------
  // Commands

  /** `gvcp_proc_redline_interchange_cmd`: on an activated device a
      broadcast for another MAC gets no reply; otherwise a new random string
      is issued, with DEVICE_ALREADY_ACTIVE unless the mode asks for
      authentication, and a failed E1 computation only reported together
      with that status. On an inactive or initial device only the
      activation mode is accepted; the random string is then sent RSA
      encrypted. */
  function Interchange(d: Device, mode: int, broadcast: bool, macMatch: bool, random: string,
                       e1Ok: bool, rsaOk: bool): (r: (Device, Reply))
    ensures r.0.sts == d.sts && r.0.solid == d.solid && r.0.flash == d.flash
    ensures r.1 == NoReply <==> d.solid.activeSts == DevActivated && broadcast && !macMatch
    ensures r.1.Ack? && r.1.status == Ok && d.solid.activeSts in {DevActivated, DevDeactivated, DevInitSts}
            ==> r.0.activeRandom == random
  {
    if d.solid.activeSts == DevActivated then
      if broadcast && !macMatch then (d, NoReply)
      else
        var st := if mode != RedlineActive then DeviceAlreadyActive else Ok;
        (d.(activeRandom := random), Ack(if !e1Ok && st != Ok then ApiFailed else st))
    else if d.solid.activeSts == DevDeactivated || d.solid.activeSts == DevInitSts then
      if mode != RedlineInactive then (d, Ack(AccessDenied))
      else (d.(activeRandom := random), Ack(if rsaOk then Ok else ApiFailed))
    else (d, Ack(Ok))
  }

  /** `gvcp_proc_redline_active_cmd` with the decrypted password (None when
      AES fails), the `checkPasswd` verdict, the new salt, the E1 (None when
      it cannot be computed) and the BSP outcome. The device state is not
      consulted. The user name "root", the password, the salt and E1 are
      copied over the old buffers without clearing them; a BSP failure wipes the
      parameters in memory. */
  function Activate(d: Device, password: Option<string>, pwdOk: bool, salt: string, e1: Option<string>,
                    bspOk: bool): (r: (Device, Status))
    ensures r.0.sts == d.sts
    ensures r.1 == Ok <==> password.Some? && pwdOk && e1.Some? && bspOk
    ensures r.1 == Ok ==> r.0.solid == r.0.flash && r.0.solid.activeSts == DevActivated
                               && r.0.solid.userName == Overlay(d.solid.userName, "root")
                               && r.0.solid.userName[..4] == "root"
                               && r.0.solid.salt == Overlay(d.solid.salt, salt)
                               && r.0.solid.e1 == Overlay(d.solid.e1, Prefix(e1.value, E1Length))
    ensures r.1 == BspSecureFailed ==> r.0.solid == Zeroed && r.0.flash == d.flash
    ensures r.1 != Ok ==> r.0.flash == d.flash
  {
    if password.None? then (d, ApiFailed)
    else if !pwdOk then (d, PwdFmtInvalid)
    else if e1.None? then (d, ApiFailed)
    else
      var s := d.solid.(userName := Overlay(d.solid.userName, "root"), password := Overlay(d.solid.password, Prefix(password.value, PwdMaxLength)),
                        salt := Overlay(d.solid.salt, salt), e1 := Overlay(d.solid.e1, Prefix(e1.value, E1Length)),
                        activeSts := DevActivated);
      if !bspOk then (d.(solid := Zeroed), BspSecureFailed)
      else (d.(solid := s, flash := s), Ok)
  }

  /** `gvcp_proc_redline_login_cmd` for command `cmd`. A match with
      LOGIN logs in and hands out the random string as session cookie; a
      match with AUTH authenticates (no reply to a broadcast for another
      MAC); a mismatch counts a failed attempt. For AUTH the En of the
      client's string is computed once more at the end, and a failure there
      overrides the status. */
  function Login(d: Device, cmd: int, en: Check, broadcast: bool, macMatch: bool, authEnOk: bool,
                 spawnOk: bool, cfg: Config): (r: (Device, Reply))
    ensures r.0.solid == d.solid && r.0.flash == d.flash && r.0.activeRandom == d.activeRandom
  {
    if !d.sts.locked && en == Match && cmd == LoginCmdAuth && broadcast && !macMatch then (d, NoReply)
    else
      var (d1, st) :=
        if d.sts.locked then (d, LockedDenied)
        else match en
          case GenFailed => (d, ApiFailed)
          case Mismatch => (d.(sts := LockProc(d.sts, cfg.loginLimit, spawnOk)), PwdVerifyFailed)
          case Match =>
            if cmd == LoginCmdLogin then
              (d.(sts := RecoverLockInfo(d.sts).(loginSts := LoggedIn, cookieTimeout := 0),
                  sessionCookie := d.activeRandom), Ok)
            else if cmd == LoginCmdAuth then
              (d.(sts := RecoverLockInfo(d.sts).(authSts := 1, cookieTimeout := 0)), Ok)
            else (d, Ok);
      (d1, Ack(if cmd == LoginCmdAuth && !authEnOk then ApiFailed else st))
  }

  /** `gvcp_proc_redline_retore_cmd`: a match wipes the parameters back to
      the inactive state; the flash copy and the lock information follow
      only when the BSP password reset succeeds (the factory reset and
      reboot that follow are left to the caller). */
  function Restore(d: Device, en: Check, bspOk: bool, spawnOk: bool, cfg: Config): (r: (Device, Status))
    ensures r.0.activeRandom == d.activeRandom && r.0.sts.loginSts == d.sts.loginSts
    ensures r.1 == Ok ==> r.0.solid == Blank && r.0.flash == Blank && !r.0.sts.locked
    ensures r.1 != Ok ==> r.0.flash == d.flash
  {
    if d.sts.locked then (d, LockedDenied)
    else if d.solid.activeSts != DevActivated then (d, DeviceNotActive)
    else match en
      case GenFailed => (d, ApiFailed)
      case Mismatch => (d.(sts := LockProc(d.sts, cfg.loginLimit, spawnOk)), PwdVerifyFailed)
      case Match =>
        if !bspOk then (d.(solid := Blank), BspSecureFailed)
        else (d.(solid := Blank, flash := Blank, sts := RecoverLockInfo(d.sts)), Ok)
  }

  /** `gvcp_proc_redline_changepwd_cmd`: only a logged-in client may change
      the password. After a match the new password is decrypted and checked;
      salt, password and E1 are then cleared and rewritten, and on success
      the parameters are saved, the client is logged out and the lock
      information recovered. */
  function ChangePwd(d: Device, en: Check, newPwd: Option<string>, pwdOk: bool, salt: string,
                     e1: Option<string>, bspOk: bool, spawnOk: bool, cfg: Config): (r: (Device, Status))
    ensures r.0.activeRandom == d.activeRandom && r.0.solid.activeSts == d.solid.activeSts
    ensures r.1 == Ok ==> newPwd.Some? && r.0.solid == r.0.flash && r.0.sts.loginSts == LoggedOut
                               && r.0.solid.password == Prefix(newPwd.value, PwdMaxLength)
    ensures r.1 != Ok ==> r.0.flash == d.flash && r.0.sts.loginSts == d.sts.loginSts
  {
    if d.sts.locked then (d, LockedDenied)
    else if d.sts.loginSts == LoggedOut then (d, NeedAuth)
    else match en
      case GenFailed => (d, ApiFailed)
      case Mismatch => (d.(sts := LockProc(d.sts, cfg.loginLimit, spawnOk)), PwdVerifyFailed)
      case Match =>
        if newPwd.None? then (d, ApiFailed)
        else if !pwdOk then (d, PwdFmtInvalid)
        else
          var s1 := d.solid.(salt := salt, password := Prefix(newPwd.value, PwdMaxLength), e1 := "");
          if e1.None? then (d.(solid := s1), ApiFailed)
          else
            var s2 := s1.(e1 := e1.value);
            if !bspOk then (d.(solid := s2), BspSecureFailed)
            else (d.(solid := s2, flash := s2, sts := RecoverLockInfo(d.sts).(loginSts := LoggedOut)), Ok)
  }

  /** `gvcp_proc_redline_getdevinfo_cmd`: the reset token (None when the
      encryption fails) is stored in lower case, provided the device is
      unlocked and password reset is enabled. */
  function GetDevInfo(d: Device, token: Option<string>, cfg: Config): (r: (Device, Status))
    ensures r.0.sts == d.sts && r.0.solid == d.solid && r.0.flash == d.flash
    ensures r.1 == Ok <==> !d.sts.locked && cfg.resetPwd != 0 && token.Some?
    ensures r.1 == Ok ==> r.0.resetToken == LowerStr(token.value)
    ensures r.1 != Ok ==> r.0 == d
  {
    if d.sts.locked then (d, LockedDenied)
    else if cfg.resetPwd == 0 then (d, NetenvInvalid)
    else if token.None? then (d, ApiFailed)
    else (d.(resetToken := LowerStr(token.value)), Ok)
  }

  /** `gvcp_proc_redline_resetpwd_cmd` with the SHA outcome, the AES
      decryption of the client's string (None on failure) and the client's
      random string `iv`. The decryption must start with the first 32
      characters of `iv`; the rest is the new password. Neither the lock
      nor the activation state is consulted, and a mismatch is not counted
      as a failed attempt. A passed check consumes the reset token. The new
      password and salt are copied over the old ones without clearing them. */
  function ResetPwd(d: Device, shaOk: bool, decrypted: Option<string>, iv: string, pwdOk: bool, salt: string,
                    e1: Option<string>, bspOk: bool): (r: (Device, Status))
    ensures r.0.sts.loginSts == d.sts.loginSts && r.0.solid.activeSts == d.solid.activeSts
    ensures r.1 == PwdVerifyFailed <==> shaOk && decrypted.Some? && !EqualsUpTo(decrypted.value, iv, 32)
    ensures r.1 == Ok ==> r.0.solid == r.0.flash && !r.0.sts.locked && r.0.sts.loginTimes == 0
    ensures r.1 != Ok ==> r.0.sts == d.sts && r.0.flash == d.flash
    ensures r.1 == Ok ==>
      (decrypted.Some?
       && r.0.solid.password == Overlay(d.solid.password, if |decrypted.value| >= 32 then decrypted.value[32..] else "")
       && r.0.solid.salt == Overlay(d.solid.salt, salt) && r.0.solid.userName == d.solid.userName)
    ensures shaOk && decrypted.Some? && EqualsUpTo(decrypted.value, iv, 32) ==> r.0.resetToken == ""
    ensures !(shaOk && decrypted.Some? && EqualsUpTo(decrypted.value, iv, 32)) ==>
              r.0 == d && (r.1 == ApiFailed || r.1 == PwdVerifyFailed)
  {
    if !shaOk || decrypted.None? then (d, ApiFailed)
    else if !EqualsUpTo(decrypted.value, iv, 32) then (d, PwdVerifyFailed)
    else
      var d1 := d.(resetToken := "");
      var pwd := if |decrypted.value| >= 32 then decrypted.value[32..] else "";
      if !pwdOk then (d1, PwdFmtInvalid)
      else if e1.None? then (d1, ApiFailed)
      else
        var s := d.solid.(password := Overlay(d.solid.password, pwd), salt := Overlay(d.solid.salt, salt), e1 := e1.value);
        if !bspOk then (d1.(solid := s), BspSecureFailed)
        else (d1.(solid := s, flash := s, sts := RecoverLockInfo(d.sts)), Ok)
  }

  /** `gvcp_proc_redline_upg_cmd`: a match on an unlocked, activated
      device grants upgrade authentication. */
  function Upgrade(d: Device, en: Check, spawnOk: bool, cfg: Config): (r: (Device, Status))
    ensures r.0.solid == d.solid && r.0.flash == d.flash && r.0.sts.loginSts == d.sts.loginSts
    ensures r.1 == Ok <==> !d.sts.locked && d.solid.activeSts == DevActivated && en == Match
    ensures r.1 == Ok ==> r.0.sts.upgAuth == 1 && !r.0.sts.locked
  {
    if d.sts.locked then (d, LockedDenied)
    else if d.solid.activeSts != DevActivated then (d, DeviceNotActive)
    else match en
      case GenFailed => (d, ApiFailed)
      case Mismatch => (d.(sts := LockProc(d.sts, cfg.loginLimit, spawnOk)), PwdVerifyFailed)
      case Match => (d.(sts := RecoverLockInfo(d.sts).(upgAuth := 1)), Ok)
  }

  /** The fields of `REDLINE_LOCK_ACK_T`, each sent as a 16-bit value. */
  datatype LockReport = LockReport(lockSts: int, lockTime: int, failedTimes: int, remainTimes: int)

  /** `htons` of an `int`: the value is cut to its low 16 bits. */
  function U16(x: int): (r: int)
    ensures 0 <= r < 0x10000 && (r - x) % 0x10000 == 0
    ensures 0 <= x < 0x10000 ==> r == x
  {
    x % 0x10000
  }

  /** `gvcp_proc_redline_getlockinfo_cmd`: no reply to a broadcast for
      another MAC; otherwise the lock state, remaining lock time, failed
      attempts and attempts left. */
  function GetLockInfo(d: Device, broadcast: bool, macMatch: bool, cfg: Config): (r: Option<LockReport>)
    ensures r.None? <==> broadcast && !macMatch
    ensures r.Some? ==> (r.value.lockSts == 1 <==> d.sts.locked) && 0 <= r.value.remainTimes < 0x10000
    ensures r.Some? && 0 <= cfg.loginLimit - d.sts.loginTimes < 0x10000
            ==> r.value.remainTimes == cfg.loginLimit - d.sts.loginTimes
  {
    if broadcast && !macMatch then None
    else Some(LockReport(if d.sts.locked then 1 else 0, U16(d.sts.lockTimes), U16(d.sts.loginTimes),
                         U16(cfg.loginLimit - d.sts.loginTimes)))
  }

  // ---------------------------------------------------------------------
  // Properties

  /** A lock is only set by `LockProc` and it never clears one. */
  lemma LockProcNeverUnlocks(s: Sts, limit: int, spawnOk: bool)
    requires s.locked
    ensures LockProc(s, limit, spawnOk).locked
  {
  }

  /** While locked, login, restore, change-password, upgrade and the
      device-information request change nothing and answer LOCKED_DENIED
      (an AUTH login whose final En computation fails answers
      REDLINE_API_FAILED instead). */
  lemma LockedDenies(d: Device, cfg: Config, cmd: int, en: Check, broadcast: bool, macMatch: bool,
                     authEnOk: bool, spawnOk: bool, bspOk: bool, newPwd: Option<string>, pwdOk: bool,
                     salt: string, e1: Option<string>, token: Option<string>)
    requires d.sts.locked
    ensures Login(d, cmd, en, broadcast, macMatch, authEnOk, spawnOk, cfg)
            == (d, Ack(if cmd == LoginCmdAuth && !authEnOk then ApiFailed else LockedDenied))
    ensures Restore(d, en, bspOk, spawnOk, cfg) == (d, LockedDenied)
    ensures ChangePwd(d, en, newPwd, pwdOk, salt, e1, bspOk, spawnOk, cfg) == (d, LockedDenied)
    ensures Upgrade(d, en, spawnOk, cfg) == (d, LockedDenied)
    ensures GetDevInfo(d, token, cfg) == (d, LockedDenied)
  {
  }

  /** A verification mismatch on an unlocked device counts a failed
      attempt and answers PWD_VERIFY_FAILED, in each of the four commands
      that check En. */
  lemma MismatchCountsFailure(d: Device, cfg: Config, cmd: int, broadcast: bool, macMatch: bool,
                              spawnOk: bool, bspOk: bool, newPwd: Option<string>, pwdOk: bool,
                              salt: string, e1: Option<string>)
    requires !d.sts.locked
    ensures var failed := d.(sts := LockProc(d.sts, cfg.loginLimit, spawnOk));
            Login(d, cmd, Mismatch, broadcast, macMatch, true, spawnOk, cfg) == (failed, Ack(PwdVerifyFailed))
            && (d.solid.activeSts == DevActivated ==>
                  Restore(d, Mismatch, bspOk, spawnOk, cfg) == (failed, PwdVerifyFailed)
                  && Upgrade(d, Mismatch, spawnOk, cfg) == (failed, PwdVerifyFailed))
            && (d.sts.loginSts != LoggedOut ==>
                  ChangePwd(d, Mismatch, newPwd, pwdOk, salt, e1, bspOk, spawnOk, cfg) == (failed, PwdVerifyFailed))
  {
  }

  /** A successful LOGIN logs in, clears the cookie timeout and recovers the
      lock information; a successful AUTH authenticates instead and leaves
      the login state alone. Either way registers become usable. */
  lemma LoginMatch(d: Device, cfg: Config, broadcast: bool, macMatch: bool, authEnOk: bool, spawnOk: bool)
    requires !d.sts.locked
    ensures var (d1, rep) := Login(d, LoginCmdLogin, Match, broadcast, macMatch, authEnOk, spawnOk, cfg);
            rep == Ack(Ok) && d1.sts == RecoverLockInfo(d.sts).(loginSts := LoggedIn, cookieTimeout := 0)
            && d1.sessionCookie == d.activeRandom && IsSupRegOperation(d1)
    ensures var (d1, rep) := Login(d, LoginCmdAuth, Match, broadcast, macMatch, authEnOk, spawnOk, cfg);
            !(broadcast && !macMatch) ==>
              d1.sts == RecoverLockInfo(d.sts).(authSts := 1, cookieTimeout := 0)
              && rep == Ack(if authEnOk then Ok else ApiFailed) && IsSupRegOperation(d1)
  {
  }

  /** Change-password answers NEED_AUTH to a logged-out client; after a
      successful change the client is logged out, so registers stay usable
      only through an authentication. */
  lemma ChangePwdNeedsLogin(d: Device, cfg: Config, en: Check, newPwd: Option<string>, pwdOk: bool,
                            salt: string, e1: Option<string>, bspOk: bool, spawnOk: bool)
    requires !d.sts.locked
    ensures d.sts.loginSts == LoggedOut ==> ChangePwd(d, en, newPwd, pwdOk, salt, e1, bspOk, spawnOk, cfg) == (d, NeedAuth)
    ensures var (d1, st) := ChangePwd(d, en, newPwd, pwdOk, salt, e1, bspOk, spawnOk, cfg);
            st == Ok ==> d1.sts == RecoverLockInfo(d.sts).(loginSts := LoggedOut)
                              && (IsSupRegOperation(d1) <==> d.sts.authSts != 0)
  {
  }

  /** Restore and upgrade need an activated device; a successful upgrade
      check grants upgrade authentication. */
  lemma NeedsActivation(d: Device, cfg: Config, en: Check, bspOk: bool, spawnOk: bool)
    requires !d.sts.locked && d.solid.activeSts != DevActivated
    ensures Restore(d, en, bspOk, spawnOk, cfg) == (d, DeviceNotActive)
    ensures Upgrade(d, en, spawnOk, cfg) == (d, DeviceNotActive)
  {
  }

  /** Of the commands and timers, only the lock timer and a password reset
      clear a lock. */
  lemma OnlyExpiryOrResetUnlocks(d: Device, cfg: Config, mode: int, cmd: int, en: Check, broadcast: bool,
                                 macMatch: bool, authEnOk: bool, spawnOk: bool, bspOk: bool, random: string,
                                 e1Ok: bool, rsaOk: bool, pwd: Option<string>, pwdOk: bool, salt: string,
                                 e1: Option<string>, token: Option<string>, shaOk: bool, iv: string)
    requires d.sts.locked
    ensures Interchange(d, mode, broadcast, macMatch, random, e1Ok, rsaOk).0.sts.locked
    ensures Activate(d, pwd, pwdOk, salt, e1, bspOk).0.sts.locked
    ensures Login(d, cmd, en, broadcast, macMatch, authEnOk, spawnOk, cfg).0.sts.locked
    ensures Restore(d, en, bspOk, spawnOk, cfg).0.sts.locked
    ensures ChangePwd(d, en, pwd, pwdOk, salt, e1, bspOk, spawnOk, cfg).0.sts.locked
    ensures GetDevInfo(d, token, cfg).0.sts.locked
    ensures Upgrade(d, en, spawnOk, cfg).0.sts.locked
    ensures AuthExpire(d).sts.locked
    ensures !LockExpire(d).sts.locked
    ensures ResetPwd(d, shaOk, pwd, iv, pwdOk, salt, e1, bspOk).1 == Ok
            ==> !ResetPwd(d, shaOk, pwd, iv, pwdOk, salt, e1, bspOk).0.sts.locked
  {
  }

  /** A password reset with the right random string succeeds on a locked
      device and unlocks it. */
  lemma ResetPwdBypassesLock(d: Device, pwd: string, iv: string, salt: string, e1: string)
    requires d.sts.locked && |iv| >= 32 && |pwd| >= 32 && pwd[..32] == iv[..32]
    ensures var (d1, st) := ResetPwd(d, true, Some(pwd), iv, true, salt, Some(e1), true);
            st == Ok && !d1.sts.locked && d1.resetToken == ""
  {
    assert pwd[..32] == iv[..32];
  }

  /** Re-activating an activated device with a shorter password keeps the
      tail of the old one in the stored password, which is what is handed
      to the BSP. */
  lemma ReactivateKeepsOldTail(d: Device, pwd: string, salt: string, e1: string)
    requires |pwd| < |d.solid.password| <= PwdMaxLength
    ensures var (d1, st) := Activate(d, Some(pwd), true, salt, Some(e1), true);
            st == Ok && d1.solid.password == pwd + d.solid.password[|pwd|..]
            && d1.solid.password != pwd
  {
  }

  /** Activation writes the four bytes of "root" over the stored user name
      without clearing it: a stored "rootless" stays "rootless", and a
      stored "admin" becomes "rootn". */
  lemma ActivateKeepsNameTail(d: Device, pwd: string, salt: string, e1: string)
    requires d.solid.userName == "rootless" || d.solid.userName == "admin"
    ensures var (d1, st) := Activate(d, Some(pwd), true, salt, Some(e1), true);
            st == Ok && d1.solid.userName == (if d.solid.userName == "admin" then "rootn" else "rootless")
  {
    var u := d.solid.userName;
    assert Overlay(u, "root") == "root" + u[4..];
    if u == "admin" {
      assert u[4..] == "n";
    } else {
      assert u[4..] == "less";
    }
  }

  /** Register access lasts as long as the session: once the
      authentication timer runs out only a login keeps it, and the lock
      timer never changes it. */
  lemma SupRegTimers(d: Device)
    ensures IsSupRegOperation(AuthExpire(d)) <==> d.sts.loginSts == LoggedIn
    ensures IsSupRegOperation(LockExpire(d)) <==> IsSupRegOperation(d)
  {
  }

  /** The login attempts of `FailedLogins`: `n` LOGIN commands whose En does
      not match. */
  function FailedLogins(d: Device, n: nat, cfg: Config): Device
    decreases n
  {
    if n == 0 then d
    else FailedLogins(Login(d, LoginCmdLogin, Mismatch, false, true, true, true, cfg).0, n - 1, cfg)
  }

  /** The attempt that locks the device: the `LoginTimes`-th, or the first
      when the limit is below one. */
  function LockingAttempt(cfg: Config): nat {
    if cfg.loginLimit < 1 then 1 else cfg.loginLimit
  }

  /** From an unlocked device without failures, `n` failed logins (with the
      lock timer always started) count up to the locking attempt and then
      stop counting, and the device is locked exactly when that attempt has
      been reached. */
  lemma {:induction false} FailedLoginsLock(d: Device, n: nat, cfg: Config)
    requires !d.sts.locked && d.sts.loginTimes == 0
    ensures var r := FailedLogins(d, n, cfg);
            r.sts.loginTimes == Min(n, LockingAttempt(cfg))
            && (r.sts.locked <==> n >= LockingAttempt(cfg))
            && r.solid == d.solid && r.sts.loginSts == d.sts.loginSts
    decreases n
  {
    if n > 0 {
      FailedLoginsFrom(d, n, cfg, 0);
    }
  }

  /** The induction behind `FailedLoginsLock`, from `k` earlier failures. */
  lemma {:induction false} FailedLoginsFrom(d: Device, n: nat, cfg: Config, k: nat)
    requires d.sts.loginTimes == k && (d.sts.locked <==> k >= LockingAttempt(cfg))
    requires k <= LockingAttempt(cfg)
    ensures var r := FailedLogins(d, n, cfg);
            r.sts.loginTimes == Min(n + k, LockingAttempt(cfg))
            && (r.sts.locked <==> n + k >= LockingAttempt(cfg))
            && r.solid == d.solid && r.sts.loginSts == d.sts.loginSts
    decreases n
  {
    if n > 0 {
      var d1 := Login(d, LoginCmdLogin, Mismatch, false, true, true, true, cfg).0;
      if d.sts.locked {
        assert d1 == d;
        FailedLoginsFrom(d1, n - 1, cfg, k);
      } else {
        assert d1.sts == LockProc(d.sts, cfg.loginLimit, true);
        FailedLoginsFrom(d1, n - 1, cfg, k + 1);
      }
    }
  }

  /** When the lock timer cannot be started the lock is never set, and the
      failures keep counting past the limit: the attempts left then wrap
      around in the 16-bit report. */
  lemma FailedSpawnWrapsRemaining(d: Device, cfg: Config)
    requires !d.sts.locked && d.sts.loginTimes == cfg.loginLimit && 0 <= cfg.loginLimit
    ensures var d1 := Login(d, LoginCmdLogin, Mismatch, false, true, true, false, cfg).0;
            !d1.sts.locked && GetLockInfo(d1, false, true, cfg).value.remainTimes == 0xFFFF
  {
  }
}

=== FILE: tcps_conn.dfy ===
/** One accepted client of the TCP server (`VibeCoding/TcpsConnection.cpp`):
    a socket descriptor, a bounded queue of outgoing messages and the time
    of the last send. The socket calls themselves are left to the caller;
    `Send` returns the message it would write. */
module TcpsConnection {
  import opened Wrappers
  import opened Fixed

  /** MAX_TCP_PAYLOAD_LEN */
  const PayloadCap: nat := 1280
  /** IConnection::MAX_SEND_QUEUE_LEN (TcpsConnection.h) */
  const MaxSendQueueLen: nat := 4

  /** `TcpsMessage`: `len` is the number of payload bytes. */
  datatype Message = Message(buf: seq<Byte>)

  datatype Conn = Conn(fd: int, queue: seq<Message>, lastSendTime: U64)

  /** A freshly created connection, before `SetSockFd`. */
  const Fresh: Conn := Conn(-1, [], 0)

  /** `SetSockFd` */
  function SetSockFd(c: Conn, fd: int): (r: Conn)
    ensures r.fd == fd && r.queue == c.queue && r.lastSendTime == c.lastSendTime
  {
    c.(fd := fd)
  }

  /** `InsertSendMsg`: the bound is checked against the size before the
      push, so a queue that already holds `MaxSendQueueLen` messages still
      accepts one more. The status is 0 or -1. */
  function InsertSendMsg(c: Conn, m: Message): (r: (Conn, int))
    ensures r.1 == 0 <==> |c.queue| <= MaxSendQueueLen
    ensures r.1 == 0 ==> r.0 == c.(queue := c.queue + [m])
    ensures r.1 != 0 ==> r.1 == -1 && r.0 == c
  {
    if |c.queue| > MaxSendQueueLen then (c, -1) else (c.(queue := c.queue + [m]), 0)
  }

  /** The outcome of `Send`: the connection after the call and the message
      handed to the socket, if any. */
  datatype SendResult = SendResult(conn: Conn, sent: Option<Message>)

  /** `Send` at time `now`: an empty queue changes nothing; otherwise the
      front message leaves the queue and the send time is recorded. */
  function Send(c: Conn, now: U64): (r: SendResult)
    ensures c.queue == [] <==> r.sent.None?
    ensures c.queue == [] ==> r.conn == c
    ensures r.sent.Some? ==> [r.sent.value] + r.conn.queue == c.queue
                             && r.conn.lastSendTime == now && r.conn.fd == c.fd
  {
    if c.queue == [] then SendResult(c, None)
    else SendResult(c.(queue := c.queue[1..], lastSendTime := now), Some(c.queue[0]))
  }

  /** `Close`: an open descriptor becomes -1; a closed one stays as it is. */
  function Close(c: Conn): (r: Conn)
    ensures c.fd >= 0 ==> r == c.(fd := -1)
    ensures c.fd < 0 ==> r == c
  {
    if c.fd >= 0 then c.(fd := -1) else c
  }

  /** `IsSendQueueEmpty` */
  predicate IsSendQueueEmpty(c: Conn) {
    c.queue == []
  }

  /** The reply the receive callback queues: the text cut to the payload
      buffer less its terminating NUL. */
  function ReplyMessage(text: seq<Byte>): (m: Message)
    ensures |m.buf| < PayloadCap
    ensures |text| < PayloadCap ==> m.buf == text
    ensures m.buf == text[..|m.buf|]
  {
    if |text| < PayloadCap then Message(text) else Message(text[..PayloadCap - 1])
  }

  /** `MsgConnection::RecvProcess`: a missing buffer or a negative length
      is refused with -1; otherwise the request goes to the proxy, whose
      status `proxy` decides between 0 and -1. */
  function RecvProcess(data: Option<seq<Byte>>, len: int, proxy: int): (r: int)
    ensures r == 0 <==> data.Some? && len >= 0 && proxy == 0
    ensures r == 0 || r == -1
  {
    if data.None? || len < 0 then -1
    else if proxy != 0 then -1
    else 0
  }

  // ---------------------------------------------------------------------
  // Properties

  /** Inserts in order; the statuses are collected. */
  function InsertAll(c: Conn, ms: seq<Message>): (Conn, seq<int>)
    decreases |ms|
  {
    if ms == [] then (c, [])
    else
      var (c1, st) := InsertSendMsg(c, ms[0]);
      var (c2, sts) := InsertAll(c1, ms[1..]);
      (c2, [st] + sts)
  }

  /** Starting from an empty queue, the first `MaxSendQueueLen + 1` inserts
      succeed and every later one fails: the queue holds one message more
      than its nominal bound. */
  lemma {:induction false} InsertAllKeepsFirst(c: Conn, ms: seq<Message>)
    requires |c.queue| <= MaxSendQueueLen + 1
    ensures var room := MaxSendQueueLen + 1 - |c.queue|;
            var k := if |ms| < room then |ms| else room;
            var (c2, sts) := InsertAll(c, ms);
            c2 == c.(queue := c.queue + ms[..k])
            && |sts| == |ms|
            && (forall i :: 0 <= i < |sts| ==> (sts[i] == 0 <==> i < room))
    decreases |ms|
  {
    if ms != [] {
      var (c1, st) := InsertSendMsg(c, ms[0]);
      InsertAllKeepsFirst(c1, ms[1..]);
      var room := MaxSendQueueLen + 1 - |c.queue|;
      if room > 0 {
        var k := if |ms| < room then |ms| else room;
        assert c.queue + [ms[0]] + ms[1..][..k - 1] == c.queue + ms[..k];
      } else {
        assert ms[..0] == [];
        assert c.queue + [] == c.queue;
      }
    }
  }

  /** Sends drain the queue front first: as many messages as sends leave
      it, in insertion order. */
  function SendAll(c: Conn, now: U64, n: nat): (Conn, seq<Message>)
    decreases n
  {
    if n == 0 then (c, [])
    else
      var r := Send(c, now);
      var (c2, sent) := SendAll(r.conn, now, n - 1);
      (c2, (if r.sent.Some? then [r.sent.value] else []) + sent)
  }

  lemma {:induction false} SendAllFifo(c: Conn, now: U64, n: nat)
    ensures var k := if n < |c.queue| then n else |c.queue|;
            var (c2, sent) := SendAll(c, now, n);
            sent == c.queue[..k] && c2.queue == c.queue[k..] && c2.fd == c.fd
    decreases n
  {
    if n > 0 && c.queue != [] {
      var r := Send(c, now);
      SendAllFifo(r.conn, now, n - 1);
      var k := if n < |c.queue| then n else |c.queue|;
      assert [c.queue[0]] + c.queue[1..][..k - 1] == c.queue[..k];
      assert c.queue[1..][k - 1..] == c.queue[k..];
    } else if n > 0 {
      SendAllFifo(c, now, n - 1);
    }
  }

  /** `Close` is idempotent and leaves the queue and send time alone. */
  lemma CloseIdempotent(c: Conn)
    ensures Close(Close(c)) == Close(c)
    ensures Close(c).fd < 0 && Close(c).queue == c.queue && Close(c).lastSendTime == c.lastSendTime
  {
  }
}

=== FILE: tcps_msg.dfy ===
/** The message front end of `VibeCoding/tcpsMsg.cpp`: the scheduled
    payload queue feeding the output-mode engine, the message and heartbeat
    servers, and the heartbeat decision taken on every task-loop pass. */
module TcpsMsg {
  import opened Wrappers
  import opened Fixed
  import OutputMode
  import opened TcpsConnection
  import opened TcpsServer

  /** SECONDS: milliseconds per second */
  const MsPerSecond: nat := 1000
  /** CTcpsMessage::MAX_HB_TEXT_LEN */
  const MaxHbTextLen: nat := 32
  /** TCP_SERVER_PORT and TCP_SERVER_HEARTBEAT_PORT */
  const DefaultMsgPort: nat := 8192
  const DefaultHbPort: nat := 8193

  datatype Front = Front(
    engine: OutputMode.Engine,
    schedQueue: seq<OutputMode.Param>,
    msgServer: Server,
    hbServer: Server,
    hbMode: int,
    hbInterval: U64,
    hbText: seq<Byte>,
    lastHbQueued: U64,
    scheduledEnable: int,
    scheduledTime: int)

  // ---------------------------------------------------------------------
  // Setters

  /** `SetHeartbeatText`: the text is cut to the heartbeat buffer. */
  function SetHeartbeatText(f: Front, text: seq<Byte>): (r: Front)
    ensures |r.hbText| <= MaxHbTextLen && |r.hbText| <= |text| && r.hbText == text[..|r.hbText|]
    ensures |text| <= MaxHbTextLen ==> r.hbText == text
    ensures r.(hbText := f.hbText) == f
  {
    f.(hbText := if |text| <= MaxHbTextLen then text else text[..MaxHbTextLen])
  }

  /** `SetHeartbeatTranMode` */
  function SetHeartbeatTranMode(f: Front, mode: int): (r: Front)
    ensures r.hbMode == mode && r.(hbMode := f.hbMode) == f
  {
    f.(hbMode := mode)
  }

  /** `SetHeartbeatInterval`, in seconds */
  function SetHeartbeatInterval(f: Front, interval: U64): (r: Front)
    ensures r.hbInterval == interval && r.(hbInterval := f.hbInterval) == f
  {
    f.(hbInterval := interval)
  }

  /** `SetScheduledTransEnable` and `SetScheduledTransTime` */
  function SetScheduledTrans(f: Front, enable: int, time: int): (r: Front)
    ensures r.scheduledEnable == enable && r.scheduledTime == time
    ensures r.(scheduledEnable := f.scheduledEnable, scheduledTime := f.scheduledTime) == f
  {
    f.(scheduledEnable := enable, scheduledTime := time)
  }

  /** `EnqueueScheduled`: an empty payload is refused with -1; any other is
      handed to the queue's enqueue operation `push`, whose policy is not
      part of this model. */
  function EnqueueScheduled(f: Front, p: OutputMode.Param,
                            push: (seq<OutputMode.Param>, OutputMode.Param) -> seq<OutputMode.Param>): (r: (Front, int))
    ensures r.1 == -1 <==> p.buf == []
    ensures p.buf == [] ==> r.0 == f
    ensures p.buf != [] ==> r.1 == 0 && r.0 == f.(schedQueue := push(f.schedQueue, p))
  {
    if p.buf == [] then (f, -1) else (f.(schedQueue := push(f.schedQueue, p)), 0)
  }

  // ---------------------------------------------------------------------
  // The task-loop pass

  /** The send function given to the engine: the payload is copied into a
      message and queued on the message server. */
  function ToMessage(p: OutputMode.Param): (m: Message)
    ensures |m.buf| <= PayloadCap && |m.buf| <= |p.buf| && m.buf == p.buf[..|m.buf|]
    ensures |p.buf| <= PayloadCap ==> m.buf == p.buf
  {
    if |p.buf| <= PayloadCap then Message(p.buf) else Message(p.buf[..PayloadCap])
  }

  /** Each payload handed to the send function, in order, already
      queued on the message server. */
  function SendAllToServer(s: Server, ps: seq<OutputMode.Param>): (r: Server)
    ensures s.queue <= r.queue
    ensures r == s.(queue := r.queue)
    ensures ps != [] ==> r.queue != []
    decreases |ps|
  {
    if ps == [] then s
    else SendAllToServer(TcpsServer.InsertSendMsg(s, ToMessage(ps[0])).0, ps[1..])
  }

  /** The messages the payloads become. */
  function Messages(ps: seq<OutputMode.Param>): (ms: seq<Message>)
    ensures |ms| == |ps|
  {
    if ps == [] then [] else [ToMessage(ps[0])] + Messages(ps[1..])
  }

  /** Message `k` is the message of payload `k`. */
  lemma {:induction false} MessagesAt(ps: seq<OutputMode.Param>, k: nat)
    requires k < |ps|
    ensures Messages(ps)[k] == ToMessage(ps[k])
    decreases k
  {
    if k > 0 {
      MessagesAt(ps[1..], k - 1);
    }
  }

  /** How many more messages the server queue takes: it accepts while it
      holds at most `MaxServerQueueLen`, so one more than that fits. */
  function Room(s: Server): nat {
    if |s.queue| <= MaxServerQueueLen then MaxServerQueueLen + 1 - |s.queue| else 0
  }

  /** Sending payloads appends the messages of the first ones that fit to
      the server queue, in order, and drops the rest; nothing else changes. */
  lemma SendAllKeepsFirst(s: Server, ps: seq<OutputMode.Param>)
    ensures var k := if |ps| < Room(s) then |ps| else Room(s);
            SendAllToServer(s, ps) == s.(queue := s.queue + Messages(ps[..k]))
  {
    SendAllQueue(s, ps);
  }

  lemma {:induction false} SendAllQueue(s: Server, ps: seq<OutputMode.Param>)
    ensures var k := if |ps| < Room(s) then |ps| else Room(s);
            SendAllToServer(s, ps).queue == s.queue + Messages(ps[..k])
    decreases |ps|
  {
    if ps == [] {
      assert ps[..0] == [];
    } else {
      var s1 := TcpsServer.InsertSendMsg(s, ToMessage(ps[0])).0;
      SendAllQueue(s1, ps[1..]);
      var q := SendAllToServer(s1, ps[1..]).queue;
      if Room(s) > 0 {
        QueueStep(s.queue, q, ps, if |ps| < Room(s) then |ps| else Room(s));
      } else {
        assert ps[1..][..0] == ps[..0];
      }
    }
  }

  /** One accepted payload in front of the rest: the queue after the rest
      is the queue with the messages of the first `k` payloads. */
  lemma QueueStep(q0: seq<Message>, q: seq<Message>, ps: seq<OutputMode.Param>, k: nat)
    requires 0 < k <= |ps|
    requires q == q0 + [ToMessage(ps[0])] + Messages(ps[1..][..k - 1])
    ensures q == q0 + Messages(ps[..k])
  {
    var m := ToMessage(ps[0]);
    var rest := Messages(ps[1..][..k - 1]);
    assert ps[..k][0] == ps[0] && ps[..k][1..] == ps[1..][..k - 1];
    assert Messages(ps[..k]) == [m] + rest;
    assert q0 + [m] + rest == q0 + ([m] + rest);
  }

  /** Whether the server the heartbeat mode selects has a client. */
  predicate HbPathHasClient(f: Front) {
    if f.hbMode == 1 then AnyClient(f.msgServer)
    else if f.hbMode == 2 then AnyClient(f.hbServer)
    else false
  }

  /** The last activity: the latest send on either server, and the last
      queued heartbeat when its path has a client. */
  function LastActivity(f: Front): (r: U64)
    ensures r >= MaxSendTime(f.msgServer.conns) && r >= MaxSendTime(f.hbServer.conns)
    ensures HbPathHasClient(f) ==> r >= f.lastHbQueued
    ensures r == MaxSendTime(f.msgServer.conns) || r == MaxSendTime(f.hbServer.conns)
            || (HbPathHasClient(f) && r == f.lastHbQueued)
  {
    var sends := Max64(MaxSendTime(f.msgServer.conns), MaxSendTime(f.hbServer.conns));
    if HbPathHasClient(f) then Max64(sends, f.lastHbQueued) else sends
  }

  /** The heartbeat is due once whole seconds since the last activity reach
      the interval (unsigned 64-bit difference). */
  predicate HeartbeatDue(f: Front, now: U64) {
    Sub64(now, LastActivity(f)) / MsPerSecond >= f.hbInterval
  }

  function HeartbeatMessage(f: Front): Message {
    Message(f.hbText)
  }

  /** The heartbeat part of `MsgTaskLoopCallback` at time `now`. */
  function Heartbeat(f: Front, now: U64): (r: Front)
    ensures r.engine == f.engine && r.schedQueue == f.schedQueue
    ensures r.msgServer.conns == f.msgServer.conns && r.hbServer.conns == f.hbServer.conns
  {
    if !HeartbeatDue(f, now) then f
    else if f.hbMode == 1 then
      var (s, rc) := InsertEmptySendQueue(f.msgServer, HeartbeatMessage(f));
      if rc == 0 then f.(msgServer := s, lastHbQueued := if HbPathHasClient(f) then now else f.lastHbQueued)
      else f
    else if f.hbMode == 2 then
      var (s, rc) := InsertEmptySendQueue(f.hbServer, HeartbeatMessage(f));
      if rc == 0 then f.(hbServer := s, lastHbQueued := if HbPathHasClient(f) then now else f.lastHbQueued)
      else f
    else f
  }

  /** `MsgTaskLoopCallback`: one engine tick whose sends go to the message
      server, then the heartbeat decision. */
  function TaskLoop(f: Front, obs: OutputMode.Observation, now: U64): (r: Front)
    ensures r.engine.mode == f.engine.mode
  {
    var t := OutputMode.Tick(f.engine, f.schedQueue, obs);
    var f1 := f.(engine := t.engine, schedQueue := t.queue,
                 msgServer := SendAllToServer(f.msgServer, t.sent));
    Heartbeat(f1, now)
  }

  // ---------------------------------------------------------------------
  // Properties

  /** The server queue the heartbeat mode selects. */
  function PathQueue(f: Front, mode: int): seq<Message>
    requires mode == 1 || mode == 2
  {
    if mode == 1 then f.msgServer.queue else f.hbServer.queue
  }

  /** A heartbeat is queued exactly when the mode selects a server, the
      heartbeat is due and that server's queue is empty; it is then the
      only message there, and the other server's queue is untouched. */
  lemma HeartbeatQueuedIff(f: Front, now: U64)
    ensures var r := Heartbeat(f, now);
            (f.hbMode != 1 && f.hbMode != 2) ==> r == f
    ensures var r := Heartbeat(f, now);
            (f.hbMode == 1 || f.hbMode == 2) ==>
              ((PathQueue(r, f.hbMode) != PathQueue(f, f.hbMode)) <==> HeartbeatDue(f, now) && PathQueue(f, f.hbMode) == [])
    ensures var r := Heartbeat(f, now);
            (f.hbMode == 1 || f.hbMode == 2) && HeartbeatDue(f, now) && PathQueue(f, f.hbMode) == [] ==>
              PathQueue(r, f.hbMode) == [HeartbeatMessage(f)]
              && PathQueue(r, 3 - f.hbMode) == PathQueue(f, 3 - f.hbMode)
  {
  }

  /** The heartbeat time is recorded only for a heartbeat queued on a path
      with a client. */
  lemma HeartbeatTimeRecorded(f: Front, now: U64)
    ensures var r := Heartbeat(f, now);
            r.lastHbQueued != f.lastHbQueued ==>
              r.lastHbQueued == now && HbPathHasClient(f) && HeartbeatDue(f, now)
    ensures var r := Heartbeat(f, now);
            ((f.hbMode == 1 || f.hbMode == 2) && HeartbeatDue(f, now) && PathQueue(f, f.hbMode) == []
             && HbPathHasClient(f)) ==> r.lastHbQueued == now
  {
  }

  /** While the path has a client, heartbeats are spaced: a heartbeat is
      queued at `now` only when at least `hbInterval` whole seconds passed
      since the previous one. */
  lemma {:induction false} HeartbeatSpacing(f: Front, now: U64)
    requires HbPathHasClient(f) && f.lastHbQueued <= now && LastActivity(f) <= now
    requires Heartbeat(f, now).lastHbQueued != f.lastHbQueued
    ensures (now - f.lastHbQueued) / MsPerSecond >= f.hbInterval
  {
    HeartbeatTimeRecorded(f, now);
    var a := LastActivity(f);
    assert Sub64(now, a) == now - a;
    assert now - f.lastHbQueued >= now - a;
    SecondsMonotone(now - a, now - f.lastHbQueued);
  }

  lemma SecondsMonotone(a: nat, b: nat)
    requires a <= b
    ensures a / MsPerSecond <= b / MsPerSecond
  {
  }

  /** In mode 1 the heartbeat yields to data: in a pass whose engine tick
      sent something, no heartbeat is queued on the message server. */
  lemma {:induction false} HeartbeatYieldsToData(f: Front, obs: OutputMode.Observation, now: U64)
    requires f.hbMode == 1
    requires OutputMode.Tick(f.engine, f.schedQueue, obs).sent != []
    ensures var t := OutputMode.Tick(f.engine, f.schedQueue, obs);
            TaskLoop(f, obs, now).msgServer == SendAllToServer(f.msgServer, t.sent)
  {
    var t := OutputMode.Tick(f.engine, f.schedQueue, obs);
    var f1 := f.(engine := t.engine, schedQueue := t.queue,
                 msgServer := SendAllToServer(f.msgServer, t.sent));
    assert f1.msgServer.queue != [];
  }
}

=== FILE: tcps_server.dfy ===
/** The TCP server of `VibeCoding/TcpsServerManager.cpp`: a fixed table of
    client slots, a server-wide send queue and the listening port. Sockets,
    threads and `accept` are outside the model; an accepted descriptor is an
    input. */
module TcpsServer {
  import opened Wrappers
  import opened Fixed
  import opened TcpsConnection

  /** TcpsServerManager::MAX_CLIENT_NUM (TcpsServerManager.h) */
  const MaxClientNum: nat := 5
  /** TcpsServerManager::MAX_SEND_QUEUE_LEN (TcpsServerManager.h) */
  const MaxServerQueueLen: nat := 4

  /** A slot is None when no client occupies it. */
  datatype Server = Server(localPort: int, defaultPort: int, conns: seq<Option<Conn>>, queue: seq<Message>)

  /** The listening port `Init` chooses: 0 asks for the default. */
  function ChoosePort(localPort: int, defaultPort: int): (r: int)
    ensures localPort != 0 ==> r == localPort
    ensures localPort == 0 ==> r == defaultPort
  {
    if localPort == 0 then defaultPort else localPort
  }

  /** `Init` up to the socket set-up: the port is chosen and the slot table
      has `MaxClientNum` empty entries. */
  function Init(localPort: int, defaultPort: int): (s: Server)
    ensures s.localPort == ChoosePort(localPort, defaultPort) && s.defaultPort == defaultPort
    ensures |s.conns| == MaxClientNum && forall i :: 0 <= i < |s.conns| ==> s.conns[i].None?
    ensures s.queue == []
  {
    Server(ChoosePort(localPort, defaultPort), defaultPort, seq(MaxClientNum, _ => None), [])
  }

  /** The latest send time over the occupied slots, 0 when there is none. */
  function MaxSendTime(conns: seq<Option<Conn>>): (r: U64)
    ensures forall i :: 0 <= i < |conns| && conns[i].Some? ==> conns[i].value.lastSendTime <= r
    ensures r == 0 || exists i :: 0 <= i < |conns| && conns[i].Some? && conns[i].value.lastSendTime == r
    decreases |conns|
  {
    if conns == [] then 0
    else
      var rest := MaxSendTime(conns[..|conns| - 1]);
      var last := conns[|conns| - 1];
      if last.Some? && last.value.lastSendTime > rest then last.value.lastSendTime else rest
  }

  /** `GetLastSendTime` */
  method GetLastSendTime(s: Server) returns (maxTime: U64)
    ensures forall i :: 0 <= i < |s.conns| && s.conns[i].Some? ==> s.conns[i].value.lastSendTime <= maxTime
    ensures maxTime == 0 || exists i :: 0 <= i < |s.conns| && s.conns[i].Some? && s.conns[i].value.lastSendTime == maxTime
  {
    maxTime := 0;
    var i := 0;
    while i < |s.conns|
      invariant 0 <= i <= |s.conns|
      invariant maxTime == MaxSendTime(s.conns[..i])
    {
      assert s.conns[..i + 1][..i] == s.conns[..i];
      var conn := s.conns[i];
      if conn.Some? && conn.value.lastSendTime > maxTime {
        maxTime := conn.value.lastSendTime;
      }
      i := i + 1;
    }
    assert s.conns[..i] == s.conns;
  }

  /** A slot holding a client whose descriptor is open. */
  predicate Connected(conns: seq<Option<Conn>>, i: int)
    requires 0 <= i < |conns|
  {
    conns[i].Some? && conns[i].value.fd >= 0
  }

  /** `HasClient` */
  method HasClient(s: Server) returns (r: bool)
    ensures r <==> exists i :: 0 <= i < |s.conns| && Connected(s.conns, i)
  {
    var i := 0;
    while i < |s.conns|
      invariant 0 <= i <= |s.conns|
      invariant forall j :: 0 <= j < i ==> !Connected(s.conns, j)
    {
      if s.conns[i].Some? && s.conns[i].value.fd >= 0 {
        assert Connected(s.conns, i);
        return true;
      }
      i := i + 1;
    }
    return false;
  }

  /** `HasClient` as a value, for callers in pure code. */
  predicate AnyClient(s: Server) {
    exists i :: 0 <= i < |s.conns| && Connected(s.conns, i)
  }

  /** `InsertSendMsg` on the server queue: rejected only when the queue
      already holds more than `MaxServerQueueLen` messages. */
  function InsertSendMsg(s: Server, m: Message): (r: (Server, int))
    ensures r.1 == 0 <==> |s.queue| <= MaxServerQueueLen
    ensures r.1 == 0 ==> r.0 == s.(queue := s.queue + [m])
    ensures r.1 != 0 ==> r.1 == -1 && r.0 == s
  {
    if |s.queue| > MaxServerQueueLen then (s, -1) else (s.(queue := s.queue + [m]), 0)
  }

  /** `InsertEmptySendQueue`: accepted only into an empty queue, which then
      holds that message alone. */
  function InsertEmptySendQueue(s: Server, m: Message): (r: (Server, int))
    ensures r.1 == 0 <==> s.queue == []
    ensures r.1 == 0 ==> r.0 == s.(queue := [m])
    ensures r.1 != 0 ==> r.1 == -1 && r.0 == s
  {
    if s.queue != [] then (s, -1) else (s.(queue := [m]), 0)
  }

  /** `IsSendQueueEmpty` on the server queue. */
  predicate IsServerQueueEmpty(s: Server) {
    s.queue == []
  }

  /** The first free slot, if any. */
  function FirstFree(conns: seq<Option<Conn>>): (r: Option<nat>)
    ensures r.None? <==> forall i :: 0 <= i < |conns| ==> conns[i].Some?
    ensures r.Some? ==> r.value < |conns| && conns[r.value].None?
                        && forall j :: 0 <= j < r.value ==> conns[j].Some?
    decreases |conns|
  {
    if conns == [] then None
    else if conns[0].None? then Some(0)
    else match FirstFree(conns[1..])
      case None => None
      case Some(k) => Some(k + 1)
  }

  /** The slot step of the listen loop: a new client with descriptor `fd`
      takes the first free slot; with every slot taken it is refused and
      the table stays as it was. */
  function AddClient(s: Server, fd: int): (r: (Server, bool))
    ensures |r.0.conns| == |s.conns| && r.0.queue == s.queue && r.0.localPort == s.localPort
    ensures !r.1 <==> forall i :: 0 <= i < |s.conns| ==> s.conns[i].Some?
    ensures !r.1 ==> r.0 == s
    ensures r.1 ==> exists k :: 0 <= k < |s.conns| && s.conns[k].None?
                                && (forall j :: 0 <= j < k ==> s.conns[j].Some?)
                                && r.0.conns == s.conns[k := Some(SetSockFd(Fresh, fd))]
  {
    match FirstFree(s.conns)
    case None => (s, false)
    case Some(k) => (s.(conns := s.conns[k := Some(SetSockFd(Fresh, fd))]), true)
  }

  // ---------------------------------------------------------------------
  // Properties

  /** A send on any client raises the latest send time to at least the
      time of that send. */
  lemma SendRaisesLastSendTime(conns: seq<Option<Conn>>, k: nat, now: U64)
    requires k < |conns| && conns[k].Some? && conns[k].value.queue != []
    ensures MaxSendTime(conns[k := Some(Send(conns[k].value, now).conn)]) >= now
  {
    var c2 := conns[k := Some(Send(conns[k].value, now).conn)];
    assert c2[k].Some? && c2[k].value.lastSendTime == now;
  }

  /** A client added to a server with an empty slot is visible to
      `HasClient` when its descriptor is open. */
  lemma AddedClientIsClient(s: Server, fd: int)
    requires fd >= 0
    requires exists i :: 0 <= i < |s.conns| && s.conns[i].None?
    ensures AddClient(s, fd).1 && AnyClient(AddClient(s, fd).0)
  {
    var r := AddClient(s, fd);
    var k :| 0 <= k < |s.conns| && s.conns[k].None?
             && (forall j :: 0 <= j < k ==> s.conns[j].Some?)
             && r.0.conns == s.conns[k := Some(SetSockFd(Fresh, fd))];
    assert Connected(r.0.conns, k);
  }

  /** A freshly initialised server has no client and a latest send time
      of 0. */
  lemma InitHasNoClient(localPort: int, defaultPort: int)
    ensures !AnyClient(Init(localPort, defaultPort))
    ensures MaxSendTime(Init(localPort, defaultPort).conns) == 0
  {
  }
}

=== FILE: text.dfy ===
/** Character classes and string helpers of the C, C++ and Python runtimes
    that the modelled components rely on. Strings are NUL-free `seq<char>`. */
module Text {

  /** C `isspace` in the "C" locale. */
  predicate IsSpace(c: char) {
    c == ' ' || c == '\t' || c == '\n' || c == '\U{0B}' || c == '\U{0C}' || c == '\r'
  }

  /** Python `str.isspace` for one character (the set `str.strip()` removes). */
  predicate PyIsSpace(c: char) {
    IsSpace(c) || ('\U{1C}' <= c <= '\U{1F}') || c == '\U{85}' || c == '\U{A0}'
    || c == '\U{1680}' || ('\U{2000}' <= c <= '\U{200A}') || c == '\U{2028}'
    || c == '\U{2029}' || c == '\U{202F}' || c == '\U{205F}' || c == '\U{3000}'
  }

  /** C `isdigit`. */
  predicate IsDigit(c: char) {
    '0' <= c <= '9'
  }

  /** ASCII lower-casing as done by `strcasecmp` and `tolower` in the "C" locale. */
  function Lower(c: char): (r: char)
    ensures 'A' <= c <= 'Z' ==> r != c && 'a' <= r <= 'z'
    ensures !('A' <= c <= 'Z') ==> r == c
  {
    if 'A' <= c <= 'Z' then (c as int - 'A' as int + 'a' as int) as char else c
  }

  function LowerStr(s: string): (r: string)
    ensures |r| == |s|
    ensures forall i :: 0 <= i < |s| ==> r[i] == Lower(s[i])
  {
    seq(|s|, i requires 0 <= i < |s| => Lower(s[i]))
  }

  /** `strcasecmp(a, b) == 0`. */
  predicate EqualsIgnoreCase(a: string, b: string) {
    LowerStr(a) == LowerStr(b)
  }

  /** `strncmp(a, b, n) == 0` on NUL-terminated strings: the first `n`
      characters agree, a shorter string ending where its terminator is. */
  predicate EqualsUpTo(a: string, b: string, n: nat) {
    a[..if |a| < n then |a| else n] == b[..if |b| < n then |b| else n]
  }

  /** Lexicographic strict order on strings by character code: Python string
      comparison and the order of `std::map<std::string, _>` keys. */
  predicate Less(a: string, b: string)
    decreases |a|
  {
    if |a| == 0 then |b| > 0
    else if |b| == 0 then false
    else if a[0] < b[0] then true
    else if a[0] == b[0] then Less(a[1..], b[1..])
    else false
  }

  lemma {:induction false} LessIrreflexive(a: string)
    ensures !Less(a, a)
    decreases |a|
  {
    if |a| > 0 {
      LessIrreflexive(a[1..]);
    }
  }

  lemma {:induction false} LessTransitive(a: string, b: string, c: string)
    requires Less(a, b) && Less(b, c)
    ensures Less(a, c)
    decreases |a|
  {
    if |a| > 0 && a[0] == b[0] && b[0] == c[0] {
      LessTransitive(a[1..], b[1..], c[1..]);
    }
  }

  lemma {:induction false} LessTotal(a: string, b: string)
    ensures a == b || Less(a, b) || Less(b, a)
    decreases |a|
  {
    if |a| > 0 && |b| > 0 && a[0] == b[0] {
      LessTotal(a[1..], b[1..]);
      if a[1..] == b[1..] {
        assert a == [a[0]] + a[1..] && b == [b[0]] + b[1..];
      }
    }
  }

  lemma LessAsymmetric(a: string, b: string)
    requires Less(a, b)
    ensures !Less(b, a)
  {
    if Less(b, a) {
      LessTransitive(a, b, a);
      LessIrreflexive(a);
    }
  }

  /** The first position at or after `i` whose character fails `p`. */
  function SkipLeft(s: string, p: char -> bool, i: nat): (r: nat)
    requires i <= |s|
    ensures i <= r <= |s|
    ensures forall k :: i <= k < r ==> p(s[k])
    ensures r < |s| ==> !p(s[r])
    decreases |s| - i
  {
    if i < |s| && p(s[i]) then SkipLeft(s, p, i + 1) else i
  }

  /** The end of `s[lo..j]` once trailing `p`-characters are dropped. */
  function SkipRight(s: string, p: char -> bool, lo: nat, j: nat): (r: nat)
    requires lo <= j <= |s|
    ensures lo <= r <= j
    ensures forall k :: r <= k < j ==> p(s[k])
    ensures r > lo ==> !p(s[r - 1])
    decreases j
  {
    if j > lo && p(s[j - 1]) then SkipRight(s, p, lo, j - 1) else j
  }

  /** Drops leading characters satisfying `p`. */
  function TrimLeft(s: string, p: char -> bool): (r: string)
    ensures |r| <= |s| && r == s[|s| - |r|..]
    ensures forall i :: 0 <= i < |s| - |r| ==> p(s[i])
    ensures |r| > 0 ==> !p(r[0])
  {
    s[SkipLeft(s, p, 0)..]
  }

  /** Drops trailing characters satisfying `p`. */
  function TrimRight(s: string, p: char -> bool): (r: string)
    ensures |r| <= |s| && r == s[..|r|]
    ensures forall i :: |r| <= i < |s| ==> p(s[i])
    ensures |r| > 0 ==> !p(r[|r| - 1])
  {
    s[..SkipRight(s, p, 0, |s|)]
  }

  /** Strips `p`-characters from both ends. */
  function Trim(s: string, p: char -> bool): (r: string)
    ensures |r| <= |s|
    ensures |r| > 0 ==> !p(r[0]) && !p(r[|r| - 1])
  {
    var a := SkipLeft(s, p, 0);
    s[a..SkipRight(s, p, a, |s|)]
  }

  /** The trimmed text is the slice of `s` that starts at the first
      character failing `p`; everything cut off on either side satisfies `p`. */
  lemma TrimSpan(s: string, p: char -> bool, a: nat)
    requires a == SkipLeft(s, p, 0)
    ensures a + |Trim(s, p)| <= |s| && Trim(s, p) == s[a..a + |Trim(s, p)|]
    ensures forall k :: 0 <= k < a ==> p(s[k])
    ensures forall k :: a + |Trim(s, p)| <= k < |s| ==> p(s[k])
  {
  }

  /** Trimming yields "" exactly when every character is stripped. */
  lemma TrimEmptyIff(s: string, p: char -> bool)
    ensures Trim(s, p) == [] <==> (forall k :: 0 <= k < |s| ==> p(s[k]))
  {
    var a := SkipLeft(s, p, 0);
    TrimSpan(s, p, a);
    if Trim(s, p) != [] {
      assert Trim(s, p)[0] == s[a];
    }
  }

  /** `snprintf(buf, size, "%s", s)`: at most `size - 1` characters survive. */
  function Truncate(s: string, size: nat): (r: string)
    requires size > 0
    ensures |r| < size && |r| <= |s|
    ensures r == s[..|r|]
    ensures |s| < size ==> r == s
  {
    if |s| < size then s else s[..size - 1]
  }

  /** collectd's `IS_TRUE`: "true", "yes" or "on", case-insensitive. */
  predicate IsTrue(s: string) {
    EqualsIgnoreCase(s, "true") || EqualsIgnoreCase(s, "yes") || EqualsIgnoreCase(s, "on")
  }

  function Max(a: int, b: int): (r: int)
    ensures r >= a && r >= b && (r == a || r == b)
  {
    if a >= b then a else b
  }

  function Min(a: int, b: int): (r: int)
    ensures r <= a && r <= b && (r == a || r == b)
  {
    if a <= b then a else b
  }
}

=== FILE: wrappers.dfy ===
/** Option and Result datatypes shared by every component model. */
module Wrappers {

  /** A value that may be absent; stands for a nullable pointer or a
      lookup that can miss. */
  datatype Option<+T> = None | Some(value: T) {

    /** The carried value, or `default` when absent. */
    function GetOr(default: T): (r: T)
      ensures Some? ==> r == value
      ensures None? ==> r == default
    {
      match this
      case Some(v) => v
      case None => default
    }
  }

  /** Either a successful value or an error code. */
  datatype Result<+R, +E> = Success(value: R) | Failure(error: E)
}

=== FILE: xml2csv.dfy ===
/** Register-address extraction from a GenICam XML tree: a pass over
    `<Group Comment="RegAddr">` blocks collecting their `<Integer>` nodes, a
    pass over every element carrying an `<Address>` child, and a stable sort
    of the collected rows by (Name, Source, Address). The tree is the
    already-parsed ElementTree; the CSV writer is outside the model. */
module XmlToCsv {
  import opened Wrappers
  import opened Text

  const RegAddrSuffix: string := "_RegAddr"
  const SourceRegAddr: string := "RegAddrGroup"
  const SourceInline: string := "InlineAddress"

  /** An ElementTree element: tag (possibly `{namespace}local`), attributes,
      text (None when the element has no text node) and children in order. */
  datatype Element = Element(tag: string, attrib: map<string, string>, text: Option<string>,
                             children: seq<Element>)

  /** One CSV row. */
  datatype Row = Row(name: string, address: string, source: string, xmlTag: string, rawName: string)

  /** Index of the last '}' among the first `n` characters of `s`, or -1. */
  function LastBrace(s: string, n: nat): (r: int)
    requires n <= |s|
    ensures -1 <= r < n
    ensures r >= 0 ==> s[r] == '}'
    ensures forall k :: r < k < n ==> s[k] != '}'
    decreases n
  {
    if n == 0 then -1
    else if s[n - 1] == '}' then n - 1
    else LastBrace(s, n - 1)
  }

  /** The local part of a tag: text after the last '}', else the whole tag. */
  function LocalName(tag: string): (r: string)
    ensures '}' !in tag ==> r == tag
    ensures '}' in tag ==> '}' !in r && |r| < |tag| && r == tag[|tag| - |r|..]
                           && tag[|tag| - |r| - 1] == '}'
  {
    var i := LastBrace(tag, |tag|);
    if i < 0 then tag else tag[i + 1..]
  }

  /** Python `str.strip()`. */
  function PyStrip(s: string): string {
    Trim(s, PyIsSpace)
  }

  /** A child that `_first_child_text` accepts for `localTag`. */
  predicate ChildYields(c: Element, localTag: string) {
    LocalName(c.tag) == localTag && c.text.Some? && PyStrip(c.text.value) != []
  }

  /** Stripped text of the first DIRECT child with local tag `localTag` whose
      stripped text is non-empty; None if there is none. */
  function FirstChildText(e: Element, localTag: string): (r: Option<string>)
    ensures r.None? <==> forall i :: 0 <= i < |e.children| ==> !ChildYields(e.children[i], localTag)
    ensures r.Some? ==> exists i :: 0 <= i < |e.children| && ChildYields(e.children[i], localTag)
                          && r.value == PyStrip(e.children[i].text.value)
                          && forall j :: 0 <= j < i ==> !ChildYields(e.children[j], localTag)
    ensures r.Some? ==> r.value != []
  {
    match FirstYield(e.children, localTag, 0)
    case None => None
    case Some(i) => Some(PyStrip(e.children[i].text.value))
  }

  /** The index of the first child at or after `from` that yields. */
  function FirstYield(cs: seq<Element>, localTag: string, from: nat): (r: Option<nat>)
    requires from <= |cs|
    ensures r.None? ==> forall i :: from <= i < |cs| ==> !ChildYields(cs[i], localTag)
    ensures r.Some? ==> from <= r.value < |cs| && ChildYields(cs[r.value], localTag)
                        && forall j :: from <= j < r.value ==> !ChildYields(cs[j], localTag)
    decreases |cs| - from
  {
    if from == |cs| then None
    else if ChildYields(cs[from], localTag) then Some(from)
    else FirstYield(cs, localTag, from + 1)
  }

  /** `root.iter()`: the element itself, then its descendants in document order. */
  function Iter(e: Element): (r: seq<Element>)
    ensures |r| >= 1 && r[0] == e
    decreases e, 1
  {
    [e] + IterAll(e.children)
  }

  function IterAll(es: seq<Element>): (r: seq<Element>)
    decreases es, 0
  {
    if es == [] then [] else Iter(es[0]) + IterAll(es[1..])
  }

  function GetAttr(e: Element, key: string): Option<string> {
    if key in e.attrib then Some(e.attrib[key]) else None
  }

  predicate EndsWith(s: string, suffix: string) {
    |suffix| <= |s| && s[|s| - |suffix|..] == suffix
  }

  /** A `<Group>` whose `Comment` attribute is exactly "RegAddr". */
  predicate IsRegAddrGroup(g: Element) {
    LocalName(g.tag) == "Group" && GetAttr(g, "Comment") == Some("RegAddr")
  }

  /** The output name: `name` minus a trailing "_RegAddr" when stripping. */
  function OutName(name: string, stripSuffix: bool): (r: string)
    ensures stripSuffix && EndsWith(name, RegAddrSuffix) ==> name == r + RegAddrSuffix
    ensures !(stripSuffix && EndsWith(name, RegAddrSuffix)) ==> r == name
  {
    if stripSuffix && EndsWith(name, RegAddrSuffix) then
      var k := |name| - |RegAddrSuffix|;
      assert name == name[..k] + name[k..];
      name[..k]
    else name
  }

  /** The row an element yields inside a RegAddr group, if any. */
  function RegAddrRow(n: Element, stripSuffix: bool): (r: Option<Row>)
    ensures r.Some? <==> LocalName(n.tag) == "Integer" && "Name" in n.attrib
                         && n.attrib["Name"] != [] && FirstChildText(n, "Value").Some?
    ensures r.Some? ==> r.value == Row(OutName(n.attrib["Name"], stripSuffix),
                                       FirstChildText(n, "Value").value, SourceRegAddr,
                                       "Integer", n.attrib["Name"])
  {
    if LocalName(n.tag) != "Integer" then None
    else match GetAttr(n, "Name")
      case None => None
      case Some(name) =>
        if name == [] then None
        else match FirstChildText(n, "Value")
          case None => None
          case Some(value) => Some(Row(OutName(name, stripSuffix), value, SourceRegAddr, LocalName(n.tag), name))
  }

  /** The row an element yields in the inline-address pass, if any. */
  function InlineRow(e: Element): (r: Option<Row>)
    ensures r.Some? <==> "Name" in e.attrib && e.attrib["Name"] != []
                         && FirstChildText(e, "Address").Some?
    ensures r.Some? ==> r.value.source == SourceInline && r.value.name == e.attrib["Name"]
                        && r.value.rawName == r.value.name && r.value.xmlTag == LocalName(e.tag)
                        && r.value.address == FirstChildText(e, "Address").value
  {
    match GetAttr(e, "Name")
    case None => None
    case Some(name) =>
      if name == [] then None
      else match FirstChildText(e, "Address")
        case None => None
        case Some(address) => Some(Row(name, address, SourceInline, LocalName(e.tag), name))
  }

  /** The rows `f` yields for the elements of `es`, in order. */
  function Gather(es: seq<Element>, f: Element -> Option<Row>): (r: seq<Row>)
    ensures |r| <= |es|
    decreases |es|
  {
    if es == [] then []
    else (match f(es[0]) case Some(x) => [x] case None => []) + Gather(es[1..], f)
  }

  /** Rows of the nodes `ns` inside one RegAddr group, in order. */
  function GroupRows(ns: seq<Element>, stripSuffix: bool): (r: seq<Row>)
    ensures |r| <= |ns|
  {
    Gather(ns, n => RegAddrRow(n, stripSuffix))
  }

  /** Rows of every RegAddr group among `gs`, each group contributing the rows
      of all its descendants (itself included). */
  function RegAddrRows(gs: seq<Element>, stripSuffix: bool): seq<Row>
    decreases |gs|
  {
    if gs == [] then []
    else (if IsRegAddrGroup(gs[0]) then GroupRows(Iter(gs[0]), stripSuffix) else [])
         + RegAddrRows(gs[1..], stripSuffix)
  }

  /** Inline-address rows of `es`, in order. */
  function InlineRows(es: seq<Element>): (r: seq<Row>)
    ensures |r| <= |es|
  {
    Gather(es, InlineRow)
  }

  /** `iter_regaddr_definitions`. */
  function RegAddrDefinitions(root: Element, stripSuffix: bool): seq<Row> {
    RegAddrRows(Iter(root), stripSuffix)
  }

  /** `iter_inline_addresses`. */
  function InlineAddresses(root: Element): seq<Row> {
    InlineRows(Iter(root))
  }

  /** The unsorted row list of `xml_to_csv`. */
  function CollectRows(root: Element, stripSuffix: bool, onlyRegAddr: bool): seq<Row> {
    RegAddrDefinitions(root, stripSuffix) + (if onlyRegAddr then [] else InlineAddresses(root))
  }

  // ---------------------------------------------------------------------
  // Membership characterisations of the two passes

  /** A gathered row appears exactly when some element yields it. */
  lemma {:induction false} GatherMember(es: seq<Element>, f: Element -> Option<Row>, x: Row)
    ensures x in Gather(es, f) <==> exists i :: 0 <= i < |es| && f(es[i]) == Some(x)
    decreases |es|
  {
    if es != [] {
      var head := match f(es[0]) case Some(y) => [y] case None => [];
      var rest := Gather(es[1..], f);
      assert Gather(es, f) == head + rest;
      GatherMember(es[1..], f, x);
      if x in head + rest {
        if x !in head {
          var i :| 0 <= i < |es[1..]| && f(es[1..][i]) == Some(x);
          assert es[i + 1] == es[1..][i];
        }
      }
      if exists i :: 0 <= i < |es| && f(es[i]) == Some(x) {
        var i :| 0 <= i < |es| && f(es[i]) == Some(x);
        if i > 0 {
          assert es[1..][i - 1] == es[i];
          assert x in rest;
        }
      }
    }
  }

  /** A node-list row appears exactly when some node of the list yields it. */
  lemma GroupRowsMember(ns: seq<Element>, stripSuffix: bool, x: Row)
    ensures x in GroupRows(ns, stripSuffix) <==>
            exists i :: 0 <= i < |ns| && RegAddrRow(ns[i], stripSuffix) == Some(x)
  {
    GatherMember(ns, n => RegAddrRow(n, stripSuffix), x);
  }

  /** A RegAddr row appears exactly when some matching group among `gs`
      (the elements of `root.iter()`) has a descendant, or is itself the node,
      that yields it. */
  lemma {:induction false} RegAddrRowsMember(gs: seq<Element>, stripSuffix: bool, x: Row)
    ensures x in RegAddrRows(gs, stripSuffix) <==>
            exists i :: 0 <= i < |gs| && IsRegAddrGroup(gs[i]) && x in GroupRows(Iter(gs[i]), stripSuffix)
    decreases |gs|
  {
    if gs != [] {
      var head := if IsRegAddrGroup(gs[0]) then GroupRows(Iter(gs[0]), stripSuffix) else [];
      var rest := RegAddrRows(gs[1..], stripSuffix);
      assert RegAddrRows(gs, stripSuffix) == head + rest;
      RegAddrRowsMember(gs[1..], stripSuffix, x);
      if x in head + rest {
        if x !in head {
          var i :| 0 <= i < |gs[1..]| && IsRegAddrGroup(gs[1..][i]) && x in GroupRows(Iter(gs[1..][i]), stripSuffix);
          assert gs[i + 1] == gs[1..][i];
        }
      }
      if exists i :: 0 <= i < |gs| && IsRegAddrGroup(gs[i]) && x in GroupRows(Iter(gs[i]), stripSuffix) {
        var i :| 0 <= i < |gs| && IsRegAddrGroup(gs[i]) && x in GroupRows(Iter(gs[i]), stripSuffix);
        if i > 0 {
          assert gs[1..][i - 1] == gs[i];
          assert x in rest;
        }
      }
    }
  }

  /** An inline row appears exactly when some element of `es` yields it. */
  lemma InlineRowsMember(es: seq<Element>, x: Row)
    ensures x in InlineRows(es) <==> exists i :: 0 <= i < |es| && InlineRow(es[i]) == Some(x)
  {
    GatherMember(es, InlineRow, x);
  }

  /** With `only_regaddr` every collected row comes from a RegAddr group. */
  lemma OnlyRegAddrRows(root: Element, stripSuffix: bool)
    ensures forall x :: x in CollectRows(root, stripSuffix, true) ==> x.source == SourceRegAddr
  {
    forall x | x in CollectRows(root, stripSuffix, true)
      ensures x.source == SourceRegAddr
    {
      RegAddrRowsMember(Iter(root), stripSuffix, x);
      var i :| 0 <= i < |Iter(root)| && IsRegAddrGroup(Iter(root)[i])
               && x in GroupRows(Iter(Iter(root)[i]), stripSuffix);
      GroupRowsMember(Iter(Iter(root)[i]), stripSuffix, x);
    }
  }

  lemma StripPlainText()
    ensures PyStrip("0x10") == "0x10"
  {
    assert SkipLeft("0x10", PyIsSpace, 0) == 0;
    assert SkipRight("0x10", PyIsSpace, 0, 4) == 4;
  }

  function SampleValue(): Element {
    Element("Value", map[], Some("0x10"), [])
  }

  function SampleInteger(): Element {
    Element("Integer", map["Name" := "Gain_RegAddr"], None, [SampleValue()])
  }

  function SampleInner(): Element {
    Element("Group", map["Comment" := "RegAddr"], None, [SampleInteger()])
  }

  function SampleOuter(): Element {
    Element("Group", map["Comment" := "RegAddr"], None, [SampleInner()])
  }

  function SampleRow(): Row {
    Row("Gain", "0x10", SourceRegAddr, "Integer", "Gain_RegAddr")
  }

  lemma SampleIntegerRow()
    ensures RegAddrRow(SampleInteger(), true) == Some(SampleRow())
  {
    SampleTags();
    SampleValueText();
    SampleOutName();
  }

  lemma SampleValueText()
    ensures FirstChildText(SampleInteger(), "Value") == Some("0x10")
  {
    StripPlainText();
    SampleTags();
    assert ChildYields(SampleValue(), "Value");
    assert FirstYield(SampleInteger().children, "Value", 0) == Some(0);
  }

  lemma SampleOutName()
    ensures OutName("Gain_RegAddr", true) == "Gain"
  {
    assert "Gain_RegAddr"[4..] == RegAddrSuffix;
  }

  lemma SampleTags()
    ensures LocalName("Value") == "Value" && LocalName("Integer") == "Integer"
    ensures LocalName("Group") == "Group"
  {
    assert '}' !in "Value" && '}' !in "Integer" && '}' !in "Group";
  }

  lemma SampleRows()
    ensures RegAddrRow(SampleInteger(), true) == Some(SampleRow())
    ensures RegAddrRow(SampleValue(), true) == None
    ensures RegAddrRow(SampleInner(), true) == None
    ensures RegAddrRow(SampleOuter(), true) == None
    ensures !IsRegAddrGroup(SampleInteger()) && !IsRegAddrGroup(SampleValue())
    ensures IsRegAddrGroup(SampleInner()) && IsRegAddrGroup(SampleOuter())
  {
    SampleIntegerRow();
    SampleTags();
  }

  lemma SampleIters()
    ensures Iter(SampleInner()) == [SampleInner(), SampleInteger(), SampleValue()]
    ensures Iter(SampleOuter()) == [SampleOuter(), SampleInner(), SampleInteger(), SampleValue()]
  {
    assert Iter(SampleValue()) == [SampleValue()];
    assert IterAll([SampleValue()]) == [SampleValue()];
    assert Iter(SampleInteger()) == [SampleInteger(), SampleValue()];
    assert IterAll([SampleInteger()]) == [SampleInteger(), SampleValue()];
    assert Iter(SampleInner()) == [SampleInner(), SampleInteger(), SampleValue()];
    assert IterAll([SampleInner()]) == [SampleInner(), SampleInteger(), SampleValue()];
  }

  lemma SampleGroupRows()
    ensures GroupRows(Iter(SampleInner()), true) == [SampleRow()]
    ensures GroupRows(Iter(SampleOuter()), true) == [SampleRow()]
  {
    SampleRows();
    SampleIters();
    var l1 := [SampleValue()];
    var l2 := [SampleInteger(), SampleValue()];
    var l3 := [SampleInner(), SampleInteger(), SampleValue()];
    var l4 := [SampleOuter(), SampleInner(), SampleInteger(), SampleValue()];
    assert l2[1..] == l1 && l3[1..] == l2 && l4[1..] == l3 && l1[1..] == [];
    assert GroupRows(l1, true) == [];
    assert GroupRows(l2, true) == [SampleRow()];
    assert GroupRows(l3, true) == [SampleRow()];
  }

  lemma SampleInnerRows()
    ensures RegAddrRows([SampleInner(), SampleInteger(), SampleValue()], true) == [SampleRow()]
  {
    SampleRows();
    SampleGroupRows();
    var l1 := [SampleValue()];
    var l2 := [SampleInteger(), SampleValue()];
    var l3 := [SampleInner(), SampleInteger(), SampleValue()];
    assert l2[1..] == l1 && l3[1..] == l2 && l1[1..] == [];
    assert RegAddrRows(l1, true) == [];
    assert RegAddrRows(l2, true) == [];
  }

  /** An `<Integer>` inside two nested RegAddr groups is reported twice: once
      per enclosing group. */
  lemma NestedGroupsDuplicate()
    ensures RegAddrDefinitions(SampleOuter(), true) == [SampleRow(), SampleRow()]
  {
    SampleIters();
    SampleRows();
    SampleGroupRows();
    SampleInnerRows();
    var l3 := [SampleInner(), SampleInteger(), SampleValue()];
    var l4 := [SampleOuter(), SampleInner(), SampleInteger(), SampleValue()];
    assert l4[1..] == l3;
    assert RegAddrRows(l4, true) == GroupRows(Iter(SampleOuter()), true) + RegAddrRows(l3, true);
  }

  // ---------------------------------------------------------------------
  // Sorting by (Name, Source, Address)

  /** Python tuple comparison of the sort keys. */
  predicate KeyLess(a: Row, b: Row) {
    Less(a.name, b.name)
    || (a.name == b.name && (Less(a.source, b.source)
                             || (a.source == b.source && Less(a.address, b.address))))
  }

  predicate SameKey(a: Row, b: Row) {
    a.name == b.name && a.source == b.source && a.address == b.address
  }

  predicate KeyLessEq(a: Row, b: Row) {
    !KeyLess(b, a)
  }

  lemma KeyLessIrreflexive(a: Row)
    ensures !KeyLess(a, a)
  {
    LessIrreflexive(a.name);
    LessIrreflexive(a.source);
    LessIrreflexive(a.address);
  }

  lemma KeyLessTransitive(a: Row, b: Row, c: Row)
    requires KeyLess(a, b) && KeyLess(b, c)
    ensures KeyLess(a, c)
  {
    if Less(a.name, b.name) && Less(b.name, c.name) {
      LessTransitive(a.name, b.name, c.name);
    } else if a.name == b.name && b.name == c.name {
      if Less(a.source, b.source) && Less(b.source, c.source) {
        LessTransitive(a.source, b.source, c.source);
      } else if a.source == b.source && b.source == c.source {
        LessTransitive(a.address, b.address, c.address);
      }
    }
  }

  lemma KeyLessTotal(a: Row, b: Row)
    ensures SameKey(a, b) || KeyLess(a, b) || KeyLess(b, a)
  {
    LessTotal(a.name, b.name);
    LessTotal(a.source, b.source);
    LessTotal(a.address, b.address);
  }

  lemma KeyLessEqTransitive(a: Row, b: Row, c: Row)
    requires KeyLessEq(a, b) && KeyLessEq(b, c)
    ensures KeyLessEq(a, c)
  {
    if KeyLess(c, a) {
      KeyLessTotal(a, b);
      if KeyLess(a, b) {
        KeyLessTransitive(c, a, b);
      }
    }
  }

  predicate Sorted(s: seq<Row>) {
    forall i, j :: 0 <= i < j < |s| ==> KeyLessEq(s[i], s[j])
  }

  /** Inserts `x` before the first element whose key is not smaller, so
      that `x` precedes rows with an equal key. */
  function Insert(x: Row, t: seq<Row>): (r: seq<Row>)
    ensures multiset(r) == multiset(t) + multiset{x}
    ensures |r| == |t| + 1
    decreases |t|
  {
    if t == [] then [x]
    else if KeyLessEq(x, t[0]) then [x] + t
    else
      assert t == [t[0]] + t[1..];
      [t[0]] + Insert(x, t[1..])
  }

  /** Stable insertion sort, the model of `list.sort(key=...)`. */
  function SortRows(s: seq<Row>): (r: seq<Row>)
    ensures multiset(r) == multiset(s)
    ensures |r| == |s|
    decreases |s|
  {
    if s == [] then []
    else
      assert s == [s[0]] + s[1..];
      Insert(s[0], SortRows(s[1..]))
  }

  lemma {:induction false} InsertSorted(x: Row, t: seq<Row>)
    requires Sorted(t)
    ensures Sorted(Insert(x, t))
    decreases |t|
  {
    if t != [] && !KeyLessEq(x, t[0]) {
      InsertSorted(x, t[1..]);
      var r := Insert(x, t);
      KeyLessTotal(x, t[0]);
      forall k | 0 < k < |r| ensures KeyLessEq(t[0], r[k]) {
        var y := r[k];
        assert y in multiset(Insert(x, t[1..]));
        assert y in multiset(t[1..]) + multiset{x};
        if y == x {
          assert KeyLess(t[0], x);
          KeyLessIrreflexive(x);
          if KeyLess(x, t[0]) {
            KeyLessTransitive(x, t[0], x);
          }
        } else {
          assert y in t[1..];
          var m :| 0 <= m < |t[1..]| && t[1..][m] == y;
          assert t[m + 1] == y;
        }
      }
    } else if t != [] {
      var r := Insert(x, t);
      forall i, j | 0 <= i < j < |r| ensures KeyLessEq(r[i], r[j]) {
        if i == 0 && j > 1 {
          assert r[j] == t[j - 1];
          KeyLessEqTransitive(x, t[0], r[j]);
        }
      }
    }
  }

  lemma {:induction false} SortRowsSorted(s: seq<Row>)
    ensures Sorted(SortRows(s))
    decreases |s|
  {
    if s != [] {
      SortRowsSorted(s[1..]);
      InsertSorted(s[0], SortRows(s[1..]));
    }
  }

  /** Rows of `s` with the same key as `k`, in order. */
  function WithKey(s: seq<Row>, k: Row): (r: seq<Row>)
    decreases |s|
  {
    if s == [] then []
    else (if SameKey(s[0], k) then [s[0]] else []) + WithKey(s[1..], k)
  }

  lemma {:induction false} WithKeyConcat(a: seq<Row>, b: seq<Row>, k: Row)
    ensures WithKey(a + b, k) == WithKey(a, k) + WithKey(b, k)
    decreases |a|
  {
    if a != [] {
      assert (a + b)[1..] == a[1..] + b;
      WithKeyConcat(a[1..], b, k);
    } else {
      assert a + b == b;
    }
  }

  lemma {:induction false} InsertWithKey(x: Row, t: seq<Row>, k: Row)
    ensures WithKey(Insert(x, t), k) == (if SameKey(x, k) then [x] else []) + WithKey(t, k)
    decreases |t|
  {
    var hx: seq<Row> := if SameKey(x, k) then [x] else [];
    assert WithKey([x], k) == hx;
    if t == [] {
      assert Insert(x, t) == [x] && hx + WithKey(t, k) == hx;
    } else if KeyLessEq(x, t[0]) {
      assert Insert(x, t) == [x] + t;
      WithKeyConcat([x], t, k);
    } else {
      var t0 := t[0];
      var tail := Insert(x, t[1..]);
      assert Insert(x, t) == [t0] + tail;
      WithKeyConcat([t0], tail, k);
      InsertWithKey(x, t[1..], k);
      assert t == [t0] + t[1..];
      WithKeyConcat([t0], t[1..], k);
      InsertSkipJoin(x, t0, k, WithKey(t[1..], k));
    }
  }

  /** A row that sorts strictly before `x` never shares a key with it, so
      their key-filtered contributions commute. */
  lemma InsertSkipJoin(x: Row, t0: Row, k: Row, rest: seq<Row>)
    requires KeyLess(t0, x)
    ensures WithKey([t0], k) + ((if SameKey(x, k) then [x] else []) + rest)
            == (if SameKey(x, k) then [x] else []) + (WithKey([t0], k) + rest)
  {
    assert WithKey([t0], k) == if SameKey(t0, k) then [t0] else [];
    if SameKey(x, k) && SameKey(t0, k) {
      KeyLessIrreflexive(x);
    }
  }

  /** Stability: rows with equal keys keep their original relative order. */
  lemma {:induction false} SortRowsStable(s: seq<Row>, k: Row)
    ensures WithKey(SortRows(s), k) == WithKey(s, k)
    decreases |s|
  {
    if s != [] {
      SortRowsStable(s[1..], k);
      InsertWithKey(s[0], SortRows(s[1..]), k);
    }
  }

  /** `xml_to_csv` without the file I/O: the rows written, and the count returned. */
  function XmlToCsv(root: Element, stripSuffix: bool, onlyRegAddr: bool): (r: (seq<Row>, nat))
    ensures Sorted(r.0)
    ensures multiset(r.0) == multiset(CollectRows(root, stripSuffix, onlyRegAddr))
    ensures r.1 == |CollectRows(root, stripSuffix, onlyRegAddr)|
    ensures forall k :: WithKey(r.0, k) == WithKey(CollectRows(root, stripSuffix, onlyRegAddr), k)
  {
    var rows := CollectRows(root, stripSuffix, onlyRegAddr);
    SortRowsSorted(rows);
    forall k ensures WithKey(SortRows(rows), k) == WithKey(rows, k) {
      SortRowsStable(rows, k);
    }
    (SortRows(rows), |rows|)
  }
}
